=== FILE: README.md ===
# RayTracedGL1 core, modelled in Dafny

RayTracedGL1 is a real-time path-tracing renderer library built on Vulkan. This project models the parts of it that are plain integer, index, table and text logic, and proves what they promise:

- **Build tools.** The shader-common generator emits a C header and a GLSL header for the same structs: the same member and pad names in the same order, explicit pad words sized from std430 size tables, and 16-byte tail padding. The two byte layouts agree only when every member already starts at its std430 alignment; the model proves that case, exhibits a struct where they differ, and proves a corrected generator that aligns each member. The incremental shader build keeps a cache of modification times and include lists, and decides from it what to rebuild.
- **Geometry bookkeeping.** This covers:
  - the vertex-collector filter groups and their ID and offset tables;
  - the immediate-mode index generators and their index cache;
  - the geometry-info counters and copy regions;
  - the triangle-info ranges;
  - the vertex-index fetch of the shaders;
  - the rasterizer pipeline flags.
- **Per-frame state.** This covers:
  - the frame-index ring and the take-and-clear accessors of the frame state;
  - the framebuffer ping-pong and size rules;
  - the Halton jitter sequence;
  - the parameter chain of a frame's draw info.
- **Lookup and packing.** This covers:
  - sampler index packing;
  - sector visibility and the per-sector light lists;
  - the blue-noise random seed and the light-grid cells;
  - the texture-format and override-path helpers;
  - watched-file types;
  - the developer config file.

There is one module per source file. Alongside them are shared helper modules:

- Wrappers: Option and Result.
- Text: lower-casing, decimal strings, word and line splitting.
- Paths: the std::filesystem::path operations used.
- Machine: explicit 32-bit unsigned arithmetic.

Operations are pure functions over immutable datatypes. An error the source reports is a `Result` error in the model: a raised exception always, and a failed assertion where the model says so. Elsewhere the model follows the release build, where assert() is compiled out; the places where that matters are listed under "Left out". Constants that come from generated headers outside this model are parameters: blue-noise sizes, light-grid dimensions, framebuffer tables and flag bit values. I/O, clocks, the compiler, the file system and Vulkan calls are either parameters of the model or left out.

## Model

| member | source | states |
|---|---|---|
| ShaderLayout.SizeTablesAgree | Source/Generated/GenerateShaderCommon.py:35-98 | the natural and std430 size tables have exactly the keys of the GLSL vector/matrix name table; natural size is 4 bytes per component, and std430 differs only for 3-vectors, by one word |
| ShaderLayout.Align4 | Source/Generated/GenerateShaderCommon.py:238-239 | align4(a) is a multiple of 4 with a <= r < a + 4, i.e. the least such multiple |
| ShaderLayout.MemberPaddingNeverMisaligned | Source/Generated/GenerateShaderCommon.py:307-322 | the assertion that the std430-minus-natural difference is a multiple of 4 can never fail |
| ShaderLayout.MemberDecl | Source/Generated/GenerateShaderCommon.py:282-303 | each checked member emits exactly one field under its own name |
| ShaderLayout.PadDecls | Source/Generated/GenerateShaderCommon.py:259-266 | a pad run of n words emits n uint words numbered consecutively from the running pad index |
| ShaderLayout.Paddings | Source/Generated/GenerateShaderCommon.py:278-325 | the member loop succeeds only when every member passes the count and dimension checks, and without align16 adds no pads |
| ShaderLayout.TailPadWords | Source/Generated/GenerateShaderCommon.py:327-331 | the tail pads bring the size up to a multiple of 16 with fewer than 16 bytes added; the raise happens exactly when the size is not a multiple of 4 |
| ShaderLayout.Std430BytesAreWords | Source/Generated/GenerateShaderCommon.py:324-329 | the accumulated std430 size is always a multiple of 4, so the "not 4-byte aligned" raise is unreachable |
| ShaderLayout.StructDecls | Source/Generated/GenerateShaderCommon.py:270-334 | getStruct: one struct body, members and pads; its failures are stated by StructErrors, its members by StructMembersChecked and its layout by MemberLayout and ReadyLayoutsAgree |
| ShaderLayout.StructErrors | Source/Generated/GenerateShaderCommon.py:270-334 | getStruct can fail only by a non-positive count, an array of a type wider than a vector, or a missing size-table key |
| ShaderLayout.StructMembersChecked | Source/Generated/GenerateShaderCommon.py:279-303 | an emitted struct has every count > 0 and no repeated member wider than 4; a flattened repeated member is one scalar array of align4(count·dim) |
| ShaderLayout.PadsNumberedFromZero | Source/Generated/GenerateShaderCommon.py:257-331 | the pad words of every struct are numbered 0, 1, …, n-1 in order of appearance |
| ShaderLayout.TargetsAgree | Source/Generated/GenerateShaderCommon.py:270-334 | the C and GLSL versions of a struct fail together and otherwise declare the same member and pad names in the same order |
| ShaderLayout.MemberLayout | Source/Generated/GenerateShaderCommon.py:242-255 | a member's C declaration plus its pads occupy exactly its std430 size, a whole number of words |
| ShaderLayout.CLayoutMatchesStd430 | Source/Generated/GenerateShaderCommon.py:307-331 | a 16-byte-aligned struct's C declaration occupies the generator's own std430 size sum rounded up to the next multiple of 16 |
| ShaderLayout.GlslDeclMatchesC | Source/Generated/GenerateShaderCommon.py:282-303 | a member the size tables know and std430 does not pad inside gets a GLSL declaration whose std430 slot, by the OpenGL layout rules, has its member alignment and exactly the bytes of its C declaration |
| ShaderLayout.ReadyLayoutsAgree | Source/Generated/GenerateShaderCommon.py:270-331 | when every member of a 16-byte-aligned struct starts at its std430 alignment in C and none is padded inside, the GLSL struct placed by the std430 rules has every field at its C offset and the C size as its size |
| ShaderLayout.AsWrittenVec3Misplaced | Source/Generated/GenerateShaderCommon.py:307-331 | for the aligned struct { float a; vec3 b; } the C header puts b at byte 4 in 32 bytes, while std430 puts the GLSL b at byte 16 in 48 bytes |
| ShaderLayout.AlignedLayoutsAgree | Source/Generated/GenerateShaderCommon.py:270-331 | with pad words inserted before each member up to its std430 alignment, the C and GLSL versions of a 16-byte-aligned struct fail together, and otherwise every field sits at its C offset under std430 and both sizes are the same multiple of 16 |
| ShaderLayout.Aligned16LayoutsAgree | Source/Generated/GenerateShaderCommon.py:270-331 | the same agreement for the aligned member loop itself |
| ShaderLayout.AlignedVec3Placed | Source/Generated/GenerateShaderCommon.py:307-331 | the aligned loop puts three pad words before b in { float a; vec3 b; }, so b sits at byte 16 in C too and the struct takes 32 bytes |
| ShaderLayout.Included | Source/Generated/GenerateShaderCommon.py:337-342 | the C header receives exactly the structs that are not GLSL-only; the GLSL header receives all |
| ShaderLayout.WriteToC | Source/Generated/GenerateShaderCommon.py:416-420 | writeToC: the prelude, the #define block and the struct definitions; see HeadersShareConstants, TargetsAgree and Included |
| ShaderLayout.WriteToGlsl | Source/Generated/GenerateShaderCommon.py:423-426 | writeToGLSL without getters and setters: the #define block and the struct definitions; see HeadersShareConstants, TargetsAgree and Included |
| ShaderLayout.HeadersShareConstants | Source/Generated/GenerateShaderCommon.py:231-235 | both headers carry the same "#define NAME (value)" block, the C one after its prelude and the GLSL one at the start |
| ShaderBuild.Dict.Set | Source/Shaders/GenerateShaders.py:143 | a dict insert maps the key to the value and keeps one entry per key, new keys appended to the key order |
| ShaderBuild.Dict.Remove | Source/Shaders/GenerateShaders.py:252-253 | `del` removes exactly that key and keeps the dict well formed |
| ShaderBuild.Visit | Source/Shaders/GenerateShaders.py:41-54 | the walk only grows the visited set, and only by files of the dependency map (plus the missing key that stops it) |
| ShaderBuild.VisitSound | Source/Shaders/GenerateShaders.py:46-52 | the walk reports a modification only when a chain of fresh includes leads from the todo list to a modified or uncached file |
| ShaderBuild.VisitComplete | Source/Shaders/GenerateShaders.py:46-54 | a walk that finds nothing has entered every file of the todo list and all includes of every file it entered, all fresh |
| ShaderBuild.WereDependentModified | Source/Shaders/GenerateShaders.py:41-54 | the top-level walk from the base file's includes; see WereDependentModifiedIffStaleChain, VisitSound and VisitComplete |
| ShaderBuild.WereDependentModifiedIffStaleChain | Source/Shaders/GenerateShaders.py:41-54 | with every cached file in the dependency map the walk never raises KeyError, and reports a modification exactly when such a stale chain starts among the base file's includes, cycles included |
| ShaderBuild.Dedup | Source/Shaders/GenerateShaders.py:149 | the include set keeps every path once and nothing else |
| ShaderBuild.IncludeList | Source/Shaders/GenerateShaders.py:196-203 | a header's include list is the existing candidate paths other than itself, each once |
| ShaderBuild.ScanHeader | Source/Shaders/GenerateShaders.py:170-203 | scanning a header keeps the state consistent and does not touch the error count or rebuild flag |
| ShaderBuild.ScanHeaders | Source/Shaders/GenerateShaders.py:165-203 | scanning all headers keeps the state consistent |
| ShaderBuild.ScanHeaderMarksModified | Source/Shaders/GenerateShaders.py:184-191 | a header is marked modified exactly when it is uncached or cached with another time, and its time is stored; nothing else changes |
| ShaderBuild.ScanHeaderIncludes | Source/Shaders/GenerateShaders.py:193-203 | include lists are re-read for new or outdated headers, never contain the header itself, and otherwise stay as loaded |
| ShaderBuild.Compile | Source/Shaders/GenerateShaders.py:245-257 | recording a compilation keeps the state well formed and consistent |
| ShaderBuild.BuildShader | Source/Shaders/GenerateShaders.py:209-257 | one shader step keeps the state consistent |
| ShaderBuild.BuildShaders | Source/Shaders/GenerateShaders.py:209-257 | the shader loop keeps the state consistent |
| ShaderBuild.NeedsRebuild | Source/Shaders/GenerateShaders.py:221-235 | uncached or outdated, or the dependency walk's verdict, with its KeyError; see RebuildIff |
| ShaderBuild.RebuildIff | Source/Shaders/GenerateShaders.py:221-235 | in a consistent state a shader is rebuilt exactly when uncached, outdated, or a stale include chain starts among its includes |
| ShaderBuild.CompileOutcome | Source/Shaders/GenerateShaders.py:245-257 | compiler output counts an error and evicts the cache entry; silence stores the new time; either way the run reports a rebuild |
| ShaderBuild.BuildShadersNeverCrash | Source/Shaders/GenerateShaders.py:209-257 | from a consistent state the shader loop never ends in KeyError |
| ShaderBuild.ParseLine | Source/Shaders/GenerateShaders.py:136-155 | the separator line switches to the dependency section for good; a parsed line keeps both dicts well formed |
| ShaderBuild.ParseLines | Source/Shaders/GenerateShaders.py:135-155 | parsing a file yields well-formed dicts |
| ShaderBuild.LoadCache | Source/Shaders/GenerateShaders.py:129-158 | the loaded maps are always well formed; force-rebuild and a failed parse give empty maps, and otherwise the maps are what parsing the file's lines yields, after "\r\n" and a lone "\r" are read as "\n" |
| ShaderBuild.ParseFailsIffBadLine | Source/Shaders/GenerateShaders.py:134-158 | reading fails, and both maps are emptied, exactly when a time line has a non-integer time or a dependency line has no words; words are split at every character str.isspace accepts |
| ShaderBuild.CacheLinesParse | Source/Shaders/GenerateShaders.py:136-155 | the lines the writer emits parse back to the dicts they came from, when every name and include path is a word with no str.isspace character |
| ShaderBuild.WriteCache | Source/Shaders/GenerateShaders.py:259-265 | the cache file's text: time lines, the separator, include lines; see CacheFileRoundTrip and CacheLinesParse |
| ShaderBuild.CacheFileRoundTrip | Source/Shaders/GenerateShaders.py:259-265 | writing the cache file and loading it on the next run, newline translation included, restores both dicts, key order included, when every name and include path has no str.isspace character |
| ShaderBuild.TabbedNameEmptiesCache | Source/Shaders/GenerateShaders.py:136-158 | a cached name with a tab in it, which the space-only skip lets through, is split in two on the next read; int() then fails and both maps come back empty |
| ShaderBuild.Summary | Source/Shaders/GenerateShaders.py:273-281 | the closing message; see SummaryCases and SummaryCountsFailures |
| ShaderBuild.SummaryCases | Source/Shaders/GenerateShaders.py:273-281 | "up-to-date" exactly when no error and nothing rebuilt; "Done." exactly when no error and something rebuilt |
| ShaderBuild.SummaryCountsFailures | Source/Shaders/GenerateShaders.py:273-275 | with failures, the message's second word is the failure count |
| ShaderBuild.Run | Source/Shaders/GenerateShaders.py:92-291 | main: load the cache, scan the headers, build the shaders, write the cache and the message; see RunNeverCrashes |
| ShaderBuild.RunNeverCrashes | Source/Shaders/GenerateShaders.py:129-265 | a run never raises KeyError when it rebuilds everything or reads a cache file a consistent run wrote |
| VertexCollectorFilter.Init | Source/VertexCollectorFilterType.cpp:56-109 | the three tables have one cell per flag-value triple, and each cell of FlagToIndex is 0xFF or the number of the combination whose cell it is |
| VertexCollectorFilter.GetID | Source/VertexCollectorFilterType.cpp:135-141 | a flag word has an ID exactly when it decodes to a cell, and the ID is below MAX_TOP_LEVEL_INSTANCE_COUNT |
| VertexCollectorFilter.GetOffsetInGlobalArray | Source/VertexCollectorFilterType.cpp:148-155 | the offset lookup fails exactly when GetID does |
| VertexCollectorFilter.GetAmountInGlobalArray | Source/VertexCollectorFilterType.cpp:157-164 | the amount lookup fails exactly when GetID does |
| VertexCollectorFilter.GetNameForBLAS | Source/VertexCollectorFilterType.cpp:186-198 | there is no name exactly when no table entry has all its flags in the input |
| VertexCollectorFilter.GetForGeometry | Source/VertexCollectorFilterType.cpp:200-254 | the result holds exactly one flag of each group and no other bit, never STATIC_MOVABLE or WORLD_1 |
| VertexCollectorFilter.ComboSlotInjective | Source/VertexCollectorFilterType.cpp:66-88 | the 45 flag combinations of Init's nested loops occupy 45 distinct cells of FlagToIndex |
| VertexCollectorFilter.InitFillsTables | Source/VertexCollectorFilterType.cpp:56-109 | after Init, combination n (in loop order) has ID n, offset = sum of the amounts before it modulo 2^32 and its amount; every other cell holds 0xFF |
| VertexCollectorFilter.GetIndices | Source/VertexCollectorFilterType.cpp:111-133 | a flag word decodes only when each group field is in 1..max, and then to a cell whose ID is below MAX_TOP_LEVEL_INSTANCE_COUNT; otherwise an assertion fails (None) |
| VertexCollectorFilter.LookupCombo | Source/VertexCollectorFilterType.cpp:135-164 | after Init, GetID, GetOffsetInGlobalArray and GetAmountInGlobalArray of combination n return n, its prefix-sum offset and its amount |
| VertexCollectorFilter.LookupOnlyCombos | Source/VertexCollectorFilterType.cpp:111-141 | conversely, a flag word that decodes to an ID carries exactly the three group bits of the combination with that ID |
| VertexCollectorFilter.RegionsOrdered | Source/VertexCollectorFilterType.cpp:100-105 | the regions Init lays out follow each other in loop order without overlapping |
| VertexCollectorFilter.OffsetsFit | Source/VertexCollectorFilterType.cpp:104-105 | when the total fits in 32 bits, no offset wraps |
| VertexCollectorFilter.LastRegionEndsAtTotal | Source/VertexCollectorFilterType.cpp:100-105 | when the total fits in 32 bits, the last region ends exactly at AllBottomLevelGeomsCount |
| VertexCollectorFilter.LowerAmountForFirstPerson | Source/VertexCollectorFilterType.cpp:93-103 | first-person and first-person-viewer groups get the lower amount, all others the maximum |
| VertexCollectorFilter.NameIsFirstCovering | Source/VertexCollectorFilterType.cpp:186-198 | GetNameForBLAS returns the name of the first table entry whose flags are all in the input, and fails exactly when no entry's are |
| VertexCollectorFilter.NameOfCombo | Source/VertexCollectorFilterType.cpp:172-198 | every combination is named after its change-frequency and pass-through flags |
| VertexCollectorFilter.GeometryIsCombo | Source/VertexCollectorFilterType.cpp:200-254 | GetForGeometry always yields one of the 45 combinations, never STATIC_MOVABLE or WORLD_1 |
| VertexCollectorFilter.GeometryHasSlot | Source/VertexCollectorFilterType.cpp:111-254 | the flags of any geometry resolve to an ID, a region and a BLAS name in the tables Init builds |
| VertexCollectorFilter.GeometryPrecedence | Source/VertexCollectorFilterType.cpp:207-250 | one flag per group: static or dynamic by isStatic; alpha-tested over water over opaque; first-person over viewer over sky over world 0 (each both ways) |
| ScratchImmediate.TriangleCountAsWritten | Source/ScratchImmediate.cpp:30-47 | GetTriangleCount as written, with the uint32 wrap; see ShortStripWraps and CountsAgreeFromTwoVertices |
| ScratchImmediate.TriangleCount | Source/ScratchImmediate.cpp:30-47 | GetTriangleCount as intended; see TriangleCountByTopology and CountsAgreeFromTwoVertices |
| ScratchImmediate.TriangleCountByTopology | Source/ScratchImmediate.cpp:30-47 | a triangle list gives one triangle per whole three vertices, quads two per whole four, strips and fans v - 2 (none below two vertices), unknown topologies none |
| ScratchImmediate.CountsAgreeFromTwoVertices | Source/ScratchImmediate.cpp:37-40 | the unsigned max(0u, v - 2) agrees with the intended count exactly when v >= 2 or the topology is not a strip or fan |
| ScratchImmediate.ShortStripWraps | Source/ScratchImmediate.cpp:37-52 | below two vertices a strip or fan is counted as 2^32 - 2 or 2^32 - 1 triangles, and the index count wraps to 2^32 - 6 or 2^32 - 3 instead of 0 |
| ScratchImmediate.IndexCountIsThreePerTriangle | Source/ScratchImmediate.cpp:49-52 | the index count is three per triangle whenever that fits in 32 bits |
| ScratchImmediate.NextAllocStepIsNextMultiple | Source/ScratchImmediate.cpp:54-60 | away from the top of the range the next step is the least multiple of 256 strictly above the request |
| ScratchImmediate.NextAllocStepWraps | Source/ScratchImmediate.cpp:56-60 | within 256 of 2^32 the uint32_t addition wraps and the step is 0 |
| ScratchImmediate.AllocStepIsNotWholeTriangles | Source/ScratchImmediate.cpp:54-73 | the assertions ALLOC_STEP % 3 == 0, ALLOC_STEP % 6 == 0 and the rounded request % 3 == 0 are false for 256 |
| ScratchImmediate.NextWholeAllocStepIsWhole | Source/ScratchImmediate.cpp:66-73 | with a step of 768 the rounded size is a whole number of triangles and quads, a multiple of 256, and the least such above the request |
| ScratchImmediate.StripTriangle | Source/ScratchImmediate.cpp:109-114 | strip triangle t uses exactly vertices t, t + 1 and t + 2, starting at t, with the winding flipped on odd t |
| ScratchImmediate.FanTriangle | Source/ScratchImmediate.cpp:138-143 | fan triangle t joins vertices t + 1 and t + 2 to vertex 0 |
| ScratchImmediate.QuadTriangles | Source/ScratchImmediate.cpp:167-176 | quad q becomes (4q, 4q+1, 4q+2) and (4q+2, 4q+3, 4q), covering its four vertices |
| ScratchImmediate.EntriesWithinVertices | Source/ScratchImmediate.cpp:30-180 | every index of the first 3 x triangle-count entries names one of the vertices given |
| ScratchImmediate.GrowKeepsPrefix | Source/ScratchImmediate.cpp:70-86 | while the step does not wrap, growth never shrinks the cache, reaches the request, and leaves every cell before the unit holding the old end as it was |
| ScratchImmediate.GrowFollows | Source/ScratchImmediate.cpp:70-86 | a cache holding its pattern up to its last whole unit, grown by a whole number of units, holds it up to the request and up to its own last whole unit |
| ScratchImmediate.GrowLoop | Source/ScratchImmediate.cpp:62-180 | the resize and the index-by-index loop of the four helpers compute the growth described above |
| ScratchImmediate.GetIndices | Source/ScratchImmediate.cpp:184-207 | an unknown topology throws; any other returns the unsigned index count and the shared cache grown to it |
| ScratchImmediate.SharedCacheServesWrongPattern | Source/ScratchImmediate.cpp:189-201 | a strip drawn after a triangle list is handed the list's indices (index 3 is 3 where the strip needs 1) |
| ScratchImmediate.ShortStripEmptiesCache | Source/ScratchImmediate.cpp:187-195 | a strip of no vertices reports 2^32 - 6 indices while the cache it points into is resized to nothing |
| ScratchImmediate.GetIndicesPerTopology | Source/ScratchImmediate.cpp:184-207 | with one cache per topology: unknown topologies still throw, and the count is that of the intended triangle count |
| ScratchImmediate.PerTopologyServesRightPattern | Source/ScratchImmediate.cpp:62-207 | with one cache per topology the indices handed out are always the requested topology's pattern for exactly 3 x triangle-count entries, whatever was drawn before, and every cache stays valid |
| SpanCounted.Counted.Increment | Source/SpanCounted.h:43-53 | the counter grows by one while it is below the span's size; at the size nothing changes |
| SpanCounted.Counted.IncrementAndGet | Source/SpanCounted.h:55-59 | on an empty span there is no element to return; otherwise the counter is incremented and the element at the new count - 1 returned |
| SpanCounted.Counted.ResetCount | Source/SpanCounted.h:61 | the counter returns to 0 over the same span |
| SpanCounted.Counted.CountedSubspan | Source/SpanCounted.h:65 | the counted subspan is the prefix of the span of length count |
| SpanCounted.Counted.IncrementTimes | Source/SpanCounted.h:43-53 | n increments keep the same span and never lower the counter |
| SpanCounted.IncrementsSaturate | Source/SpanCounted.h:43-53 | n increments raise the counter to min(count + n, size) |
| SpanCounted.CountedAfterIncrements | Source/SpanCounted.h:43-65 | after a reset and n increments the counted subspan is the first min(n, size) elements, and a full span stays full |
| SpanCounted.Incremental.Add | Source/SpanCounted.h:102-122 | an in-range index widens [begin, end) just enough to contain it; an out-of-range one changes nothing |
| SpanCounted.Incremental.Reset | Source/SpanCounted.h:124-128 | after a reset the subspan is empty |
| SpanCounted.Incremental.Count | Source/SpanCounted.h:130-139 | the count is end - begin, and 0 exactly when the subspan is empty |
| SpanCounted.Incremental.ResolveIndex | Source/SpanCounted.h:141-155 | the index subspan is offset by the base and counts the subspan; an empty subspan resolves to {0, 0} |
| SpanCounted.Incremental.AddAll | Source/SpanCounted.h:102-122 | adding indices one after another keeps the subspan well formed over the same span |
| SpanCounted.Incremental.ResolveBytes | Source/SpanCounted.h:157-167 | the byte size is the element count times the element size, and an empty subspan resolves to {0, 0} |
| SpanCounted.BytesAreScaledIndices | Source/SpanCounted.h:157-167 | with a base offset that is a whole number of elements, the byte subspan is the index subspan scaled by the element size in offset and length |
| SpanCounted.InRange | Source/SpanCounted.h:104 | the indices add_to_subspan accepts are exactly those below the span's size |
| SpanCounted.AddAllIsTightRange | Source/SpanCounted.h:102-128 | after a reset and a run of adds the subspan is empty iff no index was in range, and otherwise the tightest [least, greatest + 1) over the in-range indices |
| SpanCounted.AddAllFrom | Source/SpanCounted.h:102-122 | a run of adds gives the hull of the previous subspan and the in-range indices, each end coming from one of the two |
| Framebuffers.FrameIndexToFBIndex | Source/Framebuffers.cpp:35-50 | a double-buffered image (its two bindings differ) maps to index + frameIndex, any other image to itself, always a valid image |
| Framebuffers.FramesShareUnlessSwapped | Source/Framebuffers.cpp:35-50 | frame 0 uses the image itself, and frames 0 and 1 use different images exactly when the image is double-buffered |
| Framebuffers.BloomDownscale | Source/Framebuffers.cpp:669-683 | bloom mip k + 1 is downscaled by 2^(k+1); any other image has no bloom downscale |
| Framebuffers.BloomDownscaleFrom | Source/Framebuffers.cpp:671-682 | the switch over the bloom mips from mip k on finds the factor of the mip the image is, if any |
| Framebuffers.DownscaledAxis | Source/Framebuffers.cpp:690-698 | a downscaled axis is never below one pixel |
| Framebuffers.GetFramebufSize | Source/Framebuffers.cpp:639-700 | the size of one image; see FixedSizeRules, ThirdSizeRule, BloomSizeRule and AxisWithoutWrap |
| Framebuffers.FixedSizeRules | Source/Framebuffers.cpp:642-688 | the unused wipe-effect source is 1x1; UPSCALED_SIZE gives the upscaled size, else SINGLE_PIXEL_SIZE gives 1x1; an image with no size flag has the render size |
| Framebuffers.ThirdSizeRule | Source/Framebuffers.cpp:665-698 | FORCE_SIZE_1_3 gives (render + 1) / 3 on each axis, at least 1 |
| Framebuffers.BloomSizeRule | Source/Framebuffers.cpp:669-698 | bloom mip k + 1 gives (render + 1) / 2^(k+1) on each axis, at least 1 |
| Framebuffers.AxisWithoutWrap | Source/Framebuffers.cpp:690-698 | when render + 1 does not wrap, the axis is max(1, (render + 1) / d) |
| Framebuffers.MakeSafePixelized | Source/Framebuffers.cpp:279-300 | a pixelized size is kept exactly when given and at least 8 pixels from the render size on both axes (as int32), and then unchanged |
| Framebuffers.Clamp | Source/Framebuffers.cpp:306-309 | std::clamp stays within bounds that are ordered and keeps a value already within them |
| Framebuffers.NormalizePixelized | Source/Framebuffers.cpp:302-313 | each axis is clamped into [8, render size] |
| Framebuffers.NormalizeKeepsInRange | Source/Framebuffers.cpp:302-313 | a pixelized size already within [8, render size] is kept |
| Framebuffers.EffectsDestination | Source/Framebuffers.cpp:343-350 | FINAL blits to PING, PING to PONG, PONG to PING (each through the frame mapping), anything else to PING |
| Framebuffers.BlitFilter | Source/Framebuffers.cpp:363-373 | source and destination within 8 pixels on both axes force nearest; otherwise a pixelized blit is linear and any other keeps the requested filter |
| Framebuffers.BlitForEffects | Source/Framebuffers.cpp:315-456 | the blits of one effects pass; see EffectsDestination, BlitFilter and EffectsAlternate |
| Framebuffers.EffectsAlternate | Source/Framebuffers.cpp:315-595 | the effects blit alternates FINAL to PING, PING to PONG, PONG to PING; a second blit happens exactly when the pixelized size is safe, goes to the other image of the pair, and the effects continue from there; otherwise from the first destination |
| Framebuffers.PrepareForSize | Source/Framebuffers.cpp:216-230 | images are recreated exactly when the requested resolution differs from the current one, which it then becomes |
| Framebuffers.PrepareIsIdempotent | Source/Framebuffers.cpp:216-230 | a second request for the same resolution recreates nothing |
| SamplerManager.UnpackPack | Source/SamplerManager.cpp:85-101 | the filter bit and the U and V address-mode fields do not overlap: each reads back what was packed, and the index is below 128 |
| SamplerManager.VkToIndex | Source/SamplerManager.cpp:135-168 | the Vulkan overload packs the filter and both modes into their fields; unknown values contribute nothing |
| SamplerManager.RgToIndex | Source/SamplerManager.cpp:103-133 | the library overload packs the filter and both modes into their fields; unknown values contribute nothing |
| SamplerManager.VkToIndexInjective | Source/SamplerManager.cpp:103-168 | distinct listed (filter, U, V) triples get distinct indices |
| SamplerManager.OverloadsAgree | Source/SamplerManager.cpp:103-168 | both overloads give the same index for corresponding values |
| SamplerManager.OtherPacksAsFirst | Source/SamplerManager.cpp:135-168 | an unknown filter packs as NEAREST and an unknown mode as REPEAT |
| SamplerManager.TripleIndexInjective | Source/SamplerManager.cpp:35-51 | the constructor's 50 loop iterations produce 50 distinct indices, so its assertion that each index is new holds |
| SamplerManager.ConstructorKeysDistinct | Source/SamplerManager.cpp:35-55 | the keys inserted by the constructor are pairwise distinct |
| SamplerManager.TableOfDistinct | Source/SamplerManager.cpp:51-53 | inserting distinct keys in order gives a map with exactly those keys, each mapped to its position |
| SamplerManager.ConstructorTableSize | Source/SamplerManager.cpp:35-56 | the constructor creates exactly 2 x 5 x 5 = 50 samplers |
| SamplerManager.ConstructorTable | Source/SamplerManager.cpp:35-56 | the sampler created in iteration n is stored under that iteration's index |
| SamplerManager.GetSampler | Source/SamplerManager.cpp:67-81 | the sampler stored under the request's index, or VK_NULL_HANDLE when there is none |
| SamplerManager.GetSamplerAlwaysFinds | Source/SamplerManager.cpp:35-81 | every request finds a sampler: a listed triple the one created for it, an unknown value the one of NEAREST or REPEAT in its place |
| SamplerManager.CanonicalOfListed | Source/SamplerManager.cpp:103-168 | listed library values are served by the sampler of the corresponding Vulkan values |
| SectorVisibility.Visibility.Assign | Source/SectorVisibility.cpp:99-116 | a known ID keeps its array index and changes nothing; a new ID gets the next index and the reverse entry; when all MAX_SECTOR_COUNT indices are taken the assertion fails (an error) |
| SectorVisibility.Visibility.CheckSize | Source/SectorVisibility.cpp:85-97 | RG_TOO_MANY_SECTORS is thrown exactly when the sector already has MAX_SECTOR_COUNT potentially visible sectors |
| SectorVisibility.Visibility.SetPotentialVisibility | Source/SectorVisibility.cpp:38-54 | both IDs get array indices; the same ID twice changes no set; otherwise, unless an error is raised, both IDs are known and each becomes visible from the other |
| SectorVisibility.Visibility.AddEdge | Source/SectorVisibility.cpp:52-53 | the relation gains exactly the pair (ia, ib) in both directions; the lookups are untouched |
| SectorVisibility.Visibility.PotentiallyVisible | Source/SectorVisibility.cpp:77-83 | a sector's visible set never holds itself, and every member is a known sector that sees it back |
| SectorVisibility.Visibility.IdToIndex | Source/SectorVisibility.cpp:118-130 | an unknown ID throws RG_ERROR_INCORRECT_SECTOR; a known one gives the index whose reverse entry is that ID |
| SectorVisibility.Visibility.IndexToId | Source/SectorVisibility.cpp:132-138 | a handed-out index gives the ID that maps back to it, as the source asserts |
| SectorVisibility.AssignKeepsValid | Source/SectorVisibility.cpp:99-116 | assigning a new ID keeps the two lookups inverse to each other and the relation symmetric and irreflexive |
| SectorVisibility.AddEdgeKeepsValid | Source/SectorVisibility.cpp:52-53 | inserting ib into ia's set and ia into ib's keeps the relation symmetric and irreflexive |
| SectorVisibility.Cleared | Source/SectorVisibility.cpp:58-64 | the cleared state (no sets, no IDs, index counter 0) is well formed |
| SectorVisibility.Reset | Source/SectorVisibility.cpp:56-70 | after Reset only sector ID 0 is known, at index 0, and no sector has a visible set |
| SectorVisibility.AssignIdempotent | Source/SectorVisibility.cpp:99-116 | assigning the same ID again changes nothing and returns the same index |
| SectorVisibility.AssignConsecutive | Source/SectorVisibility.cpp:99-116 | distinct new IDs get consecutive indices from the counter on, in order, and the known IDs keep theirs |
| SectorVisibility.AssignAll | Source/SectorVisibility.cpp:99-116 | assigning a run of IDs keeps the state well formed |
| SectorVisibility.SetVisibilitySymmetric | Source/SectorVisibility.cpp:38-54 | a successful call on distinct sectors makes each visible from the other; the same sector twice only assigns its index |
| SectorVisibility.CheckSizeNeverThrows | Source/SectorVisibility.cpp:85-97 | a sector sees only other known sectors, fewer than MAX_SECTOR_COUNT, so RG_TOO_MANY_SECTORS is never thrown |
| SectorVisibility.LookupsInverse | Source/SectorVisibility.cpp:118-138 | ID-to-index and index-to-ID are inverse on the known IDs and the handed-out indices |
| LightLists.Count | Source/LightLists.cpp:86 | std::count is 0 exactly when the light is not in the list |
| LightLists.AddToList | Source/LightLists.cpp:77-87 | the light is appended to the sector's list only, and occurs once in it exactly when it was not there before |
| LightLists.CountAppend | Source/LightLists.cpp:83-86 | appending a value raises its count by one |
| LightLists.Targets | Source/LightLists.cpp:90-107 | the lists a light goes to always include its own sector's |
| LightLists.OrderBelowLast | Source/LightLists.cpp:100-102 | every sector iterated is a known sector other than the light's own, so the source's assertion holds |
| LightLists.AddInOrderIsAppendTo | Source/LightLists.cpp:100-106 | appending to the lists of distinct sectors one after another appends to the set of them, whatever the order |
| LightLists.InsertLight | Source/LightLists.cpp:90-108 | keeps one list per sector; what it appends is stated by InsertLightAppendsToTargets |
| LightLists.InsertLightAppendsToTargets | Source/LightLists.cpp:90-108 | InsertLight appends the light once to its own sector's list and to every potentially visible sector's, and to no other, in any iteration order |
| LightLists.InsertFreshKeepsUnique | Source/LightLists.cpp:77-108 | inserting a light absent from every list keeps every list duplicate-free, so the uniqueness assertion holds for each append |
| LightLists.Cleared | Source/LightLists.cpp:59-75 | PrepareForFrame and Reset leave every list empty |
| LightLists.Written | Source/LightLists.cpp:145-155 | the copy loop writes a prefix of the list of at most MAX_LIGHT_LIST_SIZE entries, the whole list when it fits |
| LightLists.Plain | Source/LightLists.cpp:131-162 | the plain list holds at most MAX_LIGHT_LIST_SIZE entries per sector |
| LightLists.BuildArrays | Source/LightLists.cpp:127-164 | the plain list is the written parts of the lists one after another; region i starts where the previous written part ended and ends start + the full list length; size and sector count are returned |
| LightLists.CopyList | Source/LightLists.cpp:141-155 | the inner loop appends the written part of one list and advances iter by its length |
| LightLists.PlainStep | Source/LightLists.cpp:131-160 | one outer iteration extends the plain list by the written part of the next list |
| LightLists.StartStep | Source/LightLists.cpp:141-154 | each region starts where the previous written part ends |
| LightLists.WrittenAtStart | Source/LightLists.cpp:141-159 | each written part sits in the plain list at its region's start |
| LightLists.RegionsTileWhenShort | Source/LightLists.cpp:141-159 | a list of at most MAX_LIGHT_LIST_SIZE lights gets a region holding exactly it, and the next region starts where it ends |
| LightLists.LongListOverlapsNext | Source/LightLists.cpp:142-159 | a longer list gets a region that runs past the start of the next sector's region |
| LightLists.OverlapExample | Source/LightLists.cpp:142-159 | lists of 1025 and 1 lights give regions [0, 1025) and a second region starting at 1024 |
| LightLists.BuildArraysCorrected | Source/LightLists.cpp:127-164 | with the region's end taken from iter after the copy, every region is exactly the written part of its list |
| LightLists.CorrectedRegionsTile | Source/LightLists.cpp:127-164 | corrected regions hold their list's written part and tile the plain list, which fits MAX_SECTOR_COUNT x MAX_LIGHT_LIST_SIZE entries |
| TriangleInfo.Range.Add | Source/TriangleInfoManager.h:65 | an unlocked range grows by the amount at the same start |
| TriangleInfo.Range.Lock | Source/TriangleInfoManager.h:66 | locking keeps start and count |
| TriangleInfo.Range.StartIndexingAfter | Source/TriangleInfoManager.h:68 | an empty unlocked range moves to start right after the other |
| TriangleInfo.EmptyRange | Source/TriangleInfoManager.h:67 | Reset(start) gives an empty unlocked range at start |
| TriangleInfo.Initial | Source/TriangleInfoManager.cpp:26-41 | the constructor's state is well formed with an empty temporary vector |
| TriangleInfo.TransformIds | Source/TriangleInfoManager.cpp:124-137 | the indices of the IDs are appended in order; an unknown ID throws after the indices before it were appended |
| TriangleInfo.UploadAsWritten | Source/TriangleInfoManager.cpp:46-108 | the upload as written keeps both ranges well formed, including when the vector is left non-empty by an exception |
| TriangleInfo.Place | Source/TriangleInfoManager.cpp:67-107 | a geometry is placed at the end of its range, which grows; static uploads move the dynamic range after the static one; the ranges stay well formed and the vector is cleared |
| TriangleInfo.Upload | Source/TriangleInfoManager.cpp:46-108 | with the vector cleared on an exception, a rejected upload leaves the manager unchanged and every result keeps it well formed |
| TriangleInfo.PrepareForFrame | Source/TriangleInfoManager.cpp:110-115 | the static range is kept and the dynamic range restarts, empty, right after it |
| TriangleInfo.Reset | Source/TriangleInfoManager.cpp:117-122 | both ranges become empty and unlocked at 0, and the static range is marked for copying |
| TriangleInfo.NoInputNoChange | Source/TriangleInfoManager.cpp:48-51 | no IDs or a count of 0 gives GEOM_INST_NO_TRIANGLE_INFO and changes nothing |
| TriangleInfo.UploadAppendsToRange | Source/TriangleInfoManager.cpp:64-107 | a successful upload returns the end of its range, which grows by the ID count; a dynamic upload keeps and locks the static range, and a static one leaves the dynamic range empty right after it |
| TriangleInfo.StaticAfterDynamicRejected | Source/TriangleInfoManager.cpp:71-98 | once a dynamic geometry was uploaded the static range is locked, and a static upload is refused |
| TriangleInfo.RejectedUploadPoisonsNext | Source/TriangleInfoManager.cpp:124-137 | an unknown ID after a known one leaves the vector non-empty, so the next upload fails the emptiness assertion even with known IDs |
| TriangleInfo.RejectedUploadIsHarmless | Source/TriangleInfoManager.cpp:46-137 | with the vector cleared, any upload after a rejected one behaves as it would have before |
| RandomSeed.Unpack | Source/Shaders/Random.h:147-152 | the offset fields are below the texture size and the index below 2^(32 - 2 pow) |
| RandomSeed.Widths | Source/Shaders/Random.h:135-137 | with 2 pow <= 31 the two offset fields take 2 pow bits and leave the index the remaining 32 - 2 pow |
| RandomSeed.UnpackPack | Source/Shaders/Random.h:139-152 | unpacking a packed seed gives back its index and offset whenever the index fits its field |
| RandomSeed.PackUnpack | Source/Shaders/Random.h:139-152 | packing an unpacked seed gives back the seed |
| RandomSeed.UnpackInjective | Source/Shaders/Random.h:147-152 | two seeds with the same fields are the same seed |
| RandomSeed.PackKeepsOffset | Source/Shaders/Random.h:139-145 | the offset of a packed seed is the offset packed, whatever the index |
| RandomSeed.PackReducesIndex | Source/Shaders/Random.h:142 | index bits shifted out of the 32 bits are lost: the index is packed modulo 2^(32 - 2 pow) |
| RandomSeed.MakeSeed | Source/Shaders/Random.h:168-177 | makeSeed keeps the texel offset and, when the texture count fits the index field, moves the index to (index + salt) mod count in uint arithmetic |
| RandomSeed.GetRandomSeed | Source/Shaders/Random.h:204-219 | the offset is the pixel modulo the texture size and the index is below the texture count |
| RandomSeed.TileIndex | Source/Shaders/Random.h:206-212 | idY * countX + idX in uint; see TileSharesTexture and SeedTexture |
| RandomSeed.SeedTexture | Source/Shaders/Random.h:206-213 | the texture index is (tile index + frame index) mod count, the tile index being idY * countX + idX |
| RandomSeed.TileSharesTexture | Source/Shaders/Random.h:206-213 | pixels of the same tile use the same texture in a frame |
| RandomSeed.SaltAdvancesFrame | Source/Shaders/Random.h:168-213 | salting a pixel's seed by k is the same as asking for frame index + k, as long as no uint sum wraps |
| LightGrid.CellToArrayIndex | Source/Shaders/LightGrid.h:31-37 | a cell's first entry is a multiple of the cell size |
| LightGrid.BlockDigits | Source/Shaders/LightGrid.h:31-37 | cells are laid out x fastest, then z, then y, one block of LIGHT_GRID_CELL_SIZE entries each |
| LightGrid.CellRoundTrip | Source/Shaders/LightGrid.h:31-49 | arrayIndexToCell of a cell's array index gives back the cell |
| LightGrid.CellsDistinct | Source/Shaders/LightGrid.h:31-37 | distinct cells of the grid start at distinct array indices |
| LightGrid.CellInsideArray | Source/Shaders/LightGrid.h:31-37 | every cell's block lies inside the array of all cells' entries |
| LightGrid.IndexInsideCell | Source/Shaders/LightGrid.h:39-49 | any array index maps to a cell of the grid whose block starts at the index rounded down to a multiple of the cell size |
| LightGrid.UnpackReservoir | Source/Shaders/LightGrid.h:77-85 | the unpacked reservoir has M = 1 and W left unset |
| LightGrid.PackReservoir | Source/Shaders/LightGrid.h:88-95 | the packed cell keeps the selected light |
| LightGrid.CellSurvivesReservoir | Source/Shaders/LightGrid.h:77-95 | packing an unpacked cell gives back the cell |
| LightGrid.ReservoirSurvivesCell | Source/Shaders/LightGrid.h:77-95 | a reservoir survives packing and unpacking exactly when it is normalized to M = 1 |
| TextureOverrides.ToUnorm | Source/TextureOverrides.cpp:34-52 | see ConversionsFollowPairs, ConversionsFixOthers and ConversionsInverse |
| TextureOverrides.ToSrgb | Source/TextureOverrides.cpp:54-72 | see ConversionsFollowPairs, ConversionsFixOthers and ConversionsInverse |
| TextureOverrides.ConversionsFollowPairs | Source/TextureOverrides.cpp:34-72 | ToUnorm maps each of the twelve sRGB formats to its UNORM partner and ToSRGB maps it back |
| TextureOverrides.ConversionsFixOthers | Source/TextureOverrides.cpp:34-72 | any other format is returned unchanged |
| TextureOverrides.ConversionsInverse | Source/TextureOverrides.cpp:34-72 | ToUnorm undoes ToSRGB on every non-sRGB format, and ToSRGB undoes ToUnorm on every non-UNORM one |
| TextureOverrides.ConversionsIdempotent | Source/TextureOverrides.cpp:34-72 | converting twice is converting once, and never yields a format the conversion would change again |
| TextureOverrides.NulIndex | Source/TextureOverrides.cpp:82-85 | the position of the first NUL, or the whole array when there is none |
| TextureOverrides.SafeCopy | Source/TextureOverrides.cpp:74-90 | the array is always NUL-terminated; a null source leaves it empty; otherwise it holds the source's string cut to N - 1 characters, NULs after |
| TextureOverrides.GetTexturePath | Source/TextureOverrides.cpp:133-148 | a null or empty relative path gives nullopt, anything else a path |
| TextureOverrides.StemOfAppend | Source/TextureOverrides.cpp:143-145 | appending a named relative path and dropping its extension leaves a non-empty file name |
| TextureOverrides.TexturePathOfPlainName | Source/TextureOverrides.cpp:143-147 | when the stem plus postfix has no dot, the path is folder/stem + postfix + extension |
| TextureOverrides.PostfixLostAfterInnerDot | Source/TextureOverrides.cpp:143-147 | for "a.b.c" the postfix lands in an extension the second replace_extension drops: the result is "a" + extension, as with no postfix |
| TextureOverrides.GetTexturePathCorrected | Source/TextureOverrides.cpp:133-148 | the corrected path is also nullopt exactly for a null or empty relative path |
| TextureOverrides.CorrectedKeepsPostfix | Source/TextureOverrides.cpp:143-147 | the corrected path always has the requested extension and the stem with the postfix, whatever dots the name holds |
| FrameState.NextIndex | Source/FrameState.h:55-59 | the next frame index stays below the ring size, wraps to 0 exactly after the last index, and otherwise is the successor |
| FrameState.PrevIndex | Source/FrameState.h:67-71 | the previous frame index stays below the ring size, wraps to the last index exactly from 0, and otherwise is the predecessor |
| FrameState.RingStepsInverse | Source/FrameState.h:55-71 | stepping forward and back, or back and forward, returns to the same frame index |
| FrameState.Initial | Source/FrameState.h:43-48 | a new state has no frame started, no pre-frame command buffer and no semaphore, and its first increment gives frame index 0 |
| FrameState.IncrementFrameIndexAndGet | Source/FrameState.h:55-59 | the new index is stored and returned, is below MAX_FRAMES_IN_FLIGHT, and its previous index is the old one (mod the ring size) |
| FrameState.RingSteps | Source/FrameState.h:55-71 | GetPrevFrameIndex undoes an increment, for any stored index |
| FrameState.IndicesAlternate | Source/FrameState.h:55-59 | with two frames in flight the index alternates between 0 and 1 |
| FrameState.State.WasFrameStarted | Source/FrameState.h:120-123 | a frame command buffer is held; OnBeginFrame, OnEndFrame and GetCmdBuffer state what it decides |
| FrameState.OnBeginFrame | Source/FrameState.h:73-77 | beginning a started frame fails the assertion; otherwise the command buffer is stored and nothing else changes |
| FrameState.OnEndFrame | Source/FrameState.h:79-85 | ending succeeds exactly when a frame was started and no pre-frame command buffer is pending, and then clears the frame's command buffer only |
| FrameState.GetCmdBuffer | Source/FrameState.h:87-92 | the frame's command buffer is available exactly while a frame is started |
| FrameState.GetCmdBufferForMaterials | Source/FrameState.h:94-110 | inside a frame the frame's command buffer, changing nothing; outside, the pre-frame command buffer, started only when there is none yet |
| FrameState.GetPreFrameCmdAndRemove | Source/FrameState.h:112-118 | the pre-frame command buffer is returned and cleared, nothing else changes |
| FrameState.SetSemaphore | Source/FrameState.h:125-128 | only the semaphore changes |
| FrameState.GetSemaphoreForWaitAndRemove | Source/FrameState.h:130-136 | the semaphore is returned and cleared, nothing else changes |
| FrameState.SemaphoreTakenOnce | Source/FrameState.h:125-136 | a semaphore set is taken exactly once; a second take finds none |
| FrameState.PreFrameCmdStartedOnce | Source/FrameState.h:94-118 | outside a frame the pre-frame command buffer is started once and reused, and taking it restores the state before the first request |
| FrameState.FrameLifecycle | Source/FrameState.h:73-92 | a begun frame has its command buffer, cannot be begun again, and ending it restores the earlier state unless a pre-frame command buffer is pending |
| FrameState.MaterialsInFrameUseFrameCmd | Source/FrameState.h:94-100 | inside a frame, materials are uploaded with the frame's command buffer |
| Halton.ShrinkBelow | Source/HaltonSequence.cpp:46-50 | the inner loop ends with y below x, never above where it started |
| Halton.ShrinkFacts | Source/HaltonSequence.cpp:46-50 | the inner loop keeps y a power of the base and stops at the largest one below x |
| Halton.Step | Source/HaltonSequence.cpp:38-52 | one step keeps n/d strictly inside (0, 1) with d a power of the base, and grows d by the base exactly when n was d - 1 |
| Halton.StepBounds | Source/HaltonSequence.cpp:46-51 | the new numerator (b + 1)y - x lies strictly between 0 and d |
| Halton.Iterate | Source/HaltonSequence.cpp:34-52 | after any number of steps n/d is a fraction of the invariant, strictly inside (0, 1) after the first |
| Halton.Halton | Source/HaltonSequence.cpp:36-54 | every element is a fraction strictly inside (0, 1) whose denominator is a power of the base |
| Halton.GenerateHaltonSequence | Source/HaltonSequence.cpp:32-55 | the loop stores JITTER_PHASE_COUNT elements, element i being the (i + 1)-th step |
| Halton.FirstElements | Source/HaltonSequence.cpp:32-55 | the sequences start 1/2, 1/4, 3/4, 1/8 for base 2 and 1/3, 2/3, 1/9 for base 3 |
| Halton.Value | Source/HaltonSequence.cpp:53 | n/d as a real lies strictly inside (0, 1) |
| Halton.GetJitterHalton23 | Source/HaltonSequence.cpp:67-78 | the jitter lies strictly inside (-0.5, 0.5) on both axes, and plus 0.5 is element frameId mod 128 of the base-2 and base-3 sequences |
| Halton.JitterPeriodic | Source/HaltonSequence.cpp:67-78 | the jitter repeats every 128 frames, and 128 divides 2^32 so the cycle survives the wrap of the frame counter |
| GeomInfo.GetMaterialBlendFlags | Source/GeomInfoManager.cpp:36-53 | a null layer and a blend type outside the enumeration give no flag; otherwise the only flag is the layer's blend type at that layer's position |
| GeomInfo.GetPrimitiveFlags | Source/GeomInfoManager.cpp:57-82 | REFLECT is set exactly for mirrors and water, REFRACT and MEDIA_TYPE_WATER exactly for water |
| GeomInfo.PrimitiveFlagsDecode | Source/GeomInfoManager.cpp:57-68 | reading the flag word back layer by layer gives exactly the blend type of each present, known layer and nothing for the others |
| GeomInfo.EmptyRegions | Source/GeomInfoManager.cpp:103-107 | one region per filter group, each with lower bound UINT32_MAX and upper bound 0 |
| GeomInfo.MarkIndex | Source/GeomInfoManager.cpp:486-496 | marking never raises the lower bound nor lowers the upper one, and the marked index then lies in the region unless index + 1 wraps |
| GeomInfo.MarkCovers | Source/GeomInfoManager.cpp:486-496 | marking keeps every covered index covered and covers the marked one; marking a reset region covers exactly that index |
| GeomInfo.RegionCopies | Source/GeomInfoManager.cpp:213-262 | at most one copy per filter group |
| GeomInfo.RegionCopiesComplete | Source/GeomInfoManager.cpp:213-267 | every non-empty region gets a copy of its infos at the group's offset in the global array, and there is no copy at all exactly when every region is empty |
| GeomInfo.Initial | Source/GeomInfoManager.cpp:85-108 | a new manager holds no geometry and every region of every frame is the reset region |
| GeomInfo.MarkGeomInfoIndexToCopy | Source/GeomInfoManager.cpp:486-496 | only the region of the given frame and group changes, and nothing but the regions changes |
| GeomInfo.WriteGeomInfo | Source/GeomInfoManager.cpp:421-484 | the write fails exactly when a base index is not a multiple of 3 or a static geometry follows a dynamic one; otherwise it returns the previous count as the simple index and adds one geometry |
| GeomInfo.ConvertSimpleIndexToGlobal | Source/GeomInfoManager.cpp:385-409 | the global index is never below the geometry's local index |
| GeomInfo.ResetOnlyDynamic | Source/GeomInfoManager.cpp:310-352 | the dynamic geometries are dropped and the static ones kept in order, the frame's regions are reset and the other frame's left as they were |
| GeomInfo.PrepareForFrame | Source/GeomInfoManager.cpp:411-419 | the counts saved for matching are those before the reset |
| GeomInfo.CopyGeomInfos | Source/GeomInfoManager.cpp:207-286 | the copy reports work exactly when it issues at least one copy |
| GeomInfo.StaticAfterDynamicRejected | Source/GeomInfoManager.cpp:446-452 | a static geometry written after a dynamic one is rejected, and accepted again after ResetOnlyDynamic |
| GeomInfo.WrittenIndexIsCopied | Source/GeomInfoManager.cpp:441-479 | a written static geometry is covered in every frame's region of its group, a dynamic one in the written frame's only, the other frame left as it was |
| GeomInfo.ResetCopiesNothing | Source/GeomInfoManager.cpp:340-351 | right after ResetOnlyDynamic a frame has nothing to copy, and after PrepareForFrame only the static geometries remain |
| GeomInfo.ResetOnlyDynamicIdempotent | Source/GeomInfoManager.cpp:310-352 | resetting twice is resetting once |
| GeomInfo.GlobalIndexOfWritten | Source/GeomInfoManager.cpp:385-409 | the simple index a write returns converts back to the written geometry's group offset plus its local index |
| FileDependency.Extensions | Source/IFileDependency.h:28-36 | every file type but Unknown is named by at least one extension |
| FileDependency.MakeFileType | Source/IFileDependency.h:38-67 | a known type is returned only for a lower-cased extension of that type |
| FileDependency.MakeFileTypeMatchesTable | Source/IFileDependency.h:41-66 | a path has a known type exactly when its lower-cased extension is one of that type's (.jpg and .jpeg both give JPG); anything else is Unknown |
| FileDependency.TypeIgnoresCase | Source/IFileDependency.h:41-43 | the extension is compared case-insensitively: any spelling of an extension gives the type of its lower-case form |
| LibraryConfig.ConfigBySwitches | Source/LibraryConfig.h:30-36 | a config is nothing more than its four switches |
| LibraryConfig.ProcessEntry | Source/LibraryConfig.h:40-58 | a line equal to a keyword turns exactly that switch on; every other switch keeps its value |
| LibraryConfig.UnknownEntryIgnored | Source/LibraryConfig.h:40-58 | a line that is no keyword changes nothing, and a repeated line changes nothing more |
| LibraryConfig.EntriesCommute | Source/LibraryConfig.h:40-58 | the order in which two lines are processed does not matter |
| LibraryConfig.StripNewline | Source/LibraryConfig.h:78 | std::getline yields a line without its terminating newline, and a line without one unchanged |
| LibraryConfig.GetLinesOfLine | Source/LibraryConfig.h:78 | the getline loop on a file starting with line l yields l first and then the lines of the rest |
| LibraryConfig.ProcessLines | Source/LibraryConfig.h:76-85 | the loop over lines; see ProcessLinesSwitch and OrderIndependent |
| LibraryConfig.ProcessLinesSwitch | Source/LibraryConfig.h:76-85 | after the loop a switch is on exactly when it was on before or some line, lower-cased, is its keyword |
| LibraryConfig.Read | Source/LibraryConfig.h:61-90 | see ReadSwitch and DefaultPathUsed |
| LibraryConfig.ReadSwitch | Source/LibraryConfig.h:61-90 | after Read a switch is on exactly when the file exists and opens and one of its lines, lower-cased, is the switch's keyword; otherwise every switch is off |
| LibraryConfig.OrderIndependent | Source/LibraryConfig.h:78-83 | two files with the same set of lower-cased lines, in any order and multiplicity, give the same config |
| LibraryConfig.DefaultPathUsed | Source/LibraryConfig.h:63-66 | a null path and an empty path both read RayTracedGL1.txt |
| VertexData.GetVertIndices | Source/Shaders/VertexData.inl:136-172 | a primitive has three corners: base vertex plus the index-buffer entry when there is an index buffer, base vertex + 3p + k without one, all in uint arithmetic |
| VertexData.StaticDynamicAgree | Source/Shaders/VertexData.inl:136-172 | getVertIndicesStatic and getVertIndicesDynamic agree when their index buffers hold the same entries, and always without an index buffer |
| VertexData.NonIndexedTriangles | Source/Shaders/VertexData.inl:146-151 | without wrap-around, a non-indexed primitive is three consecutive vertices and distinct primitives share none |
| VertexData.IdentityIndicesAgree | Source/Shaders/VertexData.inl:139-151 | an index buffer counting 0, 1, 2, ... gives the same vertices as no index buffer |
| VertexData.AddInt32 | Source/Shaders/VertexData.inl:261 | the int sum stays in the signed 32-bit range and is the true sum when that fits |
| VertexData.AsVec4Array | Source/Shaders/VertexData.inl:261 | the flat offset array viewed as ivec4s has a quarter as many vectors of four components |
| VertexData.GeometryIndexOfFlat | Source/Shaders/VertexData.inl:259-262 | reading component instanceID % 4 of vector instanceID / 4 picks the instance's own offset, so the global index is offset + local index when that does not wrap |
| PipelineState.ToPipelineState | Source/RasterizedDataCollector.cpp:101-140 | alpha test iff alpha-tested; translucent iff flagged or the alpha is below the threshold; additive iff emissive; depth test iff not swapchain; depth write iff not swapchain and not translucent |
| PipelineState.DepthRules | Source/RasterizedDataCollector.cpp:127-137 | depth is written only where tested and never for translucent geometry; the swapchain pass uses neither; opaque world and sky geometry always writes |
| PipelineState.WorldAndSkyAgree | Source/RasterizedDataCollector.cpp:127-137 | world and sky geometry get the same pipeline; the swapchain's is the world's without the two depth flags |
| DrawFrameInfo.InvalidBelow | Source/DrawFrameInfo.h:309-316 | the nodes reported before a position are exactly those with an invalid sType, in chain order |
| DrawFrameInfo.Scan | Source/DrawFrameInfo.h:284-319 | the loop from node i finds the first node of the kind at or after i, or null when there is none, having reported every invalid node before where it stopped |
| DrawFrameInfo.TryAccessParams | Source/DrawFrameInfo.h:281-320 | the node returned is the first of the kind; null exactly when no node is of the kind; every invalid node before it (or in the whole chain) is reported and skipped |
| DrawFrameInfo.AccessParams | Source/DrawFrameInfo.h:324-334 | without a node of the kind the defaults are used; otherwise the contents of the first node of that kind in the chain |
| DrawFrameInfo.DrawFrameInfoCopy | Source/DrawFrameInfo.h:348-378 | the copy holds one node per struct kind, linked in a fixed order, each with what AccessParams finds in the original |
| DrawFrameInfo.CopyOrderCoversEachOnce | Source/DrawFrameInfo.h:366-376 | the copy links every struct kind exactly once |
| DrawFrameInfo.CopyPreservesLookups | Source/DrawFrameInfo.h:348-378 | every lookup on the copy succeeds, reports nothing, and gives what it gives on the original chain |
| DrawFrameInfo.NoInvalidInCopy | Source/DrawFrameInfo.h:355-376 | the copy holds no node with an invalid sType |
| DrawFrameInfo.CopyIdempotent | Source/DrawFrameInfo.h:348-378 | copying a copy changes nothing |
| VertexData.GetVertIndicesStatic | Source/Shaders/VertexData.inl:136-153 | the three corners read through the static index buffer: base vertex plus the entry at baseIndexIndex + 3p + k, or base vertex + 3p + k without an index buffer, all modulo 2^32 |
| VertexData.GetVertIndicesDynamic | Source/Shaders/VertexData.inl:155-172 | the same three corners read through the dynamic index buffer |
| VertexData.GetGeometryIndex | Source/Shaders/VertexData.inl:259-262 | the result stays in the signed 32-bit range and is the instance's offset plus the local index whenever that sum fits |

## Left out

- File writing, command-line handling and the binding-table emitter of the shader-common generator; rendering is modelled as declarations and the text they print as.
- The shader build's directory walk, time stamps, include search and compiler run are inputs of the model. So are the console and file writes. Reading the cache file is modelled from its text.
- The shader build keeps its extension list as written, including the entry "frag" without a leading dot.
- MAX_TOP_LEVEL_INSTANCE_COUNT is 45, the value the static_assert of Source/VertexCollectorFilterType.cpp fixes. The larger value in the generator's constant table is not used.
- Vulkan objects, memory, barriers and command recording are left out throughout, because they are foreign calls with no logic of their own. Handles are Options of opaque numbers, with None for VK_NULL_HANDLE.
- Flag words from generated headers are sets of named flags, because their bit values are not part of this model. This covers the instance, pipeline and image flags.
- Float arithmetic is not modelled. The following become booleans, exact rationals or parameters:
  - the alpha and emissive tests of ToPipelineState;
  - the Halton division and the 0.5 offset;
  - the ceil of the blue-noise tile count;
  - the reservoir's float fields.
- RandomSeed.GetRandomSeed: pixel coordinates are taken as non-negative, because the shader gets them from gl_LaunchID. The countY the source computes is unused, so it is not modelled.
- LightGrid.UnpackReservoir: the source never assigns W. Its value is the parameter unset.
- Halton: the lazy initialization of the two tables is not modelled, because it only changes when they are computed.
- SectorVisibility, LightLists and GeomInfo follow the .cpp files where the headers are stale. This covers SectorVisibility.h, the unordered_map in LightLists.h, and the [2][36] arrays of GeomInfoManager.h:133-134.
- GeomInfo does not model the following, because they move matrices and previous-frame data through buffers and make no decisions the model could state:
  - the previous-frame matching: matchPrev, FillWithPrevFrameData, WriteInfoForNextUsage, ResetMatchPrevForGroup and the first half of CopyFromStaging;
  - WriteStaticGeomInfoMaterials and WriteStaticGeomInfoTransform.
- GeomInfo.Initial: the state ResetWithStatic leaves is the same as the constructor's. It is not a member of its own.
- GeomInfo.RegionCopies: its own ensures bounds only the number of copies. What the copies are is stated by RegionCopiesComplete.
- GeomInfo.ConvertSimpleIndexToGlobal: its own ensures gives only a lower bound. The exact value for a written geometry is stated by GlobalIndexOfWritten.
- LightLists.InsertLight: the iteration order of the unordered set is a parameter. The lists it yields are stated by InsertLightAppendsToTargets for every order.
- DrawFrameInfo: a chain whose pNext links back on itself is not modelled, because the source would loop forever. Node contents other than sType are opaque values. AccessParamsForWrite is left out, because it is AccessParams without const.
- LibraryConfig: a "\r" at the end of a line is kept, as text-mode reading on POSIX keeps it. A line "developer\r" therefore turns nothing on.
- VertexData: getPrevVertIndicesDynamic is left out, because it is getVertIndicesDynamic on the previous frame's buffers. getCurrentGeometryIndexByPrev is left out, because it reads a matching buffer this model does not hold. Out-of-bounds index reads are preconditions, since they are undefined in the shader.
- Windows root names in paths are not modelled; paths use '/' only.
- ShaderLayout.CLayoutMatchesStd430 compares the C size only with the generator's own std430 size sum. Field offsets and the true std430 size are proved only under ReadyLayoutsAgree's precondition, and for the corrected AlignedStructDecls. A struct without align16 gets no pads and no layout claim.
- ShaderLayout.AlignedStructDecls refuses, with NoStd430Twin, a member that std430 pads inside. These are an array of 3-vectors (stride 16 against 12 bytes in C) and a matrix with 3-component columns (mat3 takes 48 bytes against 36). The fix for those would change the C declaration itself, which is not modelled.
- Assertions compiled out in the release build are not errors in these places; the model continues as that build does:
  - SpanCounted.Counted.Increment: SpanCounted.h:51;
  - SpanCounted.Incremental.Add: SpanCounted.h:113 and 120;
  - GeomInfo.GetMaterialBlendFlags: GeomInfoManager.cpp:52;
  - LightLists: LightLists.cpp:86 and 147-150;
  - ScratchImmediate.GetIndices: ScratchImmediate.cpp:66-72;
  - TriangleInfo.UploadAsWritten and TriangleInfo.Upload: TriangleInfoManager.cpp:55, where a non-empty STATIC_MOVABLE upload returns NO_TRIANGLE_INFO;
  - Framebuffers.EffectsDestination and Framebuffers.BlitForEffects: Framebuffers.cpp:453, where an unexpected destination continues with PING;
  - Framebuffers.GetFramebufSize and Framebuffers.BloomDownscale: Framebuffers.cpp:682, where a bloom-sized image outside the eight mips keeps the render size;
  - VertexCollectorFilter.GetNameForBLAS: VertexCollectorFilterType.cpp:196, where no covering entry gives nullptr (None).
- ShaderBuild: Python set iteration order is not modelled. The order depends on the per-run string hash seed. It decides three things, and the model fixes first-occurrence order for each:
  - the order of the include list written to the cache (GenerateShaders.py:262-264);
  - the order of the wereDependentModified walk (GenerateShaders.py:46);
  - the order of DEPENDENCY_FOLDERS (GenerateShaders.py:32).

  With a dependency key missing from the map, the walk order decides whether the run raises KeyError or reports a modification first. WereDependentModifiedIffStaleChain and BuildShadersNeverCrash assume every key is present, so the order cannot change their results.
- ShaderBuild: an "#include" line with no double quote makes `line.split("\"")[1]` raise an uncaught IndexError (GenerateShaders.py:199 and 229). The model takes the resolved include candidates as input, so it has no such error path.
- ShaderBuild.ParseFailsIffBadLine: a time is an optional sign and ASCII digits. Python's int() also reads underscores between digits and non-ASCII decimal digits, so a hand-edited time such as "1_000" is a bad line here but is read by the script.
- ShaderBuild.CacheFileRoundTrip: the script skips only paths containing ' ' (GenerateShaders.py:180 and 217). A name with a tab or another str.isspace character is still cached, and the next read splits it and empties both maps (TabbedNameEmptiesCache). The round trip's Writable precondition excludes such names.
- TextureOverrides: image loading is left out, because it is I/O.

## Findings

| source | as written | input that shows it | evidently intended | confidence | as-written member | corrected member |
|---|---|---|---|---|---|---|
| Source/ScratchImmediate.cpp:37-40 | `std::max( 0u, vertexCount - 2 )` takes the max of unsigned values, so below two vertices the subtraction wraps first | a strip or fan with 1 vertex: 2^32 - 1 triangles, index count 2^32 - 3 | no triangle below two vertices | not executed | ScratchImmediate.TriangleCountAsWritten, ScratchImmediate.ShortStripWraps, ScratchImmediate.ShortStripEmptiesCache | ScratchImmediate.TriangleCount, ScratchImmediate.TriangleCountByTopology |
| Source/ScratchImmediate.cpp:186-205 | all four topologies grow and read the one cache indicesTriangles | a triangle list of 3 vertices, then a strip of 4 vertices: the strip's fourth index is 3, where the strip pattern (0, 1, 2, 1, 3, 2) needs 1 | a cache per topology | not executed | ScratchImmediate.GetIndices, ScratchImmediate.SharedCacheServesWrongPattern | ScratchImmediate.GetIndicesPerTopology, ScratchImmediate.PerTopologyServesRightPattern |
| Source/ScratchImmediate.cpp:54-73 | the assertions ALLOC_STEP % 3 == 0 and rounded size % 3 == 0 with ALLOC_STEP = 256 | any call, since ALLOC_STEP % 3 == 0 is checked on every call; also 3 indices round up to 256, which is not a multiple of 3 | an allocation step that is a whole number of triangles and quads | not executed | ScratchImmediate.AllocStepIsNotWholeTriangles | ScratchImmediate.NextWholeAllocStep, ScratchImmediate.NextWholeAllocStepIsWhole |
| Source/LightLists.cpp:140-155 | the end offset is start + the full list size, but the copy stops at MAX_LIGHT_LIST_SIZE entries | sector 0 with 1025 lights and sector 1 with one: sector 0's region is [0, 1025) and sector 1's starts at 1024 | end = start + the entries actually written | not executed | LightLists.BuildArrays, LightLists.LongListOverlapsNext, LightLists.OverlapExample | LightLists.BuildArraysCorrected, LightLists.CorrectedRegionsTile |
| Source/TriangleInfoManager.cpp:124-137 | when an unknown sector ID throws during the loop, tempValues keeps the indices pushed so far | a known ID followed by an unknown one: the next upload fails the assertion that tempValues is empty | the temporary vector is cleared whatever the outcome | not executed | TriangleInfo.UploadAsWritten, TriangleInfo.RejectedUploadPoisonsNext | TriangleInfo.Upload, TriangleInfo.RejectedUploadIsHarmless |
| Source/TextureOverrides.cpp:133-148 | the postfix is concatenated and then replace_extension is applied again, which drops everything after the last dot | relative path "a.b.c" with postfix "_n" and extension ".ktx2" gives "a.ktx2", the same as with no postfix | the postfix kept before the requested extension, "a.b_n.ktx2" | not executed | TextureOverrides.GetTexturePath, TextureOverrides.PostfixLostAfterInnerDot | TextureOverrides.GetTexturePathCorrected, TextureOverrides.CorrectedKeepsPostfix |
| Source/Generated/GenerateShaderCommon.py:307-331 | pads are sized from the std430 size table and added after a member, never before it, so a member's C offset ignores its std430 alignment | the 16-byte-aligned struct { float a; vec3 b; }: C puts b at byte 4 and takes 32 bytes, std430 puts b at byte 16 and takes 48 | the C and GLSL structs with the same field offsets and size | not executed | ShaderLayout.StructDecls, ShaderLayout.AsWrittenVec3Misplaced | ShaderLayout.AlignedStructDecls, ShaderLayout.AlignedLayoutsAgree |

=== FILE: draw_frame_info.dfy ===
/** DrawFrameInfo.h: the optional parameter structs a frame is drawn with, passed as a chain
    linked through pNext, looked up by their sType, and copied into a chain the library owns.
    The chain is the sequence of nodes met from the list start; a chain that links back on itself
    is not modelled. Node contents other than sType and pNext are an opaque value. */
module DrawFrameInfo {
  import opened Wrappers

  /** The ten parameter structs, in the order of the case labels of TryAccessParams. */
  datatype Kind = RenderResolution | Illumination | Volumetric | Tonemapping | Bloom
                | ReflectRefract | Sky | Textures | Lightmap | PostEffects

  /** The sType read from a node: one of the ten, or RG_STRUCTURE_TYPE_NONE or an unknown value. */
  datatype SType = Valid(kind: Kind) | Invalid(code: int)

  /** A struct's members after sType and pNext: the caller's values, or DefaultParams<T>::value. */
  datatype Fields = Supplied(id: nat) | Defaults

  datatype Node = Node(sType: SType, fields: Fields)

  /** What a lookup does: the index of the node returned, if any, and the indices of the nodes
      reported by debug::Error as having an invalid sType, in the order they were met. */
  datatype Lookup = Lookup(found: Option<nat>, reported: seq<nat>)

  /** The indices below end whose node has an invalid sType, in increasing order. */
  function InvalidBelow(chain: seq<Node>, end: nat): (r: seq<nat>)
    requires end <= |chain|
    ensures forall i :: 0 <= i < |r| ==> r[i] < end && chain[r[i]].sType.Invalid?
    ensures forall j :: 0 <= j < end && chain[j].sType.Invalid? ==> j in r
    ensures forall i, j :: 0 <= i < j < |r| ==> r[i] < r[j]
  {
    if end == 0 then []
    else
      var r := InvalidBelow(chain, end - 1);
      if chain[end - 1].sType.Invalid? then r + [end - 1] else r
  }

  /** The loop of TryAccessParams from node i on, with the reports made before i. */
  function Scan(chain: seq<Node>, k: Kind, i: nat): (r: Lookup)
    requires i <= |chain|
    requires forall j :: 0 <= j < i ==> chain[j].sType != Valid(k)
    ensures r.found.Some? ==> i <= r.found.value < |chain| && chain[r.found.value].sType == Valid(k)
    ensures r.found.Some? ==> forall j :: 0 <= j < r.found.value ==> chain[j].sType != Valid(k)
    ensures r.found.None? <==> forall j :: i <= j < |chain| ==> chain[j].sType != Valid(k)
    ensures r.reported == InvalidBelow(chain, if r.found.Some? then r.found.value else |chain|)
    decreases |chain| - i
  {
    if i == |chain| then Lookup(None, InvalidBelow(chain, |chain|))
    else if chain[i].sType == Valid(k) then Lookup(Some(i), InvalidBelow(chain, i))
    else Scan(chain, k, i + 1)
  }

  /** TryAccessParams: the first node whose sType is that of the struct looked for, or null;
      every node with an invalid sType met on the way is reported and skipped. */
  function TryAccessParams(chain: seq<Node>, k: Kind): (r: Lookup)
    ensures r.found.Some? ==> r.found.value < |chain| && chain[r.found.value].sType == Valid(k)
    ensures r.found.Some? ==> forall j :: 0 <= j < r.found.value ==> chain[j].sType != Valid(k)
    ensures r.found.None? <==> forall j :: 0 <= j < |chain| ==> chain[j].sType != Valid(k)
    ensures r.reported == InvalidBelow(chain, if r.found.Some? then r.found.value else |chain|)
  {
    Scan(chain, k, 0)
  }

  /** No node before j has the kind k. */
  predicate FirstOfKind(chain: seq<Node>, k: Kind, j: nat)
    requires j <= |chain|
  {
    forall i :: 0 <= i < j ==> chain[i].sType != Valid(k)
  }

  /** AccessParams: the contents of the first node of the kind, or the library's defaults. */
  function AccessParams(chain: seq<Node>, k: Kind): (r: Fields)
    ensures (forall j :: 0 <= j < |chain| ==> chain[j].sType != Valid(k)) ==> r == Defaults
    ensures r != Defaults ==> exists j :: 0 <= j < |chain| && chain[j] == Node(Valid(k), r)
    ensures forall j :: 0 <= j < |chain| && chain[j].sType == Valid(k) && FirstOfKind(chain, k, j) ==>
      r == chain[j].fields
  {
    var l := TryAccessParams(chain, k);
    if l.found.Some? then chain[l.found.value].fields else Defaults
  }

  /** The order DrawFrameInfoCopy links its storages in, from info.pParams to the node whose
      pNext is null. */
  const CopyOrder: seq<Kind> := [PostEffects, Lightmap, Textures, Sky, ReflectRefract, Bloom,
                                 Tonemapping, Volumetric, Illumination, RenderResolution]

  /** The DrawFrameInfoCopy constructor: one storage per struct, filled by AccessParams on the
      original chain and linked in CopyOrder. */
  function DrawFrameInfoCopy(chain: seq<Node>): (r: seq<Node>)
    ensures |r| == |CopyOrder| == 10
    ensures forall i :: 0 <= i < 10 ==> r[i] == Node(Valid(CopyOrder[i]), AccessParams(chain, CopyOrder[i]))
  {
    seq(10, i requires 0 <= i < 10 => Node(Valid(CopyOrder[i]), AccessParams(chain, CopyOrder[i])))
  }

  /** Every struct appears exactly once in CopyOrder. */
  lemma CopyOrderCoversEachOnce(k: Kind)
    ensures exists i :: 0 <= i < 10 && CopyOrder[i] == k
    ensures forall i, j :: 0 <= i < j < 10 ==> CopyOrder[i] != CopyOrder[j]
  {
    match k
    case RenderResolution => assert CopyOrder[9] == k;
    case Illumination => assert CopyOrder[8] == k;
    case Volumetric => assert CopyOrder[7] == k;
    case Tonemapping => assert CopyOrder[6] == k;
    case Bloom => assert CopyOrder[5] == k;
    case ReflectRefract => assert CopyOrder[4] == k;
    case Sky => assert CopyOrder[3] == k;
    case Textures => assert CopyOrder[2] == k;
    case Lightmap => assert CopyOrder[1] == k;
    case PostEffects => assert CopyOrder[0] == k;
  }

  /** The copy answers every lookup as the original does, finds every struct, and reports no
      invalid node. */
  lemma CopyPreservesLookups(chain: seq<Node>, k: Kind)
    ensures AccessParams(DrawFrameInfoCopy(chain), k) == AccessParams(chain, k)
    ensures TryAccessParams(DrawFrameInfoCopy(chain), k).found.Some?
    ensures TryAccessParams(DrawFrameInfoCopy(chain), k).reported == []
  {
    var c := DrawFrameInfoCopy(chain);
    CopyOrderCoversEachOnce(k);
    var i :| 0 <= i < 10 && CopyOrder[i] == k;
    assert c[i].sType == Valid(k);
    var l := TryAccessParams(c, k);
    assert l.found == Some(i) by {
      assert forall j :: 0 <= j < 10 && j != i ==> c[j].sType != Valid(k);
    }
    NoInvalidInCopy(chain, i);
  }

  /** The copy holds no node with an invalid sType. */
  lemma NoInvalidInCopy(chain: seq<Node>, end: nat)
    requires end <= 10
    ensures InvalidBelow(DrawFrameInfoCopy(chain), end) == []
  {
    var c := DrawFrameInfoCopy(chain);
    assert forall j :: 0 <= j < 10 ==> c[j].sType.Valid?;
  }

  /** Copying a copy changes nothing. */
  lemma CopyIdempotent(chain: seq<Node>)
    ensures DrawFrameInfoCopy(DrawFrameInfoCopy(chain)) == DrawFrameInfoCopy(chain)
  {
    var c := DrawFrameInfoCopy(chain);
    forall i | 0 <= i < 10
      ensures DrawFrameInfoCopy(c)[i] == c[i]
    {
      CopyPreservesLookups(chain, CopyOrder[i]);
    }
  }
}

=== FILE: file_dependency.dfy ===
/** MakeFileType of IFileDependency.h: the type of a watched file, from its extension compared
    case-insensitively. */
module FileDependency {
  import opened Paths
  import opened Text

  datatype FileType = Unknown | Gltf | Ktx2 | Png | Tga | Jpg

  /** The lower-case extensions, dot included, that name each type. */
  function Extensions(t: FileType): (r: set<string>)
    ensures t.Unknown? <==> r == {}
  {
    match t
    case Unknown => {}
    case Gltf => {".gltf"}
    case Ktx2 => {".ktx2"}
    case Png => {".png"}
    case Tga => {".tga"}
    case Jpg => {".jpg", ".jpeg"}
  }

  /** MakeFileType: the extension lower-cased, then compared with each known one in turn. */
  function MakeFileType(p: Path): (r: FileType)
    ensures r != Unknown ==> ToLower(Extension(p)) in Extensions(r)
  {
    var ext := ToLower(Extension(p));
    if ext == ".gltf" then Gltf
    else if ext == ".ktx2" then Ktx2
    else if ext == ".png" then Png
    else if ext == ".tga" then Tga
    else if ext == ".jpg" || ext == ".jpeg" then Jpg
    else Unknown
  }

  /** A path has a known type exactly when its lower-cased extension is one of that type's. */
  lemma MakeFileTypeMatchesTable(p: Path, t: FileType)
    requires t != Unknown
    ensures MakeFileType(p) == t <==> ToLower(Extension(p)) in Extensions(t)
  {
  }

  /** Lower-casing distributes over concatenation. */
  lemma ToLowerConcat(a: string, b: string)
    ensures ToLower(a + b) == ToLower(a) + ToLower(b)
  {
    assert forall i :: 0 <= i < |a + b| ==> ToLower(a + b)[i] == (ToLower(a) + ToLower(b))[i];
  }

  /** Matching ignores case: a file named with a plain extension s has the type its lower-cased
      form names, whatever the case of s. */
  lemma TypeIgnoresCase(base: Path, s: string)
    requires Filename(base) != "" && Plain(s) && |s| > 0
    ensures MakeFileType(base + "." + s) == MakeFileType(base + "." + ToLower(s))
    ensures ToLower(Extension(base + "." + s)) == "." + ToLower(s)
  {
    AddExtension(base, s);
    ToLowerConcat(".", s);
    assert ToLower(".") == ".";
    LowerIsPlain(s);
    AddExtension(base, ToLower(s));
    ToLowerIdempotent(s);
    ToLowerConcat(".", ToLower(s));
  }

  /** Lower-casing keeps a name plain and non-empty. */
  lemma LowerIsPlain(s: string)
    requires Plain(s)
    ensures Plain(ToLower(s)) && |ToLower(s)| == |s|
  {
  }
}

=== FILE: filter_type.dfy ===
/** Vertex collector filter types: every piece of geometry is classified by three flag groups
    (change frequency, pass-through, primary visibility), each flag a single bit. Init numbers the
    3 x 3 x 5 combinations in loop order and lays out, for each, a contiguous region of the global
    array of bottom-level geometries; lookups decode a flag word back to its table cell. */
module VertexCollectorFilter {
  import opened Wrappers
  import opened Machine

  type Flags = bv32

  const OffsetCF: bv32 := 0
  const OffsetPT: bv32 := 3
  const OffsetPV: bv32 := 6

  const CfStaticNonMovable: Flags := 1 << OffsetCF
  const CfStaticMovable: Flags := 2 << OffsetCF
  const CfDynamic: Flags := 4 << OffsetCF
  const MaskCF: Flags := 7 << OffsetCF

  const PtOpaque: Flags := 1 << OffsetPT
  const PtAlphaTested: Flags := 2 << OffsetPT
  const PtRefract: Flags := 4 << OffsetPT
  const MaskPT: Flags := 7 << OffsetPT

  const PvWorld0: Flags := 1 << OffsetPV
  const PvWorld1: Flags := 2 << OffsetPV
  const PvWorld2: Flags := 4 << OffsetPV
  const PvFirstPerson: Flags := 8 << OffsetPV
  const PvFirstPersonViewer: Flags := 16 << OffsetPV
  const MaskPV: Flags := 31 << OffsetPV

  /** The three groups in declaration order; Init loops over them nested in this order. */
  const GroupCF: seq<Flags> := [CfStaticNonMovable, CfStaticMovable, CfDynamic]
  const GroupPT: seq<Flags> := [PtOpaque, PtAlphaTested, PtRefract]
  const GroupPV: seq<Flags> := [PvWorld0, PvWorld1, PvWorld2, PvFirstPerson, PvFirstPersonViewer]

  /** MAX_TOP_LEVEL_INSTANCE_COUNT, which a static assertion ties to 3 * 3 * 5. */
  const MaxTopLevelInstanceCount: nat := 45

  /** Dimensions of the lookup tables: the largest flag value of each group. */
  const MaxFlagCF: nat := 4
  const MaxFlagPT: nat := 4
  const MaxFlagPV: nat := 16
  const TableSize: nat := 256

  /** The n-th combination of Init's loops, n < 45: position in each group. */
  function CfPos(n: nat): nat { n / 5 / 3 }
  function PtPos(n: nat): nat { n / 5 % 3 }
  function PvPos(n: nat): nat { n % 5 }

  /** The flag word of the n-th combination. */
  function ComboFlags(n: nat): Flags
    requires n < MaxTopLevelInstanceCount
  {
    GroupCF[CfPos(n)] | GroupPT[PtPos(n)] | GroupPV[PvPos(n)]
  }

  /** Flat index of a table cell: flag values are decremented, since flag bits start at 1. */
  function Slot(cf: nat, pt: nat, pv: nat): nat
    requires 0 < cf <= MaxFlagCF && 0 < pt <= MaxFlagPT && 0 < pv <= MaxFlagPV
  {
    (cf - 1) * 64 + (pt - 1) * 16 + (pv - 1)
  }

  /** The value of the i-th flag of a group, shifted down to bit 0. */
  function CfValue(i: nat): nat requires i < 3 { [1, 2, 4][i] }
  function PtValue(j: nat): nat requires j < 3 { [1, 2, 4][j] }
  function PvValue(k: nat): nat requires k < 5 { [1, 2, 4, 8, 16][k] }

  lemma ValuesInjective(i: nat, i': nat, j: nat, j': nat, k: nat, k': nat)
    requires i < 3 && i' < 3 && j < 3 && j' < 3 && k < 5 && k' < 5
    ensures CfValue(i) == CfValue(i') ==> i == i'
    ensures PtValue(j) == PtValue(j') ==> j == j'
    ensures PvValue(k) == PvValue(k') ==> k == k'
  {
  }

  function ComboSlot(n: nat): (s: nat)
    requires n < MaxTopLevelInstanceCount
    ensures s < TableSize
  {
    Slot(CfValue(CfPos(n)), PtValue(PtPos(n)), PvValue(PvPos(n)))
  }

  /** The static tables Init fills: FlagToIndex (0xFF where unused), the offset and the amount of
      each group's region, and the running total AllBottomLevelGeomsCount, all uint32. */
  datatype Tables = Tables(flagToIndex: seq<nat>, offset: seq<nat>, amount: seq<nat>, total: nat)

  predicate WellSized(t: Tables) {
    |t.flagToIndex| == TableSize && |t.offset| == TableSize && |t.amount| == TableSize
  }

  /** First-person and first-person-viewer geometry gets the lower amount. */
  function AmountOf(n: nat, lower: nat, max: nat): nat
    requires n < MaxTopLevelInstanceCount
  {
    if GroupPV[PvPos(n)] & PvFirstPerson != 0 || GroupPV[PvPos(n)] & PvFirstPersonViewer != 0 then lower else max
  }

  /** The loop body of Init for combination n. */
  function InitStep(t: Tables, n: nat, lower: nat, max: nat): (r: Tables)
    requires WellSized(t) && n < MaxTopLevelInstanceCount
    ensures WellSized(r)
  {
    var s := ComboSlot(n);
    var count := AmountOf(n, lower, max);
    Tables(t.flagToIndex[s := n], t.offset[s := t.total], t.amount[s := count], (t.total + count) % Pow32)
  }

  function InitFrom(t: Tables, n: nat, lower: nat, max: nat): (r: Tables)
    requires WellSized(t) && n <= MaxTopLevelInstanceCount
    ensures WellSized(r)
    decreases MaxTopLevelInstanceCount - n
  {
    if n == MaxTopLevelInstanceCount then t else InitFrom(InitStep(t, n, lower, max), n + 1, lower, max)
  }

  /** VertexCollectorFilterTypeFlags_Init; the amount table keeps whatever it held before, which
      for the first call is zero-initialised static storage. */
  function Init(lower: nat, max: nat): (r: Tables)
    ensures WellSized(r)
    ensures OnlyCombos(r, MaxTopLevelInstanceCount)
  {
    var t0 := Tables(seq(TableSize, _ => 0xFF), seq(TableSize, _ => 0), seq(TableSize, _ => 0), 0);
    InitFromFills(t0, 0, lower, max);
    InitFrom(t0, 0, lower, max)
  }

  /** Sum of the amounts of the combinations before n. */
  function Prefix(n: nat, lower: nat, max: nat): nat
    requires n <= MaxTopLevelInstanceCount
  {
    if n == 0 then 0 else Prefix(n - 1, lower, max) + AmountOf(n - 1, lower, max)
  }

  /** What Init has established after the first n combinations. */
  ghost predicate Filled(t: Tables, n: nat, lower: nat, max: nat)
    requires n <= MaxTopLevelInstanceCount
  {
    WellSized(t) && t.total == Prefix(n, lower, max) % Pow32 &&
    FilledCombos(t, n, lower, max) && OnlyCombos(t, n)
  }

  ghost predicate FilledCombos(t: Tables, n: nat, lower: nat, max: nat)
    requires WellSized(t) && n <= MaxTopLevelInstanceCount
  {
    forall m :: 0 <= m < n ==>
      t.flagToIndex[ComboSlot(m)] == m && t.offset[ComboSlot(m)] == Prefix(m, lower, max) % Pow32 &&
      t.amount[ComboSlot(m)] == AmountOf(m, lower, max)
  }

  ghost predicate OnlyCombos(t: Tables, n: nat)
    requires WellSized(t) && n <= MaxTopLevelInstanceCount
  {
    forall s :: 0 <= s < TableSize ==>
      t.flagToIndex[s] == 0xFF || (t.flagToIndex[s] < n && ComboSlot(t.flagToIndex[s]) == s)
  }

  /** Position in each group determines the combination. */
  lemma ComboPositions(n: nat, m: nat)
    requires n < MaxTopLevelInstanceCount && m < MaxTopLevelInstanceCount
    requires CfPos(n) == CfPos(m) && PtPos(n) == PtPos(m) && PvPos(n) == PvPos(m)
    ensures n == m
  {
    Decompose(n);
    Decompose(m);
  }

  lemma Decompose(n: nat)
    ensures n == 15 * CfPos(n) + 5 * PtPos(n) + PvPos(n)
  {
    var q := n / 5;
    assert n == 5 * q + n % 5;
    assert q == 3 * (q / 3) + q % 3;
  }

  /** Different combinations use different table cells. */
  lemma ComboSlotInjective(n: nat, m: nat)
    requires n < MaxTopLevelInstanceCount && m < MaxTopLevelInstanceCount
    requires ComboSlot(n) == ComboSlot(m)
    ensures n == m
  {
    SlotInjective(CfValue(CfPos(n)), PtValue(PtPos(n)), PvValue(PvPos(n)), CfValue(CfPos(m)), PtValue(PtPos(m)), PvValue(PvPos(m)));
    ValuesInjective(CfPos(n), CfPos(m), PtPos(n), PtPos(m), PvPos(n), PvPos(m));
    ComboPositions(n, m);
  }

  lemma ModAdd(a: nat, b: nat)
    ensures (a % Pow32 + b) % Pow32 == (a + b) % Pow32
  {
  }

  lemma InitStepFilledCombos(t: Tables, n: nat, lower: nat, max: nat)
    requires n < MaxTopLevelInstanceCount && WellSized(t) && FilledCombos(t, n, lower, max)
    requires t.total == Prefix(n, lower, max) % Pow32
    ensures FilledCombos(InitStep(t, n, lower, max), n + 1, lower, max)
  {
    var r := InitStep(t, n, lower, max);
    var sn := ComboSlot(n);
    forall m | 0 <= m < n + 1
      ensures r.flagToIndex[ComboSlot(m)] == m && r.offset[ComboSlot(m)] == Prefix(m, lower, max) % Pow32 &&
              r.amount[ComboSlot(m)] == AmountOf(m, lower, max)
    {
      if m < n && ComboSlot(m) == sn {
        ComboSlotInjective(m, n);
      }
    }
  }

  lemma InitStepTotal(t: Tables, n: nat, lower: nat, max: nat)
    requires n < MaxTopLevelInstanceCount && WellSized(t) && t.total == Prefix(n, lower, max) % Pow32
    ensures InitStep(t, n, lower, max).total == Prefix(n + 1, lower, max) % Pow32
  {
    var p := Prefix(n, lower, max);
    var a := AmountOf(n, lower, max);
    assert Prefix(n + 1, lower, max) == p + a;
    assert InitStep(t, n, lower, max).total == (p % Pow32 + a) % Pow32;
    ModAdd(p, a);
  }

  lemma InitStepOnlyCombos(t: Tables, n: nat, lower: nat, max: nat)
    requires n < MaxTopLevelInstanceCount && WellSized(t) && OnlyCombos(t, n)
    ensures OnlyCombos(InitStep(t, n, lower, max), n + 1)
  {
  }

  lemma InitStepFills(t: Tables, n: nat, lower: nat, max: nat)
    requires n < MaxTopLevelInstanceCount && Filled(t, n, lower, max)
    ensures Filled(InitStep(t, n, lower, max), n + 1, lower, max)
  {
    InitStepFilledCombos(t, n, lower, max);
    InitStepOnlyCombos(t, n, lower, max);
    InitStepTotal(t, n, lower, max);
  }

  lemma {:induction false} InitFromFills(t: Tables, n: nat, lower: nat, max: nat)
    requires n <= MaxTopLevelInstanceCount && Filled(t, n, lower, max)
    ensures Filled(InitFrom(t, n, lower, max), MaxTopLevelInstanceCount, lower, max)
    decreases MaxTopLevelInstanceCount - n
  {
    if n < MaxTopLevelInstanceCount {
      InitStepFills(t, n, lower, max);
      InitFromFills(InitStep(t, n, lower, max), n + 1, lower, max);
    }
  }

  /** Init numbers the combinations in loop order, stores every region's offset as the sum of
      the amounts before it (modulo 2^32), and leaves every other cell of FlagToIndex at 0xFF. */
  lemma InitFillsTables(lower: nat, max: nat)
    ensures Filled(Init(lower, max), MaxTopLevelInstanceCount, lower, max)
  {
    var t0 := Tables(seq(TableSize, _ => 0xFF), seq(TableSize, _ => 0), seq(TableSize, _ => 0), 0);
    InitFromFills(t0, 0, lower, max);
  }

  // ---------------------------------------------------------------- lookups

  /** The three fields of a flag word, as the shifted group values. */
  function FieldCF(flags: Flags): nat { ((flags & MaskCF) >> OffsetCF) as nat }
  function FieldPT(flags: Flags): nat { ((flags & MaskPT) >> OffsetPT) as nat }
  function FieldPV(flags: Flags): nat { ((flags & MaskPV) >> OffsetPV) as nat }

  /** GetIndices: the table cell of a flag word; None where one of its assertions fails (a group
      with no bit or a value past the table, or a cell Init never filled, such as two bits set in
      one group). */
  function GetIndices(t: Tables, flags: Flags): (r: Option<nat>)
    requires WellSized(t)
    ensures r.Some? ==> r.value < TableSize && t.flagToIndex[r.value] < MaxTopLevelInstanceCount
  {
    var cf, pt, pv := FieldCF(flags), FieldPT(flags), FieldPV(flags);
    if !(0 < cf <= MaxFlagCF && 0 < pt <= MaxFlagPT && 0 < pv <= MaxFlagPV) then None
    else
      var s := Slot(cf, pt, pv);
      if t.flagToIndex[s] < MaxTopLevelInstanceCount then Some(s) else None
  }

  /** VertexCollectorFilterTypeFlags_GetID: the number Init gave the flag word's cell. */
  function GetID(t: Tables, flags: Flags): (r: Option<nat>)
    requires WellSized(t)
    ensures r.Some? <==> GetIndices(t, flags).Some?
    ensures r.Some? ==> r.value < MaxTopLevelInstanceCount
  {
    var s :- GetIndices(t, flags);
    Some(t.flagToIndex[s])
  }

  /** VertexCollectorFilterTypeFlags_GetOffsetInGlobalArray: the offset stored for the flag word's cell; it
      fails exactly where GetID does. */
  function GetOffsetInGlobalArray(t: Tables, flags: Flags): (r: Option<nat>)
    requires WellSized(t)
    ensures r.Some? <==> GetID(t, flags).Some?
  {
    var s :- GetIndices(t, flags);
    Some(t.offset[s])
  }

  /** VertexCollectorFilterTypeFlags_GetAmountInGlobalArray: the amount stored for the flag word's cell; it
      fails exactly where GetID does. */
  function GetAmountInGlobalArray(t: Tables, flags: Flags): (r: Option<nat>)
    requires WellSized(t)
    ensures r.Some? <==> GetID(t, flags).Some?
  {
    var s :- GetIndices(t, flags);
    Some(t.amount[s])
  }

  lemma SplitFields(a: Flags, b: Flags, c: Flags)
    requires a & MaskCF == a && b & MaskPT == b && c & MaskPV == c
    ensures (a | b | c) & MaskCF == a && (a | b | c) & MaskPT == b && (a | b | c) & MaskPV == c
  {
  }

  /** The fields of the n-th combination are its flags' values within their groups. */
  lemma ComboFields(n: nat)
    requires n < MaxTopLevelInstanceCount
    ensures FieldCF(ComboFlags(n)) == CfValue(CfPos(n))
    ensures FieldPT(ComboFlags(n)) == PtValue(PtPos(n))
    ensures FieldPV(ComboFlags(n)) == PvValue(PvPos(n))
  {
    var a, b, c := GroupCF[CfPos(n)], GroupPT[PtPos(n)], GroupPV[PvPos(n)];
    SplitFields(a, b, c);
  }

  /** After Init every combination decodes to its own number, to the region Init laid out for it
      (offset = sum of the amounts before it, modulo 2^32) and to its amount. */
  lemma LookupCombo(lower: nat, max: nat, n: nat)
    requires n < MaxTopLevelInstanceCount
    ensures GetID(Init(lower, max), ComboFlags(n)) == Some(n)
    ensures GetOffsetInGlobalArray(Init(lower, max), ComboFlags(n)) == Some(Prefix(n, lower, max) % Pow32)
    ensures GetAmountInGlobalArray(Init(lower, max), ComboFlags(n)) == Some(AmountOf(n, lower, max))
  {
    InitFillsTables(lower, max);
    LookupComboFilled(Init(lower, max), lower, max, n);
  }

  lemma LookupComboFilled(t: Tables, lower: nat, max: nat, n: nat)
    requires n < MaxTopLevelInstanceCount && Filled(t, MaxTopLevelInstanceCount, lower, max)
    ensures GetID(t, ComboFlags(n)) == Some(n)
    ensures GetOffsetInGlobalArray(t, ComboFlags(n)) == Some(Prefix(n, lower, max) % Pow32)
    ensures GetAmountInGlobalArray(t, ComboFlags(n)) == Some(AmountOf(n, lower, max))
  {
    assert FilledCombos(t, MaxTopLevelInstanceCount, lower, max);
    var s := ComboSlot(n);
    assert t.flagToIndex[s] == n;
    DecodeCombo(t, n);
  }

  lemma DecodeCombo(t: Tables, n: nat)
    requires n < MaxTopLevelInstanceCount && WellSized(t)
    requires t.flagToIndex[ComboSlot(n)] == n
    ensures GetIndices(t, ComboFlags(n)) == Some(ComboSlot(n))
  {
    ComboFields(n);
  }

  lemma SlotInjective(a: nat, b: nat, c: nat, a': nat, b': nat, c': nat)
    requires 0 < a <= MaxFlagCF && 0 < b <= MaxFlagPT && 0 < c <= MaxFlagPV
    requires 0 < a' <= MaxFlagCF && 0 < b' <= MaxFlagPT && 0 < c' <= MaxFlagPV
    requires Slot(a, b, c) == Slot(a', b', c')
    ensures a == a' && b == b' && c == c'
  {
  }

  /** Only the 45 combinations decode after Init: a flag word with an ID carries exactly the
      bits of the combination with that number. */
  lemma LookupOnlyCombos(lower: nat, max: nat, flags: Flags)
    requires GetID(Init(lower, max), flags).Some?
    ensures var id := GetID(Init(lower, max), flags).value;
      id < MaxTopLevelInstanceCount &&
      flags & MaskCF == GroupCF[CfPos(id)] && flags & MaskPT == GroupPT[PtPos(id)] && flags & MaskPV == GroupPV[PvPos(id)]
  {
    InitFillsTables(lower, max);
    LookupOnlyCombosFilled(Init(lower, max), lower, max, flags);
  }

  lemma LookupOnlyCombosFilled(t: Tables, lower: nat, max: nat, flags: Flags)
    requires Filled(t, MaxTopLevelInstanceCount, lower, max)
    requires GetID(t, flags).Some?
    ensures var id := GetID(t, flags).value;
      id < MaxTopLevelInstanceCount &&
      flags & MaskCF == GroupCF[CfPos(id)] && flags & MaskPT == GroupPT[PtPos(id)] && flags & MaskPV == GroupPV[PvPos(id)]
  {
    assert OnlyCombos(t, MaxTopLevelInstanceCount);
    OnlyCombosDecode(t, flags);
  }

  lemma OnlyCombosDecode(t: Tables, flags: Flags)
    requires WellSized(t) && OnlyCombos(t, MaxTopLevelInstanceCount)
    requires GetIndices(t, flags).Some?
    ensures var id := t.flagToIndex[GetIndices(t, flags).value];
      id < MaxTopLevelInstanceCount &&
      flags & MaskCF == GroupCF[CfPos(id)] && flags & MaskPT == GroupPT[PtPos(id)] && flags & MaskPV == GroupPV[PvPos(id)]
  {
    var s := GetIndices(t, flags).value;
    var id := t.flagToIndex[s];
    var a, b, c := FieldCF(flags), FieldPT(flags), FieldPV(flags);
    assert ComboSlot(id) == s == Slot(a, b, c);
    SlotInjective(a, b, c, CfValue(CfPos(id)), PtValue(PtPos(id)), PvValue(PvPos(id)));
    CfFieldBits(flags, CfPos(id));
    PtFieldBits(flags, PtPos(id));
    PvFieldBits(flags, PvPos(id));
  }

  /** A field holding the value of the i-th flag of its group holds exactly that flag's bit. */
  lemma CfFieldBits(flags: Flags, i: nat)
    requires i < 3 && FieldCF(flags) == CfValue(i)
    ensures flags & MaskCF == GroupCF[i]
  {
    if i == 0 { FieldBits(flags, 1, 0, 0); } else if i == 1 { FieldBits(flags, 2, 0, 0); } else { FieldBits(flags, 4, 0, 0); }
  }

  lemma PtFieldBits(flags: Flags, j: nat)
    requires j < 3 && FieldPT(flags) == PtValue(j)
    ensures flags & MaskPT == GroupPT[j]
  {
    if j == 0 { FieldBits(flags, 0, 1, 0); } else if j == 1 { FieldBits(flags, 0, 2, 0); } else { FieldBits(flags, 0, 4, 0); }
  }

  lemma PvFieldBits(flags: Flags, k: nat)
    requires k < 5 && FieldPV(flags) == PvValue(k)
    ensures flags & MaskPV == GroupPV[k]
  {
    if k == 0 { FieldBits(flags, 0, 0, 1); } else if k == 1 { FieldBits(flags, 0, 0, 2); }
    else if k == 2 { FieldBits(flags, 0, 0, 4); } else if k == 3 { FieldBits(flags, 0, 0, 8); } else { FieldBits(flags, 0, 0, 16); }
  }

  lemma FieldBits(flags: Flags, a: bv32, b: bv32, c: bv32)
    requires a < 8 && b < 8 && c < 32
    ensures FieldCF(flags) == a as nat ==> flags & MaskCF == a << OffsetCF
    ensures FieldPT(flags) == b as nat ==> flags & MaskPT == b << OffsetPT
    ensures FieldPV(flags) == c as nat ==> flags & MaskPV == c << OffsetPV
  {
  }

  // ---------------------------------------------------------------- region layout

  lemma {:induction false} PrefixMonotone(n: nat, m: nat, lower: nat, max: nat)
    requires n <= m <= MaxTopLevelInstanceCount
    ensures Prefix(n, lower, max) <= Prefix(m, lower, max)
    decreases m - n
  {
    if n < m {
      PrefixMonotone(n, m - 1, lower, max);
    }
  }

  /** The regions Init lays out follow each other in loop order without overlapping. */
  lemma RegionsOrdered(lower: nat, max: nat, n: nat, m: nat)
    requires n < m < MaxTopLevelInstanceCount
    ensures Prefix(n, lower, max) + AmountOf(n, lower, max) <= Prefix(m, lower, max)
  {
    PrefixStep(n, lower, max);
    PrefixMonotone(n + 1, m, lower, max);
  }

  /** When the total fits in 32 bits no offset wraps. */
  lemma OffsetsFit(lower: nat, max: nat, n: nat)
    requires Prefix(MaxTopLevelInstanceCount, lower, max) < Pow32
    requires n < MaxTopLevelInstanceCount
    ensures Prefix(n, lower, max) % Pow32 == Prefix(n, lower, max)
  {
    PrefixMonotone(n, MaxTopLevelInstanceCount, lower, max);
  }

  lemma PrefixStep(n: nat, lower: nat, max: nat)
    requires n < MaxTopLevelInstanceCount
    ensures Prefix(n + 1, lower, max) == Prefix(n, lower, max) + AmountOf(n, lower, max)
  {
  }

  lemma EndsAtTotal(total: nat, lower: nat, max: nat)
    requires Prefix(MaxTopLevelInstanceCount, lower, max) < Pow32
    requires total == Prefix(MaxTopLevelInstanceCount, lower, max) % Pow32
    ensures Prefix(MaxTopLevelInstanceCount - 1, lower, max) + AmountOf(MaxTopLevelInstanceCount - 1, lower, max) == total
  {
    PrefixStep(MaxTopLevelInstanceCount - 1, lower, max);
  }

  /** When the total fits in 32 bits the last region ends exactly at AllBottomLevelGeomsCount. */
  lemma LastRegionEndsAtTotal(lower: nat, max: nat)
    requires Prefix(MaxTopLevelInstanceCount, lower, max) < Pow32
    ensures Prefix(MaxTopLevelInstanceCount - 1, lower, max) + AmountOf(MaxTopLevelInstanceCount - 1, lower, max) == Init(lower, max).total
  {
    InitTotal(lower, max);
    EndsAtTotal(Init(lower, max).total, lower, max);
  }

  lemma InitTotal(lower: nat, max: nat)
    ensures Init(lower, max).total == Prefix(MaxTopLevelInstanceCount, lower, max) % Pow32
  {
    InitFillsTables(lower, max);
  }

  /** Groups of first-person and first-person-viewer geometry get the lower amount, all others
      the maximum. */
  lemma LowerAmountForFirstPerson(n: nat, lower: nat, max: nat)
    requires n < MaxTopLevelInstanceCount
    ensures AmountOf(n, lower, max) == if GroupPV[PvPos(n)] in {PvFirstPerson, PvFirstPersonViewer} then lower else max
    ensures AmountOf(n, lower, max) == if PvPos(n) >= 3 then lower else max
  {
  }

  // ---------------------------------------------------------------- names of bottom-level structures

  datatype BlasName = BlasName(flags: Flags, name: string)

  const BlasNames: seq<BlasName> := [
    BlasName(CfStaticNonMovable | PtOpaque, "BLAS static opaque"),
    BlasName(CfStaticNonMovable | PtAlphaTested, "BLAS static alpha tested"),
    BlasName(CfStaticNonMovable | PtRefract, "BLAS static refract"),
    BlasName(CfStaticMovable | PtOpaque, "BLAS movable opaque"),
    BlasName(CfStaticMovable | PtAlphaTested, "BLAS movable alpha tested"),
    BlasName(CfStaticMovable | PtRefract, "BLAS movable refract"),
    BlasName(CfDynamic | PtOpaque, "BLAS dynamic opaque"),
    BlasName(CfDynamic | PtAlphaTested, "BLAS dynamic alpha tested"),
    BlasName(CfDynamic | PtRefract, "BLAS dynamic refract")
  ]

  predicate Covers(e: BlasName, flags: Flags) {
    e.flags & flags == e.flags
  }

  /** The name of the first entry of names, from i on, whose flags all appear in flags. */
  function FirstCovering(names: seq<BlasName>, flags: Flags, i: nat): (r: Option<string>)
    requires i <= |names|
    decreases |names| - i
  {
    if i == |names| then None
    else if Covers(names[i], flags) then Some(names[i].name)
    else FirstCovering(names, flags, i + 1)
  }

  /** VertexCollectorFilterTypeFlags_GetNameForBLAS; None where the source asserts. */
  function GetNameForBLAS(flags: Flags): (r: Option<string>)
    ensures r.None? <==> forall j :: 0 <= j < |BlasNames| ==> !Covers(BlasNames[j], flags)
  {
    FirstCoveringNone(BlasNames, flags, 0);
    FirstCovering(BlasNames, flags, 0)
  }

  lemma {:induction false} FirstCoveringNone(names: seq<BlasName>, flags: Flags, i: nat)
    requires i <= |names|
    ensures FirstCovering(names, flags, i).None? <==> forall j :: i <= j < |names| ==> !Covers(names[j], flags)
    decreases |names| - i
  {
    if i < |names| && !Covers(names[i], flags) {
      FirstCoveringNone(names, flags, i + 1);
    }
  }

  /** The entry FirstCovering picks: it covers flags and no entry before it does. */
  lemma {:induction false} FirstCoveringIndex(names: seq<BlasName>, flags: Flags, i: nat) returns (j: nat)
    requires i <= |names| && FirstCovering(names, flags, i).Some?
    ensures i <= j < |names| && Covers(names[j], flags) && FirstCovering(names, flags, i).value == names[j].name
    ensures forall j' :: i <= j' < j ==> !Covers(names[j'], flags)
    decreases |names| - i
  {
    if Covers(names[i], flags) {
      j := i;
    } else {
      j := FirstCoveringIndex(names, flags, i + 1);
    }
  }

  /** The name is that of the first entry whose flags all appear in the input; there is none
      exactly when no entry's flags do. */
  lemma NameIsFirstCovering(flags: Flags)
    ensures GetNameForBLAS(flags).None? <==> forall j :: 0 <= j < |BlasNames| ==> !Covers(BlasNames[j], flags)
    ensures GetNameForBLAS(flags).Some? ==>
      exists j :: 0 <= j < |BlasNames| && Covers(BlasNames[j], flags) && GetNameForBLAS(flags).value == BlasNames[j].name &&
        forall j' :: 0 <= j' < j ==> !Covers(BlasNames[j'], flags)
  {
    FirstCoveringNone(BlasNames, flags, 0);
    if GetNameForBLAS(flags).Some? {
      var j := FirstCoveringIndex(BlasNames, flags, 0);
    }
  }

  /** Every one of the 45 combinations is named after its change frequency and pass-through
      flags. */
  lemma NameOfCombo(n: nat)
    requires n < MaxTopLevelInstanceCount
    ensures GetNameForBLAS(ComboFlags(n)) == Some(BlasNames[3 * CfPos(n) + PtPos(n)].name)
  {
    var i, j := CfPos(n), PtPos(n);
    var flags := ComboFlags(n);
    SplitFields(GroupCF[i], GroupPT[j], GroupPV[PvPos(n)]);
    NameOfGroups(flags, i, j);
  }

  lemma NameOfGroups(flags: Flags, i: nat, j: nat)
    requires i < 3 && j < 3 && flags & MaskCF == GroupCF[i] && flags & MaskPT == GroupPT[j]
    ensures GetNameForBLAS(flags) == Some(BlasNames[3 * i + j].name)
  {
    var w := 3 * i + j;
    forall x | 0 <= x < |BlasNames|
      ensures Covers(BlasNames[x], flags) <==> x == w
    {
      CoversByGroups(flags, i, j, x);
    }
    assert Covers(BlasNames[w], flags);
    FirstCoveringNone(BlasNames, flags, 0);
    var k := FirstCoveringIndex(BlasNames, flags, 0);
  }

  lemma CoversByGroups(flags: Flags, i: nat, j: nat, x: nat)
    requires i < 3 && j < 3 && x < 9 && flags & MaskCF == GroupCF[i] && flags & MaskPT == GroupPT[j]
    ensures Covers(BlasNames[x], flags) <==> x == 3 * i + j
  {
    var xi, xj := EntryShape(x);
    GroupMembers(i, j);
    GroupMembers(xi, xj);
    CoversEntry(BlasNames[x], flags, GroupCF[i], GroupPT[j], GroupCF[xi], GroupPT[xj]);
    GroupsInjective(i, xi);
    GroupsInjective(j, xj);
    RowColumn(i, j, xi, xj);
  }

  lemma RowColumn(i: nat, j: nat, i': nat, j': nat)
    requires i < 3 && j < 3 && i' < 3 && j' < 3
    ensures 3 * i + j == 3 * i' + j' <==> i == i' && j == j'
  {
  }

  lemma CoversEntry(e: BlasName, flags: Flags, a: Flags, b: Flags, a': Flags, b': Flags)
    requires a in {CfStaticNonMovable, CfStaticMovable, CfDynamic} && a' in {CfStaticNonMovable, CfStaticMovable, CfDynamic}
    requires b in {PtOpaque, PtAlphaTested, PtRefract} && b' in {PtOpaque, PtAlphaTested, PtRefract}
    requires flags & MaskCF == a && flags & MaskPT == b && e.flags == a' | b'
    ensures Covers(e, flags) <==> a == a' && b == b'
  {
    CoversPair(flags, a, b, a', b');
  }

  lemma GroupMembers(i: nat, j: nat)
    requires i < 3 && j < 3
    ensures GroupCF[i] in {CfStaticNonMovable, CfStaticMovable, CfDynamic}
    ensures GroupPT[j] in {PtOpaque, PtAlphaTested, PtRefract}
  {
  }

  lemma GroupsInjective(i: nat, i': nat)
    requires i < 3 && i' < 3
    ensures GroupCF[i] == GroupCF[i'] ==> i == i'
    ensures GroupPT[i] == GroupPT[i'] ==> i == i'
  {
  }

  /** Entry x of the name table pairs the xi-th change frequency with the xj-th pass-through
      flag, row by row. */
  lemma EntryShape(x: nat) returns (xi: nat, xj: nat)
    requires x < 9
    ensures xi < 3 && xj < 3 && x == 3 * xi + xj
    ensures BlasNames[x].flags == GroupCF[xi] | GroupPT[xj]
  {
    xi, xj := x / 3, x % 3;
    if x == 0 { } else if x == 1 { } else if x == 2 { } else if x == 3 { } else if x == 4 { }
    else if x == 5 { } else if x == 6 { } else if x == 7 { } else { }
  }

  lemma CoversPair(flags: Flags, a: Flags, b: Flags, a': Flags, b': Flags)
    requires a in {CfStaticNonMovable, CfStaticMovable, CfDynamic} && a' in {CfStaticNonMovable, CfStaticMovable, CfDynamic}
    requires b in {PtOpaque, PtAlphaTested, PtRefract} && b' in {PtOpaque, PtAlphaTested, PtRefract}
    requires flags & MaskCF == a && flags & MaskPT == b
    ensures (a' | b') & flags == a' | b' <==> a == a' && b == b'
  {
  }

  /** The primitive flags of RgMeshPrimitiveInfo that choose the filter type of a geometry. */
  datatype PrimitiveFlags = PrimitiveFlags(alphaTested: bool, water: bool, firstPerson: bool,
                                           firstPersonViewer: bool, sky: bool)

  /** VertexCollectorFilterTypeFlags_GetForGeometry: one flag from each group, chosen by the
      first primitive flag that applies; sky geometry goes to WORLD_2. */
  function GetForGeometry(prim: PrimitiveFlags, isStatic: bool): (r: Flags)
    ensures r & MaskCF in GroupCF && r & MaskCF != CfStaticMovable
    ensures r & MaskPT in GroupPT
    ensures r & MaskPV in GroupPV && r & MaskPV != PvWorld1
    ensures r & !(MaskCF | MaskPT | MaskPV) == 0
  {
    var cf := if isStatic then CfStaticNonMovable else CfDynamic;
    var pt := if prim.alphaTested then PtAlphaTested
              else if prim.water then PtRefract
              else PtOpaque;
    var pv := if prim.firstPerson then PvFirstPerson
              else if prim.firstPersonViewer then PvFirstPersonViewer
              else if prim.sky then PvWorld2
              else PvWorld0;
    cf | pt | pv
  }

  /** Positions, within the groups, of the flags GetForGeometry picks. */
  function GeometryPositions(prim: PrimitiveFlags, isStatic: bool): (r: (nat, nat, nat))
    ensures r.0 < 3 && r.1 < 3 && r.2 < 5
  {
    (if isStatic then 0 else 2,
     if prim.alphaTested then 1 else if prim.water then 2 else 0,
     if prim.firstPerson then 3 else if prim.firstPersonViewer then 4 else if prim.sky then 2 else 0)
  }

  lemma PositionsOfCombo(i: nat, j: nat, k: nat)
    requires i < 3 && j < 3 && k < 5
    ensures 15 * i + 5 * j + k < MaxTopLevelInstanceCount
    ensures CfPos(15 * i + 5 * j + k) == i && PtPos(15 * i + 5 * j + k) == j && PvPos(15 * i + 5 * j + k) == k
  {
  }

  /** Every geometry lands in one of the 45 combinations, and never in STATIC_MOVABLE or
      WORLD_1. */
  lemma GeometryIsCombo(prim: PrimitiveFlags, isStatic: bool) returns (n: nat)
    ensures n < MaxTopLevelInstanceCount && ComboFlags(n) == GetForGeometry(prim, isStatic)
    ensures CfPos(n) != 1 && PvPos(n) != 1
  {
    var (i, j, k) := GeometryPositions(prim, isStatic);
    n := 15 * i + 5 * j + k;
    PositionsOfCombo(i, j, k);
  }

  /** The flags of a geometry always resolve in the tables Init builds: its ID, its region and
      its BLAS name. */
  lemma GeometryHasSlot(lower: nat, max: nat, prim: PrimitiveFlags, isStatic: bool)
    ensures GetID(Init(lower, max), GetForGeometry(prim, isStatic)).Some?
    ensures GetOffsetInGlobalArray(Init(lower, max), GetForGeometry(prim, isStatic)).Some?
    ensures GetAmountInGlobalArray(Init(lower, max), GetForGeometry(prim, isStatic)).Some?
    ensures GetNameForBLAS(GetForGeometry(prim, isStatic)).Some?
  {
    var n := GeometryIsCombo(prim, isStatic);
    LookupCombo(lower, max, n);
    NameOfCombo(n);
  }

  /** Which flag each group receives: alpha testing takes precedence over water, and first
      person over first-person viewer over sky. */
  lemma GeometryPrecedence(prim: PrimitiveFlags, isStatic: bool)
    ensures GetForGeometry(prim, isStatic) & MaskCF == CfStaticNonMovable <==> isStatic
    ensures GetForGeometry(prim, isStatic) & MaskCF == CfDynamic <==> !isStatic
    ensures GetForGeometry(prim, isStatic) & MaskPT == PtAlphaTested <==> prim.alphaTested
    ensures GetForGeometry(prim, isStatic) & MaskPT == PtRefract <==> !prim.alphaTested && prim.water
    ensures GetForGeometry(prim, isStatic) & MaskPT == PtOpaque <==> !prim.alphaTested && !prim.water
    ensures GetForGeometry(prim, isStatic) & MaskPV == PvFirstPerson <==> prim.firstPerson
    ensures GetForGeometry(prim, isStatic) & MaskPV == PvFirstPersonViewer <==>
      !prim.firstPerson && prim.firstPersonViewer
    ensures GetForGeometry(prim, isStatic) & MaskPV == PvWorld2 <==>
      !prim.firstPerson && !prim.firstPersonViewer && prim.sky
    ensures GetForGeometry(prim, isStatic) & MaskPV == PvWorld0 <==>
      !prim.firstPerson && !prim.firstPersonViewer && !prim.sky
  {
    var n := GeometryIsCombo(prim, isStatic);
    var (i, j, k) := GeometryPositions(prim, isStatic);
    PositionsOfCombo(i, j, k);
    assert n == 15 * i + 5 * j + k by {
      ComboPositions(n, 15 * i + 5 * j + k);
    }
    SplitFields(GroupCF[i], GroupPT[j], GroupPV[k]);
  }
}

=== FILE: frame_state.dfy ===
/** FrameState: the index of the frame in flight, the command buffer of the current frame, the
    command buffer for uploads made outside a frame, and the semaphore the next submit waits on.
    Vulkan handles are Options of opaque numbers, None standing for VK_NULL_HANDLE; the command
    buffer manager's StartGraphicsCmd is a parameter giving the handle it would return. */
module FrameState {
  import opened Wrappers

  /** MAX_FRAMES_IN_FLIGHT */
  const MaxFramesInFlight: nat := 2

  type Handle = Option<nat>

  datatype State = State(frameIndex: nat, frameCmd: Handle, semaphoreToWait: Handle, preFrameCmd: Handle)
  {
    predicate Valid() {
      frameIndex < MaxFramesInFlight
    }

    /** WasFrameStarted */
    predicate WasFrameStarted() {
      frameCmd.Some?
    }
  }

  /** The assertions of OnBeginFrame, OnEndFrame and GetCmdBuffer. */
  datatype FrameError = FrameAlreadyStarted | FrameNotStarted | PreFrameCmdPending

  // ---------------------------------------------------------------------------------------------
  // The frame-index ring
  // ---------------------------------------------------------------------------------------------

  /** The step of IncrementFrameIndexAndGet on a ring of max indices. */
  function NextIndex(max: nat, i: nat): (r: nat)
    requires max > 0
    ensures r < max
    ensures i < max ==> (r == 0 <==> i == max - 1)
    ensures i < max - 1 ==> r == i + 1
  {
    (i + 1) % max
  }

  /** GetPrevFrameIndex on a ring of max indices: max - 1 steps forward. */
  function PrevIndex(max: nat, i: nat): (r: nat)
    requires max > 0
    ensures r < max
    ensures i < max ==> (r == max - 1 <==> i == 0)
    ensures 0 < i < max ==> r == i - 1
  {
    (i + (max - 1)) % max
  }

  /** Each step undoes the other on every index of the ring. */
  lemma {:induction false} RingStepsInverse(max: nat, i: nat)
    requires max > 0 && i < max
    ensures PrevIndex(max, NextIndex(max, i)) == i
    ensures NextIndex(max, PrevIndex(max, i)) == i
  {
    if i == max - 1 {
      assert NextIndex(max, i) == 0;
    } else {
      assert NextIndex(max, i) == i + 1;
    }
    if i == 0 {
      assert PrevIndex(max, i) == max - 1;
    } else {
      assert PrevIndex(max, i) == i - 1;
    }
  }

  /** The constructor: the last index, so that the first increment yields 0, and no handles. */
  function Initial(): (r: State)
    ensures r.Valid() && !r.WasFrameStarted() && r.preFrameCmd.None? && r.semaphoreToWait.None?
    ensures NextIndex(MaxFramesInFlight, r.frameIndex) == 0
  {
    State(MaxFramesInFlight - 1, None, None, None)
  }

  /** IncrementFrameIndexAndGet: the new index is stored and returned. */
  function IncrementFrameIndexAndGet(s: State): (r: (State, nat))
    ensures r.1 < MaxFramesInFlight && r.0.Valid() && r.0.frameIndex == r.1
    ensures PrevIndex(MaxFramesInFlight, r.1) == s.frameIndex % MaxFramesInFlight
    ensures r.0 == s.(frameIndex := r.1)
  {
    var i := NextIndex(MaxFramesInFlight, s.frameIndex);
    RingSteps(s.frameIndex);
    (s.(frameIndex := i), i)
  }

  /** The ring arithmetic of IncrementFrameIndexAndGet for any stored index. */
  lemma RingSteps(i: nat)
    ensures PrevIndex(MaxFramesInFlight, NextIndex(MaxFramesInFlight, i)) == i % MaxFramesInFlight
  {
    RingStepsInverse(MaxFramesInFlight, i % MaxFramesInFlight);
  }

  /** Frame indices run 0, 1, 0, 1, ... from the constructor on. */
  lemma IndicesAlternate(s: State)
    requires s.Valid()
    ensures IncrementFrameIndexAndGet(s).1 == 1 - s.frameIndex
    ensures IncrementFrameIndexAndGet(IncrementFrameIndexAndGet(s).0).1 == s.frameIndex
  {
  }

  // ---------------------------------------------------------------------------------------------
  // The frame's command buffer
  // ---------------------------------------------------------------------------------------------

  /** OnBeginFrame, which asserts that no frame is in progress. */
  function OnBeginFrame(s: State, cmd: Handle): (r: Result<State, FrameError>)
    ensures r.Err? <==> s.WasFrameStarted()
    ensures r.Err? ==> r.error == FrameAlreadyStarted
    ensures r.Ok? ==> r.value == s.(frameCmd := cmd)
  {
    if s.frameCmd.Some? then Err(FrameAlreadyStarted) else Ok(s.(frameCmd := cmd))
  }

  /** OnEndFrame, which asserts that a frame is in progress and that the pre-frame command buffer
      has been taken for submission. */
  function OnEndFrame(s: State): (r: Result<State, FrameError>)
    ensures r.Ok? <==> s.WasFrameStarted() && s.preFrameCmd.None?
    ensures r.Ok? ==> !r.value.WasFrameStarted() && r.value == s.(frameCmd := None)
    ensures r == Err(PreFrameCmdPending) <==> s.WasFrameStarted() && s.preFrameCmd.Some?
  {
    if s.frameCmd.None? then Err(FrameNotStarted)
    else if s.preFrameCmd.Some? then Err(PreFrameCmdPending)
    else Ok(s.(frameCmd := None))
  }

  /** GetCmdBuffer, only in a frame. */
  function GetCmdBuffer(s: State): (r: Result<nat, FrameError>)
    ensures r.Ok? <==> s.WasFrameStarted()
    ensures r.Ok? ==> s.frameCmd == Some(r.value)
  {
    if s.frameCmd.None? then Err(FrameNotStarted) else Ok(s.frameCmd.value)
  }

  /** GetCmdBufferForMaterials: the frame's command buffer in a frame; otherwise the pre-frame
      one, started with the handle startGraphicsCmd when there is none yet. */
  function GetCmdBufferForMaterials(s: State, startGraphicsCmd: Handle): (r: (State, Handle))
    ensures s.WasFrameStarted() ==> r == (s, s.frameCmd)
    ensures !s.WasFrameStarted() ==> r.1 == r.0.preFrameCmd
    ensures !s.WasFrameStarted() ==>
      r.0 == s.(preFrameCmd := if s.preFrameCmd.Some? then s.preFrameCmd else startGraphicsCmd)
  {
    if s.WasFrameStarted() then (s, s.frameCmd)
    else
      var pre := if s.preFrameCmd.None? then startGraphicsCmd else s.preFrameCmd;
      (s.(preFrameCmd := pre), pre)
  }

  /** GetPreFrameCmdAndRemove */
  function GetPreFrameCmdAndRemove(s: State): (r: (State, Handle))
    ensures r.1 == s.preFrameCmd && r.0.preFrameCmd.None?
    ensures r.0.frameIndex == s.frameIndex && r.0.frameCmd == s.frameCmd && r.0.semaphoreToWait == s.semaphoreToWait
  {
    (s.(preFrameCmd := None), s.preFrameCmd)
  }

  /** SetSemaphore */
  function SetSemaphore(s: State, sem: Handle): (r: State)
    ensures r.semaphoreToWait == sem
    ensures r.frameIndex == s.frameIndex && r.frameCmd == s.frameCmd && r.preFrameCmd == s.preFrameCmd
  {
    s.(semaphoreToWait := sem)
  }

  /** GetSemaphoreForWaitAndRemove */
  function GetSemaphoreForWaitAndRemove(s: State): (r: (State, Handle))
    ensures r.1 == s.semaphoreToWait && r.0.semaphoreToWait.None?
    ensures r.0.frameIndex == s.frameIndex && r.0.frameCmd == s.frameCmd && r.0.preFrameCmd == s.preFrameCmd
  {
    (s.(semaphoreToWait := None), s.semaphoreToWait)
  }

  // ---------------------------------------------------------------------------------------------
  // Properties
  // ---------------------------------------------------------------------------------------------

  /** A semaphore set is taken exactly once: the first take returns it, the second nothing, and
      the state is as before the set, with no semaphore. */
  lemma SemaphoreTakenOnce(s: State, sem: Handle)
    ensures var (s1, got) := GetSemaphoreForWaitAndRemove(SetSemaphore(s, sem));
      got == sem && GetSemaphoreForWaitAndRemove(s1).1.None? && s1 == s.(semaphoreToWait := None)
  {
  }

  /** Out of a frame, repeated requests for the materials command buffer return the same handle,
      started once; taking it leaves the state as it was before the first request. */
  lemma PreFrameCmdStartedOnce(s: State, first: nat, second: Handle)
    requires !s.WasFrameStarted() && s.preFrameCmd.None?
    ensures var (s1, c1) := GetCmdBufferForMaterials(s, Some(first));
      var (s2, c2) := GetCmdBufferForMaterials(s1, second);
      c1 == Some(first) && c2 == c1 && s2 == s1 &&
      GetPreFrameCmdAndRemove(s2) == (s, Some(first))
  {
  }

  /** A frame begun with a command buffer ends only once the pre-frame command buffer has been
      taken, and ending it restores the state before the begin. */
  lemma FrameLifecycle(s: State, cmd: nat)
    requires !s.WasFrameStarted()
    ensures OnBeginFrame(s, Some(cmd)).Ok?
    ensures var began := OnBeginFrame(s, Some(cmd)).value;
      began.WasFrameStarted() && GetCmdBuffer(began) == Ok(cmd) &&
      OnBeginFrame(began, Some(cmd)) == Err(FrameAlreadyStarted) &&
      (s.preFrameCmd.Some? ==> OnEndFrame(began) == Err(PreFrameCmdPending)) &&
      (s.preFrameCmd.None? ==> OnEndFrame(began) == Ok(s))
  {
  }

  /** In a frame, materials use the frame's command buffer and no pre-frame one is started. */
  lemma MaterialsInFrameUseFrameCmd(s: State, startGraphicsCmd: Handle)
    requires s.WasFrameStarted()
    ensures GetCmdBufferForMaterials(s, startGraphicsCmd) == (s, Some(GetCmdBuffer(s).value))
  {
  }
}

=== FILE: framebuffers.dfy ===
/** The index and size rules of Framebuffers.cpp: which copy of a double-buffered image a frame
    uses, the extent of each framebuffer image, the pixelized-render-size guards and the choice of
    blit target and filter in BlitForEffects, and the early exit of PrepareForSize.

    The binding tables, image flags and image indices come from a generated header that is not
    part of this model; they are a Catalog parameter. */
module Framebuffers {
  import opened Wrappers
  import opened Machine

  /** FRAMEBUFFERS_HISTORY_LENGTH, which a static assertion ties to MAX_FRAMES_IN_FLIGHT. */
  const HistoryLength: nat := 2

  /** The FB_IMAGE_FLAGS_FRAMEBUF_FLAGS_* bits of one image. */
  datatype ImageFlags = ImageFlags(upscaledSize: bool, singlePixelSize: bool, forceSize13: bool, forceSizeBloom: bool)

  /** The generated tables: ShFramebuffers_Bindings, ShFramebuffers_BindingsSwapped and
      ShFramebuffers_Flags, indexed by FramebufferImageIndex, and the indices of the images the
      code names. */
  datatype Catalog = Catalog(bindings: seq<nat>, bindingsSwapped: seq<nat>, flags: seq<ImageFlags>,
                             final: nat, upscaledPing: nat, upscaledPong: nat, wipeEffectSource: nat,
                             bloomMips: seq<nat>)
  {
    function Count(): nat {
      |bindings|
    }

    /** ShFramebuffers_Count entries in each table; FB_IMAGE_INDEX_BLOOM_MIP1 .. MIP8 are eight
        distinct images; a double-buffered image is followed by its second copy. */
    ghost predicate Valid() {
      |bindingsSwapped| == Count() && |flags| == Count() &&
      final < Count() && upscaledPing < Count() && upscaledPong < Count() && wipeEffectSource < Count() &&
      |bloomMips| == 8 &&
      (forall k :: 0 <= k < 8 ==> bloomMips[k] < Count()) &&
      (forall k, l :: 0 <= k < l < 8 ==> bloomMips[k] != bloomMips[l]) &&
      (forall i :: 0 <= i < Count() && bindings[i] != bindingsSwapped[i] ==> i + 1 < Count())
    }

    /** An image whose binding differs between the two frames has a second copy right after it. */
    predicate Swappable(index: nat)
      requires index < |bindings| && index < |bindingsSwapped|
    {
      bindings[index] != bindingsSwapped[index]
    }
  }

  /** FrameIndexToFBIndex: a double-buffered image is read from its copy for the frame. */
  function FrameIndexToFBIndex(c: Catalog, index: nat, frameIndex: nat): (r: nat)
    requires c.Valid() && index < c.Count() && frameIndex < HistoryLength
    ensures c.Swappable(index) ==> r == index + frameIndex
    ensures !c.Swappable(index) ==> r == index
    ensures r < c.Count()
  {
    if c.bindings[index] != c.bindingsSwapped[index] then index + frameIndex else index
  }

  /** The two frames in flight use different copies of an image exactly when its bindings are
      swapped; frame 0 always uses the image itself. */
  lemma FramesShareUnlessSwapped(c: Catalog, index: nat)
    requires c.Valid() && index < c.Count()
    ensures FrameIndexToFBIndex(c, index, 0) == index
    ensures FrameIndexToFBIndex(c, index, 0) != FrameIndexToFBIndex(c, index, 1) <==> c.Swappable(index)
    ensures FrameIndexToFBIndex(c, index, 1) == index + 1 <==> c.Swappable(index)
  {
  }

  // ---------------------------------------------------------------------------------------------
  // Sizes
  // ---------------------------------------------------------------------------------------------

  /** ResolutionState */
  datatype Resolution = Resolution(renderWidth: U32, renderHeight: U32, upscaledWidth: U32, upscaledHeight: U32)

  /** VkExtent2D */
  datatype Extent = Extent(width: U32, height: U32)

  /** The bloom downscale of an image: 2^(k+1) for FB_IMAGE_INDEX_BLOOM_MIP(k+1). */
  function BloomDownscale(c: Catalog, index: nat): (r: Option<nat>)
    requires c.Valid()
    ensures r.Some? ==> exists k :: 0 <= k < 8 && c.bloomMips[k] == index && r.value == Pow2(k + 1)
    ensures r.None? ==> forall k :: 0 <= k < 8 ==> c.bloomMips[k] != index
  {
    BloomDownscaleFrom(c, index, 0)
  }

  function BloomDownscaleFrom(c: Catalog, index: nat, k: nat): (r: Option<nat>)
    requires c.Valid() && k <= 8
    ensures r.Some? ==> exists m :: k <= m < 8 && c.bloomMips[m] == index && r.value == Pow2(m + 1)
    ensures r.None? ==> forall m :: k <= m < 8 ==> c.bloomMips[m] != index
    decreases 8 - k
  {
    if k == 8 then None
    else if c.bloomMips[k] == index then Some(Pow2(k + 1))
    else BloomDownscaleFrom(c, index, k + 1)
  }

  /** One axis of a downscaled image: (render + 1) / d in uint32_t arithmetic, at least 1. */
  function DownscaledAxis(render: U32, d: nat): (r: U32)
    requires d > 0
    ensures r >= 1
  {
    var e := Wrap(render + 1) / d;
    if e < 1 then 1 else e
  }

  /** GetFramebufSize. A bloom-sized image that is not one of the eight mips hits an assertion in
      the source and keeps the render size in release builds, as here. */
  function GetFramebufSize(c: Catalog, effectWipeIsUsed: bool, res: Resolution, index: nat): (r: Extent)
    requires c.Valid() && index < c.Count()
  {
    var f := c.flags[index];
    if index == c.wipeEffectSource && !effectWipeIsUsed then Extent(1, 1)
    else if f.upscaledSize then Extent(res.upscaledWidth, res.upscaledHeight)
    else if f.singlePixelSize then Extent(1, 1)
    else
      var downscale := if f.forceSize13 then Some(3) else if f.forceSizeBloom then BloomDownscale(c, index) else None;
      if downscale.None? then Extent(res.renderWidth, res.renderHeight)
      else
        var d := downscale.value;
        assert d > 0;
        Extent(DownscaledAxis(res.renderWidth, d), DownscaledAxis(res.renderHeight, d))
  }

  /** Whether index is the wipe source of a renderer that does not use the wipe effect. */
  predicate UnusedWipe(c: Catalog, effectWipeIsUsed: bool, index: nat) {
    index == c.wipeEffectSource && !effectWipeIsUsed
  }

  /** An unused wipe source is 1x1; otherwise the UPSCALED flag gives the upscaled size,
      SINGLE_PIXEL gives 1x1, and an image with no size flag has the render size. */
  lemma FixedSizeRules(c: Catalog, effectWipeIsUsed: bool, res: Resolution, index: nat)
    requires c.Valid() && index < c.Count()
    ensures var f, r := c.flags[index], GetFramebufSize(c, effectWipeIsUsed, res, index);
      (UnusedWipe(c, effectWipeIsUsed, index) ==> r == Extent(1, 1)) &&
      (!UnusedWipe(c, effectWipeIsUsed, index) && f.upscaledSize ==> r == Extent(res.upscaledWidth, res.upscaledHeight)) &&
      (!UnusedWipe(c, effectWipeIsUsed, index) && !f.upscaledSize && f.singlePixelSize ==> r == Extent(1, 1)) &&
      (!UnusedWipe(c, effectWipeIsUsed, index) && f == ImageFlags(false, false, false, false) ==>
        r == Extent(res.renderWidth, res.renderHeight))
  {
  }

  /** Whether an image's size is a fraction of the render size: only downscale flags apply. */
  predicate Downscaled(c: Catalog, effectWipeIsUsed: bool, index: nat)
    requires c.Valid() && index < c.Count()
  {
    !UnusedWipe(c, effectWipeIsUsed, index) && !c.flags[index].upscaledSize && !c.flags[index].singlePixelSize
  }

  /** FORCE_SIZE_1_3 gives a third of the render size, max(1, (render + 1) / 3) per axis. */
  lemma ThirdSizeRule(c: Catalog, effectWipeIsUsed: bool, res: Resolution, index: nat)
    requires c.Valid() && index < c.Count()
    requires res.renderWidth + 1 < Pow32 && res.renderHeight + 1 < Pow32
    requires Downscaled(c, effectWipeIsUsed, index) && c.flags[index].forceSize13
    ensures GetFramebufSize(c, effectWipeIsUsed, res, index) ==
      Extent(Fraction(res.renderWidth, 3), Fraction(res.renderHeight, 3))
  {
  }

  /** Bloom mip k + 1 has 1 / 2^(k + 1) of the render size, max(1, (render + 1) / 2^(k + 1)) per
      axis. */
  lemma BloomSizeRule(c: Catalog, effectWipeIsUsed: bool, res: Resolution, index: nat, k: nat)
    requires c.Valid() && index < c.Count() && k < 8 && c.bloomMips[k] == index
    requires res.renderWidth + 1 < Pow32 && res.renderHeight + 1 < Pow32
    requires Downscaled(c, effectWipeIsUsed, index) && !c.flags[index].forceSize13 && c.flags[index].forceSizeBloom
    ensures GetFramebufSize(c, effectWipeIsUsed, res, index) ==
      Extent(Fraction(res.renderWidth, Pow2(k + 1)), Fraction(res.renderHeight, Pow2(k + 1)))
  {
    var d := BloomDownscale(c, index);
    var m :| 0 <= m < 8 && c.bloomMips[m] == index && d.value == Pow2(m + 1);
    assert m == k;
    AxisWithoutWrap(res.renderWidth, Pow2(k + 1));
    AxisWithoutWrap(res.renderHeight, Pow2(k + 1));
  }

  lemma AxisWithoutWrap(render: U32, d: nat)
    requires d > 0 && render + 1 < Pow32
    ensures DownscaledAxis(render, d) == Fraction(render, d)
  {
  }

  /** One axis of an image 1/d the render size, without wrap-around: max(1, (render + 1) / d). */
  function Fraction(render: nat, d: nat): nat
    requires d > 0
  {
    var e := (render + 1) / d;
    if e < 1 then 1 else e
  }

  // ---------------------------------------------------------------------------------------------
  // Pixelized render size
  // ---------------------------------------------------------------------------------------------

  /** MakeSafePixelized: a pixelized size within 8 pixels of the render size on either axis is
      dropped, as is a missing one. */
  function MakeSafePixelized(pixelized: Option<Extent>, res: Resolution): (r: Option<Extent>)
    ensures r.Some? <==> (pixelized.Some? &&
      Abs(AsInt32(res.renderWidth) - AsInt32(pixelized.value.width)) >= 8 &&
      Abs(AsInt32(res.renderHeight) - AsInt32(pixelized.value.height)) >= 8)
    ensures r.Some? ==> r == pixelized
  {
    if pixelized.None? then None
    else if Abs(AsInt32(res.renderWidth) - AsInt32(pixelized.value.width)) < 8 then None
    else if Abs(AsInt32(res.renderHeight) - AsInt32(pixelized.value.height)) < 8 then None
    else pixelized
  }

  /** std::clamp as the standard library writes it. */
  function Clamp(v: int, lo: int, hi: int): (r: int)
    ensures lo <= hi ==> lo <= r <= hi
    ensures lo <= v <= hi ==> r == v
  {
    if v < lo then lo else if hi < v then hi else v
  }

  /** VkOffset3D, as x and y. */
  datatype Offset = Offset(x: int, y: int)

  /** NormalizePixelized: each axis clamped to [8, render]. */
  function NormalizePixelized(pixelized: Extent, res: Resolution): (r: Offset)
    ensures 8 <= AsInt32(res.renderWidth) ==> 8 <= r.x <= AsInt32(res.renderWidth)
    ensures 8 <= AsInt32(res.renderHeight) ==> 8 <= r.y <= AsInt32(res.renderHeight)
  {
    Offset(Clamp(AsInt32(pixelized.width), 8, AsInt32(res.renderWidth)),
           Clamp(AsInt32(pixelized.height), 8, AsInt32(res.renderHeight)))
  }

  /** A pixelized size already within [8, render] on both axes is kept as it is. */
  lemma NormalizeKeepsInRange(pixelized: Extent, res: Resolution)
    requires 8 <= pixelized.width <= res.renderWidth < Pow31
    requires 8 <= pixelized.height <= res.renderHeight < Pow31
    ensures NormalizePixelized(pixelized, res) == Offset(pixelized.width, pixelized.height)
  {
  }

  // ---------------------------------------------------------------------------------------------
  // BlitForEffects
  // ---------------------------------------------------------------------------------------------

  datatype Filter = Nearest | Linear

  /** What BlitForEffects does: the first blit from src to dst with a filter, an optional second
      (nearest) blit from dst to secondDst that rescales a pixelized image, and the image the
      effects continue from. */
  datatype BlitPlan = BlitPlan(src: nat, dst: nat, filter: Filter, dstExtent: Offset,
                               second: Option<nat>, finalDst: nat)

  /** The destination of the first blit: FINAL goes to PING, PING to PONG and PONG to PING, each
      for the frame; any other source (an assertion in the source) to PING itself. */
  function EffectsDestination(c: Catalog, src: nat, frameIndex: nat): (r: nat)
    requires c.Valid() && frameIndex < HistoryLength
    ensures src == c.final ==> r == FrameIndexToFBIndex(c, c.upscaledPing, frameIndex)
    ensures src != c.final && src == c.upscaledPing ==> r == FrameIndexToFBIndex(c, c.upscaledPong, frameIndex)
    ensures src != c.final && src != c.upscaledPing && src == c.upscaledPong ==> r == FrameIndexToFBIndex(c, c.upscaledPing, frameIndex)
    ensures src != c.final && src != c.upscaledPing && src != c.upscaledPong ==> r == c.upscaledPing
  {
    if src == c.final then FrameIndexToFBIndex(c, c.upscaledPing, frameIndex)
    else if src == c.upscaledPing then FrameIndexToFBIndex(c, c.upscaledPong, frameIndex)
    else if src == c.upscaledPong then FrameIndexToFBIndex(c, c.upscaledPing, frameIndex)
    else c.upscaledPing
  }

  /** ToSigned */
  function ToSigned(e: Extent): Offset {
    Offset(AsInt32(e.width), AsInt32(e.height))
  }

  /** The filter of the first blit: linear for a pixelized size, but nearest whenever the two
      extents are within 8 pixels on both axes. */
  function BlitFilter(requested: Filter, pixelized: bool, srcExtent: Offset, dstExtent: Offset): (r: Filter)
    ensures Abs(srcExtent.x - dstExtent.x) < 8 && Abs(srcExtent.y - dstExtent.y) < 8 ==> r == Nearest
    ensures !(Abs(srcExtent.x - dstExtent.x) < 8 && Abs(srcExtent.y - dstExtent.y) < 8) ==>
      r == (if pixelized then Linear else requested)
  {
    var f := if pixelized then Linear else requested;
    if Abs(srcExtent.x - dstExtent.x) < 8 && Abs(srcExtent.y - dstExtent.y) < 8 then Nearest else f
  }

  /** BlitForEffects, as a plan of blits. The second blit's destination for a first destination
      other than PING or PONG is an assertion in the source; the release build uses PING, as
      here. */
  function BlitForEffects(c: Catalog, effectWipeIsUsed: bool, res: Resolution, frameIndex: nat, index: nat,
                          filter: Filter, pixelizedRequest: Option<Extent>): (r: BlitPlan)
    requires c.Valid() && frameIndex < HistoryLength && index < c.Count()
  {
    var pixelized := MakeSafePixelized(pixelizedRequest, res);
    var src := FrameIndexToFBIndex(c, index, frameIndex);
    var dst := EffectsDestination(c, src, frameIndex);
    var srcExtent := ToSigned(GetFramebufSize(c, effectWipeIsUsed, res, src));
    var upscaledExtent := ToSigned(GetFramebufSize(c, effectWipeIsUsed, res, dst));
    var dstExtent := if pixelized.Some? then NormalizePixelized(pixelized.value, res) else upscaledExtent;
    var f := BlitFilter(filter, pixelized.Some?, srcExtent, dstExtent);
    if pixelized.Some? then
      var secondDst :=
        if dst == c.upscaledPing then FrameIndexToFBIndex(c, c.upscaledPong, frameIndex)
        else if dst == c.upscaledPong then FrameIndexToFBIndex(c, c.upscaledPing, frameIndex)
        else c.upscaledPing;
      BlitPlan(src, dst, f, dstExtent, Some(secondDst), secondDst)
    else
      BlitPlan(src, dst, f, dstExtent, None, dst)
  }

  /** With ping and pong not double-buffered (which the assertions on src require), the effects
      blit alternates FINAL to PING, PING to PONG and PONG to PING; a pixelized blit goes on to
      the other one of the pair, so the effects continue from the image the first blit did not
      write. */
  lemma EffectsAlternate(c: Catalog, effectWipeIsUsed: bool, res: Resolution, frameIndex: nat, index: nat,
                         filter: Filter, pixelizedRequest: Option<Extent>)
    requires c.Valid() && frameIndex < HistoryLength && index < c.Count()
    requires !c.Swappable(index) && !c.Swappable(c.upscaledPing) && !c.Swappable(c.upscaledPong)
    requires c.upscaledPing != c.upscaledPong && c.final != c.upscaledPing && c.final != c.upscaledPong
    requires index in {c.final, c.upscaledPing, c.upscaledPong}
    ensures var p := BlitForEffects(c, effectWipeIsUsed, res, frameIndex, index, filter, pixelizedRequest);
      p.src == index &&
      (index == c.final ==> p.dst == c.upscaledPing) &&
      (index == c.upscaledPing ==> p.dst == c.upscaledPong) &&
      (index == c.upscaledPong ==> p.dst == c.upscaledPing) &&
      (p.second.Some? <==> MakeSafePixelized(pixelizedRequest, res).Some?) &&
      (p.second.Some? ==> p.filter != Linear || p.dstExtent == NormalizePixelized(pixelizedRequest.value, res)) &&
      (p.second.Some? ==> p.finalDst != p.dst && p.finalDst in {c.upscaledPing, c.upscaledPong}) &&
      (p.second.None? ==> p.finalDst == p.dst)
  {
  }

  // ---------------------------------------------------------------------------------------------
  // PrepareForSize
  // ---------------------------------------------------------------------------------------------

  /** PrepareForSize: images are recreated only for a new resolution; the result says whether
      they were. */
  function PrepareForSize(current: Resolution, requested: Resolution): (r: (bool, Resolution))
    ensures r.1 == requested
    ensures r.0 <==> current != requested
  {
    if current == requested then (false, current) else (true, requested)
  }

  /** A second call with the same resolution does nothing. */
  lemma PrepareIsIdempotent(current: Resolution, requested: Resolution)
    ensures var (_, next) := PrepareForSize(current, requested);
      PrepareForSize(next, requested) == (false, next)
  {
  }
}

=== FILE: geom_info.dfy ===
/** GeomInfoManager: the instance flags of a mesh primitive, and the bookkeeping of the geometry
    infos written each frame: the static and dynamic counters, the per-geometry vectors, and the
    per-frame, per-filter-group regions of local indices whose infos must be copied from the
    staging buffers.

    The flag words of the generated header are sets of named flags here: a blending flag of layer
    l stands for MATERIAL_BLENDING_FLAG_* shifted by MATERIAL_BLENDING_FLAG_BIT_COUNT * l, whose
    values the generated header fixes. A filter-group flag word is reduced to what the manager
    reads of it: its group ID and its CF_DYNAMIC bit. Buffers, matrices and the previous-frame
    matching are not modelled. */
module GeomInfo {
  import opened Wrappers
  import opened Machine

  /** MAX_FRAMES_IN_FLIGHT and MAX_TOP_LEVEL_INSTANCE_COUNT. */
  const MaxFramesInFlight: nat := 2
  const MaxTopLevelInstanceCount: nat := 45

  /** UINT32_MAX, the lower bound of an empty copy region. */
  const U32Max: U32 := Pow32 - 1

  // ---------------------------------------------------------------------------------------------
  // Primitive flags
  // ---------------------------------------------------------------------------------------------

  /** RgTextureLayerBlendType; Unknown stands for any value outside the enumeration. */
  datatype BlendType = Opaque | Alpha | Add | Shade | Unknown(code: nat)

  /** RgEditorTextureLayerInfo, reduced to its blend type. */
  datatype LayerInfo = LayerInfo(blend: BlendType)

  /** RgEditorInfo's four layers; None is a null layer pointer. */
  datatype EditorInfo = EditorInfo(layerBase: Option<LayerInfo>, layer1: Option<LayerInfo>,
                                   layer2: Option<LayerInfo>, layerLightmap: Option<LayerInfo>)
  {
    /** The layers with the layer index GetPrimitiveFlags gives each. */
    function Layer(i: nat): Option<LayerInfo> {
      if i == 0 then layerBase else if i == 1 then layer1 else if i == 2 then layer2
      else if i == 3 then layerLightmap else None
    }
  }

  /** RgMeshPrimitiveInfo: the editor info pointer and the MIRROR and WATER flags. */
  datatype PrimitiveInfo = PrimitiveInfo(editorInfo: Option<EditorInfo>, mirror: bool, water: bool)

  /** The flags of a geometry instance word. */
  datatype InstanceFlag = Blending(layer: nat, blend: BlendType) | Reflect | Refract | MediaTypeWater

  /** GetMaterialBlendFlags: nothing for a null layer; otherwise the layer's blend flag at the
      layer's offset. An unknown blend type hits the assertion of the default case and gives 0. */
  function GetMaterialBlendFlags(layerInfo: Option<LayerInfo>, layerIndex: nat): (r: set<InstanceFlag>)
    ensures r == {} <==> layerInfo.None? || layerInfo.value.blend.Unknown?
    ensures forall f :: f in r ==> f.Blending? && f.layer == layerIndex && f.blend == layerInfo.value.blend
  {
    match layerInfo
    case None => {}
    case Some(info) => if info.blend.Unknown? then {} else {Blending(layerIndex, info.blend)}
  }

  /** GetPrimitiveFlags: the blend flags of the four layers, REFLECT for a mirror, and
      MEDIA_TYPE_WATER, REFLECT and REFRACT for water. */
  function GetPrimitiveFlags(info: PrimitiveInfo): (r: set<InstanceFlag>)
    ensures Reflect in r <==> info.mirror || info.water
    ensures Refract in r <==> info.water
    ensures MediaTypeWater in r <==> info.water
  {
    var blend := match info.editorInfo
      case None => {}
      case Some(e) =>
        GetMaterialBlendFlags(e.layerBase, 0) + GetMaterialBlendFlags(e.layer1, 1) +
        GetMaterialBlendFlags(e.layer2, 2) + GetMaterialBlendFlags(e.layerLightmap, 3);
    blend + (if info.mirror then {Reflect} else {}) + (if info.water then {MediaTypeWater, Reflect, Refract} else {})
  }

  /** The blend types a flag word records for one layer: the decoding the shaders do. */
  function LayerBlends(flags: set<InstanceFlag>, layer: nat): set<BlendType> {
    set f | f in flags && f.Blending? && f.layer == layer :: f.blend
  }

  /** The flag word records, for each layer, exactly the blend type of that layer when it is
      present and known, and nothing for any other layer. */
  lemma PrimitiveFlagsDecode(info: PrimitiveInfo, layer: nat)
    ensures LayerBlends(GetPrimitiveFlags(info), layer) ==
      if info.editorInfo.Some? && info.editorInfo.value.Layer(layer).Some? &&
         !info.editorInfo.value.Layer(layer).value.blend.Unknown?
      then {info.editorInfo.value.Layer(layer).value.blend}
      else {}
  {
    var flags := GetPrimitiveFlags(info);
    if info.editorInfo.Some? {
      var e := info.editorInfo.value;
      var l := e.Layer(layer);
      if l.Some? && !l.value.blend.Unknown? {
        assert Blending(layer, l.value.blend) in flags;
      }
    }
  }

  // ---------------------------------------------------------------------------------------------
  // Copy regions
  // ---------------------------------------------------------------------------------------------

  /** copyRegionLowerBounds[frame] and copyRegionUpperBounds[frame]: for each filter group, the
      local indices [lower, upper) written this frame. */
  datatype Region = Region(lower: U32, upper: U32)
  {
    predicate IsEmpty() {
      !(lower < upper)
    }
  }

  /** The reset region: lower UINT32_MAX and upper 0, which no index lies in. */
  const EmptyRegion: Region := Region(U32Max, 0)

  function EmptyRegions(): (r: seq<Region>)
    ensures |r| == MaxTopLevelInstanceCount && forall i :: 0 <= i < |r| ==> r[i] == EmptyRegion
  {
    seq(MaxTopLevelInstanceCount, _ => EmptyRegion)
  }

  /** MarkGeomInfoIndexToCopy on one region: the lower bound drops to the index, the upper bound
      rises to the index + 1, computed in uint32_t. */
  function MarkIndex(r: Region, localGeomIndex: U32): (m: Region)
    ensures m.lower <= r.lower && m.upper >= r.upper
    ensures localGeomIndex < U32Max ==> m.lower <= localGeomIndex < m.upper
  {
    Region(if localGeomIndex < r.lower then localGeomIndex else r.lower,
           var next := Wrap(localGeomIndex + 1); if next > r.upper then next else r.upper)
  }

  /** A region covers an index when it is non-empty and the index lies in it. */
  predicate Covers(r: Region, i: nat) {
    r.lower <= i < r.upper
  }

  /** Marking keeps every index a region covered, adds the marked one, and adds nothing beyond
      the smallest range holding both. */
  lemma MarkCovers(r: Region, localGeomIndex: U32, i: nat)
    requires localGeomIndex < U32Max
    ensures Covers(r, i) ==> Covers(MarkIndex(r, localGeomIndex), i)
    ensures Covers(MarkIndex(r, localGeomIndex), localGeomIndex)
    ensures r.IsEmpty() && r == EmptyRegion ==> (Covers(MarkIndex(r, localGeomIndex), i) <==> i == localGeomIndex)
  {
  }

  /** One copy of CopyFromStaging: byte offset and byte size. */
  datatype Copy = Copy(offset: nat, size: nat)

  /** The copies of the geometry infos for the groups from ID id on: one for each non-empty
      region, over the region's infos in the global array. offsets[id] is the group's offset in
      the global array; instanceSize is sizeof(ShGeometryInstance). The source visits the groups
      in the loop order Init assigns IDs in, so in ID order. */
  function RegionCopies(regions: seq<Region>, offsets: seq<nat>, instanceSize: nat, id: nat): (r: seq<Copy>)
    requires |regions| == |offsets| && id <= |regions|
    ensures |r| <= |regions| - id
    decreases |regions| - id
  {
    if id == |regions| then []
    else
      var rest := RegionCopies(regions, offsets, instanceSize, id + 1);
      var g := regions[id];
      if g.lower < g.upper then
        [Copy(instanceSize * (offsets[id] + g.lower), instanceSize * (g.upper - g.lower))] + rest
      else rest
  }

  /** Every non-empty region gets its copy, and only non-empty regions get one. */
  lemma {:induction false} RegionCopiesComplete(regions: seq<Region>, offsets: seq<nat>, instanceSize: nat, id: nat, k: nat)
    requires |regions| == |offsets| && id <= k < |regions|
    ensures !regions[k].IsEmpty() ==>
      Copy(instanceSize * (offsets[k] + regions[k].lower), instanceSize * (regions[k].upper - regions[k].lower))
        in RegionCopies(regions, offsets, instanceSize, id)
    ensures RegionCopies(regions, offsets, instanceSize, id) == [] <==>
      forall j :: id <= j < |regions| ==> regions[j].IsEmpty()
    decreases |regions| - id
  {
    if id < k {
      RegionCopiesComplete(regions, offsets, instanceSize, id + 1, k);
    } else if id + 1 < |regions| {
      RegionCopiesComplete(regions, offsets, instanceSize, id + 1, id + 1);
    } else {
      assert RegionCopies(regions, offsets, instanceSize, id + 1) == [];
    }
  }

  // ---------------------------------------------------------------------------------------------
  // The manager
  // ---------------------------------------------------------------------------------------------

  /** The filter-group flag word of a geometry, reduced to its ID and its CF_DYNAMIC bit. */
  datatype Group = Group(flagsId: nat, dynamic: bool)

  datatype Manager = Manager(staticGeomCount: nat, dynamicGeomCount: nat, geomType: seq<Group>,
                             simpleToLocalIndex: seq<U32>, regions: seq<seq<Region>>)
  {
    /** What WriteGeomInfo's assertions check and its callers keep: one entry per geometry in
        both vectors, static geometries first, and a region per group for each frame. */
    predicate Valid() {
      |geomType| == |simpleToLocalIndex| == staticGeomCount + dynamicGeomCount &&
      (forall i :: 0 <= i < |geomType| ==> (geomType[i].dynamic <==> i >= staticGeomCount)) &&
      |regions| == MaxFramesInFlight &&
      forall f :: 0 <= f < |regions| ==> |regions[f]| == MaxTopLevelInstanceCount
    }

    /** GetCount */
    function Count(): nat {
      staticGeomCount + dynamicGeomCount
    }
  }

  /** The constructor and ResetWithStatic: no geometry, and every region empty. */
  function Initial(): (r: Manager)
    ensures r.Valid() && r.Count() == 0
    ensures forall f :: 0 <= f < |r.regions| ==> r.regions[f] == EmptyRegions()
  {
    var empty := EmptyRegions();
    Manager(0, 0, [], [], [empty, empty])
  }

  /** MarkGeomInfoIndexToCopy */
  function MarkGeomInfoIndexToCopy(m: Manager, frameIndex: nat, localGeomIndex: U32, flagsId: nat): (r: Manager)
    requires m.Valid() && frameIndex < MaxFramesInFlight && flagsId < MaxTopLevelInstanceCount
    ensures r.Valid() && r.regions[frameIndex][flagsId] == MarkIndex(m.regions[frameIndex][flagsId], localGeomIndex)
    ensures forall f, g :: 0 <= f < MaxFramesInFlight && 0 <= g < MaxTopLevelInstanceCount && (f, g) != (frameIndex, flagsId) ==>
      r.regions[f][g] == m.regions[f][g]
    ensures r.(regions := m.regions) == m
  {
    var frame := m.regions[frameIndex];
    m.(regions := m.regions[frameIndex := frame[flagsId := MarkIndex(frame[flagsId], localGeomIndex)]])
  }

  /** The assertions of WriteGeomInfo a caller can fail. */
  datatype WriteError =
    | Misaligned        // baseVertexIndex % 3 == 0 and baseIndexIndex % 3 == 0
    | DynamicBeforeStatic  // dynamicGeomCount == 0 for a static geometry

  /** WriteGeomInfo, its counters and its copy regions: the geometry's simple index is the count
      before the insert; a static geometry is marked in every frame, a dynamic one in the frame
      being written. */
  function WriteGeomInfo(m: Manager, frameIndex: nat, localGeomIndex: U32, group: Group,
                         baseVertexIndex: nat, baseIndexIndex: nat): (r: Result<(Manager, nat), WriteError>)
    requires m.Valid() && frameIndex < MaxFramesInFlight && group.flagsId < MaxTopLevelInstanceCount
    ensures r.Err? <==> baseVertexIndex % 3 != 0 || baseIndexIndex % 3 != 0 || (!group.dynamic && m.dynamicGeomCount != 0)
    ensures r.Ok? ==> r.value.0.Valid() && r.value.1 == m.Count() && r.value.0.Count() == m.Count() + 1
  {
    if baseVertexIndex % 3 != 0 || baseIndexIndex % 3 != 0 then Err(Misaligned)
    else
      var simpleIndex := m.Count();
      var m1 := m.(geomType := m.geomType + [group], simpleToLocalIndex := m.simpleToLocalIndex + [localGeomIndex]);
      if !group.dynamic then
        if m.dynamicGeomCount != 0 then Err(DynamicBeforeStatic)
        else
          var m2 := m1.(staticGeomCount := m.staticGeomCount + 1);
          var m3 := MarkGeomInfoIndexToCopy(m2, 0, localGeomIndex, group.flagsId);
          Ok((MarkGeomInfoIndexToCopy(m3, 1, localGeomIndex, group.flagsId), simpleIndex))
      else
        var m2 := m1.(dynamicGeomCount := m.dynamicGeomCount + 1);
        Ok((MarkGeomInfoIndexToCopy(m2, frameIndex, localGeomIndex, group.flagsId), simpleIndex))
  }

  /** ConvertSimpleIndexToGlobal: the group's offset in the global array plus the local index. */
  function ConvertSimpleIndexToGlobal(m: Manager, offsets: seq<nat>, simpleIndex: nat): (r: nat)
    requires m.Valid() && simpleIndex < m.Count() && m.geomType[simpleIndex].flagsId < |offsets|
    ensures r >= m.simpleToLocalIndex[simpleIndex]
  {
    offsets[m.geomType[simpleIndex].flagsId] + m.simpleToLocalIndex[simpleIndex]
  }

  /** ResetOnlyDynamic: when there were dynamic geometries, the vectors are cut back to the static
      ones and the dynamic count is zeroed; the frame's regions are emptied in any case. */
  function ResetOnlyDynamic(m: Manager, frameIndex: nat): (r: Manager)
    requires m.Valid() && frameIndex < MaxFramesInFlight
    ensures r.Valid() && r.staticGeomCount == m.staticGeomCount && r.dynamicGeomCount == 0
    ensures r.geomType == m.geomType[..m.staticGeomCount] && r.simpleToLocalIndex == m.simpleToLocalIndex[..m.staticGeomCount]
    ensures r.regions[frameIndex] == EmptyRegions()
    ensures forall f :: 0 <= f < MaxFramesInFlight && f != frameIndex ==> r.regions[f] == m.regions[f]
  {
    var trimmed := if m.dynamicGeomCount > 0 then
      m.(geomType := m.geomType[..m.staticGeomCount], simpleToLocalIndex := m.simpleToLocalIndex[..m.staticGeomCount],
         dynamicGeomCount := 0)
    else m;
    trimmed.(regions := m.regions[frameIndex := EmptyRegions()])
  }

  /** MatchPrevCopyInfo: the counts PrepareForFrame saves before resetting. */
  datatype MatchPrevCopyInfo = MatchPrevCopyInfo(maxDynamicGeomCount: nat, maxStaticGeomCount: nat)

  /** PrepareForFrame */
  function PrepareForFrame(m: Manager, frameIndex: nat): (r: (Manager, MatchPrevCopyInfo))
    requires m.Valid() && frameIndex < MaxFramesInFlight
    ensures r.1 == MatchPrevCopyInfo(m.dynamicGeomCount, m.staticGeomCount)
    ensures r.0 == ResetOnlyDynamic(m, frameIndex)
  {
    (ResetOnlyDynamic(m, frameIndex), MatchPrevCopyInfo(m.dynamicGeomCount, m.staticGeomCount))
  }

  /** The second half of CopyFromStaging: the geometry-info copies of a frame, and whether there
      was any. */
  function CopyGeomInfos(m: Manager, frameIndex: nat, offsets: seq<nat>, instanceSize: nat): (r: (bool, seq<Copy>))
    requires m.Valid() && frameIndex < MaxFramesInFlight && |offsets| == MaxTopLevelInstanceCount
    ensures r.0 <==> |r.1| > 0
  {
    var copies := RegionCopies(m.regions[frameIndex], offsets, instanceSize, 0);
    (|copies| > 0, copies)
  }

  // ---------------------------------------------------------------------------------------------
  // Properties
  // ---------------------------------------------------------------------------------------------

  /** Static geometries are written before dynamic ones: once a dynamic geometry is written, a
      static one is rejected until ResetOnlyDynamic; after it, static writes succeed again. */
  lemma StaticAfterDynamicRejected(m: Manager, frameIndex: nat, local: U32, group: Group, base: nat)
    requires m.Valid() && frameIndex < MaxFramesInFlight && group.flagsId < MaxTopLevelInstanceCount
    requires m.dynamicGeomCount > 0 && !group.dynamic && base % 3 == 0
    ensures WriteGeomInfo(m, frameIndex, local, group, base, base) == Err(DynamicBeforeStatic)
    ensures WriteGeomInfo(ResetOnlyDynamic(m, frameIndex), frameIndex, local, group, base, base).Ok?
  {
  }

  /** After writing a geometry, the frames it is written to cover its local index in its
      group's region, so the copy of that frame includes it; a dynamic geometry leaves the other
      frame's regions as they were. */
  lemma WrittenIndexIsCopied(m: Manager, frameIndex: nat, local: U32, group: Group, base: nat, f: nat)
    requires m.Valid() && frameIndex < MaxFramesInFlight && group.flagsId < MaxTopLevelInstanceCount
    requires local < U32Max && base % 3 == 0 && (group.dynamic || m.dynamicGeomCount == 0)
    requires f < MaxFramesInFlight
    ensures WriteGeomInfo(m, frameIndex, local, group, base, base).Ok?
    ensures var m' := WriteGeomInfo(m, frameIndex, local, group, base, base).value.0;
      (!group.dynamic || f == frameIndex ==> Covers(m'.regions[f][group.flagsId], local)) &&
      (group.dynamic && f != frameIndex ==> m'.regions[f] == m.regions[f])
  {
    var r := WriteGeomInfo(m, frameIndex, local, group, base, base);
    assert r.Ok?;
    MarkCovers(m.regions[f][group.flagsId], local, 0);
  }

  /** The simple index WriteGeomInfo returns converts back to the written geometry's place in the
      global array: its group's offset plus its local index. */
  lemma GlobalIndexOfWritten(m: Manager, frameIndex: nat, local: U32, group: Group, base: nat, offsets: seq<nat>)
    requires m.Valid() && frameIndex < MaxFramesInFlight && group.flagsId < MaxTopLevelInstanceCount
    requires |offsets| == MaxTopLevelInstanceCount
    requires WriteGeomInfo(m, frameIndex, local, group, base, base).Ok?
    ensures var w := WriteGeomInfo(m, frameIndex, local, group, base, base).value;
      w.1 < w.0.Count() && w.0.geomType[w.1].flagsId < |offsets| &&
      ConvertSimpleIndexToGlobal(w.0, offsets, w.1) == offsets[group.flagsId] + local
  {
    var w := WriteGeomInfo(m, frameIndex, local, group, base, base).value;
    assert w.0.geomType == m.geomType + [group];
    assert w.0.simpleToLocalIndex == m.simpleToLocalIndex + [local];
  }

  /** After ResetOnlyDynamic the frame has nothing to copy, and after PrepareForFrame the next
      frame starts with only the static geometries. */
  lemma ResetCopiesNothing(m: Manager, frameIndex: nat, offsets: seq<nat>, instanceSize: nat)
    requires m.Valid() && frameIndex < MaxFramesInFlight && |offsets| == MaxTopLevelInstanceCount
    ensures CopyGeomInfos(ResetOnlyDynamic(m, frameIndex), frameIndex, offsets, instanceSize) == (false, [])
    ensures PrepareForFrame(m, frameIndex).0.Count() == m.staticGeomCount
  {
    var r := ResetOnlyDynamic(m, frameIndex);
    RegionCopiesComplete(r.regions[frameIndex], offsets, instanceSize, 0, 0);
  }

  /** ResetOnlyDynamic twice is ResetOnlyDynamic once. */
  lemma ResetOnlyDynamicIdempotent(m: Manager, frameIndex: nat)
    requires m.Valid() && frameIndex < MaxFramesInFlight
    ensures ResetOnlyDynamic(ResetOnlyDynamic(m, frameIndex), frameIndex) == ResetOnlyDynamic(m, frameIndex)
  {
  }
}

=== FILE: halton.dfy ===
/** HaltonSequence: the Halton sequences of bases 2 and 3 that jitter the camera, generated as
    integer fractions n/d by the incremental algorithm of section 3.2.3 of Ray Tracing Gems II.
    The float division and the subtraction of 0.5 are exact reals here; the lazy initialization
    of the two tables is not modelled, as its only effect is when the tables are computed. */
module Halton {
  import opened Machine

  /** JITTER_PHASE_COUNT */
  const JitterPhaseCount: nat := 128

  /** A generated element n/d; the state of the generator is the last one, 0/1 at the start. */
  datatype Fraction = Fraction(n: nat, d: nat)

  /** d is b raised to some power. */
  predicate PowerOf(b: nat, d: nat)
    requires b >= 2
    decreases d
  {
    d == 1 || (d > 1 && d % b == 0 && PowerOf(b, d / b))
  }

  /** The generator's state: 0/1 before the first element, then a proper fraction whose
      denominator is a power of the base. */
  predicate Inv(b: nat, f: Fraction)
    requires b >= 2
  {
    PowerOf(b, f.d) && ((f.n == 0 && f.d == 1) || 0 < f.n < f.d)
  }

  /** The inner loop: y divided by b until it falls below x. */
  function ShrinkBelow(b: nat, x: nat, y: nat): (r: nat)
    requires b >= 2 && x >= 1
    ensures r < x && r <= y
    decreases y
  {
    if x <= y then ShrinkBelow(b, x, y / b) else y
  }

  /** A power of b at least x/b stays a power of b at least x/b while the loop runs. */
  lemma {:induction false} ShrinkFacts(b: nat, x: nat, y: nat)
    requires b >= 2 && x >= 2 && PowerOf(b, y) && x <= b * y
    ensures PowerOf(b, ShrinkBelow(b, x, y)) && x <= b * ShrinkBelow(b, x, y)
    ensures ShrinkBelow(b, x, y) >= 1
    decreases y
  {
    if x <= y {
      var q := PowerSplit(b, y);
      DivShrinks(b, y);
      ShrinkFacts(b, x, q);
    } else {
      PowerPositive(b, y);
    }
  }

  /** A power of b other than 1 is b times a smaller power of b. */
  lemma PowerSplit(b: nat, y: nat) returns (q: nat)
    requires b >= 2 && PowerOf(b, y) && y != 1
    ensures q == y / b && PowerOf(b, q) && y == b * q
  {
    q := y / b;
    assert y == b * q + y % b;
  }

  lemma PowerPositive(b: nat, y: nat)
    requires b >= 2 && PowerOf(b, y)
    ensures y >= 1
  {
  }

  /** A power of b times b is a power of b. */
  lemma PowerTimes(b: nat, d: nat)
    requires b >= 2 && PowerOf(b, d)
    ensures PowerOf(b, d * b) && d * b > d
  {
    PowerPositive(b, d);
    var e := d * b;
    assert e == b * d + 0;
    DivModUnique(e, b, d, 0);
    MulAtLeast(d, b);
    assert e != d * 1;
  }

  /** One iteration of the loop of GenerateHaltonSequence: a new denominator when the numerator
      has reached d - 1, otherwise the next numerator over the same denominator. */
  function Step(b: nat, f: Fraction): (r: Fraction)
    requires b >= 2 && Inv(b, f)
    ensures Inv(b, r) && 0 < r.n < r.d
    ensures r.d == if f.n + 1 == f.d then f.d * b else f.d
  {
    var x := f.d - f.n;
    if x == 1 then
      PowerTimes(b, f.d);
      Fraction(1, f.d * b)
    else
      var y := ShrinkBelow(b, x, f.d / b);
      StepBounds(b, f, x, y);
      Fraction((b + 1) * y - x, f.d)
  }

  /** The arithmetic of Step's second branch: (b + 1)·y - x lies strictly between 0 and d. */
  lemma StepBounds(b: nat, f: Fraction, x: nat, y: nat)
    requires b >= 2 && Inv(b, f) && x == f.d - f.n && x != 1 && y == ShrinkBelow(b, x, f.d / b)
    ensures 0 < (b + 1) * y - x < f.d
  {
    var q := PowerSplit(b, f.d);
    ShrinkFacts(b, x, q);
    NextNumerator(b, x, y, q);
  }

  /** The arithmetic of StepBounds on plain numbers: with y < x <= b·y and y <= q, the numerator
      (b + 1)·y - x lies strictly between 0 and b·q. */
  lemma NextNumerator(b: nat, x: nat, y: nat, q: nat)
    requires y < x <= b * y && y <= q && y >= 1
    ensures 0 < (b + 1) * y - x < b * q
  {
    MulMonotone(y, q, b);
    assert (b + 1) * y == b * y + y;
    assert y * b == b * y && q * b == b * q;
  }

  /** Dividing by the base shrinks every positive number. */
  lemma DivShrinks(b: nat, y: nat)
    requires b >= 2 && y >= 1
    ensures y / b < y
  {
    MulMonotone(2, b, y);
    DivBelow(y, b, y);
  }

  /** The generator's state after k iterations. */
  function Iterate(b: nat, k: nat): (r: Fraction)
    requires b >= 2
    ensures Inv(b, r)
    ensures k > 0 ==> 0 < r.n < r.d
  {
    if k == 0 then Fraction(0, 1) else Step(b, Iterate(b, k - 1))
  }

  /** Element i of the sequence of base b. */
  function Halton(b: nat, i: nat): (r: Fraction)
    requires b >= 2
    ensures 0 < r.n < r.d && PowerOf(b, r.d)
  {
    Iterate(b, i + 1)
  }

  /** GenerateHaltonSequence, with the fractions returned instead of converted to floats. */
  method GenerateHaltonSequence(b: nat) returns (sequence: seq<Fraction>)
    requires b >= 2
    ensures |sequence| == JitterPhaseCount
    ensures forall i :: 0 <= i < |sequence| ==> sequence[i] == Halton(b, i)
  {
    var n: int, d: int := 0, 1;
    sequence := [];
    for i := 0 to JitterPhaseCount
      invariant |sequence| == i
      invariant forall j :: 0 <= j < i ==> sequence[j] == Halton(b, j)
      invariant n >= 0 && d >= 0 && Fraction(n, d) == Iterate(b, i)
    {
      var x := d - n;
      if x == 1 {
        n := 1;
        d := d * b;
      } else {
        var y := d / b;
        while x <= y
          invariant x >= 2 && y >= 0 && ShrinkBelow(b, x, y) == ShrinkBelow(b, x, d / b)
          decreases y
        {
          DivShrinks(b, y);
          y := y / b;
        }
        StepBounds(b, Fraction(n, d), x, y);
        n := (b + 1) * y - x;
      }
      sequence := sequence + [Fraction(n, d)];
    }
  }

  /** The first element is 1/b, and the next ones follow the pattern the algorithm is known for. */
  lemma FirstElements()
    ensures Halton(2, 0) == Fraction(1, 2) && Halton(3, 0) == Fraction(1, 3)
    ensures Halton(2, 1) == Fraction(1, 4) && Halton(2, 2) == Fraction(3, 4) && Halton(2, 3) == Fraction(1, 8)
    ensures Halton(3, 1) == Fraction(2, 3) && Halton(3, 2) == Fraction(1, 9)
  {
    assert Iterate(2, 1) == Fraction(1, 2);
    assert Iterate(2, 2) == Fraction(1, 4);
    assert Iterate(2, 3) == Fraction(3, 4);
    assert Iterate(3, 1) == Fraction(1, 3);
    assert Iterate(3, 2) == Fraction(2, 3);
  }

  /** An element as the value it is stored as. */
  function Value(f: Fraction): (r: real)
    requires 0 < f.n < f.d
    ensures 0.0 < r < 1.0
  {
    (f.n as real) / (f.d as real)
  }

  /** GetJitter_Halton23: the elements of the two tables at frameId modulo the table size, each
      moved by -0.5 so that the jitter lies strictly inside (-0.5, 0.5). */
  function GetJitterHalton23(frameId: nat): (r: (real, real))
    ensures -0.5 < r.0 < 0.5 && -0.5 < r.1 < 0.5
    ensures r.0 + 0.5 == Value(Halton(2, frameId % JitterPhaseCount))
    ensures r.1 + 0.5 == Value(Halton(3, frameId % JitterPhaseCount))
  {
    (Value(Halton(2, frameId % JitterPhaseCount)) - 0.5, Value(Halton(3, frameId % JitterPhaseCount)) - 0.5)
  }

  /** The jitter repeats with the period of the tables; 2^32 being a multiple of it, the period
      survives the wrap-around of a 32-bit frame counter. */
  lemma JitterPeriodic(frameId: nat)
    ensures GetJitterHalton23(frameId + JitterPhaseCount) == GetJitterHalton23(frameId)
    ensures 0x1_0000_0000 % JitterPhaseCount == 0
  {
    assert (frameId + JitterPhaseCount) % JitterPhaseCount == frameId % JitterPhaseCount;
  }
}

=== FILE: library_config.dfy ===
/** LibraryConfig: four developer switches read from a text file, one lower-cased keyword per
    line. The file system is a parameter: a map from the paths that exist to what opening them
    gives, the contents of the file or a failure to open it. */
module LibraryConfig {
  import opened Wrappers
  import opened Text

  /** Config: every switch off by default. */
  datatype Config = Config(vulkanValidation: bool, developerMode: bool, dlssValidation: bool, fpsMonitor: bool)

  const Default := Config(false, false, false, false)

  /** The file name used when no path, or an empty one, is given. */
  const DefaultPath := "RayTracedGL1.txt"

  /** The four switches, to speak of them uniformly. */
  datatype Key = VulkanValidation | Developer | DlssValidation | FpsMonitor

  /** The line that turns a switch on. */
  function KeyName(k: Key): string {
    match k
    case VulkanValidation => "vulkanvalidation"
    case Developer => "developer"
    case DlssValidation => "dlssvalidation"
    case FpsMonitor => "fpsmonitor"
  }

  function Get(c: Config, k: Key): bool {
    match k
    case VulkanValidation => c.vulkanValidation
    case Developer => c.developerMode
    case DlssValidation => c.dlssValidation
    case FpsMonitor => c.fpsMonitor
  }

  /** Two configs with the same switches are the same config. */
  lemma ConfigBySwitches(a: Config, b: Config)
    requires forall k :: Get(a, k) == Get(b, k)
    ensures a == b
  {
    assert Get(a, VulkanValidation) == Get(b, VulkanValidation);
    assert Get(a, Developer) == Get(b, Developer);
    assert Get(a, DlssValidation) == Get(b, DlssValidation);
    assert Get(a, FpsMonitor) == Get(b, FpsMonitor);
  }

  /** ProcessEntry: a line equal to a keyword turns that switch on; any other line changes nothing. */
  function ProcessEntry(dst: Config, entry: string): (r: Config)
    ensures forall k :: Get(r, k) == (Get(dst, k) || entry == KeyName(k))
  {
    if entry == "vulkanvalidation" then dst.(vulkanValidation := true)
    else if entry == "developer" then dst.(developerMode := true)
    else if entry == "dlssvalidation" then dst.(dlssValidation := true)
    else if entry == "fpsmonitor" then dst.(fpsMonitor := true)
    else dst
  }

  /** A line that is no keyword is ignored, and a repeated line changes nothing more. */
  lemma UnknownEntryIgnored(dst: Config, entry: string)
    ensures (forall k :: entry != KeyName(k)) ==> ProcessEntry(dst, entry) == dst
    ensures ProcessEntry(ProcessEntry(dst, entry), entry) == ProcessEntry(dst, entry)
  {
    if forall k :: entry != KeyName(k) {
      ConfigBySwitches(ProcessEntry(dst, entry), dst);
    }
    ConfigBySwitches(ProcessEntry(ProcessEntry(dst, entry), entry), ProcessEntry(dst, entry));
  }

  /** The order of two lines does not matter. */
  lemma EntriesCommute(dst: Config, a: string, b: string)
    ensures ProcessEntry(ProcessEntry(dst, a), b) == ProcessEntry(ProcessEntry(dst, b), a)
  {
    ConfigBySwitches(ProcessEntry(ProcessEntry(dst, a), b), ProcessEntry(ProcessEntry(dst, b), a));
  }

  // ---------------------------------------------------------------- reading the file

  /** A line as std::getline yields it: without its terminating newline. */
  function StripNewline(l: string): (r: string)
    ensures NoNewline(l) ==> r == l
    ensures |l| > 0 && l[|l| - 1] == '\n' ==> r + "\n" == l
  {
    if |l| > 0 && l[|l| - 1] == '\n' then l[..|l| - 1] else l
  }

  /** The lines the getline loop reads from the contents of a file. */
  function GetLines(contents: string): (r: seq<string>)
  {
    var ls := Lines(contents);
    seq(|ls|, i requires 0 <= i < |ls| => StripNewline(ls[i]))
  }

  /** getline on a file starting with a line l yields l first, without its newline. */
  lemma GetLinesOfLine(l: string, rest: string)
    requires NoNewline(l)
    ensures GetLines(l + "\n" + rest) == [l] + GetLines(rest)
  {
    LinesOfLine(l, rest);
    assert (l + "\n")[..|l|] == l;
  }

  /** The loop body over lines: each lower-cased, then processed, in order. */
  function ProcessLines(dst: Config, lines: seq<string>): (r: Config)
    decreases |lines|
  {
    if |lines| == 0 then dst else ProcessLines(ProcessEntry(dst, ToLower(lines[0])), lines[1..])
  }

  /** After the loop a switch is on exactly when it was on before or some line lower-cases to its
      keyword. */
  lemma {:induction false} ProcessLinesSwitch(dst: Config, lines: seq<string>, k: Key)
    ensures Get(ProcessLines(dst, lines), k) <==>
            Get(dst, k) || exists i :: 0 <= i < |lines| && ToLower(lines[i]) == KeyName(k)
    decreases |lines|
  {
    if |lines| > 0 {
      var next := ProcessEntry(dst, ToLower(lines[0]));
      ProcessLinesSwitch(next, lines[1..], k);
      if exists i :: 0 <= i < |lines[1..]| && ToLower(lines[1..][i]) == KeyName(k) {
        var i :| 0 <= i < |lines[1..]| && ToLower(lines[1..][i]) == KeyName(k);
        assert ToLower(lines[i + 1]) == KeyName(k);
      }
      if exists i :: 0 <= i < |lines| && ToLower(lines[i]) == KeyName(k) {
        var i :| 0 <= i < |lines| && ToLower(lines[i]) == KeyName(k);
        if i > 0 {
          assert ToLower(lines[1..][i - 1]) == KeyName(k);
        }
      }
    }
  }

  /** What opening an existing path gives. */
  datatype Opened = Contents(text: string) | CannotOpen

  /** Read: the default path for a missing or empty one; the default config when the file does
      not exist or cannot be opened; otherwise every line of it processed. */
  function Read(pPath: Option<string>, files: map<string, Opened>): (r: Config)
  {
    var path := if pPath.None? || pPath.value == "" then DefaultPath else pPath.value;
    if path in files && files[path].Contents? then ProcessLines(Default, GetLines(files[path].text))
    else Default
  }

  /** A switch is on after Read exactly when the file opens and one of its lines, lower-cased,
      is that switch's keyword; a missing or unopenable file leaves every switch off. */
  lemma ReadSwitch(pPath: Option<string>, files: map<string, Opened>, k: Key)
    ensures var path := if pPath.None? || pPath.value == "" then DefaultPath else pPath.value;
      var lines := if path in files && files[path].Contents? then GetLines(files[path].text) else [];
      Get(Read(pPath, files), k) <==> exists i :: 0 <= i < |lines| && ToLower(lines[i]) == KeyName(k)
  {
    var path := if pPath.None? || pPath.value == "" then DefaultPath else pPath.value;
    if path in files && files[path].Contents? {
      ProcessLinesSwitch(Default, GetLines(files[path].text), k);
    }
  }

  /** Only the set of lower-cased lines matters: two files with the same lines in any order and
      any number of times give the same config. */
  lemma OrderIndependent(a: seq<string>, b: seq<string>)
    requires forall i :: 0 <= i < |a| ==> exists j :: 0 <= j < |b| && ToLower(b[j]) == ToLower(a[i])
    requires forall j :: 0 <= j < |b| ==> exists i :: 0 <= i < |a| && ToLower(a[i]) == ToLower(b[j])
    ensures ProcessLines(Default, a) == ProcessLines(Default, b)
  {
    forall k | true
      ensures Get(ProcessLines(Default, a), k) == Get(ProcessLines(Default, b), k)
    {
      ProcessLinesSwitch(Default, a, k);
      ProcessLinesSwitch(Default, b, k);
    }
    ConfigBySwitches(ProcessLines(Default, a), ProcessLines(Default, b));
  }

  /** No path and an empty path both read the default file. */
  lemma DefaultPathUsed(files: map<string, Opened>)
    ensures Read(None, files) == Read(Some(""), files) == Read(Some(DefaultPath), files)
  {
  }
}

=== FILE: light_grid.dfy ===
/** The light grid of the shaders: cells of a three-dimensional grid laid out one after another
    in a flat array, LIGHT_GRID_CELL_SIZE entries to a cell, and the reservoir each entry holds.
    The grid dimensions and the cell size are generated constants; here they are the fields of
    a Grid. Shader ints are unbounded here: for the grid sizes in use no index nears 2^31. */
module LightGrid {
  import opened Machine

  /** LIGHT_GRID_SIZE_HORIZONTAL_X, LIGHT_GRID_SIZE_VERTICAL_Y, LIGHT_GRID_SIZE_HORIZONTAL_Z and
      LIGHT_GRID_CELL_SIZE. */
  datatype Grid = Grid(sizeX: nat, sizeY: nat, sizeZ: nat, cellSize: nat)
  {
    predicate Valid() {
      sizeX > 0 && sizeY > 0 && sizeZ > 0 && cellSize > 0
    }

    /** The number of array entries of the whole grid. */
    function Entries(): nat {
      cellSize * (sizeX * sizeZ * sizeY)
    }
  }

  datatype Cell = Cell(x: int, y: int, z: int)

  predicate InBounds(g: Grid, c: Cell) {
    0 <= c.x < g.sizeX && 0 <= c.y < g.sizeY && 0 <= c.z < g.sizeZ
  }

  /** cellToArrayIndex: x varies fastest, then z, then y; every cell starts a block of cellSize
      entries. */
  function CellToArrayIndex(g: Grid, c: Cell): (r: int)
    requires g.Valid()
    ensures r % g.cellSize == 0
  {
    var block := c.x + c.z * g.sizeX + c.y * g.sizeX * g.sizeZ;
    DivModUnique(g.cellSize * block, g.cellSize, block, 0);
    g.cellSize * block
  }

  /** arrayIndexToCell, for the non-negative indices of the array. */
  function ArrayIndexToCell(g: Grid, arrayIndex: nat): (r: Cell)
    requires g.Valid()
  {
    var c := arrayIndex / g.cellSize;
    Cell(c % g.sizeX, c / (g.sizeX * g.sizeZ), (c % (g.sizeX * g.sizeZ)) / g.sizeX)
  }

  /** The block number of an in-bounds cell in the mixed-radix form of Digits. */
  lemma BlockDigits(g: Grid, c: Cell)
    requires g.Valid() && InBounds(g, c)
    ensures CellToArrayIndex(g, c) == g.cellSize * (c.x + g.sizeX * c.z + g.sizeX * g.sizeZ * c.y)
  {
    assert c.z * g.sizeX == g.sizeX * c.z;
    assert c.y * g.sizeX * g.sizeZ == g.sizeX * g.sizeZ * c.y;
  }

  /** Every in-bounds cell comes back from its array index. */
  lemma CellRoundTrip(g: Grid, c: Cell)
    requires g.Valid() && InBounds(g, c)
    ensures CellToArrayIndex(g, c) >= 0
    ensures ArrayIndexToCell(g, CellToArrayIndex(g, c)) == c
  {
    var x, y, z := c.x as nat, c.y as nat, c.z as nat;
    var block := x + g.sizeX * z + g.sizeX * g.sizeZ * y;
    BlockDigits(g, c);
    DivModUnique(g.cellSize * block, g.cellSize, block, 0);
    Digits(g.sizeX, g.sizeZ, x, z, y);
    assert (block % (g.sizeX * g.sizeZ)) / g.sizeX == z by {
      LowDigit(g.sizeX, g.sizeZ, x, z, 0);
    }
  }

  /** Distinct in-bounds cells own distinct array indices. */
  lemma CellsDistinct(g: Grid, a: Cell, b: Cell)
    requires g.Valid() && InBounds(g, a) && InBounds(g, b) && a != b
    ensures CellToArrayIndex(g, a) != CellToArrayIndex(g, b)
  {
    CellRoundTrip(g, a);
    CellRoundTrip(g, b);
  }

  /** The block of an in-bounds cell lies inside the array. */
  lemma CellInsideArray(g: Grid, c: Cell)
    requires g.Valid() && InBounds(g, c)
    ensures 0 <= CellToArrayIndex(g, c) && CellToArrayIndex(g, c) + g.cellSize <= g.Entries()
  {
    BlockDigits(g, c);
    BlockBound(g.cellSize, g.sizeX, g.sizeZ, g.sizeY, c.x, c.z, c.y);
  }

  /** The arithmetic of CellInsideArray: the last block ends at the end of the array. */
  lemma BlockBound(size: nat, a: nat, b: nat, h: nat, x: nat, z: nat, y: nat)
    requires x < a && z < b && y < h
    ensures 0 <= size * (x + a * z + a * b * y)
    ensures size * (x + a * z + a * b * y) + size <= size * (a * b * h)
  {
    MulMonotone(z + 1, b, a);
    Below(a * b, y, x + a * z, h);
    assert x + a * z + a * b * y + 1 <= h * (a * b);
    MulMonotone(x + a * z + a * b * y + 1, h * (a * b), size);
  }

  /** Every array index lies in the block of an in-bounds cell: the one arrayIndexToCell
      gives, whose block starts at the index rounded down to a multiple of the cell size. */
  lemma IndexInsideCell(g: Grid, arrayIndex: nat)
    requires g.Valid() && arrayIndex < g.Entries()
    ensures InBounds(g, ArrayIndexToCell(g, arrayIndex))
    ensures CellToArrayIndex(g, ArrayIndexToCell(g, arrayIndex)) == arrayIndex - arrayIndex % g.cellSize
  {
    var c := arrayIndex / g.cellSize;
    assert g.Entries() == g.cellSize * (g.sizeY * (g.sizeX * g.sizeZ));
    DivBelow(arrayIndex, g.cellSize, g.sizeY * (g.sizeX * g.sizeZ));
    DigitsInRange(g.sizeX, g.sizeZ, g.sizeY, c);
    var cell := ArrayIndexToCell(g, arrayIndex);
    BlockDigits(g, cell);
    SplitDigits(g.sizeX, g.sizeZ, c);
    assert arrayIndex == g.cellSize * c + arrayIndex % g.cellSize;
  }

  /** The digits of a number below a·b·h are below a, b and h. */
  lemma DigitsInRange(a: nat, b: nat, h: nat, c: nat)
    requires a > 0 && b > 0 && c < h * (a * b)
    ensures c % a < a && (c % (a * b)) / a < b && c / (a * b) < h
  {
    ModBelow(c, a);
    ModBelow(c, a * b);
    DivBelow(c % (a * b), a, b);
    DivBelow(c, a * b, h);
  }

  /** Every number is the mixed-radix sum of its digits. */
  lemma SplitDigits(a: nat, b: nat, c: nat)
    requires a > 0 && b > 0
    ensures c == c % a + a * ((c % (a * b)) / a) + a * b * (c / (a * b))
  {
    var low := c % (a * b);
    assert c == (a * b) * (c / (a * b)) + low;
    assert low == a * (low / a) + low % a;
    ModMod(c, a, b);
  }

  /** Reducing modulo a·b and then modulo a is reducing modulo a. */
  lemma ModMod(n: nat, a: nat, b: nat)
    requires a > 0 && b > 0
    ensures (n % (a * b)) % a == n % a
  {
    var low := n % (a * b);
    var q := n / (a * b);
    assert n == a * (b * q) + low;
    ModBelow(low, a);
    assert low == a * (low / a) + low % a;
    assert n == a * (b * q + low / a) + low % a;
    DivModUnique(n, a, b * q + low / a, low % a);
  }

  /** Reservoir, with its float fields as reals: they are only copied here. */
  datatype Reservoir = Reservoir(selected: U32, selectedTargetPdf: real, weightSum: real, m: real, w: real)

  /** ShLightInCell */
  datatype LightInCell = LightInCell(selectedLightIndex: U32, selectedTargetPdf: real, weightSum: real)

  /** unpackReservoirFromLightGrid. The source leaves W unassigned; unset is whatever value it
      then holds. */
  function UnpackReservoir(s: LightInCell, unset: real): (r: Reservoir)
    ensures r.m == 1.0 && r.w == unset
  {
    Reservoir(s.selectedLightIndex, s.selectedTargetPdf, s.weightSum, 1.0, unset)
  }

  /** packReservoirToLightGrid: the selected light, its target pdf and the weight sum; the
      source requires the reservoir to be normalized to M = 1, as it drops M and W. */
  function PackReservoir(normalized: Reservoir): (r: LightInCell)
    ensures r.selectedLightIndex == normalized.selected
  {
    LightInCell(normalized.selected, normalized.selectedTargetPdf, normalized.weightSum)
  }

  /** A stored cell survives the trip through a reservoir. */
  lemma CellSurvivesReservoir(s: LightInCell, unset: real)
    ensures PackReservoir(UnpackReservoir(s, unset)) == s
  {
  }

  /** A reservoir survives the trip through a cell exactly when its M is 1, W aside. */
  lemma ReservoirSurvivesCell(r: Reservoir)
    ensures UnpackReservoir(PackReservoir(r), r.w) == r <==> r.m == 1.0
  {
  }
}

=== FILE: light_lists.dfy ===
/** LightLists.cpp: the per-sector light lists of a frame, the insertion of a light into its own
    sector's list and into the list of every potentially visible sector, and BuildArrays, which
    lays the lists out one after another in a plain array with a (start, end) region per sector.

    A light list holds light array indices; there is one list per sector array index. */
module LightLists {
  import opened Wrappers
  import SV = SectorVisibility

  /** MAX_LIGHT_LIST_SIZE (LightDefs.h): how many entries of one list BuildArrays writes. */
  const MaxLightListSize: nat := 1024

  type Lists = seq<seq<nat>>

  predicate DuplicateFree(list: seq<nat>) {
    forall k, l :: 0 <= k < l < |list| ==> list[k] != list[l]
  }

  function Count(list: seq<nat>, x: nat): (r: nat)
    ensures r == 0 <==> x !in list
    decreases |list|
  {
    if |list| == 0 then 0 else (if list[0] == x then 1 else 0) + Count(list[1..], x)
  }

  /** AddLightToSectorLightList: append the light to the sector's list. The source asserts the
      light then occurs once in it, which holds exactly when it was not there before. */
  function AddToList(lists: Lists, light: nat, sector: nat): (r: Lists)
    requires sector < |lists|
    ensures |r| == |lists| && r[sector] == lists[sector] + [light]
    ensures forall s :: 0 <= s < |lists| && s != sector ==> r[s] == lists[s]
    ensures Count(r[sector], light) == 1 <==> light !in lists[sector]
  {
    CountAppend(lists[sector], light);
    lists[sector := lists[sector] + [light]]
  }

  lemma {:induction false} CountAppend(list: seq<nat>, x: nat)
    ensures Count(list + [x], x) == Count(list, x) + 1
    decreases |list|
  {
    if |list| > 0 {
      assert (list + [x])[1..] == list[1..] + [x];
      CountAppend(list[1..], x);
    }
  }

  /** The sectors a light is appended to: its own, and the potentially visible ones when the
      sector has a set. */
  function Targets(v: SV.Visibility, sector: nat): (r: set<nat>)
    requires v.Valid()
    ensures sector in r
  {
    {sector} + (if v.HasVisibleSectors(sector) then v.PotentiallyVisible(sector) else {})
  }

  /** The loop of InsertLight over the potentially visible sectors, in the order the set is
      iterated. */
  function AddInOrder(lists: Lists, light: nat, order: seq<nat>): (r: Lists)
    requires forall k :: 0 <= k < |order| ==> order[k] < |lists|
    ensures |r| == |lists|
    decreases |order|
  {
    if |order| == 0 then lists
    else AddInOrder(AddToList(lists, light, order[0]), light, order[1..])
  }

  /** order enumerates the set s once each. */
  predicate Enumerates(order: seq<nat>, s: set<nat>) {
    (forall x :: x in s ==> x in order) && (forall x :: x in order ==> x in s) && (forall k, l :: 0 <= k < l < |order| ==> order[k] != order[l])
  }

  /** InsertLight, with the unordered set's iteration order as a parameter. */
  function InsertLight(lists: Lists, v: SV.Visibility, light: nat, sector: nat, order: seq<nat>): (r: Lists)
    requires v.Valid() && |lists| == SV.MaxSectorCount && sector < v.last
    requires Enumerates(order, if v.HasVisibleSectors(sector) then v.PotentiallyVisible(sector) else {})
    ensures |r| == |lists|
  {
    var own := AddToList(lists, light, sector);
    OrderBelowLast(v, sector, order);
    AddInOrder(own, light, order)
  }

  /** The visible sectors are handed-out indices. */
  lemma OrderBelowLast(v: SV.Visibility, sector: nat, order: seq<nat>)
    requires v.Valid() && sector < v.last
    requires Enumerates(order, if v.HasVisibleSectors(sector) then v.PotentiallyVisible(sector) else {})
    ensures forall k :: 0 <= k < |order| ==> order[k] < v.last && order[k] != sector
  {
    forall k | 0 <= k < |order|
      ensures order[k] < v.last && order[k] != sector
    {
      assert order[k] in order;
    }
  }

  /** The order-free meaning of InsertLight: exactly the target sectors' lists gain the light. */
  function AppendTo(lists: Lists, light: nat, targets: set<nat>): (r: Lists)
    ensures |r| == |lists|
  {
    seq(|lists|, s requires 0 <= s < |lists| => if s in targets then lists[s] + [light] else lists[s])
  }

  /** Appending along an order of distinct sectors appends once to each of them, whatever the
      order. */
  lemma {:induction false} AddInOrderIsAppendTo(lists: Lists, light: nat, order: seq<nat>)
    requires forall k :: 0 <= k < |order| ==> order[k] < |lists|
    requires forall k, l :: 0 <= k < l < |order| ==> order[k] != order[l]
    ensures AddInOrder(lists, light, order) == AppendTo(lists, light, set x | x in order)
    decreases |order|
  {
    var targets := set x | x in order;
    if |order| == 0 {
      assert AppendTo(lists, light, targets) == lists;
    } else {
      var head, tail := order[0], order[1..];
      var next := AddToList(lists, light, head);
      AddInOrderIsAppendTo(next, light, tail);
      var rest := set x | x in tail;
      assert head !in rest;
      assert targets == {head} + rest;
      var r := AppendTo(next, light, rest);
      assert |r| == |AppendTo(lists, light, targets)|;
      forall s | 0 <= s < |lists|
        ensures r[s] == AppendTo(lists, light, targets)[s]
      {
      }
    }
  }

  /** InsertLight appends the light to its own sector and to every potentially visible one, and
      to no other list, whatever order the set is iterated in. The source's assertion that a
      visible sector differs from the light's own holds. */
  lemma InsertLightAppendsToTargets(lists: Lists, v: SV.Visibility, light: nat, sector: nat, order: seq<nat>)
    requires v.Valid() && |lists| == SV.MaxSectorCount && sector < v.last
    requires Enumerates(order, if v.HasVisibleSectors(sector) then v.PotentiallyVisible(sector) else {})
    ensures sector !in order
    ensures InsertLight(lists, v, light, sector, order) == AppendTo(lists, light, Targets(v, sector))
  {
    var own := AddToList(lists, light, sector);
    OrderBelowLast(v, sector, order);
    AddInOrderIsAppendTo(own, light, order);
    var visible := set x | x in order;
    assert Targets(v, sector) == {sector} + visible;
    var r := AppendTo(own, light, visible);
    forall s | 0 <= s < |lists|
      ensures r[s] == AppendTo(lists, light, Targets(v, sector))[s]
    {
    }
  }

  /** A light index not yet in any list keeps every list duplicate-free, so the source's
      uniqueness assertion holds for each append. */
  lemma InsertFreshKeepsUnique(lists: Lists, v: SV.Visibility, light: nat, sector: nat, order: seq<nat>)
    requires v.Valid() && |lists| == SV.MaxSectorCount && sector < v.last
    requires Enumerates(order, if v.HasVisibleSectors(sector) then v.PotentiallyVisible(sector) else {})
    requires forall s :: 0 <= s < |lists| ==> DuplicateFree(lists[s]) && light !in lists[s]
    ensures var r := InsertLight(lists, v, light, sector, order);
      forall s :: 0 <= s < |r| ==> DuplicateFree(r[s]) && Count(r[s], light) <= 1
  {
    InsertLightAppendsToTargets(lists, v, light, sector, order);
    var r := InsertLight(lists, v, light, sector, order);
    forall s | 0 <= s < |r|
      ensures DuplicateFree(r[s]) && Count(r[s], light) <= 1
    {
      if s in Targets(v, sector) {
        CountAppend(lists[s], light);
      }
    }
  }

  /** PrepareForFrame and Reset: every list emptied. */
  function Cleared(lists: Lists): (r: Lists)
    ensures |r| == |lists| && forall s :: 0 <= s < |r| ==> r[s] == []
  {
    seq(|lists|, _ => [])
  }

  // ---------------------------------------------------------------------------------------------
  // BuildArrays
  // ---------------------------------------------------------------------------------------------

  datatype Region = Region(start: nat, end: nat)

  function Min(a: nat, b: nat): nat {
    if a <= b then a else b
  }

  /** The part of a list the copy loop writes before its break. */
  function Written(list: seq<nat>): (r: seq<nat>)
    ensures |r| <= MaxLightListSize && r <= list
    ensures |list| <= MaxLightListSize ==> r == list
  {
    list[..Min(|list|, MaxLightListSize)]
  }

  /** The plain light list: the written parts of the lists, one after another. */
  function Plain(lists: Lists): (r: seq<nat>)
    ensures |r| <= MaxLightListSize * |lists|
    decreases |lists|
  {
    if |lists| == 0 then [] else Plain(lists[..|lists| - 1]) + Written(lists[|lists| - 1])
  }

  /** Where sector i's part of the plain list starts. */
  function Start(lists: Lists, i: nat): nat
    requires i <= |lists|
  {
    |Plain(lists[..i])|
  }

  /** BuildArrays as written: sector i's region starts at the running total and ends the full
      list length after it, even when only MAX_LIGHT_LIST_SIZE entries were written. The source
      stores each region as two consecutive uint32 values. */
  method BuildArrays(lists: Lists) returns (plain: seq<nat>, regions: seq<Region>, plainSize: nat, sectorCount: nat)
    ensures plain == Plain(lists) && plainSize == |plain| && sectorCount == |lists|
    ensures |regions| == |lists|
    ensures forall i :: 0 <= i < |lists| ==> regions[i] == Region(Start(lists, i), Start(lists, i) + |lists[i]|)
  {
    var iter := 0;
    plain, regions := [], [];
    for i := 0 to |lists|
      invariant iter == |plain| && plain == Plain(lists[..i])
      invariant |regions| == i
      invariant forall k :: 0 <= k < i ==> regions[k] == Region(Start(lists, k), Start(lists, k) + |lists[k]|)
    {
      var list := lists[i];
      var startOffset, endOffset := iter, iter + |list|;
      plain, iter := CopyList(plain, iter, list);
      PlainStep(lists, i);
      regions := regions + [Region(startOffset, endOffset)];
    }
    assert lists[..|lists|] == lists;
    plainSize, sectorCount := iter, |lists|;
  }

  /** The copy loop of one sector: it appends the list's entries to the plain list and stops
      after MAX_LIGHT_LIST_SIZE of them. */
  method CopyList(plain: seq<nat>, iter: nat, list: seq<nat>) returns (plain': seq<nat>, iter': nat)
    requires iter == |plain|
    ensures plain' == plain + Written(list) && iter' == |plain'|
  {
    var startOffset := iter;
    plain', iter' := plain, iter;
    var j := 0;
    while j < |list|
      invariant 0 <= j <= Min(|list|, MaxLightListSize)
      invariant iter' == startOffset + j && plain' == plain + list[..j]
    {
      if iter' - startOffset >= MaxLightListSize {
        break;
      }
      plain' := plain' + [list[j]];
      iter' := iter' + 1;
      j := j + 1;
    }
    assert list[..j] == Written(list);
  }

  /** One more sector appends its written part to the plain list. */
  lemma PlainStep(lists: Lists, i: nat)
    requires i < |lists|
    ensures Plain(lists[..i + 1]) == Plain(lists[..i]) + Written(lists[i])
  {
    assert lists[..i + 1][..i] == lists[..i];
  }

  /** Each sector's region start is the previous start plus what the previous sector wrote. */
  lemma StartStep(lists: Lists, i: nat)
    requires i < |lists|
    ensures Start(lists, i + 1) == Start(lists, i) + |Written(lists[i])|
  {
    PlainStep(lists, i);
  }

  /** What a sector wrote sits at its start in the plain list. */
  lemma {:induction false} WrittenAtStart(lists: Lists, i: nat, n: nat)
    requires i < n <= |lists|
    ensures Start(lists, i) + |Written(lists[i])| <= |Plain(lists[..n])|
    ensures Plain(lists[..n])[Start(lists, i)..Start(lists, i) + |Written(lists[i])|] == Written(lists[i])
    decreases n
  {
    PlainStep(lists, n - 1);
    if i < n - 1 {
      WrittenAtStart(lists, i, n - 1);
      var p := Plain(lists[..n - 1]);
      assert Plain(lists[..n])[..|p|] == p;
    } else {
      assert Start(lists, i) == |Plain(lists[..n - 1])|;
    }
  }

  /** When no list is longer than MAX_LIGHT_LIST_SIZE, the regions of BuildArrays tile the plain
      list: each holds its sector's list, and the next starts where it ends. */
  lemma RegionsTileWhenShort(lists: Lists, i: nat)
    requires i < |lists| && |lists[i]| <= MaxLightListSize
    ensures var start, end := Start(lists, i), Start(lists, i) + |lists[i]|;
      end <= |Plain(lists)| && Plain(lists)[start..end] == lists[i] &&
      (i + 1 < |lists| ==> Start(lists, i + 1) == end)
  {
    WrittenAtStart(lists, i, |lists|);
    assert lists[..|lists|] == lists;
    StartStep(lists, i);
  }

  /** The overlap BuildArrays produces: a list longer than MAX_LIGHT_LIST_SIZE gets a region
      that ends past the start of the next sector's region. */
  lemma LongListOverlapsNext(lists: Lists, i: nat)
    requires i + 1 < |lists| && |lists[i]| > MaxLightListSize
    ensures Start(lists, i) + |lists[i]| > Start(lists, i + 1)
  {
    StartStep(lists, i);
  }

  /** A concrete case: sector 0 has 1025 lights and sector 1 has one; sector 0's region is
      [0, 1025) while sector 1's starts at 1024. */
  lemma OverlapExample()
    ensures var lists := [seq(1025, k => k), [7]];
      Start(lists, 0) + |lists[0]| == 1025 && Start(lists, 1) == 1024
  {
    var lists := [seq(1025, k => k), [7]];
    StartStep(lists, 0);
    assert lists[..0] == [];
  }

  /** BuildArrays with the region ending after the entries actually written. */
  method BuildArraysCorrected(lists: Lists) returns (plain: seq<nat>, regions: seq<Region>, plainSize: nat, sectorCount: nat)
    ensures plain == Plain(lists) && plainSize == |plain| && sectorCount == |lists|
    ensures |regions| == |lists|
    ensures forall i :: 0 <= i < |lists| ==> regions[i] == Region(Start(lists, i), Start(lists, i) + |Written(lists[i])|)
  {
    var iter := 0;
    plain, regions := [], [];
    for i := 0 to |lists|
      invariant iter == |plain| && plain == Plain(lists[..i])
      invariant |regions| == i
      invariant forall k :: 0 <= k < i ==> regions[k] == Region(Start(lists, k), Start(lists, k) + |Written(lists[k])|)
    {
      var list := lists[i];
      var startOffset := iter;
      plain, iter := CopyList(plain, iter, list);
      PlainStep(lists, i);
      regions := regions + [Region(startOffset, iter)];
    }
    assert lists[..|lists|] == lists;
    plainSize, sectorCount := iter, |lists|;
  }

  /** With the corrected end, regions never overlap: each holds exactly what its sector wrote
      and the next region starts where it ends. The plain list fits the source's buffer of
      MAX_SECTOR_COUNT * MAX_LIGHT_LIST_SIZE entries. */
  lemma CorrectedRegionsTile(lists: Lists, i: nat)
    requires i < |lists|
    ensures var start, end := Start(lists, i), Start(lists, i) + |Written(lists[i])|;
      end <= |Plain(lists)| && Plain(lists)[start..end] == Written(lists[i]) &&
      (i + 1 < |lists| ==> Start(lists, i + 1) == end)
    ensures |lists| <= SV.MaxSectorCount ==> |Plain(lists)| <= SV.MaxSectorCount * MaxLightListSize
  {
    WrittenAtStart(lists, i, |lists|);
    assert lists[..|lists|] == lists;
    StartStep(lists, i);
  }
}

=== FILE: machine.dfy ===
/** Fixed-width unsigned arithmetic of the C++ and GLSL sources, written out over unbounded
    integers: a uint32_t is an int in [0, 2^32) and every operation that can leave that range
    wraps explicitly. */
module Machine {

  const Pow32: int := 0x1_0000_0000

  /** A uint32_t value. */
  type U32 = x: int | 0 <= x < Pow32

  /** Reduction modulo 2^32, as unsigned addition, subtraction and multiplication do. */
  function Wrap(x: int): (r: U32)
    ensures 0 <= x < Pow32 ==> r == x
    ensures x < 0 && -Pow32 <= x ==> r == x + Pow32
  {
    x % Pow32
  }

  const Pow31: int := 0x8000_0000

  /** static_cast<int32_t> of a uint32_t: values from 2^31 on read as negative. */
  function AsInt32(x: U32): (r: int)
    ensures -Pow31 <= r < Pow31
    ensures Wrap(r) == x
  {
    if x < Pow31 then x else x - Pow32
  }

  function Abs(x: int): (r: nat)
    ensures r == x || r == -x
  {
    if x < 0 then -x else x
  }

  /** 2^k, the value of 1 << k. */
  function Pow2(k: nat): (r: nat)
    ensures r >= 1
  {
    if k == 0 then 1 else 2 * Pow2(k - 1)
  }

  lemma {:induction false} Pow2Add(a: nat, b: nat)
    ensures Pow2(a + b) == Pow2(a) * Pow2(b)
    decreases a
  {
    if a > 0 {
      Pow2Add(a - 1, b);
    }
  }

  lemma Pow2Of32()
    ensures Pow2(32) == Pow32
  {
    assert Pow2(4) == 16;
    Pow2Add(4, 4);
    Pow2Add(8, 8);
    Pow2Add(16, 16);
  }

  /** The quotient and remainder of Euclidean division are the only ones with the remainder in
      range. */
  lemma DivModUnique(n: int, d: int, q: int, r: int)
    requires d > 0 && n == d * q + r && 0 <= r < d
    ensures n / d == q && n % d == r
  {
    var q', r' := n / d, n % d;
    assert n == d * q' + r';
    var k := q - q';
    assert d * k == r' - r by {
      assert d * q == d * k + d * q';
    }
    if k > 0 {
      MulAtLeast(d, k);
    } else if k < 0 {
      MulAtLeast(d, -k);
    }
  }

  lemma MulAtLeast(d: int, k: int)
    requires d > 0 && k >= 1
    ensures d * k >= d
  {
    assert d * k == d * (k - 1) + d;
  }

  lemma MulMonotone(a: nat, b: nat, c: nat)
    requires a <= b
    ensures a * c <= b * c
  {
  }

  lemma DivBelow(n: nat, d: nat, limit: nat)
    requires d > 0 && n < d * limit
    ensures n / d < limit
  {
    if n / d >= limit {
      MulMonotone(limit, n / d, d);
    }
  }

  lemma ModBelow(n: nat, d: nat)
    requires d > 0
    ensures n % d < d && n % d <= n
  {
    if n < d {
      DivModUnique(n, d, 0, n);
    }
  }

  /** Mixed-radix digits: x + a·z + a·b·y with x below a and z below b splits back into x, z
      and y. */
  lemma Digits(a: nat, b: nat, x: nat, z: nat, y: nat)
    requires x < a && z < b
    ensures (x + a * z + a * b * y) % a == x
    ensures (x + a * z + a * b * y) / a == z + b * y
    ensures (x + a * z + a * b * y) % (a * b) == x + a * z
    ensures (x + a * z + a * b * y) / (a * b) == y
  {
    LowDigit(a, b, x, z, y);
    HighDigit(a, b, x, z, y);
  }

  lemma LowDigit(a: nat, b: nat, x: nat, z: nat, y: nat)
    requires x < a
    ensures (x + a * z + a * b * y) % a == x
    ensures (x + a * z + a * b * y) / a == z + b * y
  {
    assert x + a * z + a * b * y == a * (z + b * y) + x;
    DivModUnique(x + a * z + a * b * y, a, z + b * y, x);
  }

  lemma HighDigit(a: nat, b: nat, x: nat, z: nat, y: nat)
    requires x < a && z < b
    ensures (x + a * z + a * b * y) % (a * b) == x + a * z
    ensures (x + a * z + a * b * y) / (a * b) == y
  {
    MulMonotone(z + 1, b, a);
    assert x + a * z + a * b * y == (a * b) * y + (x + a * z);
    DivModUnique(x + a * z + a * b * y, a * b, y, x + a * z);
  }

  /** A value with a field above bits of width w lies below limit · w when the field does. */
  lemma Below(w: nat, t: nat, low: nat, limit: nat)
    requires low < w && t < limit
    ensures t * w + low < limit * w
  {
    MulMonotone(t + 1, limit, w);
  }
}

=== FILE: paths.dfy ===
/** The parts of std::filesystem::path the model needs, on POSIX paths held as strings with '/'
    as the only separator: the file name, the extension, replace_extension, append and concat.
    Root names (the drive letters of Windows paths) are not modelled. */
module Paths {
  import opened Wrappers

  type Path = string

  /** The position of the last occurrence of c in s. */
  function LastIndex(s: string, c: char): (r: Option<nat>)
    ensures r.Some? ==> r.value < |s| && s[r.value] == c && forall j :: r.value < j < |s| ==> s[j] != c
    ensures r.None? ==> forall j :: 0 <= j < |s| ==> s[j] != c
  {
    if |s| == 0 then None
    else if s[|s| - 1] == c then Some(|s| - 1)
    else LastIndex(s[..|s| - 1], c)
  }

  /** The last occurrence is the only position with c and no c after it. */
  lemma LastIndexIs(s: string, c: char, k: nat)
    requires k < |s| && s[k] == c && forall j :: k < j < |s| ==> s[j] != c
    ensures LastIndex(s, c) == Some(k)
  {
  }

  /** Where the file name starts: after the last separator. */
  function FilenameStart(p: Path): (r: nat)
    ensures r <= |p| && forall j :: r <= j < |p| ==> p[j] != '/'
    ensures r > 0 ==> p[r - 1] == '/'
  {
    match LastIndex(p, '/')
    case None => 0
    case Some(i) => i + 1
  }

  lemma FilenameStartIs(p: Path, r: nat)
    requires r <= |p| && forall j :: r <= j < |p| ==> p[j] != '/'
    requires r > 0 ==> p[r - 1] == '/'
    requires r == 0 ==> forall j :: 0 <= j < |p| ==> p[j] != '/'
    ensures FilenameStart(p) == r
  {
    if r > 0 {
      LastIndexIs(p, '/', r - 1);
    }
  }

  /** path::filename */
  function Filename(p: Path): Path {
    p[FilenameStart(p)..]
  }

  /** Where path::extension starts: at the last dot of the file name, unless the file name is
      "." or "..", or that dot is its first character. */
  function ExtensionStart(p: Path): (r: Option<nat>)
    ensures r.Some? ==> FilenameStart(p) < r.value < |p| && p[r.value] == '.'
  {
    var f := Filename(p);
    if f == "." || f == ".." then None
    else match LastIndex(f, '.')
      case None => None
      case Some(k) => if k == 0 then None else Some(FilenameStart(p) + k)
  }

  /** path::extension */
  function Extension(p: Path): (r: Path)
    ensures ExtensionStart(p).None? <==> r == ""
  {
    match ExtensionStart(p)
    case None => ""
    case Some(i) => p[i..]
  }

  /** replace_extension("") */
  function RemoveExtension(p: Path): (r: Path)
    ensures r <= p
  {
    match ExtensionStart(p)
    case None => p
    case Some(i) => p[..i]
  }

  /** path::replace_extension: the extension is removed, then a dot is added unless the
      replacement is empty or starts with one, then the replacement. */
  function ReplaceExtension(p: Path, replacement: string): (r: Path)
    ensures RemoveExtension(p) <= r
  {
    RemoveExtension(p) + (if |replacement| > 0 && replacement[0] != '.' then "." else "") + replacement
  }

  /** A replacement that starts with a dot is put right after the extension-less path. */
  lemma ReplaceWithDotted(p: Path, s: string)
    ensures ReplaceExtension(p, "." + s) == RemoveExtension(p) + "." + s
  {
    var base := RemoveExtension(p);
    assert base + "" + ("." + s) == base + "." + s;
  }

  /** path::append (operator /=): an absolute operand replaces the path; otherwise a separator
      is added when the path has a file name, then the operand. */
  function Append(p: Path, q: Path): (r: Path)
    ensures |q| > 0 && q[0] == '/' ==> r == q
  {
    if |q| > 0 && q[0] == '/' then q
    else if Filename(p) != "" then p + "/" + q
    else p + q
  }

  /** A name component: no separator and no dot in it. */
  predicate Plain(s: string) {
    forall j :: 0 <= j < |s| ==> s[j] != '/' && s[j] != '.'
  }

  /** Removing the extension keeps the file name non-empty and where it was. */
  lemma RemoveExtensionKeepsFilename(p: Path)
    requires Filename(p) != ""
    ensures FilenameStart(RemoveExtension(p)) == FilenameStart(p)
    ensures Filename(RemoveExtension(p)) != ""
  {
    var i0 := FilenameStart(p);
    var base := RemoveExtension(p);
    FilenameStartIs(base, i0);
  }

  /** A name after a file name extends it. */
  lemma FilenameOfConcat(p: Path, s: string)
    requires forall j :: 0 <= j < |s| ==> s[j] != '/'
    ensures FilenameStart(p + s) == FilenameStart(p)
    ensures Filename(p + s) == Filename(p) + s
  {
    FilenameStartIs(p + s, FilenameStart(p));
  }

  /** A dotted plain extension after a path with a file name is that path's extension. */
  lemma AddExtension(base: Path, s: string)
    requires Filename(base) != "" && Plain(s) && |s| > 0
    ensures ExtensionStart(base + "." + s) == Some(|base|)
    ensures Extension(base + "." + s) == "." + s
    ensures RemoveExtension(base + "." + s) == base
  {
    var q := base + "." + s;
    assert q == base + ("." + s);
    FilenameOfConcat(base, "." + s);
    var fb := Filename(base);
    var f := Filename(q);
    assert f == fb + ("." + s);
    assert |f| >= 3;
    LastIndexIs(f, '.', |fb|);
  }

  /** replace_extension with a dotted plain extension sets exactly that extension, and keeps what
      was before the old one, as long as the path has a file name. */
  lemma ReplaceExtensionSets(p: Path, s: string)
    requires Filename(p) != "" && Plain(s) && |s| > 0
    ensures Extension(ReplaceExtension(p, "." + s)) == "." + s
    ensures RemoveExtension(ReplaceExtension(p, "." + s)) == RemoveExtension(p)
  {
    RemoveExtensionKeepsFilename(p);
    AddExtension(RemoveExtension(p), s);
    ReplaceWithDotted(p, s);
  }

  /** The file name of an appended relative or absolute name is the name's own. */
  lemma FilenameOfAppend(p: Path, q: Path)
    requires |q| > 0
    ensures Filename(Append(p, q)) == Filename(q)
  {
    if q[0] != '/' {
      if Filename(p) != "" {
        FilenameAfterSeparator(p + "/", q);
      } else {
        FilenameAfterSeparator(p, q);
      }
    }
  }

  /** After a separator, or at the start, the file name is the one of what follows. */
  lemma FilenameAfterSeparator(prefix: Path, q: Path)
    requires |prefix| == 0 || prefix[|prefix| - 1] == '/'
    ensures Filename(prefix + q) == Filename(q)
  {
    var r := prefix + q;
    match LastIndex(q, '/')
    case Some(i) =>
      FilenameStartIs(r, |prefix| + i + 1);
      assert r[|prefix| + i + 1..] == q[i + 1..];
    case None =>
      FilenameStartIs(r, |prefix|);
      assert r[|prefix|..] == q;
  }
}

=== FILE: pipeline_state.dfy ===
/** ToPipelineState of RasterizedDataCollector.cpp: the rasterizer pipeline a primitive is drawn
    with. The flag word is a set of flags. The two float comparisons of the source, alpha below
    the translucency threshold and emissive above float epsilon, enter as booleans. */
module PipelineState {
  datatype RasterType = World | Sky | Swapchain

  datatype PipelineFlag = AlphaTest | Translucent | Additive | DepthTest | DepthWrite

  /** What of RgMeshPrimitiveInfo the pipeline depends on. */
  datatype PrimitiveInfo = PrimitiveInfo(
    alphaTested: bool,  // RG_MESH_PRIMITIVE_ALPHA_TESTED
    translucent: bool,  // RG_MESH_PRIMITIVE_TRANSLUCENT
    lowAlpha: bool,     // the alpha of the packed color is below the threshold
    emissive: bool)     // the emissive factor exceeds float epsilon

  /** ToPipelineState, flag by flag in the order of the source; depth write is decided on the
      flags gathered so far. */
  function ToPipelineState(rasterType: RasterType, info: PrimitiveInfo): (r: set<PipelineFlag>)
    ensures AlphaTest in r <==> info.alphaTested
    ensures Translucent in r <==> info.translucent || info.lowAlpha
    ensures Additive in r <==> info.emissive
    ensures DepthTest in r <==> rasterType != Swapchain
    ensures DepthWrite in r <==> rasterType != Swapchain && !info.translucent && !info.lowAlpha
  {
    var r0: set<PipelineFlag> := {};
    var r1 := if info.alphaTested then r0 + {AlphaTest} else r0;
    var r2 := if info.translucent then r1 + {Translucent} else r1;
    var r3 := if info.lowAlpha then r2 + {Translucent} else r2;
    var r4 := if info.emissive then r3 + {Additive} else r3;
    if rasterType != Swapchain then
      var r5 := r4 + {DepthTest};
      if Translucent !in r5 then r5 + {DepthWrite} else r5
    else r4
  }

  /** Depth is written only where it is tested, never for translucent geometry, and the swapchain
      pass uses neither; geometry that is neither translucent nor on the swapchain always writes. */
  lemma DepthRules(rasterType: RasterType, info: PrimitiveInfo)
    ensures var r := ToPipelineState(rasterType, info);
      (DepthWrite in r ==> DepthTest in r) &&
      !(DepthWrite in r && Translucent in r) &&
      (rasterType == Swapchain ==> DepthTest !in r && DepthWrite !in r) &&
      (rasterType != Swapchain && Translucent !in r ==> DepthWrite in r)
  {
  }

  /** World and sky geometry get the same pipeline; only the swapchain pass differs. */
  lemma WorldAndSkyAgree(info: PrimitiveInfo)
    ensures ToPipelineState(World, info) == ToPipelineState(Sky, info)
    ensures ToPipelineState(Swapchain, info) == ToPipelineState(World, info) - {DepthTest, DepthWrite}
  {
    var w := ToPipelineState(World, info);
    var s := ToPipelineState(Swapchain, info);
    assert forall f :: f in s <==> f in w - {DepthTest, DepthWrite};
  }
}

=== FILE: random_seed.dfy ===
/** The blue-noise random seed of the shaders: a uint holding a blue-noise texture index and a
    texel offset inside that texture. BLUE_NOISE_TEXTURE_SIZE_POW and BLUE_NOISE_TEXTURE_COUNT are
    generated constants; here they are the parameters pow and count, and BLUE_NOISE_TEXTURE_SIZE
    is 2^pow, which the masks of the unpacking take for granted. Bit operations are written as
    the arithmetic on disjoint fields they amount to. */
module RandomSeed {
  import opened Machine

  /** The preprocessor check: the two offset fields together take at most 31 bits. */
  predicate ValidPow(pow: nat) {
    2 * pow <= 31
  }

  /** BLUE_NOISE_TEXTURE_SIZE */
  function Size(pow: nat): nat {
    Pow2(pow)
  }

  /** How many texture indices the bits above the offsets can hold. */
  function IndexLimit(pow: nat): nat
    requires ValidPow(pow)
  {
    Pow2(32 - 2 * pow)
  }

  datatype Unpacked = Unpacked(textureIndex: nat, x: nat, y: nat)

  /** packRandomSeed. Its offsets are below SIZE wherever it is called, so the OR of the three
      shifted fields is their sum; the shift by 2·pow drops the index bits from 32 − 2·pow on. */
  function Pack(pow: nat, textureIndex: nat, x: nat, y: nat): (r: U32)
    requires ValidPow(pow) && x < Size(pow) && y < Size(pow)
  {
    var t, s := textureIndex % IndexLimit(pow), Size(pow);
    Layout(pow, t, x, y);
    (t * s + y) * s + x
  }

  /** unpackRandomSeed: the bits from 2·pow on, and the two pow-bit fields below them. */
  function Unpack(pow: nat, seed: U32): (r: Unpacked)
    requires ValidPow(pow)
    ensures r.x < Size(pow) && r.y < Size(pow) && r.textureIndex < IndexLimit(pow)
  {
    Widths(pow);
    DivBelow(seed, Pow2(2 * pow), IndexLimit(pow));
    Unpacked(seed / Pow2(2 * pow), seed % Size(pow), (seed / Size(pow)) % Size(pow))
  }

  /** The three fields split the 32 bits. */
  lemma Widths(pow: nat)
    requires ValidPow(pow)
    ensures Pow2(2 * pow) == Size(pow) * Size(pow) > 0
    ensures Pow2(2 * pow) * IndexLimit(pow) == Pow32
    ensures Size(pow) < Pow32
  {
    SizeFits(pow);
    Pow2Add(pow, pow);
    Pow2Add(2 * pow, 32 - 2 * pow);
    Pow2Of32();
  }

  lemma SizeFits(pow: nat)
    requires ValidPow(pow)
    ensures Size(pow) < Pow32
  {
    var rest := Pow2(31 - pow);
    assert Pow2(32 - pow) == 2 * rest;
    Pow2Add(pow, 32 - pow);
    Pow2Of32();
    MulMonotone(1, 2 * rest, Size(pow));
  }

  /** Fields within their widths fill less than 32 bits. */
  lemma Layout(pow: nat, t: nat, x: nat, y: nat)
    requires ValidPow(pow) && t < IndexLimit(pow) && x < Size(pow) && y < Size(pow)
    ensures (t * Size(pow) + y) * Size(pow) + x < Pow32
  {
    Widths(pow);
    Fits(Size(pow), IndexLimit(pow), t, y, x);
  }

  /** The index field above a low part of two fields. */
  lemma Regroup(s: nat, t: nat, y: nat, x: nat)
    requires x < s && y < s
    ensures (t * s + y) * s + x == t * (s * s) + (y * s + x)
    ensures y * s + x < s * s
  {
    MulMonotone(y + 1, s, s);
  }

  /** Three fields within their widths fit below the product of the widths. */
  lemma Fits(s: nat, limit: nat, t: nat, y: nat, x: nat)
    requires t < limit && y < s && x < s
    ensures (t * s + y) * s + x < s * s * limit
  {
    Regroup(s, t, y, x);
    Below(s * s, t, y * s + x, limit);
  }

  /** The arithmetic round trip of three fields with the lower two of width s. */
  lemma FieldsRoundTrip(s: nat, t: nat, y: nat, x: nat)
    requires x < s && y < s
    ensures ((t * s + y) * s + x) / (s * s) == t
    ensures ((t * s + y) * s + x) % s == x
    ensures (((t * s + y) * s + x) / s) % s == y
  {
    Regroup(s, t, y, x);
    DivModUnique((t * s + y) * s + x, s, t * s + y, x);
    DivModUnique(t * s + y, s, t, y);
    DivModUnique((t * s + y) * s + x, s * s, t, y * s + x);
  }

  /** The arithmetic converse: every value is its three fields put back together. */
  lemma FieldsSplit(s: nat, n: nat)
    requires s > 0
    ensures n == ((n / (s * s)) * s + (n / s) % s) * s + n % s
  {
    var q := n / s;
    assert n == q * s + n % s;
    assert q == (q / s) * s + q % s;
    DivDiv(n, s);
  }

  lemma DivDiv(n: nat, s: nat)
    requires s > 0
    ensures n / s / s == n / (s * s)
  {
    var q := n / s;
    var low := (q % s) * s + n % s;
    assert n == q * s + n % s;
    assert q == (q / s) * s + q % s;
    Regroup(s, q / s, q % s, n % s);
    assert n == ((q / s) * s + q % s) * s + n % s;
    DivModUnique(n, s * s, q / s, low);
  }

  /** Fields within their widths come back unchanged. */
  lemma UnpackPack(pow: nat, t: nat, x: nat, y: nat)
    requires ValidPow(pow) && t < IndexLimit(pow) && x < Size(pow) && y < Size(pow)
    ensures Unpack(pow, Pack(pow, t, x, y)) == Unpacked(t, x, y)
  {
    var s, m := Size(pow), Pow2(2 * pow);
    Widths(pow);
    DivModUnique(t, IndexLimit(pow), 0, t);
    var seed := Pack(pow, t, x, y);
    assert seed == (t * s + y) * s + x;
    FieldsRoundTrip(s, t, y, x);
    assert seed / m == t && seed % s == x && (seed / s) % s == y;
  }

  /** Every uint is the packing of its own fields. */
  lemma PackUnpack(pow: nat, seed: U32)
    requires ValidPow(pow)
    ensures var u := Unpack(pow, seed); Pack(pow, u.textureIndex, u.x, u.y) == seed
  {
    var s, m := Size(pow), Pow2(2 * pow);
    Widths(pow);
    var u := Unpack(pow, seed);
    assert u == Unpacked(seed / m, seed % s, (seed / s) % s);
    DivModUnique(u.textureIndex, IndexLimit(pow), 0, u.textureIndex);
    FieldsSplit(s, seed);
  }

  /** makeSeed: the same texel offset in the texture salt places further on, modulo the texture
      count, with the addition in uint arithmetic. */
  function MakeSeed(pow: nat, count: U32, seed: U32, salt: U32): (r: U32)
    requires ValidPow(pow) && count > 0
    ensures Unpack(pow, r).x == Unpack(pow, seed).x && Unpack(pow, r).y == Unpack(pow, seed).y
    ensures count <= IndexLimit(pow) ==>
      Unpack(pow, r).textureIndex == Wrap(Unpack(pow, seed).textureIndex + salt) % count
  {
    var u := Unpack(pow, seed);
    Widths(pow);
    var w := Wrap(u.textureIndex + salt);
    ModBelow(w, count);
    var t := w % count;
    PackKeepsOffset(pow, t, u.x, u.y);
    RepackBelow(pow, t, count, u.x, u.y);
    Pack(pow, t, u.x, u.y)
  }

  /** The offset fields of a packing do not depend on the texture index. */
  lemma PackKeepsOffset(pow: nat, t: nat, x: nat, y: nat)
    requires ValidPow(pow) && x < Size(pow) && y < Size(pow)
    ensures Unpack(pow, Pack(pow, t, x, y)).x == x && Unpack(pow, Pack(pow, t, x, y)).y == y
  {
    var l := IndexLimit(pow);
    var t' := t % l;
    ModBelow(t, l);
    PackReducesIndex(pow, t, x, y);
    UnpackPack(pow, t', x, y);
  }

  /** Only the texture index modulo IndexLimit reaches the packing. */
  lemma PackReducesIndex(pow: nat, t: nat, x: nat, y: nat)
    requires ValidPow(pow) && x < Size(pow) && y < Size(pow)
    ensures Pack(pow, t, x, y) == Pack(pow, t % IndexLimit(pow), x, y)
  {
    var l := IndexLimit(pow);
    DivModUnique(t % l, l, 0, t % l);
  }

  /** An index below a count that fits comes back from the packing. */
  lemma RepackBelow(pow: nat, t: nat, count: nat, x: nat, y: nat)
    requires ValidPow(pow) && t < count && x < Size(pow) && y < Size(pow)
    ensures count <= IndexLimit(pow) ==> Unpack(pow, Pack(pow, t, x, y)).textureIndex == t
  {
    if count <= IndexLimit(pow) {
      UnpackPack(pow, t, x, y);
    }
  }

  /** The texture a pixel's seed starts from: the SIZE×SIZE tiles of the screen numbered row by
      row, countX to a row, in uint arithmetic. */
  function TileIndex(pow: nat, countX: U32, pixX: nat, pixY: nat): (r: U32)
    requires ValidPow(pow)
  {
    Wrap(Wrap(pixY / Size(pow) * countX) + pixX / Size(pow))
  }

  /** getRandomSeed. The pixel coordinates are those of a shader invocation, never negative;
      countX stands for uint(ceil(screenWidth / SIZE)), whose float arithmetic is left to the
      caller. The source also computes countY and never reads it. */
  function GetRandomSeed(pow: nat, count: U32, pixX: nat, pixY: nat, frameIndex: U32, countX: U32): (r: U32)
    requires ValidPow(pow) && count > 0 && pixX < Pow31 && pixY < Pow31
    ensures Unpack(pow, r).x == pixX % Size(pow) && Unpack(pow, r).y == pixY % Size(pow)
    ensures count <= IndexLimit(pow) ==> Unpack(pow, r).textureIndex < count
  {
    Widths(pow);
    var w := Wrap(TileIndex(pow, countX, pixX, pixY) + frameIndex);
    ModBelow(w, count);
    ModBelow(pixX, Size(pow));
    ModBelow(pixY, Size(pow));
    var t := w % count;
    PackKeepsOffset(pow, t, pixX % Size(pow), pixY % Size(pow));
    RepackBelow(pow, t, count, pixX % Size(pow), pixY % Size(pow));
    Pack(pow, t, pixX % Size(pow), pixY % Size(pow))
  }

  /** The seed's texture index is the pixel's tile index advanced by the frame index, modulo
      the texture count. */
  lemma SeedTexture(pow: nat, count: U32, pixX: nat, pixY: nat, frameIndex: U32, countX: U32)
    requires ValidPow(pow) && 0 < count <= IndexLimit(pow) && pixX < Pow31 && pixY < Pow31
    ensures Unpack(pow, GetRandomSeed(pow, count, pixX, pixY, frameIndex, countX)).textureIndex ==
      Wrap(TileIndex(pow, countX, pixX, pixY) + frameIndex) % count
  {
    Widths(pow);
    var w := Wrap(TileIndex(pow, countX, pixX, pixY) + frameIndex);
    ModBelow(w, count);
    ModBelow(pixX, Size(pow));
    ModBelow(pixY, Size(pow));
    RepackBelow(pow, w % count, count, pixX % Size(pow), pixY % Size(pow));
  }

  /** All pixels of one tile start from the same texture, at their own offsets. */
  lemma TileSharesTexture(pow: nat, count: U32, pixX: nat, pixY: nat, pixX': nat, pixY': nat, frameIndex: U32, countX: U32)
    requires ValidPow(pow) && 0 < count <= IndexLimit(pow)
    requires pixX < Pow31 && pixY < Pow31 && pixX' < Pow31 && pixY' < Pow31
    requires pixX / Size(pow) == pixX' / Size(pow) && pixY / Size(pow) == pixY' / Size(pow)
    ensures Unpack(pow, GetRandomSeed(pow, count, pixX, pixY, frameIndex, countX)).textureIndex ==
      Unpack(pow, GetRandomSeed(pow, count, pixX', pixY', frameIndex, countX)).textureIndex
  {
    SeedTexture(pow, count, pixX, pixY, frameIndex, countX);
    SeedTexture(pow, count, pixX', pixY', frameIndex, countX);
  }

  /** makeSeed turns the seed of one frame into the seed of a later frame: salting by k is the
      same as asking for frameIndex + k, as long as no uint sum wraps. */
  lemma SaltAdvancesFrame(pow: nat, count: U32, pixX: nat, pixY: nat, frameIndex: U32, countX: U32, salt: U32)
    requires ValidPow(pow) && 0 < count <= IndexLimit(pow) && pixX < Pow31 && pixY < Pow31
    requires TileIndex(pow, countX, pixX, pixY) + frameIndex + salt < Pow32
    ensures MakeSeed(pow, count, GetRandomSeed(pow, count, pixX, pixY, frameIndex, countX), salt) ==
      GetRandomSeed(pow, count, pixX, pixY, frameIndex + salt, countX)
  {
    var seed := GetRandomSeed(pow, count, pixX, pixY, frameIndex, countX);
    var later := GetRandomSeed(pow, count, pixX, pixY, frameIndex + salt, countX);
    var next := MakeSeed(pow, count, seed, salt);
    var tile := TileIndex(pow, countX, pixX, pixY);
    SeedTexture(pow, count, pixX, pixY, frameIndex, countX);
    SeedTexture(pow, count, pixX, pixY, frameIndex + salt, countX);
    var t := (tile + frameIndex) % count;
    assert Unpack(pow, seed).textureIndex == t;
    ModBelow(tile + frameIndex, count);
    assert Unpack(pow, next).textureIndex == (t + salt) % count;
    ModAddMod(tile + frameIndex, salt, count);
    assert Unpack(pow, next) == Unpack(pow, later);
    UnpackInjective(pow, next, later);
  }

  /** A seed is determined by its fields. */
  lemma UnpackInjective(pow: nat, a: U32, b: U32)
    requires ValidPow(pow) && Unpack(pow, a) == Unpack(pow, b)
    ensures a == b
  {
    PackUnpack(pow, a);
    PackUnpack(pow, b);
  }

  lemma ModAddMod(a: nat, b: nat, d: nat)
    requires d > 0
    ensures (a % d + b) % d == (a + b) % d
  {
    var q := a / d;
    assert a + b == (a % d + b) + d * q;
    var q', r' := (a % d + b) / d, (a % d + b) % d;
    assert a + b == d * (q + q') + r';
    ModBelow(a % d + b, d);
    DivModUnique(a + b, d, q + q', r');
  }
}

=== FILE: sampler_manager.dfy ===
/** SamplerManager.cpp: the packing of a filter and two address modes into a sampler index, for
    the library's enums and for Vulkan's, the table of samplers the constructor creates, and the
    lookup GetSampler. A created sampler is identified by its creation order. */
module SamplerManager {
  import opened Wrappers

  /** A sampler index: the source's uint32_t, of which only the low seven bits are used. */
  type Index = nat

  /** RgSamplerFilter and VkFilter; Other is any value outside the listed cases. */
  datatype RgFilter = RgNearest | RgLinear | RgFilterOther
  datatype VkFilter = VkNearest | VkLinear | VkFilterOther

  /** RgSamplerAddressMode and VkSamplerAddressMode. */
  datatype RgMode = RgRepeat | RgMirroredRepeat | RgClampToEdge | RgClampToBorder | RgMirrorClampToEdge | RgModeOther
  datatype VkMode = VkRepeat | VkMirroredRepeat | VkClampToEdge | VkClampToBorder | VkMirrorClampToEdge | VkModeOther

  /** FILTER_* values (bit 0). An unlisted value adds no bit. */
  function VkFilterCode(f: VkFilter): (r: Index)
    ensures r <= 1
  {
    match f
    case VkNearest => 0
    case VkLinear => 1
    case VkFilterOther => 0
  }

  /** ADDRESS_MODE_*_ values before their shift. An unlisted value adds no bit. */
  function VkModeCode(m: VkMode): (r: Index)
    ensures r <= 4
  {
    match m
    case VkRepeat => 0
    case VkMirroredRepeat => 1
    case VkClampToEdge => 2
    case VkClampToBorder => 3
    case VkMirrorClampToEdge => 4
    case VkModeOther => 0
  }

  function RgFilterCode(f: RgFilter): (r: Index)
    ensures r <= 1
  {
    match f
    case RgNearest => 0
    case RgLinear => 1
    case RgFilterOther => 0
  }

  function RgModeCode(m: RgMode): (r: Index)
    ensures r <= 4
  {
    match m
    case RgRepeat => 0
    case RgMirroredRepeat => 1
    case RgClampToEdge => 2
    case RgClampToBorder => 3
    case RgMirrorClampToEdge => 4
    case RgModeOther => 0
  }

  /** The bit layout: filter in bit 0, U mode in bits 1-3, V mode in bits 4-6. The fields do not
      overlap, so the source's bitwise ORs of shifted codes are sums of scaled codes here. */
  function Pack(filter: Index, u: Index, v: Index): Index {
    filter + u * 2 + v * 16
  }

  /** index & 1, (index >> 1) & 7 and (index >> 4) & 7. */
  function FilterOf(index: Index): Index { index % 2 }
  function ModeUOf(index: Index): Index { index / 2 % 8 }
  function ModeVOf(index: Index): Index { index / 16 % 8 }

  /** Unpacking a packed index gives back its three fields, and the index is below 128. */
  lemma UnpackPack(filter: Index, u: Index, v: Index)
    requires filter <= 1 && u <= 4 && v <= 4
    ensures FilterOf(Pack(filter, u, v)) == filter
    ensures ModeUOf(Pack(filter, u, v)) == u
    ensures ModeVOf(Pack(filter, u, v)) == v
    ensures Pack(filter, u, v) < 128
  {
    var i := Pack(filter, u, v);
    var w := u + 8 * v;
    DivModBy(i, 2, w, filter);
    DivModBy(w, 8, v, u);
    DivModBy(i, 16, v, filter + 2 * u);
  }

  /** Division and remainder by a positive constant, from the quotient and remainder. */
  lemma DivModBy(x: int, d: int, q: int, r: int)
    requires d == 2 || d == 5 || d == 8 || d == 16 || d == 25
    requires x == d * q + r && 0 <= r < d
    ensures x / d == q && x % d == r
  {
  }

  /** SamplerManager::ToIndex over VkFilter and VkSamplerAddressMode. */
  function VkToIndex(filter: VkFilter, u: VkMode, v: VkMode): (r: Index)
    ensures r < 128
    ensures FilterOf(r) == VkFilterCode(filter) && ModeUOf(r) == VkModeCode(u) && ModeVOf(r) == VkModeCode(v)
  {
    UnpackPack(VkFilterCode(filter), VkModeCode(u), VkModeCode(v));
    Pack(VkFilterCode(filter), VkModeCode(u), VkModeCode(v))
  }

  /** SamplerManager::ToIndex over RgSamplerFilter and RgSamplerAddressMode. */
  function RgToIndex(filter: RgFilter, u: RgMode, v: RgMode): (r: Index)
    ensures r < 128
    ensures FilterOf(r) == RgFilterCode(filter) && ModeUOf(r) == RgModeCode(u) && ModeVOf(r) == RgModeCode(v)
  {
    UnpackPack(RgFilterCode(filter), RgModeCode(u), RgModeCode(v));
    Pack(RgFilterCode(filter), RgModeCode(u), RgModeCode(v))
  }

  /** The listed (non-Other) values. */
  predicate ListedVkFilter(f: VkFilter) { f != VkFilterOther }
  predicate ListedVkMode(m: VkMode) { m != VkModeOther }

  /** On listed values ToIndex is injective. */
  lemma VkToIndexInjective(f: VkFilter, u: VkMode, v: VkMode, f': VkFilter, u': VkMode, v': VkMode)
    requires ListedVkFilter(f) && ListedVkMode(u) && ListedVkMode(v)
    requires ListedVkFilter(f') && ListedVkMode(u') && ListedVkMode(v')
    requires VkToIndex(f, u, v) == VkToIndex(f', u', v')
    ensures f == f' && u == u' && v == v'
  {
    var r := VkToIndex(f, u, v);
    assert FilterOf(r) == VkFilterCode(f) == VkFilterCode(f');
    assert ModeUOf(r) == VkModeCode(u) == VkModeCode(u');
    assert ModeVOf(r) == VkModeCode(v) == VkModeCode(v');
    ListedModeCodes(u, u');
    ListedModeCodes(v, v');
  }

  /** Listed modes have distinct codes. */
  lemma ListedModeCodes(m: VkMode, m': VkMode)
    requires ListedVkMode(m) && ListedVkMode(m') && VkModeCode(m) == VkModeCode(m')
    ensures m == m'
  {
  }

  /** The library's enums and Vulkan's correspond case by case. */
  function FilterToVk(f: RgFilter): VkFilter {
    match f
    case RgNearest => VkNearest
    case RgLinear => VkLinear
    case RgFilterOther => VkFilterOther
  }

  function ModeToVk(m: RgMode): VkMode {
    match m
    case RgRepeat => VkRepeat
    case RgMirroredRepeat => VkMirroredRepeat
    case RgClampToEdge => VkClampToEdge
    case RgClampToBorder => VkClampToBorder
    case RgMirrorClampToEdge => VkMirrorClampToEdge
    case RgModeOther => VkModeOther
  }

  /** The two overloads agree on corresponding values. */
  lemma OverloadsAgree(f: RgFilter, u: RgMode, v: RgMode)
    ensures RgToIndex(f, u, v) == VkToIndex(FilterToVk(f), ModeToVk(u), ModeToVk(v))
  {
    assert RgFilterCode(f) == VkFilterCode(FilterToVk(f));
    assert RgModeCode(u) == VkModeCode(ModeToVk(u));
    assert RgModeCode(v) == VkModeCode(ModeToVk(v));
  }

  /** An unlisted value packs like the first listed one (NEAREST, REPEAT). */
  lemma OtherPacksAsFirst(u: VkMode, v: VkMode)
    ensures VkToIndex(VkFilterOther, u, v) == VkToIndex(VkNearest, u, v)
    ensures VkToIndex(VkNearest, VkModeOther, v) == VkToIndex(VkNearest, VkRepeat, v)
  {
    assert VkFilterCode(VkFilterOther) == VkFilterCode(VkNearest);
    assert VkModeCode(VkModeOther) == VkModeCode(VkRepeat);
  }

  // ---------------------------------------------------------------------------------------------
  // The sampler table
  // ---------------------------------------------------------------------------------------------

  const Filters: seq<VkFilter> := [VkNearest, VkLinear]
  const Modes: seq<VkMode> := [VkRepeat, VkMirroredRepeat, VkClampToEdge, VkClampToBorder, VkMirrorClampToEdge]

  /** The number of samplers the constructor creates: 2 filters x 5 x 5 modes. */
  const SamplerCount: nat := 50

  /** The n-th (filter, U, V) triple of the constructor's nested loops. */
  function Triple(n: nat): (VkFilter, VkMode, VkMode)
    requires n < SamplerCount
  {
    var r := n % 25;
    (Filters[n / 25], Modes[r / 5], Modes[r % 5])
  }

  function TripleIndex(n: nat): Index
    requires n < SamplerCount
  {
    var t := Triple(n);
    VkToIndex(t.0, t.1, t.2)
  }

  /** Distinct loop positions give distinct indices. */
  lemma TripleIndexInjective(n: nat, m: nat)
    requires n < SamplerCount && m < SamplerCount && TripleIndex(n) == TripleIndex(m)
    ensures n == m
  {
    var a, b, c := TripleIndexFields(n);
    var a', b', c' := TripleIndexFields(m);
    PackInjective(a, b, c, a', b', c');
  }

  /** The n-th sampler's index packs its loop counters: a filter's code and a mode's code are
      their positions in the loops. */
  lemma TripleIndexFields(n: nat) returns (a: nat, b: nat, c: nat)
    requires n < SamplerCount
    ensures a < 2 && b < 5 && c < 5 && n == 25 * a + 5 * b + c
    ensures TripleIndex(n) == Pack(a, b, c)
  {
    a, b, c := TriplePositions(n);
    assert VkFilterCode(Filters[a]) == a;
    assert VkModeCode(Modes[b]) == b;
    assert VkModeCode(Modes[c]) == c;
  }

  lemma PackInjective(a: nat, b: nat, c: nat, a': nat, b': nat, c': nat)
    requires a <= 1 && b <= 4 && c <= 4 && a' <= 1 && b' <= 4 && c' <= 4
    requires Pack(a, b, c) == Pack(a', b', c')
    ensures a == a' && b == b' && c == c'
  {
    UnpackPack(a, b, c);
    UnpackPack(a', b', c');
  }

  /** The three loop counters of the n-th iteration. */
  lemma TriplePositions(n: nat) returns (a: nat, b: nat, c: nat)
    requires n < SamplerCount
    ensures a < 2 && b < 5 && c < 5 && n == 25 * a + 5 * b + c
    ensures Triple(n) == (Filters[a], Modes[b], Modes[c])
  {
    var r := n % 25;
    a, b, c := n / 25, r / 5, r % 5;
  }

  lemma FilterPosition(i: nat, j: nat)
    requires i < 2 && j < 2 && Filters[i] == Filters[j]
    ensures i == j
  {
  }

  lemma ModePosition(i: nat, j: nat)
    requires i < 5 && j < 5 && Modes[i] == Modes[j]
    ensures i == j
  {
  }

  /** The samplers map the constructor fills: keys[n] is the index of the n-th sampler created,
      inserted in creation order. */
  function Table(keys: seq<Index>): (r: map<Index, nat>)
    decreases |keys|
  {
    if |keys| == 0 then map[] else Table(keys[..|keys| - 1])[keys[|keys| - 1] := |keys| - 1]
  }

  /** The indices of the constructor's 50 samplers, in creation order. */
  function ConstructorKeys(): (r: seq<Index>)
    ensures |r| == SamplerCount
    ensures forall n :: 0 <= n < SamplerCount ==> r[n] == TripleIndex(n)
  {
    seq(SamplerCount, n requires 0 <= n < SamplerCount => TripleIndex(n))
  }

  predicate Distinct(keys: seq<Index>) {
    forall n, m :: 0 <= n < m < |keys| ==> keys[n] != keys[m]
  }

  /** The constructor's assertion never fails: the 50 triples have distinct indices. */
  lemma ConstructorKeysDistinct()
    ensures Distinct(ConstructorKeys())
  {
    var keys := ConstructorKeys();
    forall n, m | 0 <= n < m < |keys|
      ensures keys[n] != keys[m]
    {
      if keys[n] == keys[m] {
        TripleIndexInjective(n, m);
      }
    }
  }

  /** Distinct keys are never overwritten: the map has one entry per key, holding the position
      of the key. */
  lemma {:induction false} TableOfDistinct(keys: seq<Index>)
    requires Distinct(keys)
    ensures Table(keys).Keys == set k | 0 <= k < |keys| :: keys[k]
    ensures |Table(keys)| == |keys|
    ensures forall k :: 0 <= k < |keys| ==> keys[k] in Table(keys) && Table(keys)[keys[k]] == k
    decreases |keys|
  {
    if |keys| > 0 {
      var front := keys[..|keys| - 1];
      var last := keys[|keys| - 1];
      TableOfDistinct(front);
      var t0 := Table(front);
      var t := t0[last := |keys| - 1];
      assert Table(keys) == t;
      assert last !in t0;
      forall k | 0 <= k < |keys|
        ensures keys[k] in t && t[keys[k]] == k
      {
        if k < |keys| - 1 {
          assert keys[k] == front[k] && keys[k] != last;
          assert front[k] in t0 && t0[front[k]] == k;
          assert t[keys[k]] == t0[keys[k]];
        } else {
          assert k == |keys| - 1;
          assert keys[k] == last;
          assert t[last] == |keys| - 1;
        }
      }
    }
  }

  /** The constructor creates 50 samplers and keeps every one of them. */
  lemma ConstructorTableSize()
    ensures |Table(ConstructorKeys())| == SamplerCount
  {
    ConstructorKeysDistinct();
    TableOfDistinct(ConstructorKeys());
  }

  /** The constructor's table holds the 50 samplers, the n-th under the index of its own
      triple. */
  lemma ConstructorTable(n: nat)
    requires n < SamplerCount
    ensures TripleIndex(n) in Table(ConstructorKeys()) && Table(ConstructorKeys())[TripleIndex(n)] == n
  {
    ConstructorKeysDistinct();
    TableOfDistinct(ConstructorKeys());
    assert ConstructorKeys()[n] == TripleIndex(n);
  }

  /** GetSampler: the sampler at the index of the triple, or the null handle when there is
      none. */
  function GetSampler(samplers: map<Index, nat>, filter: RgFilter, u: RgMode, v: RgMode): (r: Option<nat>)
    ensures r.Some? <==> RgToIndex(filter, u, v) in samplers
    ensures r.Some? ==> r.value == samplers[RgToIndex(filter, u, v)]
  {
    var index := RgToIndex(filter, u, v);
    if index in samplers then Some(samplers[index]) else None
  }

  function ListedFilterPosition(f: VkFilter): (i: nat)
    requires ListedVkFilter(f)
    ensures i < 2 && Filters[i] == f
  {
    if f == VkNearest then 0 else 1
  }

  function ListedModePosition(m: VkMode): (i: nat)
    requires ListedVkMode(m)
    ensures i < 5 && Modes[i] == m
  {
    match m
    case VkRepeat => 0
    case VkMirroredRepeat => 1
    case VkClampToEdge => 2
    case VkClampToBorder => 3
    case VkMirrorClampToEdge => 4
  }

  /** The loop position of a (filter, U, V) position triple. */
  lemma TripleAt(a: nat, b: nat, c: nat)
    requires a < 2 && b < 5 && c < 5
    ensures 25 * a + 5 * b + c < SamplerCount
    ensures Triple(25 * a + 5 * b + c) == (Filters[a], Modes[b], Modes[c])
  {
    var n := 25 * a + 5 * b + c;
    DivModBy(n, 25, a, 5 * b + c);
    DivModBy(5 * b + c, 5, b, c);
  }

  /** Where a listed triple sits in the constructor's loops. */
  lemma ListedTriple(f: VkFilter, u: VkMode, v: VkMode) returns (n: nat)
    requires ListedVkFilter(f) && ListedVkMode(u) && ListedVkMode(v)
    ensures n < SamplerCount && Triple(n) == (f, u, v) && TripleIndex(n) == VkToIndex(f, u, v)
  {
    var a, b, c := ListedFilterPosition(f), ListedModePosition(u), ListedModePosition(v);
    TripleAt(a, b, c);
    n := 25 * a + 5 * b + c;
  }

  /** The listed values an index lookup stands for: unlisted ones are replaced by the first
      listed value, whose code they share. */
  function CanonicalFilter(f: RgFilter): (r: VkFilter)
    ensures ListedVkFilter(r) && VkFilterCode(r) == RgFilterCode(f)
  {
    if f == RgFilterOther then VkNearest else FilterToVk(f)
  }

  function CanonicalMode(m: RgMode): (r: VkMode)
    ensures ListedVkMode(r) && VkModeCode(r) == RgModeCode(m)
  {
    if m == RgModeOther then VkRepeat else ModeToVk(m)
  }

  /** With the constructor's table, GetSampler never returns the null handle: a listed triple
      finds the sampler created for it, and an unlisted value finds the sampler of the first
      listed value in its place. */
  lemma GetSamplerAlwaysFinds(filter: RgFilter, u: RgMode, v: RgMode) returns (n: nat)
    ensures GetSampler(Table(ConstructorKeys()), filter, u, v) == Some(n)
    ensures n < SamplerCount && Triple(n) == (CanonicalFilter(filter), CanonicalMode(u), CanonicalMode(v))
  {
    n := CanonicalPosition(filter, u, v);
    ConstructorTable(n);
  }

  /** The loop position of a lookup's canonical triple, which has the lookup's index. */
  lemma CanonicalPosition(filter: RgFilter, u: RgMode, v: RgMode) returns (n: nat)
    ensures n < SamplerCount && Triple(n) == (CanonicalFilter(filter), CanonicalMode(u), CanonicalMode(v))
    ensures TripleIndex(n) == RgToIndex(filter, u, v)
  {
    n := ListedTriple(CanonicalFilter(filter), CanonicalMode(u), CanonicalMode(v));
    CanonicalIndex(filter, u, v);
  }

  /** A lookup's index is the index of its canonical triple. */
  lemma CanonicalIndex(filter: RgFilter, u: RgMode, v: RgMode)
    ensures RgToIndex(filter, u, v) == VkToIndex(CanonicalFilter(filter), CanonicalMode(u), CanonicalMode(v))
  {
  }

  /** For listed values the canonical triple is the triple itself. */
  lemma CanonicalOfListed(filter: RgFilter, u: RgMode, v: RgMode)
    requires filter != RgFilterOther && u != RgModeOther && v != RgModeOther
    ensures (CanonicalFilter(filter), CanonicalMode(u), CanonicalMode(v)) == (FilterToVk(filter), ModeToVk(u), ModeToVk(v))
  {
  }
}

=== FILE: scratch_immediate.dfy ===
/** The index generators of the immediate-mode scratch collector (ScratchImmediate.cpp): the
    triangle and index counts of each topology, the allocation step of the index cache, the
    four index patterns and the cache that GetIndices grows on demand.

    The index cache is a sequence of uint32_t values; its growth is a pure function from the
    cache before to the cache after. The source keeps a single cache, indicesTriangles, for all four
    topologies; GetIndices models that, and GetIndicesPerTopology is the corrected variant with a
    cache per topology. */
module ScratchImmediate {
  import opened Wrappers
  import opened Machine

  /** RgUtilImScratchTopology; Other stands for any value outside the four known ones. */
  datatype Topology = Triangles | TriangleStrip | TriangleFan | Quads | Other

  // ---------------------------------------------------------------------------------------------
  // Counts
  // ---------------------------------------------------------------------------------------------

  /** GetTriangleCount as written: for strips and fans, max(0u, v - 2) is a max of unsigned
      values, so v - 2 wraps around below two vertices. */
  function TriangleCountAsWritten(topology: Topology, vertexCount: U32): (r: U32)
  {
    match topology
    case Triangles => vertexCount / 3
    case TriangleStrip => Wrap(vertexCount - 2)
    case TriangleFan => Wrap(vertexCount - 2)
    case Quads => vertexCount / 4 * 2
    case Other => 0
  }

  /** GetTriangleCount with the evident intent of max(0, v - 2): no triangle below two
      vertices. */
  function TriangleCount(topology: Topology, vertexCount: U32): (r: U32)
  {
    match topology
    case Triangles => vertexCount / 3
    case TriangleStrip => if vertexCount < 2 then 0 else vertexCount - 2
    case TriangleFan => if vertexCount < 2 then 0 else vertexCount - 2
    case Quads => vertexCount / 4 * 2
    case Other => 0
  }

  /** GetIndexCount: three indices per triangle, in uint32_t arithmetic. */
  function IndexCountOf(triangleCount: U32): (r: U32)
  {
    Wrap(triangleCount * 3)
  }

  /** Each topology's triangle count, as the number of whole primitives the vertices form. */
  lemma TriangleCountByTopology(vertexCount: U32)
    ensures 3 * TriangleCount(Triangles, vertexCount) <= vertexCount < 3 * TriangleCount(Triangles, vertexCount) + 3
    ensures TriangleCount(Quads, vertexCount) % 2 == 0
    ensures 2 * TriangleCount(Quads, vertexCount) <= vertexCount < 2 * TriangleCount(Quads, vertexCount) + 4
    ensures TriangleCount(TriangleStrip, vertexCount) == TriangleCount(TriangleFan, vertexCount)
    ensures TriangleCount(TriangleStrip, vertexCount) + 2 == vertexCount || (vertexCount < 2 && TriangleCount(TriangleStrip, vertexCount) == 0)
    ensures TriangleCount(Other, vertexCount) == 0
  {
  }

  /** The written and the intended triangle counts agree exactly from two vertices on. */
  lemma CountsAgreeFromTwoVertices(topology: Topology, vertexCount: U32)
    ensures TriangleCountAsWritten(topology, vertexCount) == TriangleCount(topology, vertexCount) <==>
      (vertexCount >= 2 || topology !in {TriangleStrip, TriangleFan})
  {
  }

  /** Below two vertices a strip or fan is reported with close to 2^32 triangles, and the index
      count wraps to 2^32 - 6 or 2^32 - 3 instead of 0. */
  lemma ShortStripWraps()
    ensures TriangleCountAsWritten(TriangleStrip, 0) == Pow32 - 2
    ensures TriangleCountAsWritten(TriangleFan, 1) == Pow32 - 1
    ensures IndexCountOf(TriangleCountAsWritten(TriangleStrip, 0)) == Pow32 - 6
    ensures IndexCountOf(TriangleCountAsWritten(TriangleFan, 1)) == Pow32 - 3
    ensures IndexCountOf(TriangleCount(TriangleStrip, 0)) == 0
  {
  }

  /** The index count is three times the triangle count whenever that fits in 32 bits. */
  lemma IndexCountIsThreePerTriangle(triangleCount: U32)
    ensures 3 * triangleCount < Pow32 ==> IndexCountOf(triangleCount) == 3 * triangleCount
    ensures IndexCountOf(triangleCount) % 3 == (3 * triangleCount) % Pow32 % 3
  {
  }

  // ---------------------------------------------------------------------------------------------
  // Allocation step
  // ---------------------------------------------------------------------------------------------

  const AllocStep: nat := 256

  /** GetNextAllocStep, with the uint32_t addition written out. */
  function NextAllocStep(previous: U32): (r: U32)
  {
    Wrap(previous + AllocStep) / AllocStep * AllocStep
  }

  /** Away from the top of the 32-bit range the next step is the least multiple of 256 strictly
      greater than previous. */
  lemma NextAllocStepIsNextMultiple(previous: U32)
    requires previous + AllocStep < Pow32
    ensures NextAllocStep(previous) % AllocStep == 0
    ensures previous < NextAllocStep(previous) <= previous + AllocStep
  {
  }

  /** Within 256 of the top of the range the addition wraps and the step drops to 0. */
  lemma NextAllocStepWraps(previous: U32)
    requires Pow32 - AllocStep <= previous
    ensures NextAllocStep(previous) == 0
  {
  }

  /** The debug assertions ALLOC_STEP % 3 == 0 and ALLOC_STEP % 6 == 0 are false for 256. They run
      before the growth test, so every call of an index generator stops a debug build; release
      builds skip them, and the rounded size is then not a whole number of triangles. */
  lemma AllocStepIsNotWholeTriangles()
    ensures AllocStep % 3 != 0 && AllocStep % 6 != 0
    ensures NextAllocStep(3) == 256 && NextAllocStep(3) % 3 != 0
  {
  }

  /** The step the assertions evidently expect: a multiple of 256 that is also a whole number of
      triangles and of quads. */
  const WholeAllocStep: nat := 3 * AllocStep

  /** The allocation step with the corrected step size. */
  function NextWholeAllocStep(previous: U32): (r: U32)
  {
    Wrap(previous + WholeAllocStep) / WholeAllocStep * WholeAllocStep
  }

  lemma NextWholeAllocStepIsWhole(previous: U32)
    requires previous + WholeAllocStep < Pow32
    ensures NextWholeAllocStep(previous) % 3 == 0 && NextWholeAllocStep(previous) % 6 == 0
    ensures NextWholeAllocStep(previous) % AllocStep == 0
    ensures previous < NextWholeAllocStep(previous) <= previous + WholeAllocStep
  {
  }

  // ---------------------------------------------------------------------------------------------
  // Index patterns
  // ---------------------------------------------------------------------------------------------

  /** Indices written per loop iteration: a triangle, or a quad's two triangles. */
  function Unit(topology: Topology): (r: nat)
    ensures r == 3 || r == 6
  {
    if topology == Quads then 6 else 3
  }

  /** Offsets of a quad's two triangles within its four vertices. */
  function QuadCorner(j: nat): (r: nat)
    requires j < 6
    ensures r < 4
  {
    if j == 0 then 0 else if j == 1 then 1 else if j == 2 then 2
    else if j == 3 then 2 else if j == 4 then 3 else 0
  }

  /** Index k of the pattern the loop of GetIndicesTriangles, ...Strip, ...Fan or ...Quads
      writes. */
  function Entry(topology: Topology, k: nat): (r: nat)
  {
    var tri, j := k / 3, k % 3;
    match topology
    case Triangles => k
    case TriangleStrip =>
      if j == 0 then tri else if j == 1 then tri + (1 + tri % 2) else tri + (2 - tri % 2)
    case TriangleFan =>
      if j == 0 then tri + 1 else if j == 1 then tri + 2 else 0
    case Quads => k / 6 * 4 + QuadCorner(k % 6)
    case Other => 0
  }

  /** Triangle t of a strip uses exactly the vertices t, t + 1 and t + 2, with the winding
      flipped on odd triangles. */
  lemma StripTriangle(t: nat)
    ensures {Entry(TriangleStrip, 3 * t), Entry(TriangleStrip, 3 * t + 1), Entry(TriangleStrip, 3 * t + 2)} == {t, t + 1, t + 2}
    ensures Entry(TriangleStrip, 3 * t) == t
    ensures t % 2 == 0 ==> Entry(TriangleStrip, 3 * t + 1) == t + 1 && Entry(TriangleStrip, 3 * t + 2) == t + 2
    ensures t % 2 == 1 ==> Entry(TriangleStrip, 3 * t + 1) == t + 2 && Entry(TriangleStrip, 3 * t + 2) == t + 1
  {
    assert (3 * t) / 3 == t && (3 * t + 1) / 3 == t && (3 * t + 2) / 3 == t;
  }

  /** Triangle t of a fan joins vertices t + 1 and t + 2 to vertex 0. */
  lemma FanTriangle(t: nat)
    ensures Entry(TriangleFan, 3 * t) == t + 1 && Entry(TriangleFan, 3 * t + 1) == t + 2 && Entry(TriangleFan, 3 * t + 2) == 0
  {
    assert (3 * t) / 3 == t && (3 * t + 1) / 3 == t && (3 * t + 2) / 3 == t;
  }

  /** Quad q is split into (4q, 4q + 1, 4q + 2) and (4q + 2, 4q + 3, 4q), which cover its four
      vertices. */
  lemma QuadTriangles(q: nat)
    ensures [Entry(Quads, 6 * q), Entry(Quads, 6 * q + 1), Entry(Quads, 6 * q + 2),
             Entry(Quads, 6 * q + 3), Entry(Quads, 6 * q + 4), Entry(Quads, 6 * q + 5)]
         == [4 * q, 4 * q + 1, 4 * q + 2, 4 * q + 2, 4 * q + 3, 4 * q]
  {
    assert (6 * q) / 6 == q && (6 * q + 1) / 6 == q && (6 * q + 2) / 6 == q;
    assert (6 * q + 3) / 6 == q && (6 * q + 4) / 6 == q && (6 * q + 5) / 6 == q;
  }

  /** Every index a pattern produces for the first n indices names one of the vertices the
      triangle count was derived from. */
  lemma EntriesWithinVertices(topology: Topology, vertexCount: U32, k: nat)
    requires topology != Other
    requires k < 3 * TriangleCount(topology, vertexCount)
    ensures Entry(topology, k) < vertexCount
  {
    if topology == Quads {
      assert k / 6 < vertexCount / 4;
    }
  }

  /** s holds topology's pattern on its first n entries. */
  ghost predicate Follows(s: seq<nat>, topology: Topology, n: nat)
  {
    n <= |s| && forall k :: 0 <= k < n ==> s[k] == Entry(topology, k)
  }

  // ---------------------------------------------------------------------------------------------
  // Growing the cache
  // ---------------------------------------------------------------------------------------------

  /** The first index written by a growth from a cache of the given size: the start of the
      unit containing the previous end. */
  function GrowStart(oldSize: nat, topology: Topology): nat {
    oldSize / Unit(topology) * Unit(topology)
  }

  /** The cache after one of the GetIndices* helpers: if required exceeds the current size,
      the cache is resized to the next allocation step (new cells zero) and whole units from the
      one containing the previous end up to the new size are written with the pattern. */
  function Grow(existing: seq<nat>, required: U32, topology: Topology): (r: seq<nat>)
    requires |existing| < Pow32
  {
    if required <= |existing| then existing
    else
      var size := NextAllocStep(required);
      var start, end := GrowStart(|existing|, topology), size / Unit(topology) * Unit(topology);
      seq(size, k requires 0 <= k < size =>
        if start <= k < end then Entry(topology, k) else if k < |existing| then existing[k] else 0)
  }

  /** Growth never shrinks the cache while the step does not wrap, and it leaves every cell
      before the start of the previous end's unit as it was. */
  lemma GrowKeepsPrefix(existing: seq<nat>, required: U32, topology: Topology)
    requires |existing| < Pow32 && required + AllocStep < Pow32
    ensures |Grow(existing, required, topology)| >= |existing|
    ensures |Grow(existing, required, topology)| >= required
    ensures forall k :: 0 <= k < GrowStart(|existing|, topology) && k < |existing| ==> Grow(existing, required, topology)[k] == existing[k]
  {
    if required > |existing| {
      NextAllocStepIsNextMultiple(required);
    }
  }

  /** When the previous cache held the pattern up to its last whole unit, the grown cache holds it up
      to at least the required count, provided that count is a whole number of units. */
  lemma GrowFollows(existing: seq<nat>, required: U32, topology: Topology)
    requires |existing| < Pow32 && required + AllocStep < Pow32
    requires required % Unit(topology) == 0
    requires Follows(existing, topology, GrowStart(|existing|, topology))
    ensures Follows(Grow(existing, required, topology), topology, required)
    ensures Follows(Grow(existing, required, topology), topology, GrowStart(|Grow(existing, required, topology)|, topology))
  {
    var r := Grow(existing, required, topology);
    var u := Unit(topology);
    if required > |existing| {
      NextAllocStepIsNextMultiple(required);
      var size := NextAllocStep(required);
      assert required <= size / u * u by {
        DivMulMonotone(required, size, u);
      }
    } else {
      DivMulMonotone(required, |existing|, u);
    }
  }

  lemma DivMulMonotone(a: nat, b: nat, u: nat)
    requires u == 3 || u == 6
    requires a <= b && a % u == 0
    ensures a <= b / u * u <= b
  {
    var q, m := b / u, a / u;
    if u == 3 {
      assert b == 3 * q + b % 3 && b % 3 < 3;
      assert a == 3 * m;
      assert m <= q;
    } else {
      assert b == 6 * q + b % 6 && b % 6 < 6;
      assert a == 6 * m;
      assert m <= q;
    }
  }

  /** The loop of the GetIndices* helpers over a copy of the cache, one index at a time; it
      computes Grow. */
  method GrowLoop(existing: seq<nat>, required: U32, topology: Topology) returns (r: seq<nat>)
    requires |existing| < Pow32
    ensures r == Grow(existing, required, topology)
  {
    r := existing;
    if required > |existing| {
      var size := NextAllocStep(required);
      var u := Unit(topology);
      var lo, hi := GrowStart(|existing|, topology), size / u * u;
      DivMulMonotone(0, size, u);
      r := if size <= |existing| then existing[..size] else existing + seq(size - |existing|, _ => 0);
      var k := lo;
      while k < hi
        invariant |r| == size
        invariant lo <= k && (k <= hi || k == lo)
        invariant forall i :: 0 <= i < size ==>
          (r[i] == if lo <= i < k then Entry(topology, i) else if i < |existing| then existing[i] else 0)
      {
        r := r[k := Entry(topology, k)];
        k := k + 1;
      }
      var g := Grow(existing, required, topology);
      assert |r| == |g|;
      assert forall i :: 0 <= i < size ==> r[i] == g[i];
    }
  }

  // ---------------------------------------------------------------------------------------------
  // GetIndices
  // ---------------------------------------------------------------------------------------------

  /** Errors GetIndices raises. */
  datatype ScratchError = UnknownTopology

  /** ScratchImmediate::GetIndices as written: every topology grows and reads the one cache
      indicesTriangles. Returns the new cache and the index count. */
  function GetIndices(cache: seq<nat>, topology: Topology, vertexCount: U32): (r: Result<(seq<nat>, U32), ScratchError>)
    requires |cache| < Pow32
    ensures r.Err? <==> topology == Other
    ensures r.Ok? ==> r.value.1 == IndexCountOf(TriangleCountAsWritten(topology, vertexCount))
  {
    if topology == Other then Err(UnknownTopology)
    else
      var indexCount := IndexCountOf(TriangleCountAsWritten(topology, vertexCount));
      Ok((Grow(cache, indexCount, topology), indexCount))
  }

  /** With the shared cache, a strip drawn after a triangle list reads the triangle list's
      indices: four strip vertices need (0, 1, 2, 1, 3, 2) but get (0, 1, 2, 3, 4, 5). */
  lemma SharedCacheServesWrongPattern()
    ensures var first := GetIndices([], Triangles, 3);
      first.Ok? && |first.value.0| == 256 &&
      var second := GetIndices(first.value.0, TriangleStrip, 4);
      second.Ok? && second.value.1 == 6 && |second.value.0| >= 6 &&
      second.value.0[3] == 3 && Entry(TriangleStrip, 3) == 1
  {
    var first := GetIndices([], Triangles, 3);
    assert first.value.0[3] == Entry(Triangles, 3);
  }

  /** With fewer than two strip vertices the wrapped index count drives the cache size to 0,
      while 2^32 - 6 indices are reported. */
  lemma ShortStripEmptiesCache(cache: seq<nat>)
    requires |cache| < Pow32 - 6
    ensures GetIndices(cache, TriangleStrip, 0) == Ok(([], Pow32 - 6))
  {
    ShortStripWraps();
    NextAllocStepWraps(Pow32 - 6);
    assert |Grow(cache, Pow32 - 6, TriangleStrip)| == 0;
  }

  /** One cache per known topology: the evidently intended design. */
  datatype Caches = Caches(triangles: seq<nat>, strip: seq<nat>, fan: seq<nat>, quads: seq<nat>)
  {
    function Get(topology: Topology): seq<nat>
      requires topology != Other
    {
      match topology
      case Triangles => triangles
      case TriangleStrip => strip
      case TriangleFan => fan
      case Quads => quads
    }

    function Put(topology: Topology, s: seq<nat>): (r: Caches)
      requires topology != Other
      ensures r.Get(topology) == s
      ensures forall o :: o != Other && o != topology ==> r.Get(o) == Get(o)
    {
      match topology
      case Triangles => this.(triangles := s)
      case TriangleStrip => this.(strip := s)
      case TriangleFan => this.(fan := s)
      case Quads => this.(quads := s)
    }

    /** Each cache holds its own pattern up to its last whole unit. */
    ghost predicate Valid() {
      forall o :: o != Other ==> |Get(o)| < Pow32 && Follows(Get(o), o, GrowStart(|Get(o)|, o))
    }
  }

  const EmptyCaches: Caches := Caches([], [], [], [])

  /** GetIndices with a cache per topology and with the intended triangle count. */
  function GetIndicesPerTopology(caches: Caches, topology: Topology, vertexCount: U32): (r: Result<(Caches, U32), ScratchError>)
    requires caches.Valid()
    ensures r.Err? <==> topology == Other
    ensures r.Ok? ==> r.value.1 == IndexCountOf(TriangleCount(topology, vertexCount))
  {
    if topology == Other then Err(UnknownTopology)
    else
      var indexCount := IndexCountOf(TriangleCount(topology, vertexCount));
      Ok((caches.Put(topology, Grow(caches.Get(topology), indexCount, topology)), indexCount))
  }

  /** With a cache per topology, the indices handed out are always the requested topology's
      pattern, whatever was drawn before, and the caches stay valid. */
  lemma PerTopologyServesRightPattern(caches: Caches, topology: Topology, vertexCount: U32)
    requires caches.Valid() && topology != Other
    requires 3 * TriangleCount(topology, vertexCount) + 2 * AllocStep < Pow32
    ensures var r := GetIndicesPerTopology(caches, topology, vertexCount);
      r.Ok? && r.value.0.Valid() &&
      Follows(r.value.0.Get(topology), topology, r.value.1) &&
      r.value.1 == 3 * TriangleCount(topology, vertexCount)
  {
    var n := TriangleCount(topology, vertexCount);
    IndexCountIsThreePerTriangle(n);
    var indexCount := IndexCountOf(n);
    assert indexCount % Unit(topology) == 0 by {
      if topology == Quads {
        TriangleCountByTopology(vertexCount);
      }
    }
    var previous := caches.Get(topology);
    GrowFollows(previous, indexCount, topology);
    GrowKeepsPrefix(previous, indexCount, topology);
    var grown := Grow(previous, indexCount, topology);
    assert |grown| < Pow32;
    var next := caches.Put(topology, grown);
    forall o | o != Other
      ensures |next.Get(o)| < Pow32 && Follows(next.Get(o), o, GrowStart(|next.Get(o)|, o))
    {
      if o != topology {
        assert next.Get(o) == caches.Get(o);
      }
    }
  }
}

=== FILE: sector_visibility.dfy ===
/** SectorVisibility.cpp: the assignment of consecutive array indices to sector IDs, the
    potential-visibility relation between sector array indices, and the lookups between IDs and
    array indices. Sector IDs and array indices are uint32_t values, unbounded here. */
module SectorVisibility {
  import opened Wrappers

  /** MAX_SECTOR_COUNT (LightDefs.h): the length of the index-to-ID array. */
  const MaxSectorCount: nat := 1024

  datatype SectorError =
    | TooManySectors(id: nat)     // RG_TOO_MANY_SECTORS from CheckSize
    | IncorrectSector(id: nat)    // RG_ERROR_INCORRECT_SECTOR from SectorIDToArrayIndex
    | IndexSpaceFull(id: nat)     // the assertion lastSectorArrayIndex < MAX_SECTOR_COUNT

  /** pvs: the potentially visible sectors of an array index; idToIndex and indexToId: the two
      lookups; last: the next array index to hand out. */
  datatype Visibility = Visibility(pvs: map<nat, set<nat>>, idToIndex: map<nat, nat>, indexToId: seq<nat>, last: nat)
  {
    /** The lookups are mutual inverses over the handed-out indices [0, last), and the relation
        is over handed-out indices, symmetric and irreflexive. */
    ghost predicate Valid() {
      |indexToId| == MaxSectorCount && last <= MaxSectorCount &&
      (forall id :: id in idToIndex ==> idToIndex[id] < last && indexToId[idToIndex[id]] == id) &&
      (forall i :: 0 <= i < last ==> indexToId[i] in idToIndex && idToIndex[indexToId[i]] == i) &&
      (forall i :: i in pvs ==> i < last && i !in pvs[i]) &&
      (forall i: nat, j: nat :: Related(i, j) ==> j < last && Related(j, i))
    }

    /** j is in the set of i. */
    predicate Related(i: nat, j: nat) {
      i in pvs && j in pvs[i]
    }

    /** AssignArrayIndexForID: a known ID keeps its index; a new one gets the next index. */
    function Assign(id: nat): (r: Result<(Visibility, nat), SectorError>)
      requires Valid()
      ensures r.Ok? ==> r.value.0.Valid() && r.value.0.pvs == pvs
      ensures r.Ok? ==> id in r.value.0.idToIndex && r.value.0.idToIndex[id] == r.value.1
      ensures id in idToIndex ==> r == Ok((this, idToIndex[id]))
      ensures id !in idToIndex && last < MaxSectorCount ==>
        r.Ok? && r.value.1 == last && r.value.0.last == last + 1 &&
        r.value.0.idToIndex == idToIndex[id := last]
      ensures r.Err? <==> id !in idToIndex && last == MaxSectorCount
      ensures r.Err? ==> r.error == IndexSpaceFull(id)
    {
      if id in idToIndex then Ok((this, idToIndex[id]))
      else if last < MaxSectorCount then
        var next := this.(idToIndex := idToIndex[id := last], indexToId := indexToId[last := id], last := last + 1);
        AssignKeepsValid(this, id, next);
        Ok((next, last))
      else Err(IndexSpaceFull(id))
    }

    /** CheckSize: a sector whose set already holds MAX_SECTOR_COUNT sectors cannot take more. */
    function CheckSize(index: nat, id: nat): (r: Option<SectorError>)
      ensures r.Some? <==> index in pvs && |pvs[index]| >= MaxSectorCount
      ensures r.Some? ==> r.value == TooManySectors(id)
    {
      if index in pvs && |pvs[index]| >= MaxSectorCount then Some(TooManySectors(id)) else None
    }

    /** The set of an index, as operator[] sees it: empty when absent. */
    function SetOf(index: nat): set<nat> {
      if index in pvs then pvs[index] else {}
    }

    /** SetPotentialVisibility: both IDs get indices, even when they are equal or an error
        follows; for distinct IDs each index is added to the other's set. The state reached
        before an error is returned with it, as the object keeps it when the exception leaves. */
    function SetPotentialVisibility(a: nat, b: nat): (r: (Visibility, Option<SectorError>))
      requires Valid()
      ensures r.0.Valid()
      ensures r.1.None? ==> a in r.0.idToIndex && b in r.0.idToIndex
      ensures a == b ==> r.0.pvs == pvs
      ensures a != b && r.1.None? ==>
        var ia, ib := r.0.idToIndex[a], r.0.idToIndex[b];
        ia in r.0.pvs && ib in r.0.pvs[ia] && ib in r.0.pvs && ia in r.0.pvs[ib]
    {
      match Assign(a)
      case Err(e) => (this, Some(e))
      case Ok((s1, ia)) =>
        match s1.Assign(b)
        case Err(e) => (s1, Some(e))
        case Ok((s2, ib)) =>
          if a == b then (s2, None)
          else if s2.CheckSize(ia, a).Some? then (s2, s2.CheckSize(ia, a))
          else if s2.CheckSize(ib, b).Some? then (s2, s2.CheckSize(ib, b))
          else
            var s3 := s2.AddEdge(ia, ib);
            (s3, None)
    }

    /** pvs[ia].insert(ib); pvs[ib].insert(ia) */
    function AddEdge(ia: nat, ib: nat): (r: Visibility)
      requires Valid() && ia < last && ib < last && ia != ib
      ensures r.Valid()
      ensures r.idToIndex == idToIndex && r.indexToId == indexToId && r.last == last
      ensures r.pvs.Keys == pvs.Keys + {ia, ib}
      ensures forall i: nat, j: nat :: r.Related(i, j) <==> Related(i, j) || (i == ia && j == ib) || (i == ib && j == ia)
    {
      var r := this.(pvs := pvs[ia := SetOf(ia) + {ib}][ib := SetOf(ib) + {ia}]);
      AddEdgeKeepsValid(this, ia, ib, r);
      r
    }

    /** ArePotentiallyVisibleSectorsExist */
    predicate HasVisibleSectors(index: nat) {
      index in pvs
    }

    /** GetPotentiallyVisibleSectors, which the source asserts exists. */
    function PotentiallyVisible(from: nat): (r: set<nat>)
      requires Valid() && HasVisibleSectors(from)
      ensures from !in r
      ensures forall j :: j in r ==> j < last && HasVisibleSectors(j) && from in pvs[j]
    {
      assert forall j :: j in pvs[from] ==> Related(from, j);
      pvs[from]
    }

    /** SectorIDToArrayIndex: an unknown ID is an error. */
    function IdToIndex(id: nat): (r: Result<nat, SectorError>)
      requires Valid()
      ensures r.Err? <==> id !in idToIndex
      ensures r.Err? ==> r.error == IncorrectSector(id)
      ensures r.Ok? ==> r.value < last && indexToId[r.value] == id
    {
      if id in idToIndex then Ok(idToIndex[id]) else Err(IncorrectSector(id))
    }

    /** SectorArrayIndexToID: the array slot of an index (zero when never assigned). */
    function IndexToId(index: nat): (r: nat)
      requires Valid() && index < MaxSectorCount
      ensures index < last ==> r in idToIndex && idToIndex[r] == index
    {
      indexToId[index]
    }
  }

  /** The helper behind Assign: handing out index last to a new ID keeps the lookups inverse. */
  lemma AssignKeepsValid(v: Visibility, id: nat, next: Visibility)
    requires v.Valid() && id !in v.idToIndex && v.last < MaxSectorCount
    requires next == v.(idToIndex := v.idToIndex[id := v.last], indexToId := v.indexToId[v.last := id], last := v.last + 1)
    ensures next.Valid()
  {
    forall i: nat, j: nat | next.Related(i, j)
      ensures j < next.last && next.Related(j, i)
    {
      assert v.Related(i, j);
    }
    forall i | 0 <= i < next.last
      ensures next.indexToId[i] in next.idToIndex && next.idToIndex[next.indexToId[i]] == i
    {
      if i < v.last {
        assert next.indexToId[i] == v.indexToId[i];
        assert v.indexToId[i] != id;
      }
    }
  }

  /** The helper behind AddEdge: the relation gains the edge both ways and nothing else. */
  lemma AddEdgeKeepsValid(v: Visibility, ia: nat, ib: nat, r: Visibility)
    requires v.Valid() && ia < v.last && ib < v.last && ia != ib
    requires r == v.(pvs := v.pvs[ia := v.SetOf(ia) + {ib}][ib := v.SetOf(ib) + {ia}])
    ensures forall i: nat, j: nat :: r.Related(i, j) <==> v.Related(i, j) || (i == ia && j == ib) || (i == ib && j == ia)
    ensures r.Valid()
  {
    forall i: nat, j: nat
      ensures r.Related(i, j) <==> v.Related(i, j) || (i == ia && j == ib) || (i == ib && j == ia)
    {
    }
  }

  /** Reset's state before its final call: no sets, no IDs, a zeroed array. */
  function Cleared(): (r: Visibility)
    ensures r.Valid()
  {
    Visibility(map[], map[], seq(MaxSectorCount, _ => 0), 0)
  }

  /** Reset (and the constructor, which calls it): after clearing, sector 0 is referenced with
      itself, which gives it index 0 and adds no set. */
  function Reset(): (r: Visibility)
    ensures r.Valid()
    ensures r.idToIndex == map[0 := 0] && r.last == 1
    ensures r.pvs == map[]
  {
    Cleared().SetPotentialVisibility(0, 0).0
  }

  // ---------------------------------------------------------------------------------------------
  // Properties
  // ---------------------------------------------------------------------------------------------

  /** Assigning an ID twice is the same as assigning it once. */
  lemma AssignIdempotent(v: Visibility, id: nat)
    requires v.Valid() && v.Assign(id).Ok?
    ensures v.Assign(id).value.0.Assign(id) == v.Assign(id)
  {
  }

  /** New IDs get consecutive indices from 0: after n new IDs from a reset-like empty state the
      indices handed out are 0..n-1 in order. */
  lemma {:induction false} AssignConsecutive(v: Visibility, ids: seq<nat>) returns (w: Visibility)
    requires v.Valid() && v.last + |ids| <= MaxSectorCount
    requires forall k :: 0 <= k < |ids| ==> ids[k] !in v.idToIndex
    requires forall k, l :: 0 <= k < l < |ids| ==> ids[k] != ids[l]
    ensures w.Valid() && w.last == v.last + |ids| && w.pvs == v.pvs
    ensures forall id :: id in v.idToIndex ==> id in w.idToIndex && w.idToIndex[id] == v.idToIndex[id]
    ensures forall k :: 0 <= k < |ids| ==> ids[k] in w.idToIndex && w.idToIndex[ids[k]] == v.last + k
    ensures w == AssignAll(v, ids)
    decreases |ids|
  {
    if |ids| == 0 {
      w := v;
    } else {
      var next := v.Assign(ids[0]).value.0;
      forall k | 0 <= k < |ids[1..]|
        ensures ids[1..][k] !in next.idToIndex
      {
        assert ids[1..][k] == ids[k + 1] != ids[0];
      }
      w := AssignConsecutive(next, ids[1..]);
      forall k | 0 <= k < |ids|
        ensures ids[k] in w.idToIndex && w.idToIndex[ids[k]] == v.last + k
      {
        if k > 0 {
          assert ids[k] == ids[1..][k - 1];
        }
      }
    }
  }

  /** Assigning each ID in turn, stopping at the first error. */
  function AssignAll(v: Visibility, ids: seq<nat>): (r: Visibility)
    requires v.Valid()
    ensures r.Valid()
    decreases |ids|
  {
    if |ids| == 0 then v
    else match v.Assign(ids[0])
      case Err(_) => v
      case Ok((next, _)) => AssignAll(next, ids[1..])
  }

  /** The relation stays symmetric and irreflexive, and referencing a sector with itself adds
      no set; referencing two distinct sectors that succeeds relates them both ways. */
  lemma SetVisibilitySymmetric(v: Visibility, a: nat, b: nat)
    requires v.Valid()
    ensures var (w, e) := v.SetPotentialVisibility(a, b);
      w.Valid() &&
      (e.None? && a != b ==> w.idToIndex[a] in w.PotentiallyVisible(w.idToIndex[b]) &&
                             w.idToIndex[b] in w.PotentiallyVisible(w.idToIndex[a])) &&
      (a == b ==> w.pvs == v.pvs && e.None? == (v.Assign(a).Ok?))
  {
  }

  /** A set of array indices below n has at most n members. */
  lemma {:induction false} BoundedSetSize(s: set<nat>, n: nat)
    requires forall i :: i in s ==> i < n
    ensures |s| <= n
    decreases n
  {
    if n > 0 {
      var smaller := s - {n - 1};
      BoundedSetSize(smaller, n - 1);
    } else {
      assert s == {};
    }
  }

  /** In a valid state CheckSize never throws: a sector's set holds handed-out indices other
      than its own, so fewer than MAX_SECTOR_COUNT of them. */
  lemma CheckSizeNeverThrows(v: Visibility, index: nat, id: nat)
    requires v.Valid()
    ensures v.CheckSize(index, id).None?
  {
    if index in v.pvs {
      var s := v.pvs[index];
      assert forall i :: i in s ==> v.Related(index, i);
      BoundedSetSize(s + {index}, v.last);
      assert |s + {index}| == |s| + 1;
    }
  }

  /** The two lookups are mutual inverses on known IDs and handed-out indices. */
  lemma LookupsInverse(v: Visibility, id: nat, index: nat)
    requires v.Valid()
    ensures v.IdToIndex(id).Ok? ==> v.IndexToId(v.IdToIndex(id).value) == id
    ensures index < v.last ==> v.IdToIndex(v.IndexToId(index)) == Ok(index)
  {
  }
}

=== FILE: shader_build.dfy ===
/** The incremental shader build script. It keeps a cache file with two sections: the
    modification time of every header and shader that was built successfully, and, after a
    "DEPENDENCY" line, the include list of every file. A run re-reads headers whose time changed,
    rebuilds every shader that is new, changed, or reaches a changed or uncached header through
    its includes, evicts shaders whose compilation printed anything, writes the cache back and
    prints a one-line summary. File listing, time stamps, include resolution and the compiler
    are inputs of the model; Python dicts keep their insertion order, which the cache file shows. */
module ShaderBuild {
  import opened Wrappers
  import Text

  type Path = string

  // ---------------------------------------------------------------- insertion-ordered dict

  /** A Python dict: its entries and the order in which their keys were first inserted. */
  datatype Dict<V> = Dict(keys: seq<Path>, entries: map<Path, V>) {

    ghost predicate Valid() {
      Distinct(keys) && (forall k :: k in entries <==> k in keys)
    }

    /** d[k] = v: a new key goes last, an existing key keeps its place. */
    function Set(k: Path, v: V): (r: Dict<V>)
      ensures Valid() ==> r.Valid()
      ensures r.entries == entries[k := v]
    {
      Dict(if k in entries then keys else keys + [k], entries[k := v])
    }

    /** del d[k]. */
    function Remove(k: Path): (r: Dict<V>)
      ensures Valid() ==> r.Valid()
      ensures r.entries == entries - {k}
    {
      Dict(Without(keys, k), entries - {k})
    }
  }

  predicate Distinct(ks: seq<Path>) {
    forall i, j :: 0 <= i < j < |ks| ==> ks[i] != ks[j]
  }

  function Without(ks: seq<Path>, k: Path): (r: seq<Path>)
    ensures forall x :: x in r <==> x in ks && x != k
    ensures Distinct(ks) ==> Distinct(r)
  {
    if |ks| == 0 then []
    else
      var tail := Without(ks[1..], k);
      assert Distinct(ks) ==> ks[0] !in ks[1..] && Distinct(ks[1..]);
      (if ks[0] == k then [] else [ks[0]]) + tail
  }

  function EmptyDict<V>(): (r: Dict<V>)
    ensures r.Valid()
  {
    Dict([], map[])
  }

  // ---------------------------------------------------------------- wereDependentModified

  /** How a walk over the include graph ended; a key missing from the dependency map makes the
      script stop with a KeyError. */
  datatype Verdict = Unmodified | Modified | KeyMissing(key: Path)

  datatype Walk = Walk(verdict: Verdict, marked: set<Path>)

  /** A file the walk may pass through: cached and not modified in this run. */
  predicate Fresh(modified: set<Path>, cache: map<Path, int>, p: Path) {
    p !in modified && p in cache
  }

  /** The loop over `todo` with the visited set `marked` threaded through the recursion; each file
      is entered at most once, so the walk ends on cyclic includes. */
  function Visit(deps: map<Path, seq<Path>>, modified: set<Path>, cache: map<Path, int>,
                 todo: seq<Path>, marked: set<Path>): (r: Walk)
    ensures marked <= r.marked
    ensures r.marked <= marked + deps.Keys + (if r.verdict.KeyMissing? then {r.verdict.key} else {})
    decreases deps.Keys - marked, |todo|
  {
    if |todo| == 0 then Walk(Unmodified, marked)
    else
      var d := todo[0];
      if d in modified || d !in cache then Walk(Modified, marked)
      else if d !in marked then
        if d !in deps then Walk(KeyMissing(d), marked + {d})
        else
          var sub := Visit(deps, modified, cache, deps[d], marked + {d});
          if sub.verdict != Unmodified then sub
          else Visit(deps, modified, cache, todo[1..], sub.marked)
      else Visit(deps, modified, cache, todo[1..], marked)
  }

  /** wereDependentModified: the visited set starts empty on every top-level call. */
  function WereDependentModified(deps: map<Path, seq<Path>>, modified: set<Path>, cache: map<Path, int>,
                                 base: Path): Verdict {
    if base !in deps then KeyMissing(base) else Visit(deps, modified, cache, deps[base], {}).verdict
  }

  /** A chain of includes p[0] -> p[1] -> ... that passes only through fresh files and ends at a
      modified or uncached one. */
  ghost predicate StaleChain(deps: map<Path, seq<Path>>, modified: set<Path>, cache: map<Path, int>, p: seq<Path>) {
    |p| >= 1 && !Fresh(modified, cache, p[|p| - 1]) &&
    forall i :: 0 <= i < |p| - 1 ==> Fresh(modified, cache, p[i]) && p[i] in deps && p[i + 1] in deps[p[i]]
  }

  lemma StaleChainCons(deps: map<Path, seq<Path>>, modified: set<Path>, cache: map<Path, int>, d: Path, p: seq<Path>)
    requires Fresh(modified, cache, d) && d in deps
    requires StaleChain(deps, modified, cache, p) && p[0] in deps[d]
    ensures StaleChain(deps, modified, cache, [d] + p)
  {
    var q := [d] + p;
    forall i | 0 <= i < |q| - 1
      ensures Fresh(modified, cache, q[i]) && q[i] in deps && q[i + 1] in deps[q[i]]
    {
      if i > 0 {
        assert q[i] == p[i - 1] && q[i + 1] == p[i];
      }
    }
  }

  /** Soundness: a walk reports a modification only when a stale chain starts in `todo`. */
  lemma {:induction false} VisitSound(deps: map<Path, seq<Path>>, modified: set<Path>, cache: map<Path, int>,
                                      todo: seq<Path>, marked: set<Path>)
    ensures Visit(deps, modified, cache, todo, marked).verdict == Modified ==>
      exists p :: StaleChain(deps, modified, cache, p) && p[0] in todo
    decreases deps.Keys - marked, |todo|
  {
    if |todo| > 0 {
      var d := todo[0];
      if d in modified || d !in cache {
        assert StaleChain(deps, modified, cache, [d]);
      } else if d !in marked {
        if d in deps {
          var sub := Visit(deps, modified, cache, deps[d], marked + {d});
          VisitSound(deps, modified, cache, deps[d], marked + {d});
          if sub.verdict == Modified {
            var p :| StaleChain(deps, modified, cache, p) && p[0] in deps[d];
            StaleChainCons(deps, modified, cache, d, p);
            assert ([d] + p)[0] == d;
          } else if sub.verdict == Unmodified {
            VisitSound(deps, modified, cache, todo[1..], sub.marked);
          }
        }
      } else {
        VisitSound(deps, modified, cache, todo[1..], marked);
      }
    }
  }

  /** What a walk that found nothing has established about the files it entered. */
  ghost predicate Explored(deps: map<Path, seq<Path>>, modified: set<Path>, cache: map<Path, int>,
                           todo: seq<Path>, marked: set<Path>, seen: set<Path>) {
    (forall i :: 0 <= i < |todo| ==> todo[i] in seen) &&
    (forall x :: x in seen ==> Fresh(modified, cache, x)) &&
    (forall x :: x in seen && x !in marked ==> x in deps && forall j :: 0 <= j < |deps[x]| ==> deps[x][j] in seen)
  }

  /** Completeness: a walk that finds nothing has visited every file of `todo` and, for every file
      it entered itself, all of that file's includes; all of them are fresh. */
  lemma {:induction false} VisitComplete(deps: map<Path, seq<Path>>, modified: set<Path>, cache: map<Path, int>,
                                         todo: seq<Path>, marked: set<Path>)
    requires forall x :: x in marked ==> Fresh(modified, cache, x)
    ensures var w := Visit(deps, modified, cache, todo, marked);
      w.verdict == Unmodified ==> Explored(deps, modified, cache, todo, marked, w.marked)
    decreases deps.Keys - marked, |todo|
  {
    if |todo| > 0 {
      var d := todo[0];
      if d in modified || d !in cache {
      } else if d !in marked {
        if d in deps {
          var m1 := marked + {d};
          var sub := Visit(deps, modified, cache, deps[d], m1);
          VisitComplete(deps, modified, cache, deps[d], m1);
          if sub.verdict == Unmodified {
            var rest := Visit(deps, modified, cache, todo[1..], sub.marked);
            VisitComplete(deps, modified, cache, todo[1..], sub.marked);
            if rest.verdict == Unmodified {
              forall i | 0 <= i < |todo|
                ensures todo[i] in rest.marked
              {
                if i > 0 {
                  assert todo[i] == todo[1..][i - 1];
                }
              }
            }
          }
        }
      } else {
        var rest := Visit(deps, modified, cache, todo[1..], marked);
        VisitComplete(deps, modified, cache, todo[1..], marked);
        if rest.verdict == Unmodified {
          forall i | 0 <= i < |todo|
            ensures todo[i] in rest.marked
          {
            if i > 0 {
              assert todo[i] == todo[1..][i - 1];
            }
          }
        }
      }
    }
  }

  lemma {:induction false} ChainStaysInside(deps: map<Path, seq<Path>>, modified: set<Path>, cache: map<Path, int>,
                                            todo: seq<Path>, seen: set<Path>, p: seq<Path>, k: nat)
    requires Explored(deps, modified, cache, todo, {}, seen)
    requires StaleChain(deps, modified, cache, p) && p[0] in todo
    requires k < |p|
    ensures p[k] in seen
    decreases k
  {
    if k > 0 {
      ChainStaysInside(deps, modified, cache, todo, seen, p, k - 1);
      var q := p[k - 1];
      assert q in deps && p[k] in deps[q];
      var j := IndexOf(deps[q], p[k]);
      assert deps[q][j] in seen;
    }
  }

  /** A position of an element of a sequence. */
  lemma IndexOf<T>(s: seq<T>, x: T) returns (j: nat)
    requires x in s
    ensures j < |s| && s[j] == x
  {
    j :| 0 <= j < |s| && s[j] == x;
  }

  /** When every cached file has an entry in the dependency map, the walk never hits a missing key.
      Every file of the walk is then entered at most once, and a shader has a modified dependency
      exactly when a stale chain starts among its includes. */
  lemma WereDependentModifiedIffStaleChain(deps: map<Path, seq<Path>>, modified: set<Path>, cache: map<Path, int>,
                                           base: Path)
    requires cache.Keys <= deps.Keys && base in deps
    ensures !WereDependentModified(deps, modified, cache, base).KeyMissing?
    ensures WereDependentModified(deps, modified, cache, base) == Modified <==>
      exists p :: StaleChain(deps, modified, cache, p) && p[0] in deps[base]
  {
    VisitNeverMissing(deps, modified, cache, deps[base], {});
    VisitSound(deps, modified, cache, deps[base], {});
    VisitComplete(deps, modified, cache, deps[base], {});
    var w := Visit(deps, modified, cache, deps[base], {});
    if w.verdict == Unmodified {
      if p :| StaleChain(deps, modified, cache, p) && p[0] in deps[base] {
        ChainStaysInside(deps, modified, cache, deps[base], w.marked, p, |p| - 1);
        assert false;
      }
    }
  }

  lemma {:induction false} VisitNeverMissing(deps: map<Path, seq<Path>>, modified: set<Path>, cache: map<Path, int>,
                                             todo: seq<Path>, marked: set<Path>)
    requires cache.Keys <= deps.Keys
    ensures !Visit(deps, modified, cache, todo, marked).verdict.KeyMissing?
    decreases deps.Keys - marked, |todo|
  {
    if |todo| > 0 {
      var d := todo[0];
      if d in modified || d !in cache {
      } else if d !in marked {
        var sub := Visit(deps, modified, cache, deps[d], marked + {d});
        VisitNeverMissing(deps, modified, cache, deps[d], marked + {d});
        VisitNeverMissing(deps, modified, cache, todo[1..], sub.marked);
      } else {
        VisitNeverMissing(deps, modified, cache, todo[1..], marked);
      }
    }
  }

  // ---------------------------------------------------------------- include lists

  /** Keeps the first occurrence of every path. The source collects paths in a set, whose
      iteration order is not fixed; the model fixes it to the order of first occurrence. */
  function Dedup(ws: seq<Path>): (r: seq<Path>)
    ensures Distinct(r)
    ensures forall x :: x in r <==> x in ws
  {
    if |ws| == 0 then []
    else
      var r := Dedup(ws[..|ws| - 1]);
      assert forall x :: x in ws <==> x in ws[..|ws| - 1] || x == ws[|ws| - 1];
      if ws[|ws| - 1] in r then r else r + [ws[|ws| - 1]]
  }

  lemma {:induction false} DedupOfDistinct(ws: seq<Path>)
    requires Distinct(ws)
    ensures Dedup(ws) == ws
  {
    if |ws| > 0 {
      DedupOfDistinct(ws[..|ws| - 1]);
      assert ws[..|ws| - 1] + [ws[|ws| - 1]] == ws;
    }
  }

  /** The paths that exist on disk, in order. */
  function Existing(ws: seq<Path>, pathExists: Path -> bool): (r: seq<Path>)
    ensures forall x :: x in r <==> x in ws && pathExists(x)
  {
    if |ws| == 0 then [] else (if pathExists(ws[0]) then [ws[0]] else []) + Existing(ws[1..], pathExists)
  }

  /** The include list of a file from the candidate paths its #include lines resolve to (one per
      include folder): existing ones only, each once, and for a header not the header itself. */
  function IncludeList(candidates: seq<Path>, self: Option<Path>, pathExists: Path -> bool): (r: seq<Path>)
    ensures Distinct(r)
    ensures forall x :: x in r <==> x in candidates && pathExists(x) && self != Some(x)
  {
    Dedup(Existing(if self.Some? then Without(candidates, self.value) else candidates, pathExists))
  }

  // ---------------------------------------------------------------- one run of the script

  const ShaderExtensions: seq<string> := [".comp", ".vert", "frag", ".rgen", ".rahit", ".rchit", ".rmiss"]
  const DependencyExtensions: seq<string> := [".h", ".inl"]
  const DependencyIgnore: seq<string> := ["BlueNoiseFileNames.h", "ShaderCommonC.h", "ShaderCommonCFramebuf.h"]

  predicate EndsWith(s: string, suffix: string) {
    |suffix| <= |s| && s[|s| - |suffix|..] == suffix
  }

  predicate EndsWithAny(s: string, suffixes: seq<string>) {
    exists i :: 0 <= i < |suffixes| && EndsWith(s, suffixes[i])
  }

  /** A file found in a listed folder: its name in the listing, its absolute path, its
      modification time in whole seconds and the candidate paths of its #include lines. */
  datatype Source = Source(name: string, path: Path, mtime: int, includes: seq<Path>)

  /** A shader together with what the compiler prints when asked to build it. */
  datatype Shader = Shader(file: Source, compilerOutput: string)

  datatype State = State(cache: Dict<int>, deps: Dict<seq<Path>>, modified: set<Path>, errors: nat, rebuilt: bool)

  ghost predicate WellFormed(st: State) {
    st.cache.Valid() && st.deps.Valid()
  }

  /** The invariant a run keeps: both dicts well formed and every cached file has an include list. */
  ghost predicate Consistent(st: State) {
    WellFormed(st) && st.cache.entries.Keys <= st.deps.entries.Keys
  }

  predicate IsOutdated(cache: Dict<int>, f: Source) {
    f.path in cache.entries && cache.entries[f.path] != f.mtime
  }

  /** The step for one file of a dependency folder. */
  function ScanHeader(st: State, f: Source, pathExists: Path -> bool): (r: State)
    ensures WellFormed(st) ==> WellFormed(r)
    ensures Consistent(st) ==> Consistent(r)
    ensures r.errors == st.errors && r.rebuilt == st.rebuilt
  {
    if f.name in DependencyIgnore || !EndsWithAny(f.path, DependencyExtensions) || ' ' in f.path then st
    else
      var outdated := IsOutdated(st.cache, f);
      var st1 := st.(modified := if f.path !in st.cache.entries || outdated then st.modified + {f.path} else st.modified,
                     cache := st.cache.Set(f.path, f.mtime));
      if f.path !in st.deps.entries || outdated then st1.(deps := st.deps.Set(f.path, IncludeList(f.includes, Some(f.path), pathExists)))
      else st1
  }

  function ScanHeaders(st: State, fs: seq<Source>, pathExists: Path -> bool): (r: State)
    ensures WellFormed(st) ==> WellFormed(r)
    ensures Consistent(st) ==> Consistent(r)
    ensures r.errors == st.errors && r.rebuilt == st.rebuilt
    decreases |fs|
  {
    if |fs| == 0 then st else ScanHeaders(ScanHeader(st, fs[0], pathExists), fs[1..], pathExists)
  }

  /** A header that is scanned is marked modified exactly when it was uncached or cached with
      another time, and its time is stored; nothing else is marked and no other time changes. */
  lemma ScanHeaderMarksModified(st: State, f: Source, pathExists: Path -> bool)
    requires f.name !in DependencyIgnore && EndsWithAny(f.path, DependencyExtensions) && ' ' !in f.path
    ensures var r := ScanHeader(st, f, pathExists);
      (f.path in r.modified <==> f.path in st.modified || f.path !in st.cache.entries || st.cache.entries[f.path] != f.mtime) &&
      (forall p :: p != f.path ==> (p in r.modified <==> p in st.modified)) &&
      r.cache.entries == st.cache.entries[f.path := f.mtime]
  {
  }

  /** A header's include list is re-read when it had none or its time changed, and never lists
      the header itself; otherwise the list from the cache file is kept. */
  lemma ScanHeaderIncludes(st: State, f: Source, pathExists: Path -> bool)
    requires f.name !in DependencyIgnore && EndsWithAny(f.path, DependencyExtensions) && ' ' !in f.path
    ensures var r := ScanHeader(st, f, pathExists);
      f.path in r.deps.entries &&
      (f.path !in st.deps.entries || IsOutdated(st.cache, f) ==>
         forall x :: x in r.deps.entries[f.path] <==> x in f.includes && pathExists(x) && x != f.path) &&
      (f.path in st.deps.entries && !IsOutdated(st.cache, f) ==> r.deps.entries[f.path] == st.deps.entries[f.path])
  {
  }

  /** Whether a shader must be rebuilt; the dependency walk can end the script with a KeyError. */
  function NeedsRebuild(st: State, path: Path, mtime: int): Result<bool, Path> {
    if path !in st.cache.entries || st.cache.entries[path] != mtime then Ok(true)
    else match WereDependentModified(st.deps.entries, st.modified, st.cache.entries, path)
      case KeyMissing(k) => Err(k)
      case Modified => Ok(true)
      case Unmodified => Ok(false)
  }

  /** The outcome of one compilation: any output counts as a failure and evicts the shader from
      the cache, silence stores its time. */
  function Compile(st: State, f: Source, output: string): (r: State)
    ensures WellFormed(st) ==> WellFormed(r)
    ensures Consistent(st) && f.path in st.deps.entries ==> Consistent(r)
  {
    if |output| > 0 then
      st.(errors := st.errors + 1, cache := if f.path in st.cache.entries then st.cache.Remove(f.path) else st.cache, rebuilt := true)
    else st.(cache := st.cache.Set(f.path, f.mtime), rebuilt := true)
  }

  /** The step for one file of the shader folder. */
  function BuildShader(st: State, s: Shader, pathExists: Path -> bool): (r: Result<State, Path>)
    ensures WellFormed(st) && r.Ok? ==> WellFormed(r.value)
    ensures Consistent(st) && r.Ok? ==> Consistent(r.value)
  {
    var f := s.file;
    if !EndsWithAny(f.path, ShaderExtensions) || ' ' in f.path then Ok(st)
    else
      var outdated := IsOutdated(st.cache, f);
      var st1 := if f.path !in st.deps.entries || outdated then st.(deps := st.deps.Set(f.path, IncludeList(f.includes, None, pathExists))) else st;
      var rebuild :- NeedsRebuild(st1, f.path, f.mtime);
      if rebuild then Ok(Compile(st1, f, s.compilerOutput)) else Ok(st1)
  }

  function BuildShaders(st: State, ss: seq<Shader>, pathExists: Path -> bool): (r: Result<State, Path>)
    ensures WellFormed(st) && r.Ok? ==> WellFormed(r.value)
    ensures Consistent(st) && r.Ok? ==> Consistent(r.value)
    decreases |ss|
  {
    if |ss| == 0 then Ok(st)
    else
      var st1 :- BuildShader(st, ss[0], pathExists);
      BuildShaders(st1, ss[1..], pathExists)
  }

  /** In a consistent state a shader is rebuilt exactly when it is uncached, cached with another
      time, or a stale include chain starts among its includes; the walk never crashes. */
  lemma RebuildIff(st: State, path: Path, mtime: int)
    requires Consistent(st) && path in st.deps.entries
    ensures NeedsRebuild(st, path, mtime).Ok?
    ensures NeedsRebuild(st, path, mtime).value <==>
      path !in st.cache.entries || st.cache.entries[path] != mtime ||
      exists p :: StaleChain(st.deps.entries, st.modified, st.cache.entries, p) && p[0] in st.deps.entries[path]
  {
    WereDependentModifiedIffStaleChain(st.deps.entries, st.modified, st.cache.entries, path);
  }

  /** A rebuilt shader with compiler output is counted as an error and leaves the cache; a silent
      one gets its time stored; in both cases the run reports a rebuild. */
  lemma CompileOutcome(st: State, f: Source, output: string)
    ensures var r := Compile(st, f, output);
      r.rebuilt &&
      (|output| > 0 ==> r.errors == st.errors + 1 && r.cache.entries == st.cache.entries - {f.path}) &&
      (|output| == 0 ==> r.errors == st.errors && r.cache.entries == st.cache.entries[f.path := f.mtime])
  {
  }

  /** Starting from a consistent state the shader loop never ends in a KeyError. */
  lemma {:induction false} BuildShadersNeverCrash(st: State, ss: seq<Shader>, pathExists: Path -> bool)
    requires Consistent(st)
    ensures BuildShaders(st, ss, pathExists).Ok?
    decreases |ss|
  {
    if |ss| > 0 {
      var s := ss[0];
      var f := s.file;
      if EndsWithAny(f.path, ShaderExtensions) && ' ' !in f.path {
        var outdated := IsOutdated(st.cache, f);
        var st1 := if f.path !in st.deps.entries || outdated then st.(deps := st.deps.Set(f.path, IncludeList(f.includes, None, pathExists))) else st;
        RebuildIff(st1, f.path, f.mtime);
      }
      BuildShadersNeverCrash(BuildShader(st, s, pathExists).value, ss[1..], pathExists);
    }
  }

  // ---------------------------------------------------------------- the cache file

  const Separator: string := "DEPENDENCY\n"

  datatype CacheFile = CacheFile(cache: Dict<int>, deps: Dict<seq<Path>>)

  function EmptyCacheFile(): (r: CacheFile)
    ensures r.cache.Valid() && r.deps.Valid()
  {
    CacheFile(EmptyDict(), EmptyDict())
  }

  datatype Parsed = Parsed(inDeps: bool, acc: CacheFile)

  /** One pass of the loop over the lines of the cache file; None stands for the exception that
      a non-integer time (ValueError) or a blank dependency line (IndexError) raises. */
  function ParseLine(line: string, inDeps: bool, acc: CacheFile, pathExists: Path -> bool): (r: Option<Parsed>)
    ensures r.Some? ==> r.value.inDeps == (inDeps || line == Separator)
    ensures r.Some? && acc.cache.Valid() && acc.deps.Valid() ==> r.value.acc.cache.Valid() && r.value.acc.deps.Valid()
  {
    if line == Separator then Some(Parsed(true, acc))
    else
      var words := Text.Words(line);
      if !inDeps then
        if |words| >= 2 then
          match Text.ParseInt(words[1])
          case None => None
          case Some(t) => Some(Parsed(false, acc.(cache := acc.cache.Set(words[0], t))))
        else Some(Parsed(false, acc))
      else if |words| >= 2 then Some(Parsed(true, acc.(deps := acc.deps.Set(words[0], Existing(Dedup(words[1..]), pathExists)))))
      else if |words| == 1 then Some(Parsed(true, acc.(deps := acc.deps.Set(words[0], []))))
      else None
  }

  function ParseLines(lines: seq<string>, inDeps: bool, acc: CacheFile, pathExists: Path -> bool): (r: Option<CacheFile>)
    ensures r.Some? && acc.cache.Valid() && acc.deps.Valid() ==> r.value.cache.Valid() && r.value.deps.Valid()
    decreases |lines|
  {
    if |lines| == 0 then Some(acc)
    else match ParseLine(lines[0], inDeps, acc, pathExists)
      case None => None
      case Some(p) => ParseLines(lines[1..], p.inDeps, p.acc, pathExists)
  }

  /** The maps a run starts from: nothing when rebuilding everything or when reading failed.
      The file is read in text mode, so its line breaks are translated first. */
  function LoadCache(text: string, forceRebuild: bool, pathExists: Path -> bool): (r: CacheFile)
    ensures r.cache.Valid() && r.deps.Valid()
    ensures forceRebuild ==> r == EmptyCacheFile()
    ensures !forceRebuild && ParseLines(Text.Lines(Text.Universal(text)), false, EmptyCacheFile(), pathExists).None? ==>
      r == EmptyCacheFile()
    ensures !forceRebuild && ParseLines(Text.Lines(Text.Universal(text)), false, EmptyCacheFile(), pathExists).Some? ==>
      r == ParseLines(Text.Lines(Text.Universal(text)), false, EmptyCacheFile(), pathExists).value
  {
    if forceRebuild then EmptyCacheFile()
    else match ParseLines(Text.Lines(Text.Universal(text)), false, EmptyCacheFile(), pathExists)
      case None => EmptyCacheFile()
      case Some(c) => c
  }

  /** A line the loop cannot digest: in the time section a time that is not an integer, in the
      dependency section (everything after the first separator line) a line without words. */
  ghost predicate BadLine(lines: seq<string>, inDeps: bool, i: int) {
    0 <= i < |lines| && lines[i] != Separator &&
    if inDeps || Separator in lines[..i] then |Text.Words(lines[i])| == 0
    else |Text.Words(lines[i])| >= 2 && Text.ParseInt(Text.Words(lines[i])[1]).None?
  }

  ghost predicate HasBadLine(lines: seq<string>, inDeps: bool) {
    exists i :: BadLine(lines, inDeps, i)
  }

  lemma BadLineShift(lines: seq<string>, inDeps: bool)
    requires |lines| > 0
    ensures HasBadLine(lines, inDeps) <==>
      BadLine(lines, inDeps, 0) || HasBadLine(lines[1..], inDeps || lines[0] == Separator)
  {
    var nextDeps := inDeps || lines[0] == Separator;
    forall i | 1 <= i < |lines|
      ensures BadLine(lines, inDeps, i) <==> BadLine(lines[1..], nextDeps, i - 1)
    {
      assert lines[1..][i - 1] == lines[i];
      assert lines[..i] == [lines[0]] + lines[1..][..i - 1];
    }
    if i :| BadLine(lines[1..], nextDeps, i) {
      assert BadLine(lines, inDeps, i + 1);
    }
  }

  /** Reading fails, and the run starts from empty maps, exactly when the file has a bad line. */
  lemma {:induction false} ParseFailsIffBadLine(lines: seq<string>, inDeps: bool, acc: CacheFile, pathExists: Path -> bool)
    ensures ParseLines(lines, inDeps, acc, pathExists).None? <==> HasBadLine(lines, inDeps)
    decreases |lines|
  {
    if |lines| > 0 {
      BadLineShift(lines, inDeps);
      assert lines[..0] == [];
      var p := ParseLine(lines[0], inDeps, acc, pathExists);
      if p.Some? {
        ParseFailsIffBadLine(lines[1..], p.value.inDeps, p.value.acc, pathExists);
      }
    }
  }

  /** A line "name time" for every cached file, in insertion order. */
  function TimeLines(keys: seq<Path>, entries: map<Path, int>): seq<string>
    requires forall k :: k in keys ==> k in entries
  {
    if |keys| == 0 then [] else [TimeLine(keys[0], entries[keys[0]])] + TimeLines(keys[1..], entries)
  }

  function TimeLine(k: Path, t: int): string {
    k + " " + Text.IntToString(t) + "\n"
  }

  /** A line "name dep dep ..." for every include list, in insertion order; an empty list leaves
      the trailing space. */
  function DepLines(keys: seq<Path>, entries: map<Path, seq<Path>>): seq<string>
    requires forall k :: k in keys ==> k in entries
  {
    if |keys| == 0 then [] else [DepLine(keys[0], entries[keys[0]])] + DepLines(keys[1..], entries)
  }

  function DepLine(k: Path, ds: seq<Path>): string {
    k + " " + Text.JoinSpace(ds) + "\n"
  }

  /** The lines of the cache file a run writes: the times, the separator, the include lists. */
  function CacheLines(f: CacheFile): seq<string>
    requires f.cache.Valid() && f.deps.Valid()
  {
    TimeLines(f.cache.keys, f.cache.entries) + [Separator] + DepLines(f.deps.keys, f.deps.entries)
  }

  /** The cache file a run writes. */
  function WriteCache(f: CacheFile): string
    requires f.cache.Valid() && f.deps.Valid()
  {
    Text.Concat(CacheLines(f))
  }

  /** What the writer needs for the reader to see the same maps: names and include paths are
      words, include lists have no repeats and name files that still exist. */
  ghost predicate Writable(f: CacheFile, pathExists: Path -> bool) {
    f.cache.Valid() && f.deps.Valid() &&
    (forall k :: k in f.cache.entries ==> Text.IsWord(k)) &&
    (forall k :: k in f.deps.entries ==> WritableDeps(k, f.deps.entries[k], pathExists))
  }

  ghost predicate WritableDeps(k: Path, ds: seq<Path>, pathExists: Path -> bool) {
    Text.IsWord(k) && Distinct(ds) &&
    forall j :: 0 <= j < |ds| ==> Text.IsWord(ds[j]) && pathExists(ds[j])
  }

  /** The dict that inserting `keys` in order, with values from `m`, into `acc` gives. */
  function SetAll<V>(acc: Dict<V>, keys: seq<Path>, m: map<Path, V>): Dict<V>
    requires forall k :: k in keys ==> k in m
    decreases |keys|
  {
    if |keys| == 0 then acc else SetAll(acc.Set(keys[0], m[keys[0]]), keys[1..], m)
  }

  /** Inserting fresh keys one by one into a dict that agrees with `m` extends its key order
      and keeps it in agreement with `m`. */
  lemma {:induction false} SetAllExtends<V>(acc: Dict<V>, keys: seq<Path>, m: map<Path, V>)
    requires Distinct(acc.keys + keys)
    requires forall k :: k in acc.keys + keys ==> k in m
    requires forall k :: k in acc.entries <==> k in acc.keys
    requires forall k :: k in acc.entries ==> acc.entries[k] == m[k]
    ensures var r := SetAll(acc, keys, m);
      r.keys == acc.keys + keys &&
      (forall k :: k in r.entries <==> k in acc.keys + keys) &&
      (forall k :: k in r.entries ==> r.entries[k] == m[k])
    decreases |keys|
  {
    if |keys| > 0 {
      var done := acc.keys;
      forall j | 0 <= j < |done|
        ensures done[j] != keys[0]
      {
        assert (done + keys)[j] == done[j];
        assert (done + keys)[|done|] == keys[0];
      }
      var next := acc.Set(keys[0], m[keys[0]]);
      assert next.keys == done + [keys[0]];
      assert done + [keys[0]] + keys[1..] == done + keys;
      SetAllExtends(next, keys[1..], m);
    } else {
      assert acc.keys + keys == acc.keys;
    }
  }

  lemma SetAllFromEmpty<V>(d: Dict<V>)
    requires d.Valid()
    ensures SetAll(EmptyDict(), d.keys, d.entries) == d
  {
    var e: Dict<V> := Dict([], map[]);
    assert e.keys + d.keys == d.keys;
    SetAllExtends(e, d.keys, d.entries);
    var r := SetAll(e, d.keys, d.entries);
    MapsAgree(r.entries, d.entries);
  }

  lemma MapsAgree<V>(a: map<Path, V>, b: map<Path, V>)
    requires forall k :: k in a <==> k in b
    requires forall k :: k in a ==> a[k] == b[k]
    ensures a == b
  {
  }

  lemma TimeLineWords(k: Path, t: int)
    requires Text.IsWord(k)
    ensures Text.Words(TimeLine(k, t)) == [k, Text.IntToString(t)]
  {
    var s := Text.IntToString(t);
    var ws := [k, s];
    assert Text.JoinSpace(ws) == k + " " + s by {
      assert ws[1..] == [s];
    }
    Text.WordsOfJoinSpace(ws);
    Text.WordsAppendSpace(k + " " + s, '\n');
  }

  lemma DepLineWords(k: Path, ds: seq<Path>)
    requires Text.IsWord(k) && forall j :: 0 <= j < |ds| ==> Text.IsWord(ds[j])
    ensures Text.Words(DepLine(k, ds)) == [k] + ds
  {
    var line := k + " " + Text.JoinSpace(ds);
    Text.WordsAppendSpace(line, '\n');
    if |ds| == 0 {
      assert line == k + [' '];
      Text.WordsAppendSpace(k, ' ');
      Text.WordsOfJoinSpace([k]);
    } else {
      var ws := [k] + ds;
      assert ws[1..] == ds;
      assert Text.JoinSpace(ws) == line;
      Text.WordsOfJoinSpace(ws);
    }
  }

  /** A newline-terminated line with no other newline. */
  predicate Terminated(l: string) {
    |l| > 0 && l[|l| - 1] == '\n' && Text.NoLineBreak(l[..|l| - 1])
  }

  lemma WordsHaveNoLineBreak(w: string)
    requires Text.IsWord(w)
    ensures Text.NoLineBreak(w)
  {
    assert Text.IsSpace('\n') && Text.IsSpace('\r');
  }

  lemma {:induction false} JoinSpaceNoLineBreak(ws: seq<string>)
    requires forall j :: 0 <= j < |ws| ==> Text.IsWord(ws[j])
    ensures Text.NoLineBreak(Text.JoinSpace(ws))
    decreases |ws|
  {
    if |ws| == 1 {
      WordsHaveNoLineBreak(ws[0]);
    } else if |ws| > 1 {
      WordsHaveNoLineBreak(ws[0]);
      JoinSpaceNoLineBreak(ws[1..]);
    }
  }

  /** "a b\n" is a terminated line with a space in it, so it is never the separator. */
  lemma EntryLineOf(a: string, b: string)
    requires Text.NoLineBreak(a) && Text.NoLineBreak(b)
    ensures Terminated(a + " " + b + "\n")
    ensures a + " " + b + "\n" != Separator
  {
    var l := a + " " + b + "\n";
    assert l[..|l| - 1] == a + " " + b;
    assert l[|a|] == ' ';
    assert forall i :: 0 <= i < |Separator| ==> Separator[i] != ' ';
  }

  /** The concatenation of newline-terminated lines passes the newline translation unchanged,
      and splitting it gives the lines back. */
  lemma {:induction false} LinesOfConcat(ls: seq<string>)
    requires forall i :: 0 <= i < |ls| ==> Terminated(ls[i])
    ensures Text.Universal(Text.Concat(ls)) == Text.Concat(ls)
    ensures Text.Lines(Text.Concat(ls)) == ls
    decreases |ls|
  {
    if |ls| > 0 {
      var l := ls[0];
      var body := l[..|l| - 1];
      assert l == body + "\n";
      LinesOfConcat(ls[1..]);
      Text.LinesOfLine(body, Text.Concat(ls[1..]));
      Text.UniversalOfLine(body, Text.Concat(ls[1..]));
    }
  }

  lemma ParseLinesCons(l: string, rest: seq<string>, inDeps: bool, acc: CacheFile, pathExists: Path -> bool)
    requires ParseLine(l, inDeps, acc, pathExists).Some?
    ensures var p := ParseLine(l, inDeps, acc, pathExists).value;
      ParseLines([l] + rest, inDeps, acc, pathExists) == ParseLines(rest, p.inDeps, p.acc, pathExists)
  {
    assert ([l] + rest)[0] == l && ([l] + rest)[1..] == rest;
  }

  lemma TimeLineTerminated(k: Path, t: int)
    requires Text.IsWord(k)
    ensures Terminated(TimeLine(k, t)) && TimeLine(k, t) != Separator
  {
    WordsHaveNoLineBreak(k);
    WordsHaveNoLineBreak(Text.IntToString(t));
    EntryLineOf(k, Text.IntToString(t));
  }

  lemma DepLineTerminated(k: Path, ds: seq<Path>, pathExists: Path -> bool)
    requires WritableDeps(k, ds, pathExists)
    ensures Terminated(DepLine(k, ds)) && DepLine(k, ds) != Separator
  {
    WordsHaveNoLineBreak(k);
    JoinSpaceNoLineBreak(ds);
    EntryLineOf(k, Text.JoinSpace(ds));
  }

  lemma TimeLineParses(k: Path, t: int, acc: CacheFile, pathExists: Path -> bool)
    requires Text.IsWord(k)
    ensures ParseLine(TimeLine(k, t), false, acc, pathExists) == Some(Parsed(false, acc.(cache := acc.cache.Set(k, t))))
  {
    TimeLineTerminated(k, t);
    TimeLineWords(k, t);
    Text.ParseIntOfIntToString(t);
  }

  lemma DepLineParses(k: Path, ds: seq<Path>, acc: CacheFile, pathExists: Path -> bool)
    requires WritableDeps(k, ds, pathExists)
    ensures ParseLine(DepLine(k, ds), true, acc, pathExists) == Some(Parsed(true, acc.(deps := acc.deps.Set(k, ds))))
  {
    DepLineTerminated(k, ds, pathExists);
    DepLineWords(k, ds);
    if |ds| > 0 {
      DepWordsTail(k, ds, pathExists);
    }
  }

  lemma DepWordsTail(k: Path, ds: seq<Path>, pathExists: Path -> bool)
    requires WritableDeps(k, ds, pathExists)
    ensures Existing(Dedup(([k] + ds)[1..]), pathExists) == ds
  {
    assert ([k] + ds)[1..] == ds;
    DedupOfDistinct(ds);
    ExistingAll(ds, pathExists);
  }

  lemma {:induction false} TimeSectionParses(keys: seq<Path>, entries: map<Path, int>, tail: seq<string>,
                                             acc: CacheFile, pathExists: Path -> bool)
    requires forall k :: k in keys ==> k in entries && Text.IsWord(k)
    ensures ParseLines(TimeLines(keys, entries) + tail, false, acc, pathExists) ==
            ParseLines(tail, false, acc.(cache := SetAll(acc.cache, keys, entries)), pathExists)
    decreases |keys|
  {
    if |keys| == 0 {
      assert TimeLines(keys, entries) + tail == tail;
    } else {
      var k := keys[0];
      var rest := TimeLines(keys[1..], entries);
      assert TimeLines(keys, entries) + tail == [TimeLine(k, entries[k])] + (rest + tail);
      TimeLineParses(k, entries[k], acc, pathExists);
      ParseLinesCons(TimeLine(k, entries[k]), rest + tail, false, acc, pathExists);
      TimeSectionParses(keys[1..], entries, tail, acc.(cache := acc.cache.Set(k, entries[k])), pathExists);
    }
  }

  lemma {:induction false} DepSectionParses(keys: seq<Path>, entries: map<Path, seq<Path>>, acc: CacheFile,
                                            pathExists: Path -> bool)
    requires forall k :: k in keys ==> k in entries && WritableDeps(k, entries[k], pathExists)
    ensures ParseLines(DepLines(keys, entries), true, acc, pathExists) == Some(acc.(deps := SetAll(acc.deps, keys, entries)))
    decreases |keys|
  {
    if |keys| > 0 {
      var k := keys[0];
      DepLineParses(k, entries[k], acc, pathExists);
      ParseLinesCons(DepLine(k, entries[k]), DepLines(keys[1..], entries), true, acc, pathExists);
      DepSectionParses(keys[1..], entries, acc.(deps := acc.deps.Set(k, entries[k])), pathExists);
    }
  }

  lemma ExistingAll(ws: seq<Path>, pathExists: Path -> bool)
    requires forall j :: 0 <= j < |ws| ==> pathExists(ws[j])
    ensures Existing(ws, pathExists) == ws
  {
  }

  /** The written lines parse back to the dicts they were written from. */
  lemma CacheLinesParse(f: CacheFile, pathExists: Path -> bool)
    requires Writable(f, pathExists)
    ensures ParseLines(CacheLines(f), false, EmptyCacheFile(), pathExists) == Some(f)
  {
    var tl := TimeLines(f.cache.keys, f.cache.entries);
    var dl := DepLines(f.deps.keys, f.deps.entries);
    assert CacheLines(f) == tl + ([Separator] + dl);
    TimeSectionParses(f.cache.keys, f.cache.entries, [Separator] + dl, EmptyCacheFile(), pathExists);
    var afterTimes := EmptyCacheFile().(cache := SetAll(EmptyDict(), f.cache.keys, f.cache.entries));
    ParseLinesCons(Separator, dl, false, afterTimes, pathExists);
    DepSectionParses(f.deps.keys, f.deps.entries, afterTimes, pathExists);
    SetAllFromEmpty(f.cache);
    SetAllFromEmpty(f.deps);
  }

  predicate AllTerminated(ls: seq<string>) {
    forall i :: 0 <= i < |ls| ==> Terminated(ls[i])
  }

  lemma {:induction false} TimeLinesTerminated(keys: seq<Path>, entries: map<Path, int>)
    requires forall k :: k in keys ==> k in entries && Text.IsWord(k)
    ensures AllTerminated(TimeLines(keys, entries))
    decreases |keys|
  {
    if |keys| > 0 {
      TimeLineTerminated(keys[0], entries[keys[0]]);
      TimeLinesTerminated(keys[1..], entries);
    }
  }

  lemma {:induction false} DepLinesTerminated(keys: seq<Path>, entries: map<Path, seq<Path>>, pathExists: Path -> bool)
    requires forall k :: k in keys ==> k in entries && WritableDeps(k, entries[k], pathExists)
    ensures AllTerminated(DepLines(keys, entries))
    decreases |keys|
  {
    if |keys| > 0 {
      DepLineTerminated(keys[0], entries[keys[0]], pathExists);
      DepLinesTerminated(keys[1..], entries, pathExists);
    }
  }

  lemma CacheLinesTerminated(f: CacheFile, pathExists: Path -> bool)
    requires Writable(f, pathExists)
    ensures AllTerminated(CacheLines(f))
  {
    TimeLinesTerminated(f.cache.keys, f.cache.entries);
    DepLinesTerminated(f.deps.keys, f.deps.entries, pathExists);
    assert Separator[..|Separator| - 1] == "DEPENDENCY";
    assert AllTerminated([Separator]);
    AllTerminatedAppend(TimeLines(f.cache.keys, f.cache.entries), [Separator]);
    AllTerminatedAppend(TimeLines(f.cache.keys, f.cache.entries) + [Separator], DepLines(f.deps.keys, f.deps.entries));
  }

  lemma AllTerminatedAppend(a: seq<string>, b: seq<string>)
    requires AllTerminated(a) && AllTerminated(b)
    ensures AllTerminated(a + b)
  {
    forall i | 0 <= i < |a + b|
      ensures Terminated((a + b)[i])
    {
      if i < |a| {
        assert (a + b)[i] == a[i];
      } else {
        assert (a + b)[i] == b[i - |a|];
      }
    }
  }

  /** Writing the cache file and reading it back on the next run restores both dicts, keys in
      the same order. */
  lemma CacheFileRoundTrip(f: CacheFile, pathExists: Path -> bool)
    requires Writable(f, pathExists)
    ensures LoadCache(WriteCache(f), false, pathExists) == f
  {
    CacheLinesParse(f, pathExists);
    CacheLinesTerminated(f, pathExists);
    LinesOfConcat(CacheLines(f));
  }

  /** The scan skips only names with a ' ' in them, so a name with a tab is cached; the next run
      splits its time line into three words, int() raises on the second, and the whole cache is
      read back empty. */
  lemma TabbedNameEmptiesCache(pathExists: Path -> bool)
    ensures var name := "a\tb.h"; var f := CacheFile(Dict([name], map[name := 7]), EmptyDict());
      ' ' !in name && f.cache.Valid() && f.deps.Valid() && |f.cache.keys| == 1 &&
      LoadCache(WriteCache(f), false, pathExists) == EmptyCacheFile()
  {
    var name := "a\tb.h";
    var f := CacheFile(Dict([name], map[name := 7]), EmptyDict());
    var line := TimeLine(name, 7);
    TabbedCacheLines();
    LinesOfConcat(CacheLines(f));
    TabbedLineFails(EmptyCacheFile(), pathExists);
    assert [line, Separator][0] == line;
  }

  lemma TabbedCacheLines()
    ensures var name := "a\tb.h"; var f := CacheFile(Dict([name], map[name := 7]), EmptyDict());
      f.cache.Valid() && f.deps.Valid() && CacheLines(f) == [TimeLine(name, 7), Separator] &&
      Terminated(TimeLine(name, 7)) && Terminated(Separator)
  {
    var name := "a\tb.h";
    var f := CacheFile(Dict([name], map[name := 7]), EmptyDict());
    var line := TimeLine(name, 7);
    assert Text.IntToString(7) == "7";
    assert line == "a\tb.h 7\n";
    assert TimeLines(f.cache.keys, f.cache.entries) == [line];
    assert DepLines(f.deps.keys, f.deps.entries) == [];
    assert line[..|line| - 1] == "a\tb.h 7";
    assert Separator[..|Separator| - 1] == "DEPENDENCY";
  }

  /** The time line of the tabbed name splits into "a", "b.h", "7", and "b.h" is no integer. */
  lemma TabbedLineFails(acc: CacheFile, pathExists: Path -> bool)
    ensures ParseLine(TimeLine("a\tb.h", 7), false, acc, pathExists).None?
  {
    assert Text.IntToString(7) == "7";
    assert TimeLine("a\tb.h", 7) == "a\tb.h 7\n";
    assert TimeLine("a\tb.h", 7) != Separator;
    TabbedWords();
    assert !Text.AllDigits("b.h");
  }

  lemma TabbedWords()
    ensures var w := Text.Words("a\tb.h 7\n"); |w| >= 2 && w[0] == "a" && w[1] == "b.h"
  {
    assert "a\tb.h 7\n" == "a" + ['\t'] + "b.h" + " 7\n";
    TwoWords("a", '\t', "b.h", " 7\n");
  }

  /** Two words with whitespace between and after them split off as the first two words. */
  lemma TwoWords(w1: string, c: char, w2: string, t: string)
    requires Text.IsWord(w1) && Text.IsSpace(c) && Text.IsWord(w2) && |t| > 0 && Text.IsSpace(t[0])
    ensures Text.Words(w1 + [c] + w2 + t) == [w1, w2] + Text.Words(t)
  {
    assert w1 + [c] + w2 + t == w1 + ([c] + (w2 + t));
    Text.WordsOfWordThenSpace(w1, [c] + (w2 + t));
    Text.WordsOfSpaceThen(c, w2 + t);
    Text.WordsOfWordThenSpace(w2, t);
  }

  // ---------------------------------------------------------------- the summary and the whole run

  /** The closing message: failures first, then "up-to-date" when nothing was compiled. */
  function Summary(errors: nat, rebuilt: bool): string {
    if errors > 0 then "> " + Text.NatToString(errors) + (if errors == 1 then " shader build failed." else " shader builds failed.")
    else if !rebuilt then "> Everything is up-to-date."
    else "> Done."
  }

  /** Each of the three messages names its own case. */
  lemma SummaryCases(errors: nat, rebuilt: bool)
    ensures Summary(errors, rebuilt) == "> Everything is up-to-date." <==> errors == 0 && !rebuilt
    ensures Summary(errors, rebuilt) == "> Done." <==> errors == 0 && rebuilt
  {
    if errors > 0 {
      FailureStartsWithCount(errors, rebuilt);
      var m := Summary(errors, rebuilt);
      assert Text.IsDigit(m[2]);
      assert "> Everything is up-to-date."[2] == 'E';
      assert "> Done."[2] == 'D';
    }
  }

  lemma FailureStartsWithCount(errors: nat, rebuilt: bool)
    requires errors > 0
    ensures var m := Summary(errors, rebuilt);
      |m| > 2 && m[..2] == "> " && Text.IsDigit(m[2])
  {
    var d := Text.NatToString(errors);
    var m := Summary(errors, rebuilt);
    assert m[2] == d[0];
  }

  /** A failure message reports the number of failures as its second word. */
  lemma SummaryCountsFailures(errors: nat, rebuilt: bool)
    requires errors > 0
    ensures |Text.Words(Summary(errors, rebuilt))| >= 2
    ensures Text.ParseInt(Text.Words(Summary(errors, rebuilt))[1]) == Some(errors)
  {
    var tail := if errors == 1 then " shader build failed." else " shader builds failed.";
    assert |tail| > 0 && tail[0] == ' ';
    SecondWord(Text.NatToString(errors), tail);
    Text.DigitsValueOfNatToString(errors);
  }

  lemma SecondWord(d: string, tail: string)
    requires Text.IsWord(d) && |tail| > 0 && Text.IsSpace(tail[0])
    ensures var ws := Text.Words("> " + d + tail); |ws| >= 2 && ws[1] == d
  {
    var m := "> " + d + tail;
    assert m == ">" + (" " + (d + tail));
    assert Text.IsWord(">");
    Text.WordsOfWordThenSpace(">", " " + (d + tail));
    assert (" " + (d + tail))[1..] == d + tail;
    Text.WordsOfWordThenSpace(d, tail);
  }

  /** What a run leaves behind: the new cache file and the closing message. */
  datatype Outcome = Outcome(cacheFile: string, message: string)

  /** One run of the script over the files of the dependency folders and of the shader folder;
      Err(key) is the KeyError that ends it. */
  function Run(cacheText: string, forceRebuild: bool, pathExists: Path -> bool,
               headers: seq<Source>, shaders: seq<Shader>): (r: Result<Outcome, Path>)
  {
    var loaded := LoadCache(cacheText, forceRebuild, pathExists);
    var st0 := State(loaded.cache, loaded.deps, {}, 0, false);
    var st1 := ScanHeaders(st0, headers, pathExists);
    var st2 :- BuildShaders(st1, shaders, pathExists);
    Ok(Outcome(WriteCache(CacheFile(st2.cache, st2.deps)), Summary(st2.errors, st2.rebuilt)))
  }

  /** A run never crashes when it rebuilds everything, nor when it reads a cache file that a
      consistent run wrote. */
  lemma RunNeverCrashes(cacheText: string, forceRebuild: bool, pathExists: Path -> bool,
                        headers: seq<Source>, shaders: seq<Shader>, previous: CacheFile)
    requires forceRebuild || (Writable(previous, pathExists) && cacheText == WriteCache(previous) &&
                              previous.cache.entries.Keys <= previous.deps.entries.Keys)
    ensures Run(cacheText, forceRebuild, pathExists, headers, shaders).Ok?
  {
    var loaded := LoadCache(cacheText, forceRebuild, pathExists);
    if !forceRebuild {
      CacheFileRoundTrip(previous, pathExists);
    }
    var st0 := State(loaded.cache, loaded.deps, {}, 0, false);
    assert Consistent(st0);
    BuildShadersNeverCrash(ScanHeaders(st0, headers, pathExists), shaders, pathExists);
  }
}

=== FILE: shader_layout.dfy ===
/** The shader-common generator: from one table of constants and struct definitions it emits a
    C header and a GLSL header whose structs must have the same byte layout. GLSL buffers use
    std430 rules (a vec3 occupies 16 bytes), C uses natural 4-byte packing, so the generator
    inserts explicit `__padN` words into both declarations and pads 16-byte-aligned structs at
    the tail. It sizes those pads from a size table alone, without aligning a member's start, so
    the offsets agree only when every member already starts at its std430 alignment
    (ReadyLayoutsAgree); AsWrittenVec3Misplaced shows a struct where they do not, and
    AlignedStructDecls is the loop with alignment added (AlignedLayoutsAgree). Rendering is
    modelled as a list of declarations plus the text they print as. */
module ShaderLayout {
  import opened Wrappers
  import Text

  datatype BaseType = Float | Int32 | UInt32

  /** Which header is being written: its type-name table differs, nothing else does. */
  datatype Target = CHeader | GlslHeader

  /** One struct member: base type, dimension (1 scalar, 2..4 vector, 22..44 matrix code CR for GLSL matCxR, C columns of R rows), name, count. */
  datatype Member = Member(baseType: BaseType, dim: nat, name: string, count: int)

  /** One entry of the struct table. */
  datatype StructEntry = StructEntry(name: string, members: seq<Member>, onlyForGlsl: bool,
                                     align16: bool, breakComplex: bool)

  /** The type a declaration names: a scalar of the base type, or the target's own vector or
      matrix type for a dimension code. */
  datatype TypeRef = Scalar(base: BaseType) | Complex(base: BaseType, dim: nat)

  /** One emitted line inside a struct body: a member with its array extents, or a uint pad
      word numbered `index`. */
  datatype Decl = Field(ty: TypeRef, name: string, extents: seq<nat>) | Pad(index: nat)

  datatype LayoutError =
    | CountNotPositive(member: string)      // assert(count > 0)
    | ComplexArray(member: string)          // count > 1 with dimension above 4
    | MissingSize(member: string)           // KeyError in one of the size tables
    | PadNotWordSized(member: string)       // assert(diff % 4 == 0)
    | SizeNotWordAligned(structName: string)
    | NoStd430Twin(member: string)          // AlignedStructDecls only: std430 pads inside the member

  // ---------------------------------------------------------------- type tables

  function ScalarName(t: Target, b: BaseType): string {
    match (t, b)
    case (CHeader, Float) => "float"
    case (CHeader, Int32) => "int32_t"
    case (CHeader, UInt32) => "uint32_t"
    case (GlslHeader, Float) => "float"
    case (GlslHeader, Int32) => "int"
    case (GlslHeader, UInt32) => "uint"
  }

  predicate IsMatrixDim(dim: nat) {
    dim == 22 || dim == 23 || dim == 32 || dim == 33 || dim == 34 || dim == 43 || dim == 44
  }

  /** The (base type, dimension) entries of a type-name table; the C table has none. */
  function ComplexName(t: Target, b: BaseType, dim: nat): Option<string> {
    if t == CHeader then None
    else if 2 <= dim <= 4 then
      var prefix := match b case Float => "vec" case Int32 => "ivec" case UInt32 => "uvec";
      Some(prefix + [Text.DigitChar(dim)])
    else if b == Float then
      match dim
      case 22 => Some("mat2")
      case 23 => Some("mat2x3")
      case 32 => Some("mat3x2")
      case 33 => Some("mat3")
      case 34 => Some("mat3x4")
      case 43 => Some("mat4x3")
      case 44 => Some("mat4")
      case _ => None
    else None
  }

  /** The spelling of a type in a header. MemberDecl names a vector or matrix type only where the
      target's name table has it; any other falls back to the scalar name. */
  function TypeName(t: Target, ty: TypeRef): string {
    match ty
    case Scalar(b) => ScalarName(t, b)
    case Complex(b, dim) => match ComplexName(t, b, dim) case Some(n) => n case None => ScalarName(t, b)
  }

  /** The size of every scalar, in both size tables. */
  const ScalarBytes := 4

  /** The (base type, dimension) entries of the natural-size table. */
  function ActualComplexSize(b: BaseType, dim: nat): Option<nat> {
    match (b, dim)
    case (_, 2) => Some(8)
    case (_, 3) => Some(12)
    case (_, 4) => Some(16)
    case (Float, 22) => Some(16)
    case (Float, 23) => Some(24)
    case (Float, 32) => Some(24)
    case (Float, 33) => Some(36)
    case (Float, 34) => Some(48)
    case (Float, 43) => Some(48)
    case (Float, 44) => Some(64)
    case _ => None
  }

  /** The (base type, dimension) entries of the std430 table: a 3-vector takes 16 bytes. */
  function Std430ComplexSize(b: BaseType, dim: nat): Option<nat> {
    match (b, dim)
    case (_, 2) => Some(8)
    case (_, 3) => Some(16)
    case (_, 4) => Some(16)
    case (Float, 22) => Some(16)
    case (Float, 23) => Some(24)
    case (Float, 32) => Some(24)
    case (Float, 33) => Some(36)
    case (Float, 34) => Some(48)
    case (Float, 43) => Some(48)
    case (Float, 44) => Some(64)
    case _ => None
  }

  /** Number of scalar components of a dimension code: d for vectors, R*C for matrix code RC. */
  function Components(dim: nat): nat {
    if dim <= 4 then dim else (dim / 10) * (dim % 10)
  }

  /** Both size tables have exactly the vector and float-matrix keys of the GLSL name table;
      the natural size is four bytes per component, and std430 only widens a 3-vector by one word. */
  lemma SizeTablesAgree(b: BaseType, dim: nat)
    ensures ActualComplexSize(b, dim).Some? <==> ComplexName(GlslHeader, b, dim).Some?
    ensures Std430ComplexSize(b, dim).Some? <==> ActualComplexSize(b, dim).Some?
    ensures ActualComplexSize(b, dim).Some? ==> ActualComplexSize(b, dim).value == ScalarBytes * Components(dim)
    ensures ActualComplexSize(b, dim).Some? ==>
      Std430ComplexSize(b, dim).value - ActualComplexSize(b, dim).value == (if dim == 3 then 4 else 0)
  {
  }

  // ---------------------------------------------------------------- sizes

  /** align4: the least multiple of four that is not below a. */
  function Align4(a: int): (r: int)
    ensures r % 4 == 0 && a <= r < a + 4
  {
    ((a + 3) / 4) * 4
  }

  function MemberSizeStd430(b: BaseType, dim: nat, count: int): Option<int> {
    if dim == 1 then Some(ScalarBytes * count)
    else if count == 1 then
      match Std430ComplexSize(b, dim) case Some(s) => Some(s) case None => None
    else Some(ScalarBytes * dim * count)
  }

  function MemberActualSize(b: BaseType, dim: nat, count: int): Option<int> {
    if dim == 1 then Some(ScalarBytes * count)
    else match ActualComplexSize(b, dim) case Some(s) => Some(s * count) case None => None
  }

  /** The std430 bytes a member occupies and the pad words it needs after its natural layout. */
  datatype Padding = Padding(std430Bytes: int, padWords: nat)

  function MemberPadding(m: Member, breakComplex: bool): Result<Padding, LayoutError> {
    var broken := m.count > 1 && breakComplex;
    var std430 := if broken then MemberSizeStd430(m.baseType, 1, Align4(m.count * m.dim))
                  else MemberSizeStd430(m.baseType, m.dim, m.count);
    var actual := if broken then MemberActualSize(m.baseType, 1, Align4(m.count * m.dim))
                  else MemberActualSize(m.baseType, m.dim, m.count);
    if std430.None? || actual.None? then Err(MissingSize(m.name))
    else
      var diff := std430.value - actual.value;
      if diff > 0 then
        if diff % 4 != 0 then Err(PadNotWordSized(m.name)) else Ok(Padding(std430.value, diff / 4))
      else Ok(Padding(std430.value, 0))
  }

  /** The std430 size never falls short of the natural size and exceeds it by whole words,
      so the pad assertion cannot fail. */
  lemma MemberPaddingNeverMisaligned(m: Member, breakComplex: bool)
    ensures MemberPadding(m, breakComplex) != Err(PadNotWordSized(m.name))
  {
    if m.count > 1 && breakComplex {
    } else if m.dim == 1 {
    } else if m.count == 1 {
      SizeTablesAgree(m.baseType, m.dim);
    } else {
      SizeTablesAgree(m.baseType, m.dim);
      if ActualComplexSize(m.baseType, m.dim).Some? {
        var c := Components(m.dim);
        assert ActualComplexSize(m.baseType, m.dim).value * m.count == 4 * c * m.count;
        assert 4 * m.dim * m.count - 4 * c * m.count == 4 * ((m.dim - c) * m.count);
      }
    }
  }

  // ---------------------------------------------------------------- declarations

  /** The error getStruct raises for a member before any size is looked up, if any. */
  function MemberError(m: Member): Option<LayoutError> {
    if m.count <= 0 then Some(CountNotPositive(m.name))
    else if m.count > 1 && m.dim > 4 then Some(ComplexArray(m.name))
    else None
  }

  /** The declaration emitted for one member that passed MemberError. */
  function MemberDecl(t: Target, m: Member, breakComplex: bool): (r: Decl)
    requires MemberError(m).None?
    ensures r.Field? && r.name == m.name && r.ty.base == m.baseType
    ensures r.ty.Complex? ==> r.ty.dim == m.dim && ComplexName(t, m.baseType, m.dim).Some?
  {
    var scalar := Scalar(m.baseType);
    if m.count == 1 then
      if m.dim == 1 then Field(scalar, m.name, [])
      else if ComplexName(t, m.baseType, m.dim).Some? then Field(Complex(m.baseType, m.dim), m.name, [])
      else if m.dim <= 4 then Field(scalar, m.name, [m.dim])
      else Field(scalar, m.name, [(m.dim / 10) * (m.dim % 10)])
    else if !breakComplex then
      if ComplexName(t, m.baseType, m.dim).Some? then Field(Complex(m.baseType, m.dim), m.name, [m.count as nat])
      else Field(scalar, m.name, [m.dim, m.count as nat])
    else Field(scalar, m.name, [Align4(m.count * m.dim) as nat])
  }

  /** `count` pad words numbered from `first`. */
  function PadDecls(first: nat, count: nat): (r: seq<Decl>)
    ensures |r| == count
    ensures forall i :: 0 <= i < count ==> r[i] == Pad(first + i)
  {
    seq(count, i requires 0 <= i < count => Pad(first + i))
  }

  /** The member loop of getStruct, minus the text: each member's check and, for a 16-byte-aligned
      struct, its padding; the first member that fails stops the loop with that error. */
  function Paddings(members: seq<Member>, align16: bool, breakComplex: bool): (r: Result<seq<Padding>, LayoutError>)
    ensures r.Ok? ==> |r.value| == |members| && forall i :: 0 <= i < |members| ==> MemberError(members[i]).None?
    ensures r.Ok? && !align16 ==> forall i :: 0 <= i < |members| ==> r.value[i] == Padding(0, 0)
  {
    if |members| == 0 then Ok([])
    else if MemberError(members[0]).Some? then Err(MemberError(members[0]).value)
    else
      var p :- if align16 then MemberPadding(members[0], breakComplex) else Ok(Padding(0, 0));
      var rest :- Paddings(members[1..], align16, breakComplex);
      Ok([p] + rest)
  }

  function TotalPadWords(ps: seq<Padding>): nat {
    if |ps| == 0 then 0 else ps[0].padWords + TotalPadWords(ps[1..])
  }

  function TotalStd430Bytes(ps: seq<Padding>): int {
    if |ps| == 0 then 0 else ps[0].std430Bytes + TotalStd430Bytes(ps[1..])
  }

  /** The declarations of the member loop: each member's line followed by its pad words. */
  function BodyDecls(t: Target, members: seq<Member>, breakComplex: bool, ps: seq<Padding>, firstPad: nat): seq<Decl>
    requires |ps| == |members| && forall i :: 0 <= i < |members| ==> MemberError(members[i]).None?
  {
    if |members| == 0 then []
    else [MemberDecl(t, members[0], breakComplex)] + PadDecls(firstPad, ps[0].padWords)
         + BodyDecls(t, members[1..], breakComplex, ps[1..], firstPad + ps[0].padWords)
  }

  /** Pad words that bring a 16-byte-aligned struct's size up to a multiple of 16. */
  function TailPadWords(structName: string, size: int): (r: Result<nat, LayoutError>)
    ensures r.Ok? ==> (size + 4 * r.value) % 16 == 0 && 0 <= 4 * r.value < 16
    ensures r.Err? <==> size % 4 != 0
  {
    TailPadArith(size);
    if size % 16 != 0 then
      if (size % 16) % 4 != 0 then Err(SizeNotWordAligned(structName))
      else Ok(((size / 16 + 1) * 16 - size) / 4)
    else Ok(0)
  }

  /** The rounding of TailPadWords: the distance to the next multiple of 16 is 16 - size % 16,
      and size % 16 is a whole number of words exactly when size is. */
  lemma TailPadArith(size: int)
    ensures (size % 16) % 4 == size % 4
    ensures (size / 16 + 1) * 16 - size == 16 - size % 16
  {
    var q, m := size / 16, size % 16;
    assert size == 16 * q + m;
    assert size - m == 4 * (4 * q);
  }

  /** getStruct: the declarations of one struct body, pads included. */
  function StructDecls(t: Target, e: StructEntry): Result<seq<Decl>, LayoutError> {
    var ps :- Paddings(e.members, e.align16, e.breakComplex);
    var tail :- if e.align16 then TailPadWords(e.name, TotalStd430Bytes(ps)) else Ok(0);
    Ok(BodyDecls(t, e.members, e.breakComplex, ps, 0) + PadDecls(TotalPadWords(ps), tail))
  }

  /** Every member size is a whole number of words, so the tail check never raises. */
  lemma {:induction false} Std430BytesAreWords(members: seq<Member>, align16: bool, breakComplex: bool)
    requires Paddings(members, align16, breakComplex).Ok?
    ensures TotalStd430Bytes(Paddings(members, align16, breakComplex).value) % 4 == 0
    decreases |members|
  {
    if |members| > 0 {
      var ps := Paddings(members, align16, breakComplex).value;
      var m := members[0];
      var p := if align16 then MemberPadding(m, breakComplex) else Ok(Padding(0, 0));
      assert p.Ok? && ps == [p.value] + Paddings(members[1..], align16, breakComplex).value;
      assert ps[1..] == Paddings(members[1..], align16, breakComplex).value;
      if align16 {
        MemberLayout(m, breakComplex);
      }
      Std430BytesAreWords(members[1..], align16, breakComplex);
    }
  }

  /** The only errors getStruct can raise are a non-positive count, an array of a type wider
      than a vector, and a (base type, dimension) pair missing from the size tables. */
  lemma StructErrors(t: Target, e: StructEntry)
    ensures StructDecls(t, e).Err? ==>
      StructDecls(t, e).error.CountNotPositive? || StructDecls(t, e).error.ComplexArray? ||
      StructDecls(t, e).error.MissingSize?
  {
    if Paddings(e.members, e.align16, e.breakComplex).Ok? {
      Std430BytesAreWords(e.members, e.align16, e.breakComplex);
    } else {
      PaddingsErrors(e.members, e.align16, e.breakComplex);
    }
  }

  /** A struct is emitted only when every member has a positive count and no member wider than
      a vector is repeated; a repeated member of a flattened struct becomes one scalar array of
      align4(count * dim) elements in both headers. */
  lemma StructMembersChecked(t: Target, e: StructEntry)
    ensures StructDecls(t, e).Ok? ==>
      forall i :: 0 <= i < |e.members| ==> e.members[i].count > 0 && (e.members[i].count > 1 ==> e.members[i].dim <= 4)
    ensures StructDecls(t, e).Ok? && e.breakComplex ==>
      forall i :: 0 <= i < |e.members| && e.members[i].count > 1 ==>
        MemberDecl(t, e.members[i], true) ==
          Field(Scalar(e.members[i].baseType), e.members[i].name, [Align4(e.members[i].count * e.members[i].dim) as nat])
  {
  }

  lemma {:induction false} PaddingsErrors(members: seq<Member>, align16: bool, breakComplex: bool)
    ensures Paddings(members, align16, breakComplex).Err? ==>
      !Paddings(members, align16, breakComplex).error.PadNotWordSized? &&
      !Paddings(members, align16, breakComplex).error.SizeNotWordAligned? &&
      !Paddings(members, align16, breakComplex).error.NoStd430Twin?
    decreases |members|
  {
    if |members| > 0 && MemberError(members[0]).None? {
      MemberPaddingNeverMisaligned(members[0], breakComplex);
      PaddingsErrors(members[1..], align16, breakComplex);
    }
  }

  // ---------------------------------------------------------------- pad numbering

  function PadIndices(ds: seq<Decl>): seq<nat> {
    if |ds| == 0 then []
    else (if ds[0].Pad? then [ds[0].index] else []) + PadIndices(ds[1..])
  }

  function Range(lo: nat, hi: nat): (r: seq<nat>)
    requires lo <= hi
    ensures |r| == hi - lo
    ensures forall i :: 0 <= i < |r| ==> r[i] == lo + i
  {
    seq(hi - lo, i requires 0 <= i < hi - lo => lo + i)
  }

  lemma RangeAppend(a: nat, b: nat, c: nat)
    requires a <= b <= c
    ensures Range(a, b) + Range(b, c) == Range(a, c)
  {
  }

  lemma {:induction false} PadIndicesAppend(a: seq<Decl>, b: seq<Decl>)
    ensures PadIndices(a + b) == PadIndices(a) + PadIndices(b)
    decreases |a|
  {
    if |a| > 0 {
      assert (a + b)[1..] == a[1..] + b;
      PadIndicesAppend(a[1..], b);
    } else {
      assert a + b == b;
    }
  }

  lemma {:induction false} PadIndicesOfPadDecls(first: nat, count: nat)
    ensures PadIndices(PadDecls(first, count)) == Range(first, first + count)
    decreases count
  {
    if count > 0 {
      assert PadDecls(first, count)[1..] == PadDecls(first + 1, count - 1);
      PadIndicesOfPadDecls(first + 1, count - 1);
    }
  }

  lemma {:induction false} BodyPadIndices(t: Target, members: seq<Member>, breakComplex: bool, ps: seq<Padding>, firstPad: nat)
    requires |ps| == |members| && forall i :: 0 <= i < |members| ==> MemberError(members[i]).None?
    ensures PadIndices(BodyDecls(t, members, breakComplex, ps, firstPad)) == Range(firstPad, firstPad + TotalPadWords(ps))
    decreases |members|
  {
    if |members| > 0 {
      var d := MemberDecl(t, members[0], breakComplex);
      var pads := PadDecls(firstPad, ps[0].padWords);
      var next := firstPad + ps[0].padWords;
      var rest := BodyDecls(t, members[1..], breakComplex, ps[1..], next);
      assert BodyDecls(t, members, breakComplex, ps, firstPad) == [d] + pads + rest;
      BodyPadIndices(t, members[1..], breakComplex, ps[1..], next);
      PadIndicesOfFieldThenPads(d, firstPad, ps[0].padWords, rest);
      RangeAppend(firstPad, next, next + TotalPadWords(ps[1..]));
    }
  }

  /** A field line followed by pad words numbered from first: those numbers, then the rest's. */
  lemma PadIndicesOfFieldThenPads(d: Decl, first: nat, count: nat, rest: seq<Decl>)
    requires d.Field?
    ensures PadIndices([d] + PadDecls(first, count) + rest) == Range(first, first + count) + PadIndices(rest)
  {
    var pads := PadDecls(first, count);
    PadIndicesAppend([d] + pads, rest);
    PadIndicesAppend([d], pads);
    assert PadIndices([d]) == [] by {
      assert [d][1..] == [];
    }
    PadIndicesOfPadDecls(first, count);
  }

  /** Pads are numbered 0, 1, 2, ... in the order they appear, restarting for every struct. */
  lemma PadsNumberedFromZero(t: Target, e: StructEntry)
    ensures StructDecls(t, e).Ok? ==>
      exists n: nat :: PadIndices(StructDecls(t, e).value) == Range(0, n)
  {
    if StructDecls(t, e).Ok? {
      var ps, tail := StructShape(t, e);
      BodyThenTailPadIndices(t, e.members, e.breakComplex, ps, tail);
    }
  }

  /** The member loop followed by the tail pads numbers its pads 0 up to their total. */
  lemma BodyThenTailPadIndices(t: Target, members: seq<Member>, breakComplex: bool, ps: seq<Padding>, tail: nat)
    requires |ps| == |members| && forall i :: 0 <= i < |members| ==> MemberError(members[i]).None?
    ensures PadIndices(BodyDecls(t, members, breakComplex, ps, 0) + PadDecls(TotalPadWords(ps), tail))
            == Range(0, TotalPadWords(ps) + tail)
  {
    var body := BodyDecls(t, members, breakComplex, ps, 0);
    BodyPadIndices(t, members, breakComplex, ps, 0);
    PadIndicesAppend(body, PadDecls(TotalPadWords(ps), tail));
    PadIndicesOfPadDecls(TotalPadWords(ps), tail);
    RangeAppend(0, TotalPadWords(ps), TotalPadWords(ps) + tail);
  }

  /** An emitted struct is its member loop followed by its tail pads. */
  lemma StructShape(t: Target, e: StructEntry) returns (ps: seq<Padding>, tail: nat)
    requires StructDecls(t, e).Ok?
    ensures Paddings(e.members, e.align16, e.breakComplex) == Ok(ps)
    ensures StructDecls(t, e).value == BodyDecls(t, e.members, e.breakComplex, ps, 0) + PadDecls(TotalPadWords(ps), tail)
    ensures e.align16 ==> TailPadWords(e.name, TotalStd430Bytes(ps)) == Ok(tail)
  {
    ps := Paddings(e.members, e.align16, e.breakComplex).value;
    tail := if e.align16 then TailPadWords(e.name, TotalStd430Bytes(ps)).value else 0;
  }

  // ---------------------------------------------------------------- C and GLSL agree

  /** The name each declaration introduces, pads as `__padN`. */
  function DeclName(d: Decl): string {
    match d
    case Field(_, n, _) => n
    case Pad(i) => "__pad" + Text.NatToString(i)
  }

  function DeclNames(ds: seq<Decl>): seq<string> {
    seq(|ds|, i requires 0 <= i < |ds| => DeclName(ds[i]))
  }

  lemma DeclNamesAppend(a: seq<Decl>, b: seq<Decl>)
    ensures DeclNames(a + b) == DeclNames(a) + DeclNames(b)
  {
  }

  lemma {:induction false} BodyNamesSameForBothTargets(members: seq<Member>, breakComplex: bool, ps: seq<Padding>, firstPad: nat)
    requires |ps| == |members| && forall i :: 0 <= i < |members| ==> MemberError(members[i]).None?
    ensures DeclNames(BodyDecls(CHeader, members, breakComplex, ps, firstPad)) ==
            DeclNames(BodyDecls(GlslHeader, members, breakComplex, ps, firstPad))
    decreases |members|
  {
    if |members| > 0 {
      var next := firstPad + ps[0].padWords;
      var dc := MemberDecl(CHeader, members[0], breakComplex);
      var dg := MemberDecl(GlslHeader, members[0], breakComplex);
      var pc := PadDecls(firstPad, ps[0].padWords);
      var pg := PadDecls(firstPad, ps[0].padWords);
      var rc := BodyDecls(CHeader, members[1..], breakComplex, ps[1..], next);
      var rg := BodyDecls(GlslHeader, members[1..], breakComplex, ps[1..], next);
      BodyNamesSameForBothTargets(members[1..], breakComplex, ps[1..], next);
      DeclNamesAppend([dc] + pc, rc);
      DeclNamesAppend([dc], pc);
      DeclNamesAppend([dg] + pg, rg);
      DeclNamesAppend([dg], pg);
      assert DeclNames([dc]) == DeclNames([dg]);
    }
  }

  /** The C and the GLSL declaration of a struct fail together, and otherwise declare the same
      members and the same pads, in the same order. */
  lemma TargetsAgree(e: StructEntry)
    ensures StructDecls(CHeader, e).Ok? <==> StructDecls(GlslHeader, e).Ok?
    ensures StructDecls(CHeader, e).Ok? ==>
      DeclNames(StructDecls(CHeader, e).value) == DeclNames(StructDecls(GlslHeader, e).value)
  {
    if StructDecls(CHeader, e).Ok? {
      var ps := Paddings(e.members, e.align16, e.breakComplex).value;
      var tail := if e.align16 then TailPadWords(e.name, TotalStd430Bytes(ps)).value else 0;
      BodyNamesSameForBothTargets(e.members, e.breakComplex, ps, 0);
      DeclNamesAppend(BodyDecls(CHeader, e.members, e.breakComplex, ps, 0), PadDecls(TotalPadWords(ps), tail));
      DeclNamesAppend(BodyDecls(GlslHeader, e.members, e.breakComplex, ps, 0), PadDecls(TotalPadWords(ps), tail));
    }
  }

  // ---------------------------------------------------------------- C layout matches std430

  function Product(xs: seq<nat>): nat {
    if |xs| == 0 then 1 else xs[0] * Product(xs[1..])
  }

  /** Bytes a declaration takes in the C header, where every type is a 4-byte scalar. */
  function CDeclBytes(d: Decl): nat {
    match d
    case Field(_, _, ext) => ScalarBytes * Product(ext)
    case Pad(_) => ScalarBytes
  }

  function CBytes(ds: seq<Decl>): nat {
    if |ds| == 0 then 0 else CDeclBytes(ds[0]) + CBytes(ds[1..])
  }

  lemma {:induction false} CBytesAppend(a: seq<Decl>, b: seq<Decl>)
    ensures CBytes(a + b) == CBytes(a) + CBytes(b)
    decreases |a|
  {
    if |a| > 0 {
      assert (a + b)[1..] == a[1..] + b;
      CBytesAppend(a[1..], b);
    } else {
      assert a + b == b;
    }
  }

  lemma {:induction false} CBytesOfPads(first: nat, count: nat)
    ensures CBytes(PadDecls(first, count)) == 4 * count
    decreases count
  {
    if count > 0 {
      assert PadDecls(first, count)[1..] == PadDecls(first + 1, count - 1);
      CBytesOfPads(first + 1, count - 1);
    }
  }

  /** What MemberLayout states, for one member. */
  predicate LaidOut(m: Member, breakComplex: bool)
    requires MemberError(m).None? && MemberPadding(m, breakComplex).Ok?
  {
    var p := MemberPadding(m, breakComplex).value;
    p.std430Bytes % 4 == 0 &&
    p.std430Bytes == CDeclBytes(MemberDecl(CHeader, m, breakComplex)) + 4 * p.padWords
  }

  /** The C declaration of a member occupies exactly its natural size, so its line plus its pads
      occupy its std430 size, a whole number of words. */
  lemma MemberLayout(m: Member, breakComplex: bool)
    requires MemberError(m).None? && MemberPadding(m, breakComplex).Ok?
    ensures var p := MemberPadding(m, breakComplex).value;
      p.std430Bytes % 4 == 0 &&
      p.std430Bytes == CDeclBytes(MemberDecl(CHeader, m, breakComplex)) + 4 * p.padWords
  {
    if m.count > 1 && breakComplex {
      BrokenLayout(m);
    } else if m.dim == 1 {
      ScalarLayout(m, breakComplex);
    } else if m.count == 1 {
      SingleLayout(m, breakComplex);
    } else {
      ArrayLayout(m);
    }
  }

  /** A flattened array: one scalar array of align4(count * dim) words, no pads. */
  lemma BrokenLayout(m: Member)
    requires MemberError(m).None? && MemberPadding(m, true).Ok? && m.count > 1
    ensures LaidOut(m, true)
  {
    var p := MemberPadding(m, true).value;
    var ext := MemberDecl(CHeader, m, true).extents;
    var n := Align4(m.count * m.dim);
    assert ext == [n as nat];
    assert Product(ext) == n by {
      assert ext[1..] == [];
    }
    assert p == Padding(4 * n, 0);
  }

  /** A scalar or scalar array: four bytes per element, no pads. */
  lemma ScalarLayout(m: Member, breakComplex: bool)
    requires MemberError(m).None? && MemberPadding(m, breakComplex).Ok?
    requires m.dim == 1 && !(m.count > 1 && breakComplex)
    ensures LaidOut(m, breakComplex)
  {
    var p := MemberPadding(m, breakComplex).value;
    var ext := MemberDecl(CHeader, m, breakComplex).extents;
    assert p == Padding(4 * m.count, 0);
    if m.count == 1 {
      assert ext == [];
    } else {
      assert ext == [1, m.count as nat];
      ProductOfTwo(ext);
    }
  }

  /** A single vector or matrix: its components, then the pads std430 adds. */
  lemma SingleLayout(m: Member, breakComplex: bool)
    requires MemberError(m).None? && MemberPadding(m, breakComplex).Ok?
    requires m.dim != 1 && m.count == 1
    ensures LaidOut(m, breakComplex)
  {
    var ext := MemberDecl(CHeader, m, breakComplex).extents;
    SizeTablesAgree(m.baseType, m.dim);
    assert ext == [Components(m.dim)];
    assert Product(ext) == Components(m.dim) by {
      assert ext[1..] == [];
    }
  }

  /** An array of vectors kept whole: dim * count words, no pads. */
  lemma ArrayLayout(m: Member)
    requires MemberError(m).None? && MemberPadding(m, false).Ok?
    requires m.dim != 1 && m.count > 1
    ensures LaidOut(m, false)
  {
    var p := MemberPadding(m, false).value;
    var ext := MemberDecl(CHeader, m, false).extents;
    SizeTablesAgree(m.baseType, m.dim);
    assert 2 <= m.dim <= 4;
    assert ext == [m.dim, m.count as nat];
    ProductOfTwo(ext);
    assert ActualComplexSize(m.baseType, m.dim).value * m.count == 4 * m.dim * m.count;
    assert p == Padding(4 * m.dim * m.count, 0);
  }

  lemma ProductOfTwo(ext: seq<nat>)
    requires |ext| == 2
    ensures Product(ext) == ext[0] * ext[1]
  {
    assert ext[1..][1..] == [];
    assert Product(ext[1..]) == ext[1];
  }

  lemma {:induction false} CBodyBytes(members: seq<Member>, breakComplex: bool, firstPad: nat)
    requires Paddings(members, true, breakComplex).Ok?
    ensures var ps := Paddings(members, true, breakComplex).value;
      CBytes(BodyDecls(CHeader, members, breakComplex, ps, firstPad)) == TotalStd430Bytes(ps)
    decreases |members|
  {
    if |members| > 0 {
      var ps := Paddings(members, true, breakComplex).value;
      var d := MemberDecl(CHeader, members[0], breakComplex);
      var pads := PadDecls(firstPad, ps[0].padWords);
      var next := firstPad + ps[0].padWords;
      assert ps[1..] == Paddings(members[1..], true, breakComplex).value;
      CBodyBytes(members[1..], breakComplex, next);
      MemberLayout(members[0], breakComplex);
      CBytesOfPads(firstPad, ps[0].padWords);
      CBytesAppend([d] + pads, BodyDecls(CHeader, members[1..], breakComplex, ps[1..], next));
      CBytesAppend([d], pads);
      assert CBytes([d]) == CDeclBytes(d) by {
        assert [d][1..] == [];
      }
    }
  }

  /** Layout agreement: a 16-byte-aligned struct's C declaration occupies the std430 size the
      generator accounts for, rounded up to the next multiple of 16 and no further. */
  lemma CLayoutMatchesStd430(e: StructEntry)
    requires e.align16
    requires StructDecls(CHeader, e).Ok?
    ensures var total := CBytes(StructDecls(CHeader, e).value);
      var size := TotalStd430Bytes(Paddings(e.members, true, e.breakComplex).value);
      total % 16 == 0 && size <= total < size + 16
  {
    var ps := Paddings(e.members, true, e.breakComplex).value;
    CBodyBytes(e.members, e.breakComplex, 0);
    var tail := TailPadWords(e.name, TotalStd430Bytes(ps)).value;
    CBytesAppend(BodyDecls(CHeader, e.members, e.breakComplex, ps, 0), PadDecls(TotalPadWords(ps), tail));
    CBytesOfPads(TotalPadWords(ps), tail);
  }

  // ---------------------------------------------------------------- std430 placement

  /** The base alignments std430 gives the types used here (1 only for an empty run). */
  type Alignment = k: nat | k == 1 || k == 4 || k == 8 || k == 16 witness 4

  /** Base alignment and size of a GLSL type, in bytes. */
  datatype Slot = Slot(align: Alignment, size: nat)

  /** The least multiple of k that is not below a. */
  function AlignUp(a: int, k: Alignment): (r: int)
    ensures a <= r < a + k
  {
    if k == 1 then a
    else if k == 4 then ((a + 3) / 4) * 4
    else if k == 8 then ((a + 7) / 8) * 8
    else ((a + 15) / 16) * 16
  }

  /** A multiple of 16 is a multiple of every alignment. */
  lemma AlignUpOfSixteen(a: int, k: Alignment)
    requires a % 16 == 0
    ensures AlignUp(a, k) == a
  {
    var q := a / 16;
    assert a == 16 * q;
    if k == 4 {
      assert (a + 3) / 4 == 4 * q;
    } else if k == 8 {
      assert (a + 7) / 8 == 2 * q;
    } else if k == 16 {
      assert (a + 15) / 16 == q;
    }
  }

  /** AlignUp meets the alignment; above 1 byte, that makes a whole number of words. */
  lemma AlignUpAligned(a: int, k: Alignment)
    ensures AlignedTo(AlignUp(a, k), k)
    ensures k > 1 ==> AlignUp(a, k) % 4 == 0
  {
    if k == 4 {
      MultipleOf(4, (a + 3) / 4);
    } else if k == 8 {
      MultipleOf(8, (a + 7) / 8);
      MultipleOf(4, 2 * ((a + 7) / 8));
    } else if k == 16 {
      MultipleOf(16, (a + 15) / 16);
      MultipleOf(4, 4 * ((a + 15) / 16));
    }
  }

  lemma MultipleOf(k: int, q: int)
    requires k == 4 || k == 8 || k == 16
    ensures (q * k) % k == 0 && (k * q) % k == 0
  {
  }

  /** a is a multiple of k. */
  predicate AlignedTo(a: int, k: Alignment) {
    if k == 1 then true else if k == 4 then a % 4 == 0 else if k == 8 then a % 8 == 0 else a % 16 == 0
  }

  /** An offset that meets an alignment is where AlignUp leaves it. */
  lemma AlignedStays(a: int, k: Alignment)
    requires AlignedTo(a, k)
    ensures AlignUp(a, k) == a
  {
  }

  function Max(a: Alignment, b: Alignment): Alignment {
    if a < b then b else a
  }

  /** A vector of n 4-byte components under std430: a 2-vector is aligned to 8 bytes, a 3- or
      4-vector to 16; its size is that of its components. */
  function VectorSlot(n: nat): Slot {
    Slot(if n == 2 then 8 else 16, 4 * n)
  }

  /** The std430 slot of a GLSL type, from the layout rules of section 7.6.2.2 of the OpenGL 4.6
      specification rather than from the generator's size table: a scalar takes 4 bytes, a vector
      as VectorSlot, and a column-major matrix with code CR (GLSL matCxR) is an array of C column
      vectors of R components, each column strided by its alignment. A non-float matrix has no
      GLSL type. */
  function Std430Type(ty: TypeRef): Option<Slot> {
    match ty
    case Scalar(_) => Some(Slot(4, 4))
    case Complex(b, dim) =>
      if 2 <= dim <= 4 then Some(VectorSlot(dim))
      else if b == Float && IsMatrixDim(dim) then
        var column := VectorSlot(dim % 10);
        Some(Slot(column.align, (dim / 10) * column.align))
      else None
  }

  /** The std430 slot of one GLSL declaration. An array (of arrays) has the element's alignment
      and takes one stride per element, the stride being the element size rounded up to its
      alignment; std430, unlike std140, does not round the stride up to 16. A pad is a uint. */
  function Std430Decl(d: Decl): Option<Slot> {
    match d
    case Pad(_) => Some(Slot(4, 4))
    case Field(ty, _, ext) =>
      var s :- Std430Type(ty);
      if |ext| == 0 then Some(s) else Some(Slot(s.align, AlignUp(s.size, s.align) as nat * Product(ext)))
  }

  /** The offsets std430 gives a run of declarations placed from byte `at`, where the run ends,
      and the largest alignment in it (a structure's own alignment). */
  datatype Placement = Placement(offsets: seq<int>, end: int, align: nat)

  /** Each declaration goes to the next multiple of its alignment after the previous one. */
  function Std430Place(ds: seq<Decl>, at: int): Option<Placement>
    decreases |ds|
  {
    if |ds| == 0 then Some(Placement([], at, 1))
    else
      var s :- Std430Decl(ds[0]);
      var offset := AlignUp(at, s.align);
      var rest :- Std430Place(ds[1..], offset + s.size);
      Some(Placement([offset] + rest.offsets, rest.end, Max(s.align, rest.align)))
  }

  /** The std430 size of a structure with these members: its end rounded up to its alignment,
      which is also the stride of an array of such structures. */
  function Std430StructSize(ds: seq<Decl>): Option<int> {
    var p :- Std430Place(ds, 0);
    Some(AlignUp(p.end, p.align))
  }

  /** The C offsets of a run of declarations placed from byte `at`: every C field is a 4-byte
      scalar or an array of them, so fields follow one another without gaps. */
  function COffsets(ds: seq<Decl>, at: int): (r: seq<int>)
    ensures |r| == |ds|
    decreases |ds|
  {
    if |ds| == 0 then [] else [at] + COffsets(ds[1..], at + CDeclBytes(ds[0]))
  }

  /** C declarations cs and GLSL declarations gs, placed from byte `at`, pair up: each GLSL one
      takes under std430 exactly the bytes of its C partner and needs no gap before it. */
  predicate Twins(cs: seq<Decl>, gs: seq<Decl>, at: int)
    decreases |cs|
  {
    |cs| == |gs| &&
    (|cs| > 0 ==>
      Std430Decl(gs[0]).Some? && Std430Decl(gs[0]).value.size == CDeclBytes(cs[0]) &&
      AlignedTo(at, Std430Decl(gs[0]).value.align) &&
      Twins(cs[1..], gs[1..], at + CDeclBytes(cs[0])))
  }

  lemma Std430DeclAlign(d: Decl)
    ensures Std430Decl(d).Some? ==> Std430Decl(d).value.align > 1
  {
  }

  /** Twins are placed by std430 exactly where C places them, and end together. */
  lemma {:induction false} TwinsPlace(cs: seq<Decl>, gs: seq<Decl>, at: int)
    requires Twins(cs, gs, at)
    ensures Std430Place(gs, at).Some?
    ensures Std430Place(gs, at).value.offsets == COffsets(cs, at)
    ensures Std430Place(gs, at).value.end == at + CBytes(cs)
    decreases |cs|
  {
    if |cs| > 0 {
      Std430DeclAlign(gs[0]);
      AlignedStays(at, Std430Decl(gs[0]).value.align);
      TwinsPlace(cs[1..], gs[1..], at + CDeclBytes(cs[0]));
    }
  }

  lemma {:induction false} TwinsAppend(c1: seq<Decl>, g1: seq<Decl>, c2: seq<Decl>, g2: seq<Decl>, at: int)
    requires Twins(c1, g1, at) && Twins(c2, g2, at + CBytes(c1))
    ensures Twins(c1 + c2, g1 + g2, at)
    decreases |c1|
  {
    if |c1| == 0 {
      assert c1 + c2 == c2 && g1 + g2 == g2;
    } else {
      var next := at + CDeclBytes(c1[0]);
      TwinsAppend(c1[1..], g1[1..], c2, g2, next);
      TwinsAppendStep(c1, g1, c2, g2, at, next);
    }
  }

  /** The step of TwinsAppend: the first pair of c1 and g1, then the rest appended. */
  lemma TwinsAppendStep(c1: seq<Decl>, g1: seq<Decl>, c2: seq<Decl>, g2: seq<Decl>, at: int, next: int)
    requires |c1| > 0 && Twins(c1, g1, at) && next == at + CDeclBytes(c1[0])
    requires Twins(c1[1..] + c2, g1[1..] + g2, next)
    ensures Twins(c1 + c2, g1 + g2, at)
  {
    assert (c1 + c2)[0] == c1[0] && (g1 + g2)[0] == g1[0];
    assert (c1 + c2)[1..] == c1[1..] + c2;
    assert (g1 + g2)[1..] == g1[1..] + g2;
  }

  lemma {:induction false} PadsTwins(first: nat, count: nat, at: int)
    requires at % 4 == 0
    ensures Twins(PadDecls(first, count), PadDecls(first, count), at)
    decreases count
  {
    if count > 0 {
      assert PadDecls(first, count)[1..] == PadDecls(first + 1, count - 1);
      PadsTwins(first + 1, count - 1, at + 4);
    }
  }

  /** A member std430 cannot lay out like its C declaration without a gap inside it: an array of
      3-vectors kept whole (std430 strides it by 16 bytes, C by 12) or a float matrix with
      3-component columns (each std430 column takes 16 bytes). */
  predicate InteriorPadding(m: Member, breakComplex: bool) {
    !(m.count > 1 && breakComplex) &&
    ((m.count > 1 && m.dim == 3) || (m.baseType == Float && IsMatrixDim(m.dim) && m.dim % 10 == 3))
  }

  /** The std430 base alignment of a member as the GLSL header declares it: 4 for scalars and
      flattened arrays, 8 for 2-vectors and matrices with 2-component columns, 16 otherwise. */
  function MemberAlignment(m: Member, breakComplex: bool): (r: Alignment)
    ensures r > 1
  {
    if (m.count > 1 && breakComplex) || m.dim == 1 then 4
    else if m.dim == 2 || (IsMatrixDim(m.dim) && m.dim % 10 == 2) then 8
    else 16
  }

  /** A member the size tables know and std430 does not pad inside is declared in GLSL with the
      alignment MemberAlignment gives and exactly the bytes of its C declaration. */
  lemma {:induction false} GlslDeclMatchesC(m: Member, breakComplex: bool)
    requires MemberError(m).None? && MemberPadding(m, breakComplex).Ok? && !InteriorPadding(m, breakComplex)
    ensures Std430Decl(MemberDecl(GlslHeader, m, breakComplex)) ==
      Some(Slot(MemberAlignment(m, breakComplex), CDeclBytes(MemberDecl(CHeader, m, breakComplex))))
  {
    var c := MemberDecl(CHeader, m, breakComplex);
    var g := MemberDecl(GlslHeader, m, breakComplex);
    if m.count > 1 && breakComplex {
      var n := Align4(m.count * m.dim) as nat;
      assert c.extents == [n] && g == Field(Scalar(m.baseType), m.name, [n]);
      assert Product([n]) == n by {
        assert [n][1..] == [];
      }
    } else if m.dim == 1 {
      if m.count > 1 {
        ProductOfTwo(c.extents);
        ProductOfTwo(g.extents);
      }
    } else if m.count == 1 {
      SingleMatchesC(m, breakComplex);
    } else {
      SizeTablesAgree(m.baseType, m.dim);
      assert 2 <= m.dim <= 4 && m.dim != 3;
      var v := VectorSlot(m.dim);
      assert g == Field(Complex(m.baseType, m.dim), m.name, [m.count as nat]);
      assert Product([m.count as nat]) == m.count by {
        assert [m.count as nat][1..] == [];
      }
      ProductOfTwo(c.extents);
    }
  }

  /** GlslDeclMatchesC for a single vector or matrix. */
  lemma {:induction false} SingleMatchesC(m: Member, breakComplex: bool)
    requires MemberError(m).None? && MemberPadding(m, breakComplex).Ok? && !InteriorPadding(m, breakComplex)
    requires m.dim != 1 && m.count == 1
    ensures Std430Decl(MemberDecl(GlslHeader, m, breakComplex)) ==
      Some(Slot(MemberAlignment(m, breakComplex), CDeclBytes(MemberDecl(CHeader, m, breakComplex))))
  {
    var c := MemberDecl(CHeader, m, breakComplex);
    SizeTablesAgree(m.baseType, m.dim);
    assert c.extents == [Components(m.dim)];
    assert Product(c.extents) == Components(m.dim) by {
      assert c.extents[1..] == [];
    }
  }

  /** A member at an offset meeting its alignment, followed by its pad words, pairs up with its
      GLSL declaration and pads, and takes the std430 bytes the generator accounts for. */
  lemma {:induction false} MemberTwins(m: Member, breakComplex: bool, p: Padding, firstPad: nat, at: int)
    requires MemberError(m).None? && MemberPadding(m, breakComplex) == Ok(p) && !InteriorPadding(m, breakComplex)
    requires AlignedTo(at, MemberAlignment(m, breakComplex))
    ensures Twins([MemberDecl(CHeader, m, breakComplex)] + PadDecls(firstPad, p.padWords),
                  [MemberDecl(GlslHeader, m, breakComplex)] + PadDecls(firstPad, p.padWords), at)
    ensures CBytes([MemberDecl(CHeader, m, breakComplex)] + PadDecls(firstPad, p.padWords)) == p.std430Bytes
    ensures p.std430Bytes % 4 == 0
  {
    GlslDeclMatchesC(m, breakComplex);
    MemberLayout(m, breakComplex);
    FieldThenPads(MemberDecl(CHeader, m, breakComplex), MemberDecl(GlslHeader, m, breakComplex),
                  MemberAlignment(m, breakComplex), firstPad, p.padWords, at);
  }

  /** Whole words after an offset aligned to more than a byte end on a word boundary. */
  lemma WordsAfterAligned(at: int, k: Alignment, words: nat)
    requires k > 1 && AlignedTo(at, k)
    ensures (at + 4 * words) % 4 == 0
  {
    var q := if k == 4 then at / 4 else if k == 8 then 2 * (at / 8) else 4 * (at / 16);
    assert at == 4 * q;
    assert at + 4 * words == 4 * (q + words);
  }

  /** A field and its GLSL twin at an offset meeting its alignment, then n pad words. */
  lemma {:induction false} FieldThenPads(c: Decl, g: Decl, k: Alignment, firstPad: nat, n: nat, at: int)
    requires c.Field? && Std430Decl(g) == Some(Slot(k, CDeclBytes(c))) && k > 1 && AlignedTo(at, k)
    ensures Twins([c] + PadDecls(firstPad, n), [g] + PadDecls(firstPad, n), at)
    ensures CBytes([c] + PadDecls(firstPad, n)) == CDeclBytes(c) + 4 * n
  {
    var pads := PadDecls(firstPad, n);
    WordsAfterAligned(at, k, Product(c.extents));
    PadsTwins(firstPad, n, at + CDeclBytes(c));
    assert Twins([c], [g], at) by {
      assert [c][1..] == [] && [g][1..] == [];
    }
    assert CBytes([c]) == CDeclBytes(c) by {
      assert [c][1..] == [];
    }
    TwinsAppend([c], [g], pads, pads, at);
    CBytesAppend([c], pads);
    CBytesOfPads(firstPad, n);
  }

  // ---------------------------------------------------------------- C and GLSL offsets

  /** The members from the one at byte `at` on, each placed after the std430 bytes `ps` accounts
      for its predecessors: each needs no padding inside it and already meets its std430
      alignment. */
  predicate MembersReady(members: seq<Member>, breakComplex: bool, ps: seq<Padding>, at: int)
    decreases |members|
  {
    |ps| == |members| &&
    (|members| == 0 ||
     (!InteriorPadding(members[0], breakComplex) && AlignedTo(at, MemberAlignment(members[0], breakComplex)) &&
      MembersReady(members[1..], breakComplex, ps[1..], at + ps[0].std430Bytes)))
  }

  /** The paddings of the first member and of the rest. */
  lemma PaddingsHead(members: seq<Member>, breakComplex: bool, ps: seq<Padding>)
    requires |members| > 0 && Paddings(members, true, breakComplex) == Ok(ps)
    ensures MemberError(members[0]).None? && MemberPadding(members[0], breakComplex) == Ok(ps[0])
    ensures Paddings(members[1..], true, breakComplex) == Ok(ps[1..])
  {
  }

  /** BodyDecls of a nonempty member list: the first member, its pads, then the rest. */
  lemma BodyDeclsHead(t: Target, members: seq<Member>, breakComplex: bool, ps: seq<Padding>, firstPad: nat, pad: nat)
    requires |members| > 0 && |ps| == |members| && forall i :: 0 <= i < |members| ==> MemberError(members[i]).None?
    requires pad == firstPad + ps[0].padWords
    ensures BodyDecls(t, members, breakComplex, ps, firstPad) ==
      [MemberDecl(t, members[0], breakComplex)] + PadDecls(firstPad, ps[0].padWords)
      + BodyDecls(t, members[1..], breakComplex, ps[1..], pad)
  {
  }

  /** One step of ReadyBodyTwins: the first member and its pads, then the twinned rest. */
  lemma ReadyStep(members: seq<Member>, breakComplex: bool, ps: seq<Padding>, firstPad: nat, at: int, pad: nat, next: int)
    requires |members| > 0 && |ps| == |members| && forall i :: 0 <= i < |members| ==> MemberError(members[i]).None?
    requires MemberPadding(members[0], breakComplex) == Ok(ps[0])
    requires !InteriorPadding(members[0], breakComplex) && AlignedTo(at, MemberAlignment(members[0], breakComplex))
    requires pad == firstPad + ps[0].padWords && next == at + ps[0].std430Bytes
    requires Twins(BodyDecls(CHeader, members[1..], breakComplex, ps[1..], pad), BodyDecls(GlslHeader, members[1..], breakComplex, ps[1..], pad), next)
    ensures Twins(BodyDecls(CHeader, members, breakComplex, ps, firstPad), BodyDecls(GlslHeader, members, breakComplex, ps, firstPad), at)
  {
    MemberThenTwins(members[0], breakComplex, ps[0], firstPad, at,
                    BodyDecls(CHeader, members[1..], breakComplex, ps[1..], pad),
                    BodyDecls(GlslHeader, members[1..], breakComplex, ps[1..], pad));
    BodyDeclsHead(CHeader, members, breakComplex, ps, firstPad, pad);
    BodyDeclsHead(GlslHeader, members, breakComplex, ps, firstPad, pad);
  }

  /** MemberTwins followed by twins that start where the member's std430 bytes end. */
  lemma MemberThenTwins(m: Member, breakComplex: bool, p: Padding, firstPad: nat, at: int, rc: seq<Decl>, rg: seq<Decl>)
    requires MemberError(m).None? && MemberPadding(m, breakComplex) == Ok(p) && !InteriorPadding(m, breakComplex)
    requires AlignedTo(at, MemberAlignment(m, breakComplex))
    requires Twins(rc, rg, at + p.std430Bytes)
    ensures Twins([MemberDecl(CHeader, m, breakComplex)] + PadDecls(firstPad, p.padWords) + rc,
                  [MemberDecl(GlslHeader, m, breakComplex)] + PadDecls(firstPad, p.padWords) + rg, at)
    ensures CBytes([MemberDecl(CHeader, m, breakComplex)] + PadDecls(firstPad, p.padWords) + rc) == p.std430Bytes + CBytes(rc)
  {
    var pads := PadDecls(firstPad, p.padWords);
    MemberTwins(m, breakComplex, p, firstPad, at);
    CBytesAppend([MemberDecl(CHeader, m, breakComplex)] + pads, rc);
    TwinsAppend([MemberDecl(CHeader, m, breakComplex)] + pads, [MemberDecl(GlslHeader, m, breakComplex)] + pads, rc, rg, at);
  }

  lemma {:induction false} ReadyBodyTwins(members: seq<Member>, breakComplex: bool, ps: seq<Padding>, firstPad: nat, at: int)
    requires Paddings(members, true, breakComplex) == Ok(ps) && MembersReady(members, breakComplex, ps, at)
    ensures Twins(BodyDecls(CHeader, members, breakComplex, ps, firstPad), BodyDecls(GlslHeader, members, breakComplex, ps, firstPad), at)
    decreases |members|
  {
    if |members| > 0 {
      PaddingsHead(members, breakComplex, ps);
      var next := at + ps[0].std430Bytes;
      var pad := firstPad + ps[0].padWords;
      ReadyBodyTwins(members[1..], breakComplex, ps[1..], pad, next);
      ReadyStep(members, breakComplex, ps, firstPad, at, pad, next);
    }
  }

  /** Twins that end on a multiple of 16 make a std430 structure of their C size. */
  lemma {:induction false} TwinsStruct(cs: seq<Decl>, gs: seq<Decl>)
    requires Twins(cs, gs, 0) && CBytes(cs) % 16 == 0
    ensures Std430Place(gs, 0).Some? && Std430Place(gs, 0).value.offsets == COffsets(cs, 0)
    ensures Std430StructSize(gs) == Some(CBytes(cs))
  {
    TwinsPlace(cs, gs, 0);
    AlignUpOfSixteen(CBytes(cs), Std430Place(gs, 0).value.align);
  }

  /** Layout agreement where the generator's offsets are already std430's: when every member of a
      16-byte-aligned struct needs no inner padding and sits at its alignment, the GLSL header's
      fields and pads land at the C offsets and the std430 structure has the C size. */
  lemma {:induction false} ReadyLayoutsAgree(e: StructEntry)
    requires e.align16 && StructDecls(CHeader, e).Ok? && Paddings(e.members, true, e.breakComplex).Ok?
    requires MembersReady(e.members, e.breakComplex, Paddings(e.members, true, e.breakComplex).value, 0)
    ensures StructDecls(GlslHeader, e).Ok?
    ensures var c := StructDecls(CHeader, e).value; var g := StructDecls(GlslHeader, e).value;
      Std430Place(g, 0).Some? && Std430Place(g, 0).value.offsets == COffsets(c, 0) &&
      Std430StructSize(g) == Some(CBytes(c))
  {
    TargetsAgree(e);
    var ps, tail := StructShape(CHeader, e);
    var _, _ := StructShape(GlslHeader, e);
    ReadyBodyTwins(e.members, e.breakComplex, ps, 0, 0);
    CBodyBytes(e.members, e.breakComplex, 0);
    Std430BytesAreWords(e.members, true, e.breakComplex);
    TwinsWithTail(BodyDecls(CHeader, e.members, e.breakComplex, ps, 0), BodyDecls(GlslHeader, e.members, e.breakComplex, ps, 0),
                  TotalPadWords(ps), e.name, tail);
  }

  // ---------------------------------------------------------------- aligned generator

  /** Where the aligned member loop puts a member: pad words before it, up to its std430
      alignment, and the generator's padding after it. */
  datatype Slotted = Slotted(lead: nat, padding: Padding)

  /** The member loop of a 16-byte-aligned struct as layout agreement needs it, before any text.
      The first member that fails the generator's checks stops it with that error, and so does a
      member std430 pads inside. The plan does not depend on the header. */
  function AlignedPlan(members: seq<Member>, breakComplex: bool, at: int): (r: Result<seq<Slotted>, LayoutError>)
    ensures r.Ok? ==> |r.value| == |members| && forall i :: 0 <= i < |members| ==> MemberError(members[i]).None?
    decreases |members|
  {
    if |members| == 0 then Ok([])
    else
      var m := members[0];
      if MemberError(m).Some? then Err(MemberError(m).value)
      else
        var p :- MemberPadding(m, breakComplex);
        if InteriorPadding(m, breakComplex) then Err(NoStd430Twin(m.name))
        else
          var start := AlignUp(at, MemberAlignment(m, breakComplex));
          var rest :- AlignedPlan(members[1..], breakComplex, start + p.std430Bytes);
          Ok([Slotted((start - at) / 4, p)] + rest)
  }

  /** Bytes a plan takes: each member's lead pad words and its std430 bytes. */
  function PlanBytes(plan: seq<Slotted>): int {
    if |plan| == 0 then 0 else 4 * plan[0].lead + plan[0].padding.std430Bytes + PlanBytes(plan[1..])
  }

  /** Pad words a plan emits. */
  function PlanPadWords(plan: seq<Slotted>): nat {
    if |plan| == 0 then 0 else plan[0].lead + plan[0].padding.padWords + PlanPadWords(plan[1..])
  }

  /** One planned member in one header: its lead pads, its declaration, its pads. */
  function Chunk(t: Target, m: Member, breakComplex: bool, s: Slotted, firstPad: nat): seq<Decl>
    requires MemberError(m).None?
  {
    PadDecls(firstPad, s.lead) + ([MemberDecl(t, m, breakComplex)] + PadDecls(firstPad + s.lead, s.padding.padWords))
  }

  /** The declarations of a planned member loop in one header. */
  function AlignedDecls(t: Target, members: seq<Member>, breakComplex: bool, plan: seq<Slotted>, firstPad: nat): seq<Decl>
    requires |plan| == |members| && forall i :: 0 <= i < |members| ==> MemberError(members[i]).None?
    decreases |members|
  {
    if |members| == 0 then []
    else
      Chunk(t, members[0], breakComplex, plan[0], firstPad)
      + AlignedDecls(t, members[1..], breakComplex, plan[1..], firstPad + plan[0].lead + plan[0].padding.padWords)
  }

  /** getStruct with the member loop aligned; a struct without align16 is emitted as before. */
  function AlignedStructDecls(t: Target, e: StructEntry): Result<seq<Decl>, LayoutError> {
    if !e.align16 then StructDecls(t, e) else Aligned16Decls(t, e)
  }

  /** The aligned member loop of a 16-byte-aligned struct, then tail pads up to a multiple of 16. */
  function Aligned16Decls(t: Target, e: StructEntry): Result<seq<Decl>, LayoutError> {
    var plan :- AlignedPlan(e.members, e.breakComplex, 0);
    var tail :- TailPadWords(e.name, PlanBytes(plan));
    Ok(AlignedDecls(t, e.members, e.breakComplex, plan, 0) + PadDecls(PlanPadWords(plan), tail))
  }

  /** Two offsets on word boundaries are whole words apart. */
  lemma WordsBetween(a: int, b: int)
    requires a % 4 == 0 && b % 4 == 0
    ensures b - a == 4 * ((b - a) / 4)
  {
    assert a == 4 * (a / 4) && b == 4 * (b / 4);
    assert b - a == 4 * (b / 4 - a / 4);
  }

  /** The first planned member passes the generator's checks and, after its lead pads, meets its
      std430 alignment; the rest is planned from where its std430 bytes end, a word boundary. */
  lemma PlanHead(members: seq<Member>, breakComplex: bool, plan: seq<Slotted>, at: int)
    requires |members| > 0 && AlignedPlan(members, breakComplex, at) == Ok(plan) && at % 4 == 0
    ensures MemberError(members[0]).None? && MemberPadding(members[0], breakComplex) == Ok(plan[0].padding)
    ensures !InteriorPadding(members[0], breakComplex)
    ensures AlignedTo(at + 4 * plan[0].lead, MemberAlignment(members[0], breakComplex))
    ensures (at + 4 * plan[0].lead + plan[0].padding.std430Bytes) % 4 == 0
    ensures AlignedPlan(members[1..], breakComplex, at + 4 * plan[0].lead + plan[0].padding.std430Bytes) == Ok(plan[1..])
  {
    var m := members[0];
    var k := MemberAlignment(m, breakComplex);
    var p := MemberPadding(m, breakComplex).value;
    var start := AlignUp(at, k);
    assert plan[0] == Slotted((start - at) / 4, p);
    assert AlignedPlan(members[1..], breakComplex, start + p.std430Bytes) == Ok(plan[1..]);
    AlignUpAligned(at, k);
    WordsBetween(at, start);
    MemberLayout(m, breakComplex);
    WordsSum(start, p.std430Bytes);
  }

  lemma WordsSum(a: int, b: int)
    requires a % 4 == 0 && b % 4 == 0
    ensures (a + b) % 4 == 0
  {
    assert a + b == 4 * (a / 4 + b / 4);
  }

  /** Lead pad words on a word boundary, then twins. */
  lemma LeadThenTwins(firstPad: nat, lead: nat, at: int, cs: seq<Decl>, gs: seq<Decl>)
    requires at % 4 == 0 && Twins(cs, gs, at + 4 * lead)
    ensures Twins(PadDecls(firstPad, lead) + cs, PadDecls(firstPad, lead) + gs, at)
    ensures CBytes(PadDecls(firstPad, lead) + cs) == 4 * lead + CBytes(cs)
  {
    PadsTwins(firstPad, lead, at);
    CBytesOfPads(firstPad, lead);
    TwinsAppend(PadDecls(firstPad, lead), PadDecls(firstPad, lead), cs, gs, at);
    CBytesAppend(PadDecls(firstPad, lead), cs);
  }

  /** One step of AlignedDeclsTwins: lead pads, the first member and its pads, then the twinned rest. */
  lemma AlignedStep(members: seq<Member>, breakComplex: bool, plan: seq<Slotted>, firstPad: nat, at: int, pad: nat, next: int)
    requires |members| > 0 && |plan| == |members| && at % 4 == 0
    requires forall i :: 0 <= i < |members| ==> MemberError(members[i]).None?
    requires MemberPadding(members[0], breakComplex) == Ok(plan[0].padding)
    requires !InteriorPadding(members[0], breakComplex)
    requires AlignedTo(at + 4 * plan[0].lead, MemberAlignment(members[0], breakComplex))
    requires pad == firstPad + plan[0].lead + plan[0].padding.padWords
    requires next == at + 4 * plan[0].lead + plan[0].padding.std430Bytes
    requires Twins(AlignedDecls(CHeader, members[1..], breakComplex, plan[1..], pad),
                   AlignedDecls(GlslHeader, members[1..], breakComplex, plan[1..], pad), next)
    requires CBytes(AlignedDecls(CHeader, members[1..], breakComplex, plan[1..], pad)) == PlanBytes(plan[1..])
    ensures Twins(AlignedDecls(CHeader, members, breakComplex, plan, firstPad), AlignedDecls(GlslHeader, members, breakComplex, plan, firstPad), at)
    ensures CBytes(AlignedDecls(CHeader, members, breakComplex, plan, firstPad)) == PlanBytes(plan)
  {
    var rc := AlignedDecls(CHeader, members[1..], breakComplex, plan[1..], pad);
    var rg := AlignedDecls(GlslHeader, members[1..], breakComplex, plan[1..], pad);
    LeadMemberThenTwins(members[0], breakComplex, plan[0], firstPad, at, rc, rg);
  }

  /** Lead pads, a member meeting its alignment after them, its pads, then twins. */
  lemma LeadMemberThenTwins(m: Member, breakComplex: bool, s: Slotted, firstPad: nat, at: int, rc: seq<Decl>, rg: seq<Decl>)
    requires MemberError(m).None? && MemberPadding(m, breakComplex) == Ok(s.padding) && !InteriorPadding(m, breakComplex)
    requires at % 4 == 0 && AlignedTo(at + 4 * s.lead, MemberAlignment(m, breakComplex))
    requires Twins(rc, rg, at + 4 * s.lead + s.padding.std430Bytes)
    ensures Twins(Chunk(CHeader, m, breakComplex, s, firstPad) + rc, Chunk(GlslHeader, m, breakComplex, s, firstPad) + rg, at)
    ensures CBytes(Chunk(CHeader, m, breakComplex, s, firstPad) + rc) == 4 * s.lead + s.padding.std430Bytes + CBytes(rc)
  {
    var leads := PadDecls(firstPad, s.lead);
    var pads := PadDecls(firstPad + s.lead, s.padding.padWords);
    var c := MemberDecl(CHeader, m, breakComplex);
    var g := MemberDecl(GlslHeader, m, breakComplex);
    MemberThenTwins(m, breakComplex, s.padding, firstPad + s.lead, at + 4 * s.lead, rc, rg);
    LeadThenTwins(firstPad, s.lead, at, [c] + pads + rc, [g] + pads + rg);
    ChunkThen(CHeader, m, breakComplex, s, firstPad, rc);
    ChunkThen(GlslHeader, m, breakComplex, s, firstPad, rg);
  }

  lemma ChunkThen(t: Target, m: Member, breakComplex: bool, s: Slotted, firstPad: nat, rest: seq<Decl>)
    requires MemberError(m).None?
    ensures Chunk(t, m, breakComplex, s, firstPad) + rest ==
      PadDecls(firstPad, s.lead) + ([MemberDecl(t, m, breakComplex)] + PadDecls(firstPad + s.lead, s.padding.padWords) + rest)
  {
  }

  /** A planned member loop from a word boundary gives twins, which take the bytes of the plan. */
  lemma {:induction false} AlignedDeclsTwins(members: seq<Member>, breakComplex: bool, plan: seq<Slotted>, firstPad: nat, at: int)
    requires at % 4 == 0 && AlignedPlan(members, breakComplex, at) == Ok(plan)
    ensures Twins(AlignedDecls(CHeader, members, breakComplex, plan, firstPad), AlignedDecls(GlslHeader, members, breakComplex, plan, firstPad), at)
    ensures CBytes(AlignedDecls(CHeader, members, breakComplex, plan, firstPad)) == PlanBytes(plan)
    decreases |members|
  {
    if |members| > 0 {
      PlanHead(members, breakComplex, plan, at);
      var next := at + 4 * plan[0].lead + plan[0].padding.std430Bytes;
      var pad := firstPad + plan[0].lead + plan[0].padding.padWords;
      AlignedDeclsTwins(members[1..], breakComplex, plan[1..], pad, next);
      AlignedStep(members, breakComplex, plan, firstPad, at, pad, next);
    }
  }

  /** Twins from byte 0, followed by tail pad words that bring them to a multiple of 16 bytes,
      make a std430 structure laid out exactly as in C. */
  lemma TwinsWithTail(cs: seq<Decl>, gs: seq<Decl>, firstPad: nat, name: string, tail: nat)
    requires Twins(cs, gs, 0) && TailPadWords(name, CBytes(cs)) == Ok(tail)
    ensures Std430Place(gs + PadDecls(firstPad, tail), 0).Some?
    ensures Std430Place(gs + PadDecls(firstPad, tail), 0).value.offsets == COffsets(cs + PadDecls(firstPad, tail), 0)
    ensures Std430StructSize(gs + PadDecls(firstPad, tail)) == Some(CBytes(cs + PadDecls(firstPad, tail)))
    ensures CBytes(cs + PadDecls(firstPad, tail)) % 16 == 0
  {
    TwinsThenPads(cs, gs, firstPad, tail);
    TwinsStruct(cs + PadDecls(firstPad, tail), gs + PadDecls(firstPad, tail));
  }

  /** Twins from byte 0 that end on a word boundary, then pad words. */
  lemma TwinsThenPads(cs: seq<Decl>, gs: seq<Decl>, firstPad: nat, count: nat)
    requires Twins(cs, gs, 0) && CBytes(cs) % 4 == 0
    ensures Twins(cs + PadDecls(firstPad, count), gs + PadDecls(firstPad, count), 0)
    ensures CBytes(cs + PadDecls(firstPad, count)) == CBytes(cs) + 4 * count
  {
    var pads := PadDecls(firstPad, count);
    PadsTwins(firstPad, count, CBytes(cs));
    TwinsAppend(cs, gs, pads, pads, 0);
    CBytesAppend(cs, pads);
    CBytesOfPads(firstPad, count);
  }

  /** Aligned16Decls lays out a struct alike in both headers. */
  lemma Aligned16LayoutsAgree(e: StructEntry)
    ensures Aligned16Decls(CHeader, e).Ok? <==> Aligned16Decls(GlslHeader, e).Ok?
    ensures Aligned16Decls(CHeader, e).Ok? ==>
      var c := Aligned16Decls(CHeader, e).value; var g := Aligned16Decls(GlslHeader, e).value;
      Std430Place(g, 0).Some? && Std430Place(g, 0).value.offsets == COffsets(c, 0) &&
      Std430StructSize(g) == Some(CBytes(c)) && CBytes(c) % 16 == 0
  {
    var plan := AlignedPlan(e.members, e.breakComplex, 0);
    if plan.Ok? {
      var size := PlanBytes(plan.value);
      var tail := TailPadWords(e.name, size);
      if tail.Ok? {
        var cs := AlignedDecls(CHeader, e.members, e.breakComplex, plan.value, 0);
        var gs := AlignedDecls(GlslHeader, e.members, e.breakComplex, plan.value, 0);
        AlignedDeclsTwins(e.members, e.breakComplex, plan.value, 0, 0);
        TwinsWithTail(cs, gs, PlanPadWords(plan.value), e.name, tail.value);
      }
    }
  }

  /** Layout agreement for the aligned generator: the C and GLSL declarations of a 16-byte-aligned
      struct are emitted together or refused together, and when emitted every GLSL field and pad
      lands at its C offset and the std430 structure has the C size, a multiple of 16. */
  lemma AlignedLayoutsAgree(e: StructEntry)
    requires e.align16
    ensures AlignedStructDecls(CHeader, e).Ok? <==> AlignedStructDecls(GlslHeader, e).Ok?
    ensures AlignedStructDecls(CHeader, e).Ok? ==>
      var c := AlignedStructDecls(CHeader, e).value; var g := AlignedStructDecls(GlslHeader, e).value;
      Std430Place(g, 0).Some? && Std430Place(g, 0).value.offsets == COffsets(c, 0) &&
      Std430StructSize(g) == Some(CBytes(c)) && CBytes(c) % 16 == 0
  {
    Aligned16LayoutsAgree(e);
  }

  /** A 16-byte-aligned struct { float a; vec3 b; }. */
  const FloatThenVec3 := StructEntry("S", [Member(Float, 1, "a", 1), Member(Float, 3, "b", 1)], false, true, false)

  const FieldA := Field(Scalar(Float), "a", [])
  const FieldB := Field(Scalar(Float), "b", [3])
  const Vec3B := Field(Complex(Float, 3), "b", [])

  /** The generator as written places b at byte 4 in C, where std430 places it at byte 16, and
      the C struct takes 32 bytes where the std430 structure takes 48. */
  lemma AsWrittenVec3Misplaced()
    ensures StructDecls(CHeader, FloatThenVec3).Ok? && StructDecls(GlslHeader, FloatThenVec3).Ok?
    ensures var c := StructDecls(CHeader, FloatThenVec3).value; var g := StructDecls(GlslHeader, FloatThenVec3).value;
      |c| > 1 && COffsets(c, 0)[1] == 4 && CBytes(c) == 32 &&
      Std430Place(g, 0).Some? && |Std430Place(g, 0).value.offsets| > 1 && Std430Place(g, 0).value.offsets[1] == 16 &&
      Std430StructSize(g) == Some(48)
  {
    AsWrittenDecls();
    AsWrittenCBytes();
    AsWrittenStd430();
  }

  /** The paddings the generator as written computes for FloatThenVec3. */
  lemma AsWrittenPaddings()
    ensures Paddings(FloatThenVec3.members, true, false) == Ok([Padding(4, 0), Padding(16, 1)])
  {
    var b := FloatThenVec3.members[1];
    assert MemberPadding(FloatThenVec3.members[0], false) == Ok(Padding(4, 0));
    assert MemberPadding(b, false) == Ok(Padding(16, 1));
    assert [b][1..] == [] && FloatThenVec3.members[1..] == [b];
    assert Paddings([], true, false) == Ok([]);
    assert [Padding(16, 1)] + [] == [Padding(16, 1)];
    assert Paddings([b], true, false) == Ok([Padding(16, 1)]);
    assert [Padding(4, 0)] + [Padding(16, 1)] == [Padding(4, 0), Padding(16, 1)];
  }

  /** The declarations the generator as written emits for FloatThenVec3 in each header. */
  lemma AsWrittenDecls()
    ensures StructDecls(CHeader, FloatThenVec3) == Ok([FieldA, FieldB, Pad(0), Pad(1), Pad(2), Pad(3)])
    ensures StructDecls(GlslHeader, FloatThenVec3) == Ok([FieldA, Vec3B, Pad(0), Pad(1), Pad(2), Pad(3)])
  {
    AsWrittenPaddings();
    var a, b := FloatThenVec3.members[0], FloatThenVec3.members[1];
    var ps := [Padding(4, 0), Padding(16, 1)];
    assert TotalStd430Bytes(ps) == 20 && TotalPadWords(ps) == 1;
    assert TailPadWords("S", 20) == Ok(3);
    assert PadDecls(0, 1) == [Pad(0)] && PadDecls(0, 0) == [] && PadDecls(1, 3) == [Pad(1), Pad(2), Pad(3)];
    assert ps[1..] == [Padding(16, 1)] && FloatThenVec3.members[1..] == [b];
    assert [b][1..] == [] && [Padding(16, 1)][1..] == [];
    BodyOfFloatThenVec3(CHeader, FieldB);
    BodyOfFloatThenVec3(GlslHeader, Vec3B);
    assert [FieldA, FieldB, Pad(0)] + [Pad(1), Pad(2), Pad(3)] == [FieldA, FieldB, Pad(0), Pad(1), Pad(2), Pad(3)];
    assert [FieldA, Vec3B, Pad(0)] + [Pad(1), Pad(2), Pad(3)] == [FieldA, Vec3B, Pad(0), Pad(1), Pad(2), Pad(3)];
  }

  lemma BodyOfFloatThenVec3(t: Target, db: Decl)
    requires db == MemberDecl(t, FloatThenVec3.members[1], false)
    ensures BodyDecls(t, FloatThenVec3.members, false, [Padding(4, 0), Padding(16, 1)], 0) == [FieldA, db, Pad(0)]
  {
    var b := FloatThenVec3.members[1];
    assert MemberDecl(t, FloatThenVec3.members[0], false) == FieldA;
    assert PadDecls(0, 1) == [Pad(0)] && PadDecls(0, 0) == [];
    assert [b][1..] == [] && [Padding(16, 1)][1..] == [] && FloatThenVec3.members[1..] == [b];
    assert BodyDecls(t, [b], false, [Padding(16, 1)], 0) == [db] + [Pad(0)] + [];
    assert [FieldA] + [] + [db, Pad(0)] == [FieldA, db, Pad(0)];
  }

  lemma AsWrittenCBytes()
    ensures var c := [FieldA, FieldB, Pad(0), Pad(1), Pad(2), Pad(3)];
      COffsets(c, 0)[1] == 4 && CBytes(c) == 32
  {
    var c := [FieldA, FieldB, Pad(0), Pad(1), Pad(2), Pad(3)];
    assert CDeclBytes(FieldB) == 12;
    assert CBytes(c[5..]) == 4;
    assert CBytes(c[4..]) == 8;
    assert CBytes(c[3..]) == 12;
    assert CBytes(c[2..]) == 16;
    assert CBytes(c[1..]) == 28;
  }

  lemma AsWrittenStd430()
    ensures var g := [FieldA, Vec3B, Pad(0), Pad(1), Pad(2), Pad(3)];
      Std430Place(g, 0) == Some(Placement([0, 16, 28, 32, 36, 40], 44, 16)) && Std430StructSize(g) == Some(48)
  {
    var g := [FieldA, Vec3B, Pad(0), Pad(1), Pad(2), Pad(3)];
    PadsPlaced(g[2..], 28);
    assert Std430Decl(Vec3B) == Some(Slot(16, 12));
    assert AlignUp(4, 16) == 16 && AlignUp(0, 4) == 0;
    assert g[1..][1..] == g[2..];
    assert [16] + [28, 32, 36, 40] == [16, 28, 32, 36, 40] && [0] + [16, 28, 32, 36, 40] == [0, 16, 28, 32, 36, 40];
    assert Std430Place(g[1..], 4) == Some(Placement([16, 28, 32, 36, 40], 44, 16));
    assert AlignUp(44, 16) == 48;
  }

  /** Four pad words from a word boundary. */
  lemma PadsPlaced(ps: seq<Decl>, at: int)
    requires ps == [Pad(0), Pad(1), Pad(2), Pad(3)] && at % 4 == 0
    ensures Std430Place(ps, at) == Some(Placement([at, at + 4, at + 8, at + 12], at + 16, 4))
  {
    AlignedStays(at, 4);
    AlignedStays(at + 4, 4);
    AlignedStays(at + 8, 4);
    AlignedStays(at + 12, 4);
    assert ps[3..][1..] == ps[4..] && ps[2..][1..] == ps[3..] && ps[1..][1..] == ps[2..] && ps[4..] == [];
    assert [at + 12] + [] == [at + 12] && [at + 8] + [at + 12] == [at + 8, at + 12];
    assert [at + 4] + [at + 8, at + 12] == [at + 4, at + 8, at + 12] && [at] + [at + 4, at + 8, at + 12] == [at, at + 4, at + 8, at + 12];
    assert Std430Place(ps[4..], at + 16) == Some(Placement([], at + 16, 1));
    assert Std430Place(ps[3..], at + 12) == Some(Placement([at + 12], at + 16, 4));
    assert Std430Place(ps[2..], at + 8) == Some(Placement([at + 8, at + 12], at + 16, 4));
    assert Std430Place(ps[1..], at + 4) == Some(Placement([at + 4, at + 8, at + 12], at + 16, 4));
  }

  /** The aligned generator puts three pad words before b, so b sits at byte 16 in C as in
      std430, and the struct takes 32 bytes, as its std430 twin does by AlignedLayoutsAgree. */
  lemma AlignedVec3Placed()
    ensures AlignedStructDecls(CHeader, FloatThenVec3).Ok?
    ensures var c := AlignedStructDecls(CHeader, FloatThenVec3).value;
      |c| > 4 && c[4] == FieldB && COffsets(c, 0)[4] == 16 && CBytes(c) == 32
  {
    AlignedDeclsOfVec3();
    AlignedVec3Bytes();
  }

  lemma AlignedVec3Bytes()
    ensures var c := [FieldA, Pad(0), Pad(1), Pad(2), FieldB, Pad(3)];
      COffsets(c, 0)[4] == 16 && CBytes(c) == 32
  {
    var c := [FieldA, Pad(0), Pad(1), Pad(2), FieldB, Pad(3)];
    assert CDeclBytes(FieldB) == 12;
    assert c[1..][1..] == c[2..] && c[2..][1..] == c[3..] && c[3..][1..] == c[4..] && c[4..][1..] == c[5..];
    assert CBytes(c[5..]) == 4;
    assert c[4..][0] == FieldB && c[4] == FieldB;
    assert CBytes(c[4..]) == 16;
    assert CBytes(c[3..]) == 20;
    assert CBytes(c[2..]) == 24;
    assert CBytes(c[1..]) == 28;
    assert COffsets(c[4..], 16)[0] == 16;
    assert COffsets(c[3..], 12)[1] == 16;
    assert COffsets(c[2..], 8)[2] == 16;
    assert COffsets(c[1..], 4)[3] == 16;
  }

  lemma AlignedPlanOfVec3()
    ensures AlignedPlan(FloatThenVec3.members, false, 0) == Ok([Slotted(0, Padding(4, 0)), Slotted(3, Padding(16, 1))])
  {
    var a, b := FloatThenVec3.members[0], FloatThenVec3.members[1];
    assert MemberPadding(a, false) == Ok(Padding(4, 0));
    assert MemberPadding(b, false) == Ok(Padding(16, 1));
    assert MemberError(b).None? && !InteriorPadding(b, false) && MemberAlignment(b, false) == 16;
    assert AlignUp(4, 16) == 16;
    assert AlignedPlan([], false, 32) == Ok([]);
    assert [b][1..] == [] && FloatThenVec3.members[1..] == [b];
    assert [Slotted(3, Padding(16, 1))] + [] == [Slotted(3, Padding(16, 1))];
    assert AlignedPlan([b], false, 4) == Ok([Slotted(3, Padding(16, 1))]);
    assert [Slotted(0, Padding(4, 0))] + [Slotted(3, Padding(16, 1))] == [Slotted(0, Padding(4, 0)), Slotted(3, Padding(16, 1))];
  }

  lemma AlignedDeclsOfVec3()
    ensures AlignedStructDecls(CHeader, FloatThenVec3) == Ok([FieldA, Pad(0), Pad(1), Pad(2), FieldB, Pad(3)])
  {
    AlignedPlanOfVec3();
    var a, b := FloatThenVec3.members[0], FloatThenVec3.members[1];
    var plan := [Slotted(0, Padding(4, 0)), Slotted(3, Padding(16, 1))];
    assert PlanBytes(plan) == 32 && PlanPadWords(plan) == 4;
    assert TailPadWords("S", 32) == Ok(0);
    assert MemberDecl(CHeader, a, false) == FieldA && MemberDecl(CHeader, b, false) == FieldB;
    assert PadDecls(0, 3) == [Pad(0), Pad(1), Pad(2)] && PadDecls(3, 1) == [Pad(3)] && PadDecls(0, 0) == [] && PadDecls(4, 0) == [];
    assert Chunk(CHeader, b, false, plan[1], 0) == [Pad(0), Pad(1), Pad(2), FieldB, Pad(3)];
    assert Chunk(CHeader, a, false, plan[0], 0) == [FieldA];
    assert [b][1..] == [] && plan[1..][1..] == [] && FloatThenVec3.members[1..] == [b];
    assert AlignedDecls(CHeader, [b], false, plan[1..], 0) == [Pad(0), Pad(1), Pad(2), FieldB, Pad(3)] + [];
    assert AlignedDecls(CHeader, FloatThenVec3.members, false, plan, 0) == [FieldA] + [Pad(0), Pad(1), Pad(2), FieldB, Pad(3)];
    assert [FieldA] + [Pad(0), Pad(1), Pad(2), FieldB, Pad(3)] + [] == [FieldA, Pad(0), Pad(1), Pad(2), FieldB, Pad(3)];
  }

  // ---------------------------------------------------------------- text

  const Tab := "    "

  function Extents(ext: seq<nat>): string {
    if |ext| == 0 then "" else "[" + Text.NatToString(ext[0]) + "]" + Extents(ext[1..])
  }

  function RenderDecl(t: Target, d: Decl): string {
    match d
    case Field(ty, n, ext) => Tab + TypeName(t, ty) + " " + n + Extents(ext) + ";\n"
    case Pad(i) => Tab + ScalarName(t, UInt32) + " __pad" + Text.NatToString(i) + ";\n"
  }

  function StructText(t: Target, e: StructEntry): Result<string, LayoutError> {
    var ds :- StructDecls(t, e);
    Ok("struct " + e.name + "\n{\n" + Text.Concat(seq(|ds|, i requires 0 <= i < |ds| => RenderDecl(t, ds[i]))) + "};\n")
  }

  /** The structs a header receives: the C header leaves out the GLSL-only ones. */
  function Included(t: Target, entries: seq<StructEntry>): (r: seq<StructEntry>)
    ensures forall e :: e in r <==> e in entries && !(e.onlyForGlsl && t == CHeader)
  {
    if |entries| == 0 then []
    else (if entries[0].onlyForGlsl && t == CHeader then [] else [entries[0]]) + Included(t, entries[1..])
  }

  function JoinNewline(ss: seq<string>): string {
    if |ss| == 0 then "" else if |ss| == 1 then ss[0] else ss[0] + "\n" + JoinNewline(ss[1..])
  }

  function StructTexts(t: Target, entries: seq<StructEntry>): Result<seq<string>, LayoutError> {
    if |entries| == 0 then Ok([])
    else
      var first :- StructText(t, entries[0]);
      var rest :- StructTexts(t, entries[1..]);
      Ok([first] + rest)
  }

  /** getAllStructDefs: every included struct, separated by blank lines; the first error stops it. */
  function AllStructDefs(t: Target, entries: seq<StructEntry>): Result<string, LayoutError> {
    var texts :- StructTexts(t, Included(t, entries));
    Ok(JoinNewline(texts) + "\n")
  }

  datatype ConstValue = Number(n: int) | Expression(text: string)
  datatype ConstEntry = ConstEntry(name: string, value: ConstValue)

  function ConstLine(c: ConstEntry): string {
    var v := match c.value case Number(n) => Text.IntToString(n) case Expression(s) => s;
    "#define " + c.name + " (" + v + ")"
  }

  /** getAllConstDefs: one #define per constant, in table order. */
  function AllConstDefs(cs: seq<ConstEntry>): string {
    JoinNewline(seq(|cs|, i requires 0 <= i < |cs| => ConstLine(cs[i]))) + "\n\n"
  }

  const CPrelude := "#pragma once\n#include <stdint.h>\n\n"

  function WriteToC(cs: seq<ConstEntry>, entries: seq<StructEntry>): Result<string, LayoutError> {
    var structs :- AllStructDefs(CHeader, entries);
    Ok(CPrelude + AllConstDefs(cs) + structs)
  }

  function WriteToGlsl(cs: seq<ConstEntry>, entries: seq<StructEntry>): Result<string, LayoutError> {
    var structs :- AllStructDefs(GlslHeader, entries);
    Ok(AllConstDefs(cs) + structs)
  }

  /** Both headers carry the same #define block: the C header right after its prelude,
      the GLSL header at its very start. */
  lemma HeadersShareConstants(cs: seq<ConstEntry>, entries: seq<StructEntry>)
    ensures WriteToC(cs, entries).Ok? ==>
      WriteToC(cs, entries).value[..|CPrelude| + |AllConstDefs(cs)|] == CPrelude + AllConstDefs(cs)
    ensures WriteToGlsl(cs, entries).Ok? ==>
      WriteToGlsl(cs, entries).value[..|AllConstDefs(cs)|] == AllConstDefs(cs)
  {
  }
}

=== FILE: span_counted.dfy ===
/** The two span wrappers of SpanCounted.h: span_counted, a span with a fill counter that
    saturates at the span's size, and subspan_incremental, which tracks the smallest index range
    [begin, end) covering every index added to it.

    A span is modelled by its elements (span_counted) or by its size (subspan_incremental, which
    never reads its elements). size_t is unbounded here. */
module SpanCounted {
  import opened Wrappers

  // ---------------------------------------------------------------------------------------------
  // span_counted
  // ---------------------------------------------------------------------------------------------

  datatype Counted<T> = Counted(elems: seq<T>, count: nat)
  {
    /** The counter never passes the end of the span. */
    predicate Valid() {
      count <= |elems|
    }

    /** increment: one more element is in use, unless all are (the source asserts there, and
        release builds leave the counter as it was). */
    function Increment(): (r: Counted<T>)
      requires Valid()
      ensures r.Valid() && r.elems == elems
      ensures count < |elems| ==> r.count == count + 1
      ensures count == |elems| ==> r == this
    {
      if count < |elems| then this.(count := count + 1) else this
    }

    /** increment_and_get: the element at the new count - 1; on an empty span that index
        underflows and there is no element. */
    function IncrementAndGet(): (r: Option<(Counted<T>, T)>)
      requires Valid()
      ensures r.None? <==> |elems| == 0
      ensures r.Some? ==> r.value.0 == Increment() && r.value.1 == elems[r.value.0.count - 1]
    {
      var next := Increment();
      if next.count == 0 then None else Some((next, elems[next.count - 1]))
    }

    /** reset_count */
    function ResetCount(): (r: Counted<T>)
      ensures r.Valid() && r.elems == elems && r.count == 0
    {
      this.(count := 0)
    }

    /** get_counted_subspan: the first count elements. */
    function CountedSubspan(): (r: seq<T>)
      requires Valid()
      ensures |r| == count && r <= elems
    {
      elems[..count]
    }

    /** n calls of increment in a row. */
    function IncrementTimes(n: nat): (r: Counted<T>)
      requires Valid()
      ensures r.Valid() && r.elems == elems
      ensures count <= r.count
      decreases n
    {
      if n == 0 then this else Increment().IncrementTimes(n - 1)
    }
  }

  function Min(a: nat, b: nat): nat {
    if a <= b then a else b
  }

  /** n increments saturate the counter at the size of the span. */
  lemma {:induction false} IncrementsSaturate<T>(c: Counted<T>, n: nat)
    requires c.Valid()
    ensures c.IncrementTimes(n).count == Min(c.count + n, |c.elems|)
    decreases n
  {
    if n > 0 {
      IncrementsSaturate(c.Increment(), n - 1);
    }
  }

  /** After a reset and n increments, the counted subspan is the first min(n, size) elements,
      and every further increment leaves a full span as it is. */
  lemma CountedAfterIncrements<T>(c: Counted<T>, n: nat)
    requires c.Valid()
    ensures c.ResetCount().IncrementTimes(n).CountedSubspan() == c.elems[..Min(n, |c.elems|)]
    ensures n >= |c.elems| ==> c.ResetCount().IncrementTimes(n).Increment() == c.ResetCount().IncrementTimes(n)
  {
    IncrementsSaturate(c.ResetCount(), n);
  }

  // ---------------------------------------------------------------------------------------------
  // subspan_incremental
  // ---------------------------------------------------------------------------------------------

  /** index_subspan and byte_subspan share this shape: an offset and a count. */
  datatype IndexSubspan = IndexSubspan(elementsOffset: nat, elementsCount: nat)
  datatype ByteSubspan = ByteSubspan(offsetInBytes: nat, sizeInBytes: nat)

  datatype Incremental = Incremental(size: nat, begin: Option<nat>, end: Option<nat>)
  {
    /** begin and end are set together, and a set range is a non-empty part of the span. */
    predicate Valid() {
      (begin.Some? <==> end.Some?) &&
      (begin.Some? ==> begin.value < end.value <= size)
    }

    /** add_to_subspan: widen the range to include index; an index past the span is ignored
        (the source asserts). */
    function Add(index: nat): (r: Incremental)
      requires Valid()
      ensures r.Valid() && r.size == size
      ensures index < size ==> r.begin.Some? && r.begin.value <= index < r.end.value
      ensures index >= size ==> r == this
      ensures begin.Some? ==> r.begin.Some? && r.begin.value <= begin.value && end.value <= r.end.value
    {
      if index < size then
        if begin.Some? && end.Some? then
          this.(begin := Some(if index < begin.value then index else begin.value),
                end := Some(if end.value < index + 1 then index + 1 else end.value))
        else
          this.(begin := Some(index), end := Some(index + 1))
      else this
    }

    /** reset_subspan */
    function Reset(): (r: Incremental)
      ensures r.Valid() && r.size == size && r.Count() == 0
    {
      this.(begin := None, end := None)
    }

    /** count_in_subspan: end - begin, or 0 when nothing was added. */
    function Count(): (r: nat)
      requires Valid()
      ensures r == 0 <==> begin.None?
      ensures begin.Some? ==> begin.value + r == end.value
    {
      if begin.Some? && end.Some? then end.value - begin.value else 0
    }

    /** resolve_index_subspan: the range shifted by a base offset; empty when nothing was
        added. */
    function ResolveIndex(elementsBaseOffset: nat): (r: IndexSubspan)
      requires Valid()
      ensures r.elementsCount == Count()
      ensures begin.Some? ==> r.elementsOffset == elementsBaseOffset + begin.value
      ensures begin.None? ==> r == IndexSubspan(0, 0)
    {
      if begin.Some? && end.Some? then IndexSubspan(elementsBaseOffset + begin.value, Count())
      else IndexSubspan(0, 0)
    }

    /** resolve_byte_subspan: the index subspan in bytes, for elements of elemSize bytes; the
        base offset is converted to elements with a truncating division (the source asserts it
        is a whole number of elements). */
    function ResolveBytes(baseOffsetInBytes: nat, elemSize: nat): (r: ByteSubspan)
      requires Valid() && elemSize > 0
      ensures r.sizeInBytes == Count() * elemSize
      ensures begin.None? ==> r == ByteSubspan(0, 0)
    {
      var i := ResolveIndex(baseOffsetInBytes / elemSize);
      ByteSubspan(i.elementsOffset * elemSize, i.elementsCount * elemSize)
    }

    /** add_to_subspan for each index in turn. */
    function AddAll(indices: seq<nat>): (r: Incremental)
      requires Valid()
      ensures r.Valid() && r.size == size
      decreases |indices|
    {
      if |indices| == 0 then this else Add(indices[0]).AddAll(indices[1..])
    }
  }

  /** A whole-element base offset makes the byte subspan the index subspan scaled by the element
      size, in both offset and length. */
  lemma BytesAreScaledIndices(s: Incremental, baseOffsetInBytes: nat, elemSize: nat)
    requires s.Valid() && elemSize > 0 && baseOffsetInBytes % elemSize == 0
    ensures var b := s.ResolveBytes(baseOffsetInBytes, elemSize);
      b.sizeInBytes == s.Count() * elemSize &&
      (s.begin.Some? ==> b.offsetInBytes == baseOffsetInBytes + s.begin.value * elemSize) &&
      (s.begin.None? ==> b == ByteSubspan(0, 0))
  {
    var q := baseOffsetInBytes / elemSize;
    assert baseOffsetInBytes == q * elemSize;
    if s.begin.Some? {
      assert (q + s.begin.value) * elemSize == q * elemSize + s.begin.value * elemSize;
    }
  }

  /** The in-range indices of a sequence of indices. */
  function InRange(indices: seq<nat>, size: nat): (r: seq<nat>)
    ensures forall i :: i in r <==> i in indices && i < size
    decreases |indices|
  {
    if |indices| == 0 then []
    else if indices[0] < size then [indices[0]] + InRange(indices[1..], size)
    else InRange(indices[1..], size)
  }

  /** After a reset, adding a sequence of indices yields exactly the smallest range that covers
      the in-range ones: empty when there is none, else [least, greatest + 1), both ends being
      added indices. */
  lemma {:induction false} AddAllIsTightRange(s: Incremental, indices: seq<nat>)
    requires s.Valid()
    ensures var r := s.Reset().AddAll(indices);
      (r.begin.None? <==> |InRange(indices, s.size)| == 0) &&
      (r.begin.Some? ==>
        (forall i :: i in InRange(indices, s.size) ==> r.begin.value <= i < r.end.value) &&
        r.begin.value in InRange(indices, s.size) && r.end.value - 1 in InRange(indices, s.size))
  {
    AddAllFrom(s.Reset(), indices);
  }

  /** The invariant behind AddAllIsTightRange, from any starting range: the result covers the
      start and the in-range indices, and each end comes from one of the two. */
  lemma {:induction false} AddAllFrom(s: Incremental, indices: seq<nat>)
    requires s.Valid()
    ensures var r := s.AddAll(indices);
      (r.begin.None? <==> s.begin.None? && |InRange(indices, s.size)| == 0) &&
      (r.begin.Some? ==>
        (forall i :: i in InRange(indices, s.size) ==> r.begin.value <= i < r.end.value) &&
        (s.begin.Some? ==> r.begin.value <= s.begin.value && s.end.value <= r.end.value) &&
        (r.begin.value in InRange(indices, s.size) || (s.begin.Some? && r.begin.value == s.begin.value)) &&
        (r.end.value - 1 in InRange(indices, s.size) || (s.begin.Some? && r.end.value == s.end.value)))
    decreases |indices|
  {
    if |indices| > 0 {
      var head, tail := indices[0], indices[1..];
      assert indices == [head] + tail;
      var t := s.Add(head);
      AddAllFrom(t, tail);
      var r := t.AddAll(tail);
      assert r == s.AddAll(indices);
      forall i | i in InRange(tail, s.size)
        ensures i in InRange(indices, s.size)
      {
      }
      if head < s.size {
        assert head in InRange(indices, s.size);
      }
    }
  }
}

=== FILE: text.dfy ===
/** Character and string helpers shared by the model: ASCII lower-casing (std::tolower in the
    "C" locale and Python's str.lower agree on ASCII), decimal rendering and parsing of integers
    (Python's str and int, restricted to ASCII digits), whitespace splitting (Python's str.split
    with no argument, over every character str.isspace accepts), the universal-newline translation
    of Python's text-mode reading, and splitting a text file into lines at '\n'. */
module Text {
  import opened Wrappers

  /** The characters Python's str.isspace accepts, which are those str.split() with no argument
      splits at: the ASCII controls \t \n \v \f \r, the separators \x1c-\x1f, the space, NEL,
      the no-break space, and the Unicode space separators, line and paragraph separators. */
  predicate IsSpace(c: char) {
    ('\U{0009}' <= c <= '\U{000D}') || ('\U{001C}' <= c <= '\U{0020}') ||
    c == '\U{0085}' || c == '\U{00A0}' || c == '\U{1680}' || ('\U{2000}' <= c <= '\U{200A}') ||
    c == '\U{2028}' || c == '\U{2029}' || c == '\U{202F}' || c == '\U{205F}' || c == '\U{3000}'
  }

  /** A word in the sense of str.split(): non-empty and free of whitespace. */
  predicate IsWord(s: string) {
    |s| > 0 && forall i :: 0 <= i < |s| ==> !IsSpace(s[i])
  }

  predicate IsUpper(c: char) {
    'A' <= c <= 'Z'
  }

  function LowerChar(c: char): char {
    if IsUpper(c) then (c as int + 32) as char else c
  }

  /** ASCII lower-casing of every character. */
  function ToLower(s: string): (r: string)
    ensures |r| == |s|
    ensures forall i :: 0 <= i < |s| ==> r[i] == LowerChar(s[i])
  {
    seq(|s|, i requires 0 <= i < |s| => LowerChar(s[i]))
  }

  /** Lower-casing leaves no upper-case letter behind, so doing it twice changes nothing. */
  lemma ToLowerIdempotent(s: string)
    ensures forall i :: 0 <= i < |s| ==> !IsUpper(ToLower(s)[i])
    ensures ToLower(ToLower(s)) == ToLower(s)
  {
  }

  // ---------------------------------------------------------------- decimal numbers

  predicate IsDigit(c: char) {
    '0' <= c <= '9'
  }

  predicate AllDigits(s: string) {
    forall i :: 0 <= i < |s| ==> IsDigit(s[i])
  }

  function DigitChar(d: nat): (c: char)
    requires d < 10
    ensures IsDigit(c)
  {
    ('0' as int + d) as char
  }

  function DigitsValue(s: string): nat
    requires AllDigits(s)
    decreases |s|
  {
    if |s| == 0 then 0 else DigitsValue(s[..|s| - 1]) * 10 + (s[|s| - 1] as int - '0' as int)
  }

  /** Decimal rendering of a natural number, as Python's str and printf's %d produce it. */
  function NatToString(n: nat): (r: string)
    ensures |r| > 0 && AllDigits(r)
    decreases n
  {
    if n < 10 then [DigitChar(n)] else NatToString(n / 10) + [DigitChar(n % 10)]
  }

  function IntToString(i: int): (r: string)
    ensures IsWord(r)
  {
    if i < 0 then "-" + NatToString(-i) else NatToString(i)
  }

  /** Python's int() applied to a word, on ASCII input: an optional sign followed by one or more
      ASCII decimal digits. Underscores between digits and non-ASCII digits, which int() also
      accepts, are rejected. */
  function ParseInt(s: string): Option<int> {
    if |s| > 0 && (s[0] == '-' || s[0] == '+') then
      if |s| > 1 && AllDigits(s[1..]) then
        var magnitude: int := DigitsValue(s[1..]);
        Some(if s[0] == '-' then -magnitude else magnitude)
      else None
    else if |s| > 0 && AllDigits(s) then Some(DigitsValue(s))
    else None
  }

  lemma {:induction false} DigitsValueOfNatToString(n: nat)
    ensures DigitsValue(NatToString(n)) == n
    decreases n
  {
    if n >= 10 {
      var s := NatToString(n);
      assert s[..|s| - 1] == NatToString(n / 10);
      DigitsValueOfNatToString(n / 10);
    }
  }

  /** A minus sign followed by digits parses as the negated digits. */
  lemma ParseNegative(d: string)
    requires |d| > 0 && AllDigits(d)
    ensures ParseInt("-" + d) == Some(-(DigitsValue(d) as int))
  {
    assert ("-" + d)[1..] == d;
  }

  /** Digits that do not start with a sign parse as their value. */
  lemma ParseDigits(d: string)
    requires |d| > 0 && AllDigits(d)
    ensures ParseInt(d) == Some(DigitsValue(d) as int)
  {
    assert IsDigit(d[0]);
  }

  /** Rendering an integer and parsing it back gives the integer again. */
  lemma ParseIntOfIntToString(i: int)
    ensures ParseInt(IntToString(i)) == Some(i)
  {
    if i < 0 {
      DigitsValueOfNatToString(-i);
      ParseNegative(NatToString(-i));
    } else {
      DigitsValueOfNatToString(i);
      ParseDigits(NatToString(i));
    }
  }

  // ---------------------------------------------------------------- str.split()

  /** Length of the run of non-whitespace characters at the start of s. */
  function WordLen(s: string): (k: nat)
    ensures k <= |s|
    ensures forall i :: 0 <= i < k ==> !IsSpace(s[i])
    ensures k < |s| ==> IsSpace(s[k])
  {
    if |s| == 0 || IsSpace(s[0]) then 0 else 1 + WordLen(s[1..])
  }

  /** Python's s.split(): the maximal runs of non-IsSpace characters, in order. */
  function Words(s: string): (ws: seq<string>)
    ensures forall i :: 0 <= i < |ws| ==> IsWord(ws[i])
    decreases |s|
  {
    if |s| == 0 then []
    else if IsSpace(s[0]) then Words(s[1..])
    else var k := WordLen(s); [s[..k]] + Words(s[k..])
  }

  /** Python's " ".join(ws). */
  function JoinSpace(ws: seq<string>): string {
    if |ws| == 0 then "" else if |ws| == 1 then ws[0] else ws[0] + " " + JoinSpace(ws[1..])
  }

  lemma {:induction false} WordLenOfWordThenSpace(w: string, t: string)
    requires IsWord(w)
    requires |t| == 0 || IsSpace(t[0])
    ensures WordLen(w + t) == |w|
    decreases |w|
  {
    if |w| > 1 {
      assert (w + t)[1..] == w[1..] + t;
      WordLenOfWordThenSpace(w[1..], t);
    } else {
      assert (w + t)[1..] == t;
    }
  }

  /** A word followed by nothing or by whitespace splits off as the first word. */
  lemma WordsOfWordThenSpace(w: string, t: string)
    requires IsWord(w)
    requires |t| == 0 || IsSpace(t[0])
    ensures Words(w + t) == [w] + Words(t)
  {
    WordLenOfWordThenSpace(w, t);
    assert (w + t)[..|w|] == w;
    assert (w + t)[|w|..] == t;
  }

  /** Leading whitespace adds no word. */
  lemma WordsOfSpaceThen(c: char, t: string)
    requires IsSpace(c)
    ensures Words([c] + t) == Words(t)
  {
    assert ([c] + t)[1..] == t;
  }

  /** Trailing whitespace adds no word. */
  lemma {:induction false} WordsAppendSpace(a: string, c: char)
    requires IsSpace(c)
    ensures Words(a + [c]) == Words(a)
    decreases |a|
  {
    if |a| == 0 {
      assert Words([c]) == Words([c][1..]);
    } else if IsSpace(a[0]) {
      assert (a + [c])[1..] == a[1..] + [c];
      WordsAppendSpace(a[1..], c);
    } else {
      var k := WordLen(a);
      if k < |a| {
        WordLenPrefix(a, [c]);
        assert (a + [c])[..k] == a[..k];
        assert (a + [c])[k..] == a[k..] + [c];
        WordsAppendSpace(a[k..], c);
      } else {
        WordsOfWordThenSpace(a, [c]);
        assert Words([c]) == Words([c][1..]);
        assert a[..k] == a && a[k..] == [];
      }
    }
  }

  lemma {:induction false} WordLenPrefix(a: string, b: string)
    requires WordLen(a) < |a|
    ensures WordLen(a + b) == WordLen(a)
    decreases |a|
  {
    if !IsSpace(a[0]) {
      assert (a + b)[1..] == a[1..] + b;
      WordLenPrefix(a[1..], b);
    }
  }

  /** Joining words with single spaces and splitting again gives the words back. */
  lemma {:induction false} WordsOfJoinSpace(ws: seq<string>)
    requires forall i :: 0 <= i < |ws| ==> IsWord(ws[i])
    ensures Words(JoinSpace(ws)) == ws
    decreases |ws|
  {
    if |ws| == 1 {
      WordsOfWordThenSpace(ws[0], "");
      assert ws[0] + "" == ws[0];
    } else if |ws| > 1 {
      var rest := JoinSpace(ws[1..]);
      assert ws[0] + " " + rest == ws[0] + (" " + rest);
      WordsOfWordThenSpace(ws[0], " " + rest);
      assert (" " + rest)[1..] == rest;
      WordsOfJoinSpace(ws[1..]);
    }
  }

  // ---------------------------------------------------------------- lines of a text file

  predicate NoNewline(s: string) {
    forall i :: 0 <= i < |s| ==> s[i] != '\n'
  }

  /** No line break of either kind, '\n' or '\r'. */
  predicate NoLineBreak(s: string) {
    forall i :: 0 <= i < |s| ==> s[i] != '\n' && s[i] != '\r'
  }

  /** Python's universal-newline translation on reading a text file: "\r\n" and a lone "\r"
      both become "\n". */
  function Universal(s: string): (r: string)
    ensures forall i :: 0 <= i < |r| ==> r[i] != '\r'
    ensures |r| <= |s|
    decreases |s|
  {
    if |s| == 0 then ""
    else if s[0] == '\r' then "\n" + Universal(if |s| > 1 && s[1] == '\n' then s[2..] else s[1..])
    else [s[0]] + Universal(s[1..])
  }

  /** A line without line breaks, then '\n', passes the translation unchanged. */
  lemma {:induction false} UniversalOfLine(l: string, rest: string)
    requires NoLineBreak(l)
    ensures Universal(l + "\n" + rest) == l + "\n" + Universal(rest)
    decreases |l|
  {
    if |l| > 0 {
      assert (l + "\n" + rest)[1..] == l[1..] + "\n" + rest;
      UniversalOfLine(l[1..], rest);
    } else {
      assert ("\n" + rest)[1..] == rest;
    }
  }

  /** Length of the first line of s, its terminating newline included when there is one. */
  function LineLen(s: string): (k: nat)
    ensures k <= |s|
    ensures |s| > 0 ==> k > 0
    decreases |s|
  {
    if |s| == 0 then 0 else if s[0] == '\n' then 1 else 1 + LineLen(s[1..])
  }

  /** The lines a Python loop over a text file yields, split at '\n' only: each keeps its '\n';
      the last may lack one. */
  function Lines(s: string): seq<string>
    decreases |s|
  {
    if |s| == 0 then [] else var k := LineLen(s); [s[..k]] + Lines(s[k..])
  }

  lemma {:induction false} LineLenOfLine(l: string, rest: string)
    requires NoNewline(l)
    ensures LineLen(l + "\n" + rest) == |l| + 1
    decreases |l|
  {
    if |l| > 0 {
      assert (l + "\n" + rest)[1..] == l[1..] + "\n" + rest;
      LineLenOfLine(l[1..], rest);
    }
  }

  /** A newline-terminated line at the front of a file is the first line the loop yields. */
  lemma LinesOfLine(l: string, rest: string)
    requires NoNewline(l)
    ensures Lines(l + "\n" + rest) == [l + "\n"] + Lines(rest)
  {
    LineLenOfLine(l, rest);
    var s := l + "\n" + rest;
    assert s[..|l| + 1] == l + "\n";
    assert s[|l| + 1..] == rest;
  }

  /** Concatenation of a sequence of strings. */
  function Concat(ss: seq<string>): (r: string)
    ensures |ss| == 0 ==> r == ""
  {
    if |ss| == 0 then "" else ss[0] + Concat(ss[1..])
  }

  lemma {:induction false} ConcatAppend(a: seq<string>, b: seq<string>)
    ensures Concat(a + b) == Concat(a) + Concat(b)
    decreases |a|
  {
    if |a| > 0 {
      assert (a + b)[1..] == a[1..] + b;
      ConcatAppend(a[1..], b);
    } else {
      assert a + b == b;
    }
  }
}

=== FILE: texture_overrides.dfy ===
/** The helpers of TextureOverrides: the sRGB and UNORM variants of the formats a texture file
    may come in, the bounded copy of a C string into a fixed char array, and the path of an
    override texture file. Image loading is not modelled. */
module TextureOverrides {
  import opened Wrappers
  import opened Paths

  /** The VkFormat values the conversions name; Other stands for every other format. */
  datatype Format =
    | R8Srgb | R8G8Srgb | R8G8B8Srgb | B8G8R8Srgb | R8G8B8A8Srgb | B8G8R8A8Srgb
    | A8B8G8R8SrgbPack32 | Bc1RgbSrgbBlock | Bc1RgbaSrgbBlock | Bc2SrgbBlock | Bc3SrgbBlock | Bc7SrgbBlock
    | R8Unorm | R8G8Unorm | R8G8B8Unorm | B8G8R8Unorm | R8G8B8A8Unorm | B8G8R8A8Unorm
    | A8B8G8R8UnormPack32 | Bc1RgbUnormBlock | Bc1RgbaUnormBlock | Bc2UnormBlock | Bc3UnormBlock | Bc7UnormBlock
    | Other(code: nat)

  /** ToUnorm */
  function ToUnorm(f: Format): Format {
    match f
    case R8Srgb => R8Unorm
    case R8G8Srgb => R8G8Unorm
    case R8G8B8Srgb => R8G8B8Unorm
    case B8G8R8Srgb => B8G8R8Unorm
    case R8G8B8A8Srgb => R8G8B8A8Unorm
    case B8G8R8A8Srgb => B8G8R8A8Unorm
    case A8B8G8R8SrgbPack32 => A8B8G8R8UnormPack32
    case Bc1RgbSrgbBlock => Bc1RgbUnormBlock
    case Bc1RgbaSrgbBlock => Bc1RgbaUnormBlock
    case Bc2SrgbBlock => Bc2UnormBlock
    case Bc3SrgbBlock => Bc3UnormBlock
    case Bc7SrgbBlock => Bc7UnormBlock
    case _ => f
  }

  /** ToSRGB */
  function ToSrgb(f: Format): Format {
    match f
    case R8Unorm => R8Srgb
    case R8G8Unorm => R8G8Srgb
    case R8G8B8Unorm => R8G8B8Srgb
    case B8G8R8Unorm => B8G8R8Srgb
    case R8G8B8A8Unorm => R8G8B8A8Srgb
    case B8G8R8A8Unorm => B8G8R8A8Srgb
    case A8B8G8R8UnormPack32 => A8B8G8R8SrgbPack32
    case Bc1RgbUnormBlock => Bc1RgbSrgbBlock
    case Bc1RgbaUnormBlock => Bc1RgbaSrgbBlock
    case Bc2UnormBlock => Bc2SrgbBlock
    case Bc3UnormBlock => Bc3SrgbBlock
    case Bc7UnormBlock => Bc7SrgbBlock
    case _ => f
  }

  /** The twelve format pairs, sRGB first: the reference both conversions follow. */
  const Pairs: seq<(Format, Format)> := [
    (R8Srgb, R8Unorm), (R8G8Srgb, R8G8Unorm), (R8G8B8Srgb, R8G8B8Unorm), (B8G8R8Srgb, B8G8R8Unorm),
    (R8G8B8A8Srgb, R8G8B8A8Unorm), (B8G8R8A8Srgb, B8G8R8A8Unorm), (A8B8G8R8SrgbPack32, A8B8G8R8UnormPack32),
    (Bc1RgbSrgbBlock, Bc1RgbUnormBlock), (Bc1RgbaSrgbBlock, Bc1RgbaUnormBlock), (Bc2SrgbBlock, Bc2UnormBlock),
    (Bc3SrgbBlock, Bc3UnormBlock), (Bc7SrgbBlock, Bc7UnormBlock)
  ]

  /** The formats ToUnorm names: the sRGB side of the pairs. */
  predicate IsSrgb(f: Format) {
    f in {R8Srgb, R8G8Srgb, R8G8B8Srgb, B8G8R8Srgb, R8G8B8A8Srgb, B8G8R8A8Srgb, A8B8G8R8SrgbPack32,
          Bc1RgbSrgbBlock, Bc1RgbaSrgbBlock, Bc2SrgbBlock, Bc3SrgbBlock, Bc7SrgbBlock}
  }

  /** The formats ToSRGB names: the UNORM side of the pairs. */
  predicate IsUnorm(f: Format) {
    f in {R8Unorm, R8G8Unorm, R8G8B8Unorm, B8G8R8Unorm, R8G8B8A8Unorm, B8G8R8A8Unorm, A8B8G8R8UnormPack32,
          Bc1RgbUnormBlock, Bc1RgbaUnormBlock, Bc2UnormBlock, Bc3UnormBlock, Bc7UnormBlock}
  }

  /** Each conversion maps one side of a pair to the other, and the pairs cover exactly the
      formats the conversions name. */
  lemma ConversionsFollowPairs(i: nat)
    requires i < |Pairs|
    ensures ToUnorm(Pairs[i].0) == Pairs[i].1 && ToSrgb(Pairs[i].1) == Pairs[i].0
    ensures IsSrgb(Pairs[i].0) && IsUnorm(Pairs[i].1)
  {
    var (srgb, unorm) := Pairs[i];
    assert ToUnorm(srgb) == unorm && ToSrgb(unorm) == srgb;
  }

  /** Every other format is left as it is. */
  lemma ConversionsFixOthers(f: Format)
    ensures !IsSrgb(f) ==> ToUnorm(f) == f
    ensures !IsUnorm(f) ==> ToSrgb(f) == f
  {
  }

  /** ToUnorm undoes ToSRGB on every format that is not itself sRGB, the listed UNORM formats
      included, and ToSRGB undoes ToUnorm on every format that is not itself UNORM. */
  lemma ConversionsInverse(f: Format)
    ensures !IsSrgb(f) ==> ToUnorm(ToSrgb(f)) == f
    ensures !IsUnorm(f) ==> ToSrgb(ToUnorm(f)) == f
  {
  }

  /** A converted format is never of the side it was converted from, so converting twice is
      converting once. */
  lemma ConversionsIdempotent(f: Format)
    ensures !IsSrgb(ToUnorm(f)) && !IsUnorm(ToSrgb(f))
    ensures ToUnorm(ToUnorm(f)) == ToUnorm(f) && ToSrgb(ToSrgb(f)) == ToSrgb(f)
  {
  }

  // ---------------------------------------------------------------------------------------------
  // SafeCopy
  // ---------------------------------------------------------------------------------------------

  /** The length of a C string held in a char array: the position of the first NUL, or the
      whole array when it has none. */
  function NulIndex(s: string): (k: nat)
    ensures k <= |s| && (k < |s| ==> s[k] == '\0')
    ensures forall j :: 0 <= j < k ==> s[j] != '\0'
  {
    if |s| == 0 || s[0] == '\0' then 0 else 1 + NulIndex(s[1..])
  }

  /** The characters of a C string. */
  function CString(s: string): string {
    s[..NulIndex(s)]
  }

  /** What SafeCopy reads of src is there: a NUL, or at least n − 1 characters. */
  predicate Readable(s: string, n: nat) {
    |s| >= n - 1 || NulIndex(s) < |s|
  }

  /** SafeCopy into a char[n]: the array is zeroed, then src's characters are copied up to the
      first NUL and at most n − 1 of them. A null src leaves the array zeroed. The result is
      always NUL-terminated and holds src's string cut to n − 1 characters, followed by NULs. */
  method SafeCopy(n: nat, src: Option<string>) returns (dst: string)
    requires n >= 1
    requires src.Some? ==> Readable(src.value, n)
    ensures |dst| == n && dst[n - 1] == '\0'
    ensures src.None? ==> CString(dst) == ""
    ensures src.Some? ==> CString(dst) == CString(src.value)[..Min(n - 1, |CString(src.value)|)]
    ensures forall j :: |CString(dst)| <= j < n ==> dst[j] == '\0'
  {
    dst := seq(n, _ => '\0');
    var i := 0;
    if src.Some? {
      var s := src.value;
      while i < n - 1
        invariant i <= n - 1 && i <= NulIndex(s)
        invariant |dst| == n && dst[..i] == s[..i]
        invariant forall j :: i <= j < n ==> dst[j] == '\0'
      {
        if s[i] == '\0' {
          break;
        }
        dst := dst[i := s[i]];
        i := i + 1;
      }
      assert i == Min(n - 1, NulIndex(s));
    }
    NulIndexOfCopy(dst, i);
  }

  function Min(a: nat, b: nat): nat {
    if a < b then a else b
  }

  /** A copy whose first i characters are not NUL and whose i-th is has a C string of length i. */
  lemma NulIndexOfCopy(s: string, i: nat)
    requires i < |s| && s[i] == '\0' && forall j :: 0 <= j < i ==> s[j] != '\0'
    ensures NulIndex(s) == i
  {
    if NulIndex(s) < i {
      assert s[NulIndex(s)] == '\0';
    }
  }

  // ---------------------------------------------------------------------------------------------
  // GetTexturePath
  // ---------------------------------------------------------------------------------------------

  /** GetTexturePath. relativePath is the string a non-null pointer points to; the folder,
      postfix and extension are non-null. A null or empty relative path gives nullopt;
      otherwise the relative path is appended to the folder, its extension removed, the
      postfix concatenated and the extension put in place. */
  function GetTexturePath(folder: Path, relativePath: Option<string>, postfix: string, extension: string): (r: Option<Path>)
    ensures r.None? <==> relativePath.None? || |relativePath.value| == 0
  {
    if relativePath.None? || |relativePath.value| == 0 then None
    else Some(ReplaceExtension(ReplaceExtension(Append(folder, relativePath.value), "") + postfix, extension))
  }

  /** The file name of the appended path keeps the relative path's extension-less name. */
  lemma StemOfAppend(folder: Path, relative: Path)
    requires |relative| > 0 && Filename(relative) != ""
    ensures Filename(RemoveExtension(Append(folder, relative))) != ""
  {
    FilenameOfAppend(folder, relative);
    RemoveExtensionKeepsFilename(Append(folder, relative));
  }

  /** When the relative path's extension-less name has no dot of its own, the texture path is
      that name, the postfix and the extension. */
  lemma TexturePathOfPlainName(folder: Path, relative: Path, postfix: string, ext: string)
    requires |relative| > 0 && Filename(relative) != "" && Plain(postfix) && Plain(ext) && |ext| > 0
    requires ExtensionStart(RemoveExtension(Append(folder, relative)) + postfix).None?
    ensures GetTexturePath(folder, Some(relative), postfix, "." + ext) ==
      Some(RemoveExtension(Append(folder, relative)) + postfix + "." + ext)
  {
    var a := Append(folder, relative);
    assert ReplaceExtension(a, "") == RemoveExtension(a);
    var x := RemoveExtension(a) + postfix;
    assert RemoveExtension(x) == x;
    assert ReplaceExtension(x, "." + ext) == x + "." + ext;
  }

  /** As written, a dot inside the extension-less name turns the postfix into part of an
      extension that the second replace_extension drops: "a.b.c" with postfix "_n" and
      extension ".ktx2" gives "a.ktx2", the same path as with no postfix at all. */
  lemma PostfixLostAfterInnerDot(a: string, b: string, c: string, postfix: string, ext: string)
    requires Plain(a) && Plain(b) && Plain(c) && Plain(postfix) && Plain(ext) && |a| > 0
    ensures GetTexturePath("", Some(a + "." + b + "." + c), postfix, "." + ext) == Some(a + "." + ext)
    ensures GetTexturePath("", Some(a + "." + b + "." + c), "", "." + ext) == Some(a + "." + ext)
  {
    StemKeepsInnerDot(a, b, c);
    PostfixJoinsExtension(a, b, postfix, ext);
    PostfixJoinsExtension(a, b, "", ext);
  }

  /** The first replace_extension of GetTexturePath removes only the last extension. */
  lemma StemKeepsInnerDot(a: string, b: string, c: string)
    requires Plain(a) && Plain(b) && Plain(c) && |a| > 0
    ensures ReplaceExtension(Append("", a + "." + b + "." + c), "") == a + "." + b
  {
    var p := a + "." + b + "." + c;
    assert Append("", p) == p;
    SeparatorFree(a, b);
    RemoveLastExtension(a + "." + b, c);
  }

  /** A postfix after an inner dot becomes part of the extension that the second
      replace_extension replaces. */
  lemma PostfixJoinsExtension(a: string, b: string, postfix: string, ext: string)
    requires Plain(a) && Plain(b) && Plain(postfix) && |a| > 0
    ensures ReplaceExtension(a + "." + b + postfix, "." + ext) == a + "." + ext
  {
    assert a + "." + b + postfix == a + "." + (b + postfix);
    PlainConcat(b, postfix);
    RemoveLastExtension(a, b + postfix);
    ReplaceWithDotted(a + "." + b + postfix, ext);
  }

  /** Joining two names without a separator with a dot gives a name without one. */
  lemma SeparatorFree(s: string, t: string)
    requires forall j :: 0 <= j < |s| ==> s[j] != '/'
    requires forall j :: 0 <= j < |t| ==> t[j] != '/'
    ensures forall j :: 0 <= j < |s + "." + t| ==> (s + "." + t)[j] != '/'
  {
    var u := s + "." + t;
    assert forall j :: 0 <= j < |s| ==> u[j] == s[j];
    assert forall j :: |s| < j < |u| ==> u[j] == t[j - |s| - 1];
  }

  /** Concatenated names are names. */
  lemma PlainConcat(s: string, t: string)
    requires Plain(s) && Plain(t)
    ensures Plain(s + t)
  {
    assert forall j :: |s| <= j < |s + t| ==> (s + t)[j] == t[j - |s|];
  }

  /** Removing the extension of a name that ends in a dot and a plain part leaves what is before
      that dot, as long as the name does not start with a dot. */
  lemma RemoveLastExtension(x: string, t: string)
    requires forall j :: 0 <= j < |x| ==> x[j] != '/'
    requires |x| > 0 && x[0] != '.' && Plain(t)
    ensures RemoveExtension(x + "." + t) == x
  {
    var u := x + "." + t;
    assert forall j :: |x| < j < |u| ==> u[j] == t[j - |x| - 1];
    assert forall j :: 0 <= j < |x| ==> u[j] == x[j];
    assert u[0] == x[0];
    RemoveExtensionOfName(u, |x|);
    assert u[..|x|] == x;
  }

  /** In a path without a separator, the extension starts at the last dot unless it is the
      first character. */
  lemma RemoveExtensionOfName(p: Path, k: nat)
    requires forall j :: 0 <= j < |p| ==> p[j] != '/'
    requires 0 < k < |p| && p[k] == '.' && forall j :: k < j < |p| ==> p[j] != '.'
    requires p != "." && p != ".."
    ensures RemoveExtension(p) == p[..k]
  {
    FilenameStartIs(p, 0);
    assert Filename(p) == p;
    LastIndexIs(p, '.', k);
  }

  /** GetTexturePath with the postfix and the extension placed after the extension-less path
      directly, so that a dot inside the name cannot swallow the postfix. */
  function GetTexturePathCorrected(folder: Path, relativePath: Option<string>, postfix: string, extension: string): (r: Option<Path>)
    ensures r.None? <==> relativePath.None? || |relativePath.value| == 0
  {
    if relativePath.None? || |relativePath.value| == 0 then None
    else Some(RemoveExtension(Append(folder, relativePath.value)) + postfix +
      (if |extension| > 0 && extension[0] != '.' then "." else "") + extension)
  }

  /** The corrected path always carries the postfix right before the requested extension. */
  lemma CorrectedKeepsPostfix(folder: Path, relative: Path, postfix: string, ext: string)
    requires |relative| > 0 && Filename(relative) != "" && Plain(postfix) && Plain(ext) && |ext| > 0
    ensures var r := GetTexturePathCorrected(folder, Some(relative), postfix, "." + ext).value;
      Extension(r) == "." + ext && RemoveExtension(r) == RemoveExtension(Append(folder, relative)) + postfix
  {
    var stem := RemoveExtension(Append(folder, relative));
    var named := stem + postfix;
    assert Filename(named) != "" by {
      StemOfAppend(folder, relative);
      FilenameOfConcat(stem, postfix);
    }
    assert GetTexturePathCorrected(folder, Some(relative), postfix, "." + ext).value == named + "." + ext by {
      assert named + "" + ("." + ext) == named + "." + ext;
    }
    AddExtension(named, ext);
  }
}

=== FILE: triangle_info.dfy ===
/** TriangleInfoManager: the static and dynamic index ranges of the per-triangle sector array,
    and UploadAndGetArrayIndex, which converts a geometry's per-triangle sector IDs to sector
    array indices and places them after the static or the dynamic range. The staging buffers and
    the copies to them are not modelled; the manager's state is its two ranges and its
    temporary vector. uint32_t counters are unbounded here. */
module TriangleInfo {
  import opened Wrappers
  import SV = SectorVisibility

  /** TriangleInfoManager::Range */
  datatype Range = Range(startIndex: nat, count: nat, locked: bool)
  {
    /** GetFirstIndexAfterRange */
    function End(): nat {
      startIndex + count
    }

    /** Add, which the source asserts is not called on a locked range. */
    function Add(amount: nat): (r: Range)
      requires !locked
      ensures r.startIndex == startIndex && !r.locked && r.End() == End() + amount
    {
      this.(count := count + amount)
    }

    function Lock(): (r: Range)
      ensures r.locked && r.startIndex == startIndex && r.count == count
    {
      this.(locked := true)
    }

    /** StartIndexingAfter, which the source asserts is called on an empty, unlocked range. */
    function StartIndexingAfter(other: Range): (r: Range)
      requires count == 0 && !locked
      ensures r.startIndex == other.End() && r.count == 0 && !r.locked
    {
      this.(startIndex := other.End())
    }
  }

  /** Range's constructor and Reset: an empty, unlocked range at the given start. */
  function EmptyRange(startIndex: nat): (r: Range)
    ensures r.startIndex == startIndex && r.count == 0 && !r.locked
  {
    Range(startIndex, 0, false)
  }

  datatype GeometryType = Static | StaticMovable | Dynamic

  /** What UploadAndGetArrayIndex returns: GEOM_INST_NO_TRIANGLE_INFO or an array index. */
  datatype Uploaded = NoTriangleInfo | ArrayIndex(index: nat)

  datatype UploadError =
    | IncorrectSector(id: nat)   // the exception of SectorIDToArrayIndex
    | StaleTemporary             // the assertion tempValues.empty()
    | StaticRangeLocked          // the assertion !locked in Range::Add

  datatype Manager = Manager(staticRange: Range, dynamicRange: Range, copyStaticRange: bool, temp: seq<nat>)
  {
    /** Static indices start at 0, dynamic ones right after them; the dynamic range is never
        locked, and it holds entries only once the static range is locked. */
    predicate Valid() {
      staticRange.startIndex == 0 && dynamicRange.startIndex == staticRange.End() && !dynamicRange.locked &&
      (dynamicRange.count > 0 ==> staticRange.locked)
    }
  }

  /** The constructor: both ranges empty at 0. */
  function Initial(): (r: Manager)
    ensures r.Valid() && r.temp == []
  {
    Manager(EmptyRange(0), EmptyRange(0), false, [])
  }

  /** TransformIdsToIndices: each ID looked up in turn and appended to the temporary vector.
      An unknown ID throws, leaving the indices appended so far in the vector. */
  function TransformIds(v: SV.Visibility, temp: seq<nat>, ids: seq<nat>): (r: (seq<nat>, Option<UploadError>))
    requires v.Valid()
    ensures temp <= r.0 && |r.0| <= |temp| + |ids|
    ensures r.1.None? <==> forall k :: 0 <= k < |ids| ==> ids[k] in v.idToIndex
    ensures r.1.None? ==>
      |r.0| == |temp| + |ids| && forall k :: 0 <= k < |ids| ==> r.0[|temp| + k] == v.idToIndex[ids[k]]
    decreases |ids|
  {
    if |ids| == 0 then (temp, None)
    else match v.IdToIndex(ids[0])
      case Err(_) => (temp, Some(IncorrectSector(ids[0])))
      case Ok(index) =>
        var r := TransformIds(v, temp + [index], ids[1..]);
        assert forall k :: 1 <= k < |ids| ==> ids[k] == ids[1..][k - 1];
        r
  }

  /** UploadAndGetArrayIndex as written. A null pointer is ids == None. The state after an
      error is returned with it, as the object keeps it when the exception leaves. A non-empty
      STATIC_MOVABLE upload fails an assertion in the source; the release build returns
      NO_TRIANGLE_INFO, as here. */
  function UploadAsWritten(m: Manager, v: SV.Visibility, ids: Option<seq<nat>>, geomType: GeometryType): (r: (Manager, Result<Uploaded, UploadError>))
    requires m.Valid() && v.Valid()
    ensures r.0.Valid()
  {
    if ids.None? || |ids.value| == 0 then (m, Ok(NoTriangleInfo))
    else if geomType == StaticMovable then (m, Ok(NoTriangleInfo))
    else if |m.temp| != 0 then (m, Err(StaleTemporary))
    else
      var (indices, error) := TransformIds(v, m.temp, ids.value);
      if error.Some? then (m.(temp := indices), Err(error.value))
      else Place(m, |indices|, geomType)
  }

  /** The range arithmetic once the indices are known: the start index returned is the end of
      the range the geometry goes to, and that range grows by the number of indices. */
  function Place(m: Manager, amount: nat, geomType: GeometryType): (r: (Manager, Result<Uploaded, UploadError>))
    requires m.Valid() && geomType != StaticMovable
    ensures r.0.Valid() && r.0.temp == []
  {
    if geomType == Dynamic then
      var staticRange := if m.dynamicRange.count == 0 then m.staticRange.Lock() else m.staticRange;
      var start := m.dynamicRange.End();
      (m.(staticRange := staticRange, dynamicRange := m.dynamicRange.Add(amount), temp := []), Ok(ArrayIndex(start)))
    else if m.staticRange.locked then (m.(temp := []), Err(StaticRangeLocked))
    else
      var start := m.staticRange.End();
      var staticRange := m.staticRange.Add(amount);
      (m.(staticRange := staticRange, dynamicRange := m.dynamicRange.StartIndexingAfter(staticRange), temp := []), Ok(ArrayIndex(start)))
  }

  /** UploadAndGetArrayIndex with the temporary vector cleared when an ID is unknown, so a
      rejected upload leaves the manager as it was. STATIC_MOVABLE is the release build's
      NO_TRIANGLE_INFO, as in UploadAsWritten. */
  function Upload(m: Manager, v: SV.Visibility, ids: Option<seq<nat>>, geomType: GeometryType): (r: (Manager, Result<Uploaded, UploadError>))
    requires m.Valid() && m.temp == [] && v.Valid()
    ensures r.0.Valid() && r.0.temp == []
    ensures r.1.Err? && r.1.error.IncorrectSector? ==> r.0 == m
  {
    if ids.None? || |ids.value| == 0 then (m, Ok(NoTriangleInfo))
    else if geomType == StaticMovable then (m, Ok(NoTriangleInfo))
    else
      var (indices, error) := TransformIds(v, [], ids.value);
      if error.Some? then (m, Err(error.value))
      else Place(m, |indices|, geomType)
  }

  /** PrepareForFrame: the dynamic range restarts, empty, right after the static one. */
  function PrepareForFrame(m: Manager): (r: Manager)
    requires m.Valid()
    ensures r.Valid() && r.staticRange == m.staticRange && r.dynamicRange == EmptyRange(m.staticRange.End())
  {
    m.(dynamicRange := EmptyRange(0).StartIndexingAfter(m.staticRange))
  }

  /** Reset: both ranges empty and unlocked at 0, and the static range marked for copying. */
  function Reset(m: Manager): (r: Manager)
    ensures r.Valid() && r.staticRange == EmptyRange(0) && r.dynamicRange == EmptyRange(0) && r.copyStaticRange
    ensures r.temp == m.temp
  {
    Manager(EmptyRange(0), EmptyRange(0), true, m.temp)
  }

  // ---------------------------------------------------------------------------------------------
  // Properties
  // ---------------------------------------------------------------------------------------------

  /** A null pointer or a zero count gives GEOM_INST_NO_TRIANGLE_INFO and changes nothing. */
  lemma NoInputNoChange(m: Manager, v: SV.Visibility, ids: Option<seq<nat>>, geomType: GeometryType)
    requires m.Valid() && m.temp == [] && v.Valid()
    requires ids.None? || |ids.value| == 0
    ensures Upload(m, v, ids, geomType) == (m, Ok(NoTriangleInfo))
  {
  }

  /** A successful upload returns the end of its range before the add, and the range then ends
      count entries later; the other range keeps its start and count. Dynamic entries come
      right after the static ones, so the two ranges never overlap. */
  lemma UploadAppendsToRange(m: Manager, v: SV.Visibility, ids: seq<nat>, geomType: GeometryType)
    requires m.Valid() && m.temp == [] && v.Valid() && |ids| > 0 && geomType != StaticMovable
    requires Upload(m, v, Some(ids), geomType).1.Ok?
    ensures var (m', r) := Upload(m, v, Some(ids), geomType);
      r.value.ArrayIndex? &&
      (geomType == Dynamic ==>
        r.value.index == m.dynamicRange.End() && m'.dynamicRange.End() == m.dynamicRange.End() + |ids| &&
        m'.staticRange.End() == m.staticRange.End() && m'.staticRange.locked) &&
      (geomType == Static ==>
        r.value.index == m.staticRange.End() && m'.staticRange.End() == m.staticRange.End() + |ids| &&
        m'.dynamicRange == EmptyRange(m'.staticRange.End()))
  {
  }

  /** Once a dynamic upload has happened, a static one is rejected until the next Reset. */
  lemma StaticAfterDynamicRejected(m: Manager, v: SV.Visibility, ids: seq<nat>)
    requires m.Valid() && m.temp == [] && v.Valid() && |ids| > 0 && m.dynamicRange.count > 0
    requires forall k :: 0 <= k < |ids| ==> ids[k] in v.idToIndex
    ensures Upload(m, v, Some(ids), Static).1 == Err(StaticRangeLocked)
  {
  }

  /** An unknown ID after a known one leaves the known one's index in the temporary vector, and
      the next upload, even of known IDs only, is rejected by the emptiness assertion. */
  lemma RejectedUploadPoisonsNext(v: SV.Visibility, known: nat, unknown: nat)
    requires v.Valid() && known in v.idToIndex && unknown !in v.idToIndex
    ensures var (m1, r1) := UploadAsWritten(Initial(), v, Some([known, unknown]), Dynamic);
      r1 == Err(IncorrectSector(unknown)) && m1.temp == [v.idToIndex[known]] &&
      UploadAsWritten(m1, v, Some([known]), Dynamic).1 == Err(StaleTemporary)
  {
    var index := v.idToIndex[known];
    assert [known, unknown][1..] == [unknown] && [] + [index] == [index];
    assert TransformIds(v, [index], [unknown]) == ([index], Some(IncorrectSector(unknown)));
    assert TransformIds(v, [], [known, unknown]) == ([index], Some(IncorrectSector(unknown)));
  }

  /** With the temporary vector cleared on error, a rejected upload does not affect the next
      one: uploading known IDs after it succeeds as it would have before. */
  lemma RejectedUploadIsHarmless(m: Manager, v: SV.Visibility, bad: seq<nat>, ids: seq<nat>, geomType: GeometryType)
    requires m.Valid() && m.temp == [] && v.Valid()
    requires Upload(m, v, Some(bad), geomType).1.Err? && Upload(m, v, Some(bad), geomType).1.error.IncorrectSector?
    ensures Upload(Upload(m, v, Some(bad), geomType).0, v, Some(ids), geomType) == Upload(m, v, Some(ids), geomType)
  {
  }
}

=== FILE: vertex_data.dfy ===
/** VertexData.inl: the vertex indices of a primitive, read either straight from the vertex
    buffer or through the index buffer, and the global index of a geometry from the per-instance
    offsets. All arithmetic is the shader's 32-bit arithmetic: uint sums wrap modulo 2^32 and int
    sums wrap to the signed 32-bit range. Index buffers are sequences; reading one out of its
    bounds is undefined in the shader, so every access is a precondition. */
module VertexData {
  import opened Machine

  /** UINT32_MAX as baseIndexIndex: the geometry has no index buffer. */
  const NoIndexBuffer: U32 := Pow32 - 1

  /** The uint position of corner k of primitive p in a buffer starting at base. */
  function Corner(base: U32, p: U32, k: nat): (r: U32)
    requires k < 3
  {
    Wrap(base + Wrap(p * 3) + k)
  }

  /** The index-buffer reads of an indexed primitive are in bounds. */
  predicate IndexedInBounds(indices: seq<U32>, baseIndex: U32, p: U32) {
    forall k :: 0 <= k < 3 ==> Corner(baseIndex, p, k) < |indices|
  }

  /** getVertIndicesStatic and getVertIndicesDynamic, which differ only in the index buffer they
      read: each corner is baseVertexIndex plus the index-buffer entry when the geometry has an
      index buffer, and baseVertexIndex + 3p + k without one. */
  function GetVertIndices(indices: seq<U32>, baseVertex: U32, baseIndex: U32, p: U32): (r: seq<U32>)
    requires baseIndex != NoIndexBuffer ==> IndexedInBounds(indices, baseIndex, p)
    ensures |r| == 3
    ensures baseIndex == NoIndexBuffer ==> forall k :: 0 <= k < 3 ==> r[k] == Corner(baseVertex, p, k)
    ensures baseIndex != NoIndexBuffer ==>
              forall k :: 0 <= k < 3 ==> r[k] == Wrap(baseVertex + indices[Corner(baseIndex, p, k)])
  {
    if baseIndex != NoIndexBuffer then
      seq(3, k requires 0 <= k < 3 => Wrap(baseVertex + indices[Corner(baseIndex, p, k)]))
    else
      seq(3, k requires 0 <= k < 3 => Corner(baseVertex, p, k))
  }

  /** The two index buffers of the vertex data set. */
  datatype IndexBuffers = IndexBuffers(staticIndices: seq<U32>, dynamicIndices: seq<U32>)

  /** getVertIndicesStatic */
  function GetVertIndicesStatic(b: IndexBuffers, baseVertex: U32, baseIndex: U32, p: U32): (r: seq<U32>)
    requires baseIndex != NoIndexBuffer ==> IndexedInBounds(b.staticIndices, baseIndex, p)
    ensures |r| == 3
    ensures baseIndex == NoIndexBuffer ==> forall k :: 0 <= k < 3 ==> r[k] == Corner(baseVertex, p, k)
    ensures baseIndex != NoIndexBuffer ==>
              forall k :: 0 <= k < 3 ==> r[k] == Wrap(baseVertex + b.staticIndices[Corner(baseIndex, p, k)])
  {
    GetVertIndices(b.staticIndices, baseVertex, baseIndex, p)
  }

  /** getVertIndicesDynamic */
  function GetVertIndicesDynamic(b: IndexBuffers, baseVertex: U32, baseIndex: U32, p: U32): (r: seq<U32>)
    requires baseIndex != NoIndexBuffer ==> IndexedInBounds(b.dynamicIndices, baseIndex, p)
    ensures |r| == 3
    ensures baseIndex == NoIndexBuffer ==> forall k :: 0 <= k < 3 ==> r[k] == Corner(baseVertex, p, k)
    ensures baseIndex != NoIndexBuffer ==>
              forall k :: 0 <= k < 3 ==> r[k] == Wrap(baseVertex + b.dynamicIndices[Corner(baseIndex, p, k)])
  {
    GetVertIndices(b.dynamicIndices, baseVertex, baseIndex, p)
  }

  /** The two variants agree whenever they read the same index data, and always without an index
      buffer. */
  lemma StaticDynamicAgree(b: IndexBuffers, baseVertex: U32, baseIndex: U32, p: U32)
    requires baseIndex != NoIndexBuffer ==>
               IndexedInBounds(b.staticIndices, baseIndex, p) && IndexedInBounds(b.dynamicIndices, baseIndex, p)
    requires baseIndex != NoIndexBuffer ==>
               forall k :: 0 <= k < 3 ==> b.staticIndices[Corner(baseIndex, p, k)] == b.dynamicIndices[Corner(baseIndex, p, k)]
    ensures GetVertIndicesStatic(b, baseVertex, baseIndex, p) == GetVertIndicesDynamic(b, baseVertex, baseIndex, p)
  {
  }

  /** Without wrap-around, a non-indexed geometry's primitive p is the three consecutive vertices
      from base + 3p, so distinct primitives share no vertex. */
  lemma NonIndexedTriangles(baseVertex: U32, p: U32, q: U32)
    requires baseVertex + 3 * p + 2 < Pow32 && baseVertex + 3 * q + 2 < Pow32
    ensures GetVertIndices([], baseVertex, NoIndexBuffer, p) == [baseVertex + 3 * p, baseVertex + 3 * p + 1, baseVertex + 3 * p + 2]
    ensures p != q ==> forall i, j :: 0 <= i < 3 && 0 <= j < 3 ==>
              GetVertIndices([], baseVertex, NoIndexBuffer, p)[i] != GetVertIndices([], baseVertex, NoIndexBuffer, q)[j]
  {
    var rp := GetVertIndices([], baseVertex, NoIndexBuffer, p);
    var rq := GetVertIndices([], baseVertex, NoIndexBuffer, q);
    forall i, j | 0 <= i < 3 && 0 <= j < 3
      ensures rp[i] == baseVertex + 3 * p + i && rq[j] == baseVertex + 3 * q + j
    {
      assert Corner(baseVertex, p, i) == baseVertex + 3 * p + i;
      assert Corner(baseVertex, q, j) == baseVertex + 3 * q + j;
    }
  }

  /** An index buffer that counts 0, 1, 2, ... from baseIndex gives the same vertices as no index
      buffer: indexing only adds an indirection. */
  lemma IdentityIndicesAgree(indices: seq<U32>, baseVertex: U32, baseIndex: U32, p: U32)
    requires baseIndex != NoIndexBuffer && IndexedInBounds(indices, baseIndex, p)
    requires baseIndex + 3 * p + 2 < Pow32
    requires forall k :: 0 <= k < 3 ==> indices[Corner(baseIndex, p, k)] == 3 * p + k
    ensures GetVertIndices(indices, baseVertex, baseIndex, p) == GetVertIndices([], baseVertex, NoIndexBuffer, p)
  {
    var a := GetVertIndices(indices, baseVertex, baseIndex, p);
    var b := GetVertIndices([], baseVertex, NoIndexBuffer, p);
    forall k | 0 <= k < 3
      ensures a[k] == b[k]
    {
      assert Wrap(p * 3) == 3 * p;
    }
  }

  // ---------------------------------------------------------------- geometry index

  /** The shader's int addition: the sum wrapped to the signed 32-bit range. */
  function AddInt32(a: int, b: int): (r: int)
    requires -Pow31 <= a < Pow31 && -Pow31 <= b < Pow31
    ensures -Pow31 <= r < Pow31
    ensures -Pow31 <= a + b < Pow31 ==> r == a + b
  {
    AsInt32(Wrap(a + b))
  }

  /** The uniform's ivec4 array of offsets, as the shader sees the host's flat array of ints. */
  function AsVec4Array(flat: seq<int>): (r: seq<seq<int>>)
    requires |flat| % 4 == 0
    ensures |r| == |flat| / 4
    ensures forall i :: 0 <= i < |r| ==> |r[i]| == 4
  {
    seq(|flat| / 4, i requires 0 <= i < |flat| / 4 => flat[4 * i..4 * i + 4])
  }

  /** getGeometryIndex: the instance's offset, read from component instanceID % 4 of vector
      instanceID / 4, plus the local index. */
  function GetGeometryIndex(offsets: seq<seq<int>>, instanceID: int, localGeometryIndex: int): (r: int)
    requires 0 <= instanceID && instanceID / 4 < |offsets| && |offsets[instanceID / 4]| == 4
    requires -Pow31 <= offsets[instanceID / 4][instanceID % 4] < Pow31
    requires -Pow31 <= localGeometryIndex < Pow31
    ensures -Pow31 <= r < Pow31
    ensures -Pow31 <= offsets[instanceID / 4][instanceID % 4] + localGeometryIndex < Pow31 ==>
              r == offsets[instanceID / 4][instanceID % 4] + localGeometryIndex
  {
    AddInt32(offsets[instanceID / 4][instanceID % 4], localGeometryIndex)
  }

  /** The vector-and-component read picks entry instanceID of the host's flat array, so the
      global index is that instance's offset plus the local index when the sum does not wrap. */
  lemma GeometryIndexOfFlat(flat: seq<int>, instanceID: nat, localGeometryIndex: int)
    requires |flat| % 4 == 0 && instanceID < |flat|
    requires -Pow31 <= flat[instanceID] < Pow31 && -Pow31 <= localGeometryIndex < Pow31
    requires -Pow31 <= flat[instanceID] + localGeometryIndex < Pow31
    ensures instanceID / 4 < |AsVec4Array(flat)|
    ensures AsVec4Array(flat)[instanceID / 4][instanceID % 4] == flat[instanceID]
    ensures GetGeometryIndex(AsVec4Array(flat), instanceID, localGeometryIndex) == flat[instanceID] + localGeometryIndex
  {
    var q, m := instanceID / 4, instanceID % 4;
    assert instanceID == 4 * q + m;
    assert flat[4 * q..4 * q + 4][m] == flat[instanceID];
  }
}

=== FILE: wrappers.dfy ===
/** Failure-compatible Option and Result datatypes shared by every module of the model.
    An Option stands for a lookup that may miss (a Python KeyError, a C++ nullptr);
    a Result carries the error a routine reports (a raised exception, a failed assertion). */
module Wrappers {

  datatype Option<+T> = None | Some(value: T) {

    predicate IsFailure() {
      None?
    }

    function PropagateFailure<U>(): Option<U>
      requires None?
    {
      None
    }

    function Extract(): T
      requires Some?
    {
      value
    }

    function GetOr(default: T): T {
      match this
      case Some(v) => v
      case None => default
    }
  }

  datatype Result<+T, +E> = Ok(value: T) | Err(error: E) {

    predicate IsFailure() {
      Err?
    }

    function PropagateFailure<U>(): Result<U, E>
      requires Err?
    {
      Err(error)
    }

    function Extract(): T
      requires Ok?
    {
      value
    }
  }
}
